=== FILE: README.md ===
# mp3tomidi, symbolic core

mp3tomidi turns a piano recording into MIDI. Once the audio has been
transcribed, the rest of the pipeline works on note lists and MIDI messages.
It splits the notes into a right-hand and a left-hand track, cleans the note
list, detects and generates chords, and mines repeated motifs. It also merges
clustered notes, places sustain-pedal events, aligns onset streams with
dynamic time warping, and scores a transcription against its audio. This
project models that symbolic part in Dafny and proves properties of it.

Messages are an abstract datatype with integer delta times (`Midi.Msg`). Notes
are records of pitch, velocity, start, end and channel (`Midi.Note`). The
pairing of `note_on` and `note_off` messages appears in almost every source
file. It is modelled once (`Midi.PairPrefix`) and proved equal to an
independent description (`Midi.PairRef`). The same goes for writing notes back
as sorted, delta-timed events (`NoteEvents.EncodeNotes`) and for reading them
back (`NoteEvents.Decode`). Python's stable sort, `sorted(set(...))`,
`collections.Counter`, `round`, `int()` truncation and `//` are written out in
`Sorting`, `Base` and `Motifs`. Quantities the source computes in floating
point are modelled as `real`. Values the source derives from audio or from
wall-clock conversion are parameters: onset lists, intervals in seconds,
average polyphony, and thresholds already in ticks.

Modules, their files and what they follow:

| module | Dafny file | models |
|---|---|---|
| `Base`, `Sorting` | base.dfy, sorting.dfy | Python built-ins as the source uses them |
| `Midi` | midi.dfy | messages, notes and note pairing, shared by every extractor |
| `NoteEvents` | note_events.dfy | notes to sorted events to delta times, and back |
| `HandSeparator` | hand_separator.dfy | hand_separator.py |
| `MidiCorrector` | midi_corrector.dfy | midi_corrector.py |
| `ChordDetector` | chord_detector.dfy | chord_detector.py |
| `ChordGenerator` | chord_generator.dfy | chord_generator.py |
| `Motifs` | motifs.dfy | intervals, windows, Counter and note names, shared by both motif extractors |
| `PhraseDetector` | phrase_detector.dfy | motif_extractor_v2.py |
| `MotifExtractor` | motif_extractor.dfy | motif_extractor.py |
| `Transcriber` | transcriber.dfy | advanced_transcriber.py |
| `Pedal` | pedal.dfy | pedal_detector.py |
| `Aligner` | aligner.dfy | audio_midi_aligner.py |
| `Evaluation` | evaluation.dfy | transcription_evaluator.py and quality_evaluator.py |
| `Transcribe` | transcribe.dfy | `get_midi_info` in transcribe.py |

The hand decision (hand_separator.py:116-173) compares a note only with the
last recent note of each hand, and the model does the same.

## Model

| member | source | states |
|---|---|---|
| Midi.PairPrefixIsRef | hand_separator.py:61-82 | The pairing loop's clock is the running sum of delta times, and its output equals the reference pairing. A pitch is pending exactly when its most recent touching message is a note_on with velocity > 0, and the pending start is that message's time, velocity and channel. So a retrigger overwrites the pending start, and a note_off with nothing open yields nothing. |
| Midi.PairRefWellFormed | hand_separator.py:65-81 | On a read track (no negative deltas) every paired note has 0 <= start <= end. Its pitch is the closing message's note number, and its velocity is the opening message's. |
| Midi.PairTracksWellFormed | hand_separator.py:61-63 | Every track is paired on its own clock with a fresh pending map, and every note of the concatenation is well formed. |
| Midi.ExtractSorted | hand_separator.py:84-85 | The sorted notes are a permutation of the paired notes, in nondecreasing start order, and notes starting at the same tick keep their pairing order, as Python's stable sort keeps them. |
| Midi.AbsTimeMonotone | hand_separator.py:65-66 | With non-negative deltas the absolute time never decreases and is never negative. |
| NoteEvents.EventsOf | hand_separator.py:221-237 | Each note yields a note_on at its start with its velocity, then a note_off at its end with velocity 0, both on the note's channel. |
| NoteEvents.SortedEvents | hand_separator.py:239-240 | The events are a permutation of the notes' events, ordered by (time, is note_off). |
| NoteEvents.EncodeDecode | hand_separator.py:242-260 | Reading the encoded track back gives the sorted events exactly, each with its absolute time. The delta times re-sum to the times they came from. |
| NoteEvents.EncodeOrder | hand_separator.py:239-260 | The encoded track has no negative delta. A note_off never comes before a note_on at the same absolute time. |
| NoteEvents.DecodeToMessages | hand_separator.py:243-260 | Decoding inverts the delta-time loop on any encodable event list: every message is a note_on or note_off, and the events come back unchanged. |
| HandSeparator.ExtractNotes | hand_separator.py:56-86 | The notes are the paired notes of every track (channel from the closing message), permuted into nondecreasing start order. |
| HandSeparator.ExtractedEncodable | hand_separator.py:65-85 | Every extracted note of a read file can be written back as MIDI messages: 7-bit pitch and velocity, 4-bit channel, 0 <= start <= end. |
| HandSeparator.EstimateSplit | hand_separator.py:94-114 | No notes give the configured split note. Otherwise the split lies in [48, 72]. |
| HandSeparator.SplitIsMedian | hand_separator.py:100-112 | At least half of the pitches lie at or below the median, and at least half at or above it. When the median lies in [48, 73) the split is the median truncated. |
| HandSeparator.MedianLowerHalf | hand_separator.py:101 | At least half of the values are at or below `np.median`. |
| HandSeparator.MedianUpperHalf | hand_separator.py:101 | At least half of the values are at or above `np.median`. |
| HandSeparator.SplitOrderFree | hand_separator.py:94-105 | The split depends only on the multiset of pitches, not on note order. |
| HandSeparator.MedianOrderFree | hand_separator.py:101 | The median of two permutations of each other is the same. |
| HandSeparator.Decide | hand_separator.py:137-163 | Below split − hysteresis a note goes left, and above split + hysteresis it goes right, whatever the recent notes are. |
| HandSeparator.AssignHands | hand_separator.py:116-173 | One hand per input note. |
| HandSeparator.AssignStable | hand_separator.py:128-171 | Hands already chosen are never revised: the labels after k notes extend the labels after i <= k notes. |
| HandSeparator.AssignMatchesReference | hand_separator.py:128-171 | Note i gets the hand the decision gives from two notes: for each hand, the latest earlier note of that hand that has survived every 500-tick pruning since. So the result is fixed by this history and not by how the loop keeps it. |
| HandSeparator.AssignLists | hand_separator.py:132-171 | After k notes the loop's recent list of each hand is exactly that hand's surviving earlier notes, oldest first. |
| HandSeparator.PrunePick | hand_separator.py:133-134 | Pruning at note k removes exactly the notes that do not survive note k. |
| HandSeparator.SortedSurvives | hand_separator.py:133-134 | On notes sorted by start, an earlier note survives to note i iff it started less than 500 ticks before note i. |
| HandSeparator.SelectPartition | hand_separator.py:199-200 | Every note lands in exactly one of the two hands: the two selections' multisets add up to the input's. |
| HandSeparator.FirstTiming | hand_separator.py:192-196 | The index found is the first tempo, time-signature or key-signature message of the track, or there is none. |
| HandSeparator.CopiedMeta | hand_separator.py:190-196 | Every copied meta message is a timing meta message moved to time 0. |
| HandSeparator.CopiedMetaCount | hand_separator.py:191-196 | Exactly one message is copied for each original track that has a timing meta message. |
| HandSeparator.HandTrack | hand_separator.py:183-208 | A hand track holds its name, the copied meta messages, two messages per note and end_of_track. |
| HandSeparator.HandSection | hand_separator.py:216-260 | The note messages of a hand track are note_on and note_off only, and read back as exactly the events of that hand's notes. |
| HandSeparator.EmptySeparation | hand_separator.py:262-278 | Two tracks, each holding only its name and end_of_track, with the input's ticks per beat. |
| HandSeparator.Separate | hand_separator.py:28-54 | The output has the input's ticks per beat and two tracks, "Right Hand" first and "Left Hand" second. No notes give the empty separation. |
| HandSeparator.SeparateKeepsNotes | hand_separator.py:39-214 | Nothing is lost or duplicated. The extracted notes split into the right and left selections, and track 0 and track 1 carry exactly the encodings of those selections. |
| Sorting.Sort | hand_separator.py:85 | A permutation of the input, sorted under the key order. Stability is `Sorting.SortStable`. |
| Sorting.InsertKeyRun | hand_separator.py:85 | Inserting into a sorted list puts the new element after every element with its key, leaving their order alone. |
| Sorting.InsertFrontKeyRun | hand_separator.py:85 | An element inserted in front of a sorted list whose head sorts above it has no equal-keyed element after it. |
| Sorting.SortStable | hand_separator.py:85 | Python's sort is stable: for every key, the elements with that key come out in their input order. |
| Sorting.SortOfSorted | hand_separator.py:85 | Stability: an already sorted list is left exactly as it is. |
| Sorting.SortPermutation | hand_separator.py:85 | Under a key order that identifies no two distinct values, the result depends only on the input's multiset. |
| Sorting.SortedUnique | hand_separator.py:85 | Two sorted arrangements of one multiset are equal under such an order. |
| Sorting.SortedSet | chord_generator.py:209 | `sorted(set(s))`: strictly increasing, with exactly the members of s. |
| Sorting.SortedSetDistinct | chord_generator.py:209 | Without duplicates `sorted(set(s))` drops nothing. |
| Base.RoundRatio | motif_extractor.py:106 | Python's `round(d / m)` on the exact rational: within half of d/m, and even on a tie. |
| Base.FloorDiv | chord_detector.py:152 | Python's `//`: the quotient rounded toward minus infinity, for either sign of divisor. |
| Base.TruncDiv | midi_corrector.py:321 | `int(a / b)`: the true quotient truncated toward zero, for either sign of dividend and divisor. |
| Base.MostCommon | chord_detector.py:291 | `Counter(s).most_common(1)[0][0]`: an element of greatest count, the first one seen among those. |
| Transcribe.GetMidiInfo | transcribe.py:121-137 | The note count is the number of note_on messages with velocity > 0 over all tracks. The range is (0, 0) when there are none; otherwise both ends are sounded pitches and bound all of them. The tick rate and track count are copied through. |
| NoteEvents.ToMessagesNonNeg | midi_corrector.py:470-491 | Delta times computed from events sorted by (time, is note_off) are never negative. The loop is the same as in hand_separator.py. |
| MidiCorrector.TempoFrom | midi_corrector.py:157-159 | Some exactly when the track has a set_tempo message at or after the start index, and then it is the first one. |
| MidiCorrector.ExtractTempo | midi_corrector.py:156-160 | A file with no set_tempo message gives 500000. |
| MidiCorrector.ExtractTempoIsFirst | midi_corrector.py:156-160 | The tempo is that of the first set_tempo of all tracks laid end to end, else 500000. |
| MidiCorrector.ExtractTracked | midi_corrector.py:162-191 | One record per paired note, in order, with the note_on's channel and the index of its track. Track indices are in range and nondecreasing. |
| MidiCorrector.FilterSorted | midi_corrector.py:216-239 | Each counter equals the number of input notes with that verdict (quiet, then out of range, then too short, then extended). Kept plus removed equals the input length. Every kept note has velocity >= the minimum, pitch in [min_note, max_note] and duration >= the minimum. |
| MidiCorrector.FilterAccounting | midi_corrector.py:213-239 | After the sort, the counts are those of the input notes whatever their order, and every note is kept or removed for exactly one reason. |
| MidiCorrector.FilterSortedOrder | midi_corrector.py:228-239 | The kept notes keep their start times, so on sorted input the output is sorted and no kept note starts after the last input note. |
| MidiCorrector.AdjustedShape | midi_corrector.py:232-239 | A kept note keeps its pitch, velocity, start, channel and track. A short one ends exactly at start + minimum duration; any other keeps its duration. |
| MidiCorrector.KeptNotesSnoc | midi_corrector.py:216-239 | One more input note adds its adjusted copy at the end when it is kept, and nothing otherwise. |
| MidiCorrector.FilterKeepsNotes | midi_corrector.py:216-239 | The filter's output is exactly the kept input notes, in input order, each short one lengthened to the minimum duration. |
| MidiCorrector.FilterOrder | midi_corrector.py:214 | The filter's output is in nondecreasing start order. |
| MidiCorrector.Absorb | midi_corrector.py:305-326 | The merged note keeps the pitch, start, channel and track of the first note of the run. |
| MidiCorrector.MergeConsecutive | midi_corrector.py:287-331 | Merging never lengthens the list, and empty input gives empty output. |
| MidiCorrector.RunEnd | midi_corrector.py:306-326 | The run from j is the longest stretch of same-pitch neighbours, each starting 0 to thr ticks after the previous one ends. |
| MidiCorrector.AbsorbIsRun | midi_corrector.py:306-326 | The inner loop stops exactly at the end of the run, and the merged note ends where the run's last note ends. |
| MidiCorrector.MergeFromCount | midi_corrector.py:301-329 | The output has one note per run: its length is the input length minus the number of joins. |
| MidiCorrector.MergeFromHead | midi_corrector.py:301-329 | Each output note starts as the first note of its run and ends as its last, and the rest of the output is the merge of what follows the run. |
| MidiCorrector.MergeCount | midi_corrector.py:296-331 | After sorting by (pitch, start), the output length is the input length minus the number of joins. |
| MidiCorrector.AbsorbVelocity | midi_corrector.py:321 | The pairwise `int((a + b) / 2)` velocity stays within the range of the velocities merged. |
| MidiCorrector.FlagOutOfKey | midi_corrector.py:403-412 | Index i is flagged iff it is a note's index and the pitch class is not (root + s) mod 12 for any step s of the scale ("major" gives the major scale, anything else the minor). |
| MidiCorrector.KeyMembership | midi_corrector.py:403-409 | A pitch class is in the key iff its interval above the root, mod 12, is a step of the scale. |
| MidiCorrector.FlagTransposition | midi_corrector.py:403-412 | Transposing every note and the root by the same interval flags the same indices. |
| ChordDetector.FormatChordName | chord_detector.py:207-211 | The name starts with the root's note name. |
| ChordDetector.RootOfFormatted | chord_detector.py:207-285 | A formatted name parses back to its root's name: no quality symbol contains a sharp. So formatting and the key guess's root parsing are inverse. |
| ChordDetector.QuantizeTime | chord_detector.py:152 | For a positive grid q, start rounded down to the grid: r <= start < r + q. |
| ChordDetector.QuantizeOnGrid | chord_detector.py:152 | The quantised time is a multiple of q, and quantising it again changes nothing. |
| ChordDetector.AddTo | chord_detector.py:153 | `time_slices[t].append(p)` on an insertion-ordered dictionary: an existing slice grows at its place, and a new time is added at the end. |
| ChordDetector.Group | chord_detector.py:150-153 | The slices have distinct times. Each holds exactly the pitches of the notes quantised to its time, in note order, and at least one. Every note's quantised time has a slice. |
| ChordDetector.QuantizeNotes | chord_detector.py:147-159 | The only error is a zero grid with at least one note (the division raises). |
| ChordDetector.Dedup | chord_detector.py:156-157 | Each slice keeps its time, and its pitches become `sorted(set(...))`. |
| ChordDetector.QuantizeSpec | chord_detector.py:147-159 | Every slice is strictly increasing and non-empty. Its members are exactly the pitches quantised to its time. Times are distinct, and every note is in some slice. |
| ChordDetector.PitchClasses | chord_detector.py:169 | Strictly increasing pitch classes in [0, 12): exactly the classes of the notes. |
| ChordDetector.Scores | chord_detector.py:179-191 | One score per (root, template) candidate, in the loop's order: root by root, templates in declaration order. |
| ChordDetector.BestFrom | chord_detector.py:193-195 | The search keeps the first candidate of greatest score: a later one replaces it only when strictly greater. With no positive score there is no best. |
| ChordDetector.Best | chord_detector.py:175-195 | Over all 168 candidates, the best score bounds every score. The chosen candidate is the first with that score. |
| ChordDetector.ChordMatch | chord_detector.py:198 | A matched candidate is one of the 168. |
| ChordDetector.MatchThreshold | chord_detector.py:193-201 | A template name is given iff the best score reaches 0.6. The match scores at least 0.6, no candidate scores more, and every earlier candidate scores less. |
| ChordDetector.ScoreBound | chord_detector.py:185-191 | Unequal sets score below 1, and equal non-empty sets score exactly 1.5. |
| ChordDetector.JaccardAtMostOne | chord_detector.py:185-187 | The intersection is never larger than the union, and is strictly smaller for unequal sets. |
| ChordDetector.ExactMatchNamed | chord_detector.py:185-201 | When the pitch classes equal some candidate's, the chord is named. It is named by a candidate with exactly those classes, no later than the given one. |
| ChordDetector.IdentifyChord | chord_detector.py:161-205 | The notes are handed back unchanged. There is no name iff there are fewer than two pitch classes. |
| ChordDetector.DetectInSlices | chord_detector.py:99-104 | One chord per slice with at least min_notes notes and a name, with exactly those slices' times. Each chord's name is what identification gives its notes. |
| ChordDetector.DetectChords | chord_detector.py:74-109 | Fails only for a zero grid on a file with notes. |
| ChordDetector.Roots | chord_detector.py:276-285 | Only parseable root names are kept. |
| ChordDetector.AnalyzeKey | chord_detector.py:272-300 | "Unknown" iff no chord name yields a root. |
| ChordDetector.BracketHasNoRoot | chord_detector.py:204-285 | The bracketed name of an unidentified chord never yields a root. |
| ChordDetector.MinorQualities | chord_detector.py:294 | A formatted chord counts as minor iff its quality is minor, diminished, minor7, minorMaj7, diminished7 or halfDiminished7: 'm' in the name and "maj" not. |
| ChordGenerator.RaiseIntoRange | chord_generator.py:221-222 | The note is raised by octaves to at least 21, keeping its pitch class. A note already in range stays, and a raised one lands below 33. |
| ChordGenerator.LowerIntoRange | chord_generator.py:223-224 | The note is lowered by octaves to at most 108, keeping its pitch class. A note already in range stays, and a lowered one lands above 96. |
| ChordGenerator.OntoKeyboard | chord_generator.py:219-224 | The result lies in [21, 108] with the input's pitch class. A note on the keyboard is not moved. |
| ChordGenerator.Normalize | chord_generator.py:205-227 | Empty input gives empty output. The output is strictly increasing and lies in [21, 108]. |
| ChordGenerator.NormalizeClasses | chord_generator.py:209-227 | There is one output note per distinct input pitch class, carrying that class. |
| ChordGenerator.PlacedClasses | chord_generator.py:214-219 | Placing increasing classes above a C keeps each class and gives distinct notes. |
| ChordGenerator.NormalizeMiddleOctave | chord_generator.py:214-219 | For octave 4 the base is 60, so pitch class pc becomes 60 + pc, in increasing class order. |
| ChordGenerator.ParseVoicing | chord_generator.py:62-69 | Only "block", "arpeggio" and "broken" are voicings; anything else is an error. |
| ChordGenerator.Together | chord_generator.py:104-111 | The block figure has one note_on and one note_off per note; which message carries which pitch is `ChordGenerator.TogetherTiming`. |
| ChordGenerator.OneByOne | chord_generator.py:141-189 | The arpeggio and broken figures have one note_on and one note_off per note. |
| ChordGenerator.ChordPart | chord_generator.py:101-189 | A chord's messages; an error iff the voicing is arpeggio and the chord has no notes (division by zero). |
| ChordGenerator.Part | chord_generator.py:86-192 | Chord i's messages at clock `current`: an error iff arpeggio and the chord has no notes. |
| ChordGenerator.RenderParts | chord_generator.py:84-192 | One part per chord when rendering succeeds. Only the arpeggio can fail, and it cannot when every chord has notes. |
| ChordGenerator.TempoRange | chord_generator.py:51-53 | The chord track can be written exactly when bpm is at least 4, or at most −120000000, where the tempo rounds to 0. |
| ChordGenerator.GenerateChordTrack | chord_generator.py:42-72 | No chords give nothing, whatever the bpm. With chords, a bpm of 0 or a tempo outside mido's set_tempo range raises. Otherwise only an unknown voicing or an arpeggio can raise, and a known voicing whose chords all have notes always gives a track. The track starts with set_tempo at bpm2tempo(bpm), a 4/4 time_signature and the track name "Chord Progression", then holds the rendered chord parts in order, and ends with end_of_track. |
| ChordGenerator.TogetherTiming | chord_generator.py:103-111 | In a block chord message j is the note_on of note j at the chord's velocity, falling at delta, and message n + j is its note_off with velocity 0, dur ticks later, so the figure lasts delta + dur. |
| ChordGenerator.OneByOneTiming | chord_generator.py:141-189 | Note j of a one-by-one figure starts at first + j·(gap + dur) and its note_off follows dur ticks later. |
| ChordGenerator.PartTiming | chord_generator.py:87-175 | The part starts delta ticks in. A block lasts delta + max(span, tpb). An arpeggio lasts delta + span − span mod n. A broken chord lasts delta + (n−1)·(tpb//4 + tpb//2) + tpb//2. |
| ChordGenerator.ArpeggioTiming | chord_generator.py:135-150 | Each arpeggio note gets span // n ticks, so the figure plays the span less the remainder. |
| ChordGenerator.PartStep | chord_generator.py:98-153 | Chord i's part is not empty and starts chord.time − current ticks in. For the block voicing, and for the corrected clock, the clock then stands where the part ends. |
| ChordGenerator.RenderOnsets | chord_generator.py:84-114 | Every chord's first note_on lands at its own time: for the block voicing as written, and for every voicing with the corrected clock. |
| ChordGenerator.ArpeggioDrift | chord_generator.py:121-153 | As written, the second arpeggiated chord starts early by span mod n, where n is the number of notes in the first chord. |
| ChordGenerator.ArpeggioDriftExample | chord_generator.py:121-153 | Two C major triads at ticks 0 and 1000 give a second note_on at tick 999, not 1000. |
| ChordGenerator.BrokenPart | chord_generator.py:169-189 | A broken chord lasts its staccato figure, (n − 1)·(tpb//4 + tpb//2) + tpb//2 ticks after its delta, whatever its span. |
| ChordGenerator.BrokenDrift | chord_generator.py:155-192 | As written, the second broken chord starts where the first figure ends, not at its own time. |
| ChordGenerator.BrokenDriftExample | chord_generator.py:155-192 | Two C major triads at ticks 0 and 1920 with 480 ticks per beat give a second note_on at tick 960, not 1920. |
| ChordGenerator.MeasureOfTime | chord_generator.py:256-257 | For non-negative times, `int(ticks / tpb / 4) + 1` is the number of whole 4-beat bars before the chord, plus one. |
| ChordGenerator.ChartInvariant | chord_generator.py:252-267 | After k chords the current measure is the last chord's, and the open group is not empty. The closed lines followed by the open group list the chord names so far, and neighbouring lines have different measures. |
| ChordGenerator.ChartKeepsNames | chord_generator.py:241-271 | The chart lists every chord name once, in order. Each line is non-empty, and consecutive lines have different measures. |
| Motifs.Intervals | motif_extractor_v2.py:50-54 | One difference per neighbouring pair: n − 1 of them for n >= 2 pitches, none otherwise. |
| Motifs.Rebuild | motif_extractor.py:212-219 | The fallback reconstruction starts at the start pitch and has one more pitch than intervals. |
| Motifs.RebuildIntervals | motif_extractor.py:212-219 | The intervals of a rebuilt pitch sequence are the intervals it was rebuilt from. |
| Motifs.IntervalsRebuild | motif_extractor_v2.py:50-54 | A pitch sequence is rebuilt from its first pitch and its intervals, so the two are inverse. |
| Motifs.WindowsOfLength | motif_extractor_v2.py:146-147 | The windows of length L are the |s| − L + 1 slices s[i..i+L], left to right. |
| Motifs.Windows | motif_extractor_v2.py:144-147 | Every visited window has a length in [lo, hi] and shorter than the input. |
| Motifs.WindowCount | motif_extractor_v2.py:144-147 | For each length L in [lo, min(hi + 1, |s|)), exactly |s| − L + 1 windows are visited, and none of any other length. |
| Motifs.WindowsFromCount | motif_extractor.py:78-79 | From length M up to stop, the windows of length L number |s| − L + 1 when M <= L < stop, and 0 otherwise. |
| Motifs.WindowsAreSlices | motif_extractor_v2.py:146-147 | Every visited window is a contiguous run of the input. |
| Motifs.BumpFacts | motif_extractor.py:81 | `counter[k] += 1` keeps keys distinct and counts positive. It adds one to k's count and nothing else, and adds k as a key. |
| Motifs.TallyCounts | motif_extractor_v2.py:142-163 | The Counter holds each key once, counted as often as it occurs. Its keys are exactly the keys fed, and the counts add up to their number. |
| Motifs.CountOfEntry | motif_extractor.py:81-83 | In a well-formed Counter, an entry's count is the count reported for its key. |
| Motifs.MostCommonEntry | motif_extractor.py:182 | `most_common(1)[0]`: an entry of greatest count, and the first of those in insertion order. |
| Motifs.AtLeast | motif_extractor.py:176 | The filtered Counter keeps exactly the entries whose count reaches the bound. |
| Motifs.Digits | motif_extractor_v2.py:541 | A natural number's decimal text: non-empty, digits only. |
| Motifs.ParseIntText | motif_extractor_v2.py:539-541 | `str` of an integer reads back as that integer, negative ones included. |
| Motifs.NoteNameRoundTrip | motif_extractor_v2.py:536-541 | A note name determines its MIDI number: reading it back gives the number, octaves below C-1 included. |
| Motifs.NoteNameMiddleC | motif_extractor_v2.py:536-541 | 60 is "C4". |
| Motifs.NameShape | motif_extractor_v2.py:538 | Each of the twelve names stands for its own pitch class, and has a second character exactly when that is a sharp. |
| PhraseDetector.ExtractTones | motif_extractor_v2.py:92-129 | The tones are the paired notes stably sorted by start, each carrying its pitch, velocity, start and duration end − start. |
| PhraseDetector.TonesArePaired | motif_extractor_v2.py:92-129 | Every paired note of the file becomes exactly one tone. |
| PhraseDetector.IntervalSequence | motif_extractor_v2.py:50-54 | n − 1 intervals for n >= 2 notes, none otherwise. |
| PhraseDetector.IntervalSequenceRebuild | motif_extractor_v2.py:50-54 | A phrase's pitches are its first pitch followed by its intervals. |
| PhraseDetector.NormRhythm | motif_extractor_v2.py:157-159 | One normalised value per inter-onset interval. |
| PhraseDetector.ExactKeys | motif_extractor_v2.py:144-162 | One key per visited window. |
| PhraseDetector.ExactPatternCounts | motif_extractor_v2.py:142-165 | The Counter counts every window once. Each key is counted as often as windows have it, and the counts add up to the number of windows. |
| PhraseDetector.ExactKeyShape | motif_extractor_v2.py:144-163 | Every counted key belongs to a visited window: it has one interval fewer than the window has notes, and the window's first pitch. |
| PhraseDetector.WindowKeyed | motif_extractor_v2.py:144-163 | The key made from each visited window is a key of some window. |
| PhraseDetector.LevCell | motif_extractor_v2.py:185-192 | The recursive distance satisfies the table's cell rule: equal last elements cost nothing, otherwise one plus the least of the three neighbours. |
| PhraseDetector.EditDistance | motif_extractor_v2.py:167-194 | The row-by-row table computes the recursive Levenshtein distance. |
| PhraseDetector.LevBounds | motif_extractor_v2.py:167-194 | The distance is at least the difference of the lengths and at most the longer length, so dist(s, []) = |s| and dist([], t) = |t|. |
| PhraseDetector.LevZero | motif_extractor_v2.py:167-194 | The distance is zero exactly for equal sequences. |
| PhraseDetector.Gather | motif_extractor_v2.py:224-239 | The inner loop only appends, and only marks more patterns processed. Each pattern it appends was unprocessed, has the representative's interval length and is similar enough. It appends none twice, and every pattern it marks is among those appended. |
| PhraseDetector.GroupFromFacts | motif_extractor_v2.py:214-242 | Every group is good, no pattern appears in two groups or twice in one, and no group contains an already processed pattern. |
| PhraseDetector.ApproximateGroups | motif_extractor_v2.py:196-244 | Every group's total reaches min_frequency. Its first member is its representative, and the other members have the representative's interval length and similarity >= threshold. No pattern is in two groups. |
| PhraseDetector.FindFrom | motif_extractor_v2.py:399-413 | The first index at or after i where the window of |intervals| + 1 notes starts at the pattern's pitch and has its intervals, or none. |
| PhraseDetector.FindPatternNotes | motif_extractor_v2.py:393-413 | Some iff some window matches. The result is the first matching window, of |intervals| + 1 notes, starting at the start pitch, with the pattern's intervals. |
| PhraseDetector.KeyIsFound | motif_extractor_v2.py:393-413 | The key of any run of the notes is always found again, so every counted pattern locates a phrase. |
| PhraseDetector.PhrasesOf | motif_extractor_v2.py:372-387 | At most one phrase per group. Each phrase's notes are the first run of the notes that matches some group's representative, and its frequency is that group's total. |
| PhraseDetector.PhrasesOfAllFound | motif_extractor_v2.py:372-387 | When every representative is found, there is exactly one phrase per group, in group order. It holds the representative's first run, the group's total, the score of the representative at that total, and "exact" iff the group has one pattern. |
| PhraseDetector.RepsFound | motif_extractor_v2.py:369-378 | Every group representative is a counted window key, so `_find_pattern_notes` never returns None for it and no group is skipped. |
| PhraseDetector.GroupRepsAreKeys | motif_extractor_v2.py:214-242 | Every group's representative is a key of the exact-pattern Counter. |
| PhraseDetector.PhrasesKept | motif_extractor_v2.py:373-387 | Every phrase comes from a good group: frequency >= min_frequency and at least one note. |
| PhraseDetector.RankFacts | motif_extractor_v2.py:390-391 | Sorting by descending score and cutting to top_n gives a list in that order, and keeps only kept phrases. |
| PhraseDetector.TopN | motif_extractor_v2.py:389-391 | `sorted(ps, key=score, reverse=True)[:top_n]` is drawn from ps and has min(top_n, len(ps)) phrases for top_n >= 0. No phrase it leaves out scores higher than one it keeps, and phrases with equal scores keep their input order. |
| PhraseDetector.TopPrefix | motif_extractor_v2.py:389-391 | Cutting a list sorted by descending score leaves out nothing that scores higher than what it keeps. |
| PhraseDetector.TopStable | motif_extractor_v2.py:389-391 | A cut of the stable sort keeps the phrases of each score in their input order. |
| PhraseDetector.KeyRunPrefix | motif_extractor_v2.py:389-391 | The elements of one key in a prefix are a prefix of those in the whole list. |
| PhraseDetector.BestPhrases | motif_extractor_v2.py:351-391 | Fewer notes than min_phrase_length give []. Otherwise the result is drawn from the found phrases, with min(top_n, number of found phrases) of them for top_n >= 0. It is sorted by descending score, no phrase left out scores higher than one kept, equal scores keep group order, and each result has frequency >= min_frequency. |
| PhraseDetector.BestPhrasesPerGroup | motif_extractor_v2.py:369-391 | Every group yields its phrase, so for top_n >= 0 the result has min(top_n, number of groups) phrases. |
| MotifExtractor.ExtractSequence | motif_extractor.py:27-60 | The paired notes stably sorted by start, each reduced to (pitch, velocity, end − start). |
| MotifExtractor.SequenceIsStripped | motif_extractor.py:27-60 | Every paired note of the file appears exactly once, without its start. |
| MotifExtractor.Positives | motif_extractor.py:104 | The positive elements are exactly the positive entries of the input. |
| MotifExtractor.MinPositive | motif_extractor.py:104 | The minimum of the positive durations is positive, is one of them and is at most every one of them. |
| MotifExtractor.InUnits | motif_extractor.py:106 | Each duration is rounded to the nearest whole number of units: within half a unit. |
| MotifExtractor.MelodicKeys | motif_extractor.py:62-83 | One pitch-tuple key per window of the pitches, window by window. |
| MotifExtractor.RhythmicKeys | motif_extractor.py:85-116 | An error exactly when there are durations but none is positive, since `min` of nothing raises. No notes give no keys. Otherwise one key per window of the rounded durations. |
| MotifExtractor.CombinedKey | motif_extractor.py:135-146 | A window's key carries its first pitch, one interval per neighbouring pair and one rhythm value per note. |
| MotifExtractor.CombinedKeys | motif_extractor.py:118-149 | One combined key per window of the notes. |
| MotifExtractor.CombinedKeyPitches | motif_extractor.py:140-146 | The pitches rebuilt from a combined key are the window's pitches, so the key loses no pitch information. |
| MotifExtractor.SearchRun | motif_extractor.py:201-209 | The first index at or after i where a run with the start pitch and the intervals begins, or none. |
| MotifExtractor.Rebuilt | motif_extractor.py:217-221 | One note per pitch, each with velocity 80 and 100 ticks per rhythm unit. Notes past the rhythm's end take its first unit. |
| MotifExtractor.Reconstruct | motif_extractor.py:196-223 | A failure exactly when no run matches and the rhythm is empty, so that `rhythm[0]` raises. Any result has |intervals| + 1 notes from the start pitch with those intervals, and is the first matching run when there is one. |
| MotifExtractor.ReconstructFindsWindow | motif_extractor.py:131-209 | A combined key taken from a window of the notes is always found in them, so the fallback is never used for it. |
| MotifExtractor.FindMotifNotes | motif_extractor.py:225-235 | Nothing unless the requested kind is "melodic". A non-empty answer has exactly the pattern's pitches. |
| MotifExtractor.FindMotifNotesFinds | motif_extractor.py:225-235 | A melodic pattern whose pitches occur in the notes is found. |
| MotifExtractor.MostRepeatedMotif | motif_extractor.py:151-194 | Fewer notes than min_motif_length give no motif. A motif is reported only when its kind of pattern could be counted. For any kind other than "melodic" and "combined" ("rhythmic" or an unknown string, which is counted as combined) the motif comes with no notes. Only the rhythmic count or the combined reconstruction can fail. |
| MotifExtractor.MotifFromKeys | motif_extractor.py:175-194 | Once the patterns are counted, a kind other than "melodic" and "combined" reports its motif with no notes, and only the combined reconstruction can fail. |
| MotifExtractor.CombinedFromKeys | motif_extractor.py:175-190 | Counting combined patterns of a note list never fails, and the motif it reports is a run of those notes with the pattern's start pitch and intervals. |
| MotifExtractor.ReportedIsKey | motif_extractor.py:175-183 | The reported pattern is one of the keys that were counted. |
| MotifExtractor.TopIsKey | motif_extractor.py:175-183 | The most common entry among those met twice is a key of the counted sequence. |
| MotifExtractor.MelodicKeyFound | motif_extractor.py:62-83 | Every melodic key was read off the notes, so searching for it finds a non-empty run with its pitches. |
| MotifExtractor.CombinedKeyFound | motif_extractor.py:118-149 | Every combined key was read off the notes, so the reconstruction succeeds with a run of the notes that has its start pitch and intervals. |
| MotifExtractor.MelodicMotifNotes | motif_extractor.py:185-192 | A melodic motif is reported with a non-empty run of notes carrying exactly its pitches. |
| MotifExtractor.CombinedMotifNotes | motif_extractor.py:185-190 | The combined kind never fails. Its motif comes with a run of the notes that starts at the pattern's pitch and has its intervals. |
| MotifExtractor.CountOfIsEntry | motif_extractor.py:182-183 | The count `most_common` reports for a key is that key's entry. |
| MotifExtractor.MostRepeatedIsMostCommon | motif_extractor.py:175-183 | The reported motif's frequency is the number of windows with its key, which is at least two. No key has more windows. |
| MotifExtractor.NoMotifIffNoRepeat | motif_extractor.py:163-183 | Given enough notes and a pattern kind that can be counted, there is no motif exactly when no pattern occurs twice. |
| MotifExtractor.MelodicCounts | motif_extractor.py:77-81 | The pitch Counter counts every window once. The count of each key is the number of windows with it. |
| Transcriber.Scan | advanced_transcriber.py:382-401 | The inner loop stops between j and the end, having either clustered or passed over each note it visited. Every clustered note is close to the head. |
| Transcriber.ScanFacts | advanced_transcriber.py:383-401 | The visited notes are shared out between cluster and passed-over notes. The passed-over ones have the head's pitch but are not close to it. The scan stops at the end, at a pitch change, or at a start more than 50 ticks after the head's. |
| Transcriber.Clusters | advanced_transcriber.py:374-418 | The outer loop as written: no more clusters, and no more clustered notes, than inputs. Every cluster is coherent around its head. |
| Transcriber.ClustersKept | advanced_transcriber.py:374-418 | The corrected loop: the clusters share out exactly the input notes, each coherent around its head. |
| Transcriber.KeptShares | advanced_transcriber.py:377-418 | One round splits the notes into the new cluster and what is left over, with nothing lost or duplicated. |
| Transcriber.WeightedSumBounds | advanced_transcriber.py:411-413 | With positive weights the weighted sum lies between the least and the greatest value times the total weight. |
| Transcriber.TruncatedMean | advanced_transcriber.py:411-413 | `int()` of a weighted mean of values in [lo, hi] stays in [lo, hi]. |
| Transcriber.MeanNear | advanced_transcriber.py:407-413 | A weighted mean of values within 50 ticks of a centre, truncated, stays within 50 ticks of it. |
| Transcriber.MergeCluster | advanced_transcriber.py:404-416 | A lone note passes unchanged. A larger cluster fails exactly when its weights sum to zero. The result has the head's pitch and channel. |
| Transcriber.MergedNearHead | advanced_transcriber.py:391-416 | With positive weights, a merged coherent cluster starts and ends within 50 ticks of its head. |
| Transcriber.MergeAll | advanced_transcriber.py:377-418 | One merged note per cluster, in order. The merge fails iff some cluster does. |
| Transcriber.MergeSingles | advanced_transcriber.py:404-405 | Clusters of one note come out as those notes, unchanged. |
| Transcriber.ClusterAndMerge | advanced_transcriber.py:350-420 | No notes give no notes. Otherwise the output is non-empty and has no more notes than the input. |
| Transcriber.ClusterAndMergeKept | advanced_transcriber.py:350-420 | No notes give no notes. Otherwise one note per corrected cluster, and never more than the input. |
| Transcriber.DroppedNoteExample | advanced_transcriber.py:394-418 | Two notes of one pitch, 10 ticks apart with ends 400 ticks apart. As written, only the first note comes out and the second is lost. The corrected loop outputs both. |
| Transcriber.ExampleClusters | advanced_transcriber.py:374-418 | On that input the loop as written yields only the first note's cluster. The corrected loop yields both notes. |
| Transcriber.SmoothDuration | advanced_transcriber.py:536-538 | A smoothed duration is at least 220 and at least the original. Durations of 220 or more are kept. |
| Transcriber.SmoothIdempotent | advanced_transcriber.py:536-538 | Smoothing twice is smoothing once, and short notes become exactly 220 ticks. |
| Transcriber.EventsOfNotes | advanced_transcriber.py:311-326 | Two events per note. |
| Transcriber.Deltas | advanced_transcriber.py:331-341 | One delta per event, never negative. |
| Transcriber.EncodeEvents | advanced_transcriber.py:306-341 | Two events per merged note, every delta non-negative. |
| Transcriber.DeltasRestore | advanced_transcriber.py:331-341 | For time-ordered events at or after the current time, adding the deltas back gives the events exactly. The `max(0, …)` guard never fires for them. |
| Transcriber.EventsOfNotesPermutation | advanced_transcriber.py:306-326 | Reordering the notes only reorders their events, so sorting the notes first does not change which events are written. |
| Transcriber.EncodeRestore | advanced_transcriber.py:306-341 | For notes at non-negative times, the written track read back gives exactly the notes' on and off events, in time order. |
| Pedal.EdgeLoop | pedal_detector.py:225-236 | After k samples the loop's flag is the k-th sample's value. Its events alternate down/up, and there is an odd number of them exactly while the pedal is down. |
| Pedal.EdgeLoopIsEdges | pedal_detector.py:224-236 | The loop emits exactly one event at each sample that differs from the one before it (the pedal being up before the first), saying which way it went. |
| Pedal.DetectEdges | pedal_detector.py:198-242 | Events alternate down/up, there is an even number of them, and the last is an up event. No samples give none. |
| Pedal.LastEnd | pedal_detector.py:209 | The latest end among the notes: one of them and at least every one. |
| Pedal.DetectPedal | pedal_detector.py:41-79 | No notes give no events. Otherwise whole down-up pairs, each lasting at least min_pedal_duration. |
| Pedal.FilterShort | pedal_detector.py:298-325 | Fewer than two events pass unchanged, and the filter never adds events. |
| Pedal.ShortFilterIsSubseq | pedal_detector.py:298-325 | The filter only deletes events: its output is a subsequence of its input. |
| Pedal.FilterIsSubseq | pedal_detector.py:304-325 | From any position on, the loop's output is a subsequence of the remaining events. |
| Pedal.FilterAlternating | pedal_detector.py:304-325 | On alternating down/up pairs the filter keeps exactly the pairs at least min_pedal_duration long, each whole, so its output alternates again. |
| Pedal.PedalMsg | pedal_detector.py:131-157 | A pedal message is control change 64 on channel 0, value 127 for down and 0 for up. |
| Pedal.Due | pedal_detector.py:123-141 | The pending pedals at or before the message's tick, in order. Each delta is measured from the previous message's time, and the first pedal left is later than the message. |
| Pedal.Remaining | pedal_detector.py:147-160 | One message per remaining pedal, in order, each setting the pedal down (127) or up (0). |
| Pedal.MergeCopies | pedal_detector.py:115-160 | The merge as written copies every original message once, in order. Every pedal event comes out once, in order, as a CC64 message with its value. |
| Pedal.AddPedal | pedal_detector.py:81-164 | No events leave the file unchanged. Otherwise the resolution and number of tracks are kept, and every track gains exactly one message per pedal event. |
| Pedal.MergeTrack | pedal_detector.py:99-162 | A merged track has the original messages plus one per pedal event. |
| Pedal.TrackTimesAreAbsolute | pedal_detector.py:116 | The running clock gives each message's absolute time. |
| Pedal.DueFrom | pedal_detector.py:123-141 | The corrected due pedals: the pedals at or before the message's tick, all inserted, with the clock left at the last one written. |
| Pedal.DueTimes | pedal_detector.py:123-141 | With sorted pedal ticks not before the clock, the corrected due pedals land exactly on their ticks. |
| Pedal.RemainingTimes | pedal_detector.py:147-160 | The pedals left after the last message land exactly on their ticks. |
| Pedal.KeepingTimes | pedal_detector.py:115-160 | In the corrected merge every original message keeps its absolute time and every pedal lands on its tick. |
| Pedal.KeepingCounts | pedal_detector.py:115-160 | The corrected merge copies every message in order, changing only its delta time, and inserts one message per pedal. |
| Pedal.MergeTrackKeepingTimes | pedal_detector.py:99-162 | The corrected track keeps every original message, in order, with only its delta changed, and inserts one message per pedal. |
| Pedal.CorrectedMergeKeepsTimes | pedal_detector.py:99-162 | With sorted, non-negative pedal ticks, the corrected track's original messages sit at their absolute times in the input, and its pedals at their ticks. |
| Pedal.AddPedalKeepingTimes | pedal_detector.py:81-164 | The corrected `add_pedal_to_midi`: no events leave the file unchanged. Otherwise every track gains one message per pedal event. |
| Pedal.PedalShiftExample | pedal_detector.py:123-144 | As written, a note at tick 100 after a pedal press at tick 50 lands at tick 150. The corrected merge keeps it at 100. |
| Aligner.ExtMin | audio_midi_aligner.py:248 | `min` over possibly infinite costs: one of the two, and no greater than either. |
| Aligner.Cost | audio_midi_aligner.py:235-238 | The local cost `abs(x[i] - y[j])` is never negative. |
| Aligner.AccFinite | audio_midi_aligner.py:241-248 | Every table entry away from the infinite border is finite and non-negative. |
| Aligner.AccTable | audio_midi_aligner.py:241-248 | The row-by-row fill yields an (n + 1) × (m + 1) table whose every entry is the recursive accumulated cost. |
| Aligner.AccEntry | audio_midi_aligner.py:248 | An inner entry is its local cost plus the least of its three neighbours. |
| Aligner.Next | audio_midi_aligner.py:254-269 | The backtrack moves up, left or diagonally and never leaves the table's inner part. On the first row it moves left, and on the first column up. Elsewhere it moves to a least neighbour, breaking ties toward up and then left, as `np.argmin` does. |
| Aligner.BackShape | audio_midi_aligner.py:250-271 | The backtracked path runs from (i − 1, j − 1) to (0, 0) by single warping steps, visiting between max(i, j) and i + j − 1 cells. |
| Aligner.NextIsCheapest | audio_midi_aligner.py:254-269 | The step the backtrack takes goes to the neighbour the entry's minimum came from: the entry is its cost plus that neighbour's. |
| Aligner.BackCost | audio_midi_aligner.py:241-271 | The backtracked path stays inside the table, and the sum of the local costs along it is the accumulated cost where it starts. |
| Aligner.AccIsOptimal | audio_midi_aligner.py:241-248 | No warping path from a cell back to (0, 0) costs less than the accumulated cost at that cell. |
| Aligner.BackIsOptimal | audio_midi_aligner.py:221-273 | The backtracked path is a warping path between the corners and is optimal: no warping path between them is cheaper. |
| Aligner.PathCostNonNeg | audio_midi_aligner.py:235-238 | A path's cost is never negative. |
| Aligner.Dtw | audio_midi_aligner.py:221-273 | `_dtw` returns the accumulated table and a path from (0, 0) to (n − 1, m − 1) by warping steps, of length between max(n, m) and n + m − 1. |
| Aligner.Reverse | audio_midi_aligner.py:272 | The path reversed: the same cells in the opposite order. |
| Aligner.Align | audio_midi_aligner.py:65-91 | Fewer than ten onsets on either side return the file untouched. Otherwise the realigned file is returned. |
| Evaluation.NearestIn | transcription_evaluator.py:325-327 | `np.argmin` of the distances: an index of least distance to t, and the first such index. |
| Evaluation.MatchPrefix | transcription_evaluator.py:320-331 | The true positives number the matched audio onsets, which are valid indices, and never exceed the MIDI onsets seen. |
| Evaluation.HitsMembers | transcription_evaluator.py:323-331 | An audio onset is hit iff it is the nearest one, within tolerance, to some MIDI onset. |
| Evaluation.MatchedAreHits | transcription_evaluator.py:320-331 | The matched set is exactly the set of hit audio onsets. A MIDI onset whose nearest audio onset is already taken is a miss and does not look further. |
| Evaluation.MatchedFitAudio | quality_evaluator.py:237-250 | No audio onset is matched twice, so there are never more true positives than audio onsets. |
| Evaluation.F1 | transcription_evaluator.py:336 | The harmonic mean: 2pq/(p + q), and 0 when p + q is 0. |
| Evaluation.F1Between | quality_evaluator.py:255-256 | F1 lies between precision and recall. |
| Evaluation.OnsetMetrics | transcription_evaluator.py:298-342 | Zeros when either side has no onsets. Precision and recall lie in [0, 1], and F1 lies between them. |
| Evaluation.OnsetMetricsCountHits | quality_evaluator.py:216-262 | Precision is the number of distinct hit audio onsets over the MIDI onsets. Recall is that number over the audio onsets. |
| Evaluation.MergePrefix | transcription_evaluator.py:380-387 | The merged intervals start where the first input starts and are separated by gaps. There are at least one and no more than the inputs. |
| Evaluation.MergeCovers | transcription_evaluator.py:379-387 | Merging start-sorted intervals covers exactly the points the inputs cover. |
| Evaluation.MergeProper | transcription_evaluator.py:379-387 | Merging intervals whose ends are not before their starts yields such intervals again. |
| Evaluation.MergeStepCovers | transcription_evaluator.py:384-387 | Folding an interval into the last merged one, or appending it, adds exactly its points. |
| Evaluation.Coverage | transcription_evaluator.py:376-392 | 0 with no intervals or no audio, never above 1, and not negative for proper intervals. |
| Evaluation.CoveredTime | transcription_evaluator.py:380-390 | The total length of the merged intervals is not negative when the intervals are proper. |
| Evaluation.WeightedScore | transcription_evaluator.py:449-457 | The weighted mean of the metrics present, 0 when none is: with positive weights, score × total weight is the weighted sum. |
| Evaluation.ScoreSumBounds | quality_evaluator.py:497-503 | With every metric present in [0, 1], the weighted sum lies between 0 and the total weight. |
| Evaluation.WeightedScoreInUnit | quality_evaluator.py:472-505 | When every metric present lies in [0, 1], so does the overall score. |
| Evaluation.WeightedScoreOfOne | transcription_evaluator.py:432-457 | With a single metric present, the overall score is that metric, whatever its weight. |
| Evaluation.TranscriptionScore | transcription_evaluator.py:432-457 | With the weights 0.3, 0.3, 0.2 and 0.2: 0 with no metric, in [0, 1] when the metrics are, and the spectral similarity when it is the only metric. |
| Evaluation.QualityScore | quality_evaluator.py:472-505 | With the weights 0.30, 0.25, 0.20, 0.15 and 0.10: 0 with no metric, in [0, 1] when the metrics are, and the onset F1 when it is the only metric. |
| Evaluation.PolyphonyScore | quality_evaluator.py:394-434 | 0 without notes. Otherwise one of 0.9, 0.7 and 0.5; which one is `Evaluation.PolyphonyBands`. |
| Evaluation.PolyphonyBands | quality_evaluator.py:419-434 | With notes and n samples, the score is 0.9 exactly when the total sounding count is in [2n, 6n], 0.7 exactly when it is in [n, 8n] but not [2n, 6n], and 0.5 exactly when it is below n or above 8n. |
| Evaluation.SparsePolyphonyScoresMid | quality_evaluator.py:419-434 | When 1 to 8 notes sound at every sample, the score is at least 0.7. |
| Evaluation.SteadyPolyphonyScoresHigh | quality_evaluator.py:419-430 | When 2 to 6 notes sound at every sample, the score is 0.9. |
| Evaluation.SilentSamplesScoreLow | quality_evaluator.py:419-434 | When no note sounds at any sample, the score is 0.5. |
| Evaluation.MaxOfReal | quality_evaluator.py:457 | The greatest element: one of them and at least every one. |
| Evaluation.RhythmicPrecision | quality_evaluator.py:436-470 | 0.5 with fewer than two onsets on a side, and 0.5 when no interval is positive. Never negative, and at most 1 for a non-negative distance. |
| Evaluation.PitchAccuracy | quality_evaluator.py:264-288 | 0 exactly when there are no notes, and otherwise 0.85. |

## Left out

- Audio and machine-learning code is outside this model: source separation, basic_pitch, the CQT and HPSS transcriber, onset refinement, velocity enhancement and the librosa feature extraction. Onset lists, sample times, pedal-down flags and the Wasserstein distance are taken as inputs instead.
- Reading and writing MIDI files is not modelled. Messages are an abstract datatype, and mido's range checks show up only as the 7-bit subset types.
- `tick2second` and `second2tick` are not modelled. Pedal times reach `Pedal.AddPedal` already in ticks, and the tempo tracking in `add_pedal_to_midi` (pedal_detector.py:119-120) therefore has no effect in the model.
- The midi_corrector thresholds in milliseconds (midi_corrector.py:206-211, 291-293) are taken as tick parameters. `_quantize_notes` (float `round`), `_detect_key` and `_correlation` (Pearson correlation with square roots), `correct`, `_create_corrected_midi` and the statistics reporting are not modelled.
- chord_detector's `get_progression_summary` and the text formatting of `generate_text_chord_chart` beyond its grouping into measures are not modelled.
- `score_phrase` (motif_extractor_v2.py:246-349) uses `log1p` and is a function parameter of `PhraseDetector.BestPhrases`. `create_phrase_midi`, `extract` and `create_motif_midi` write files and are not modelled.
- Rhythm normalisation (motif_extractor_v2.py:157-159, motif_extractor.py:104-106 and 143-144) is modelled as `int(round(d / m))` on exact rationals (`Base.RoundRatio`, Python's round-half-to-even). The floating-point error of d / m is not modelled.
- `_refine_with_audio` (pedal_detector.py:244-296), `_compute_dtw_alignment` and `_apply_alignment` (audio_midi_aligner.py) work on audio features and `np.interp`. They are parameters or left out; `Aligner.Align` takes the realigned file as an input.
- `_compute_spectral_similarity`, `_compute_chromagram_similarity` and `_compute_pitch_distribution` (cosine similarity of chromagrams) are not modelled. Their values enter the overall scores as optional inputs.
- `np.linspace` is not modelled. The sample times of `_detect_from_polyphony` and `_compute_polyphony_score` are inputs.
- Floating-point arithmetic is modelled as exact `real` arithmetic: F1, coverage, weighted means and the DTW costs. Python `int()` truncation of a real is written out (`Base.TruncReal`).
- The row-by-row layout of the DTW table is modelled as a sequence of rows; NumPy's two-dimensional array and the `np.inf` border become the `Aligner.Ext` datatype.
- Aligner.Dtw: requires both interval lists to be non-empty. `align` only calls it after its ten-onset guard, so it always has at least nine intervals; for an empty list the Python code would index the table at −1.
- Evaluation.Coverage: non-negativity is stated only for intervals whose ends are not before their starts, which every paired note satisfies.
- Aligner.PathCostNonNeg: cells outside the table count 0 in `Aligner.PathCost`; every path the backtrack produces stays inside (`Aligner.BackCost`).
- Evaluation.WeightedScoreInUnit: the [0, 1] bound is stated for metrics in [0, 1], the range every evaluator metric has.
- `end_of_track` messages written by `_merge_midi_files` are not part of `Transcriber.EncodeEvents`, which covers the note events only.
- Pedal.DetectPedal: the audio refinement step is skipped, as when no audio path is given.
- ChordGenerator.GenerateChordTrack: the bpm is a whole number. The source accepts a float `tempo_bpm`, which `bpm2tempo` divides into 60 * 1e6. mido itself is not part of this model: its check that a set_tempo value lies within 0..0xFFFFFF is taken from mido's meta-message definition, and `ChordGenerator.TempoOk` models it.
- MidiCorrector.FilterSorted: the thresholds and the minimum duration are whole ticks. The source computes `min_duration_ticks` as a float (midi_corrector.py:209), so an extended note may end at a fractional tick there; the model's extended note ends at a whole tick.

## Findings

| source | as written | input that shows it | evidently intended | confidence | as-written member | corrected member |
|---|---|---|---|---|---|---|
| advanced_transcriber.py:394-418 | A candidate that has the head's pitch but is not close to it is passed over by `j += 1`. The outer loop then resumes at `j`, so that note is never clustered or emitted. | Notes (60, start 0, end 100) and (60, start 10, end 500), weight 1: only the first comes out. | Every input note ends up in exactly one cluster, so a passed-over note starts a later cluster. | not executed | Transcriber.DroppedNoteExample | Transcriber.ClusterAndMergeKept |
| pedal_detector.py:123-144 | The inserted CC64 message carries a delta, but the original message after it is copied with its own unchanged delta. Every later message is pushed back by the inserted pedal's offset. | A note_on at tick 100 and a pedal press at tick 50: the note_on lands at tick 150. | Original messages keep their absolute times and each pedal lands on its tick. | not executed | Pedal.PedalShiftExample | Pedal.CorrectedMergeKeepsTimes |
| chord_generator.py:135-153 | Each arpeggiated chord writes n notes of `total // n` ticks, but the clock advances by `total`. The next chord starts early by `total mod n` ticks. | Two C major triads at ticks 0 and 1000: the second chord's first note_on lands on tick 999. | Every chord's first note_on lands on the chord's own time. | not executed | ChordGenerator.ArpeggioDriftExample | ChordGenerator.RenderOnsets |
| chord_generator.py:155-192 | Each broken chord plays n staccato notes lasting (n − 1)·(tpb//4 + tpb//2) + tpb//2 ticks in all, but the clock advances by the chord's whole span. The next chord starts when the figure ends. | C major triads at ticks 0 and 1920 with 480 ticks per beat: the second chord's first note_on lands on tick 960. | Every chord's first note_on lands on the chord's own time. | not executed | ChordGenerator.BrokenDriftExample | ChordGenerator.RenderOnsets |

=== FILE: aligner.dfy ===
/** Dynamic time warping over inter-onset intervals (audio_midi_aligner.py):
    the accumulated cost table, the backtracked warping path, and the guard
    that leaves a file alone when there are too few onsets to align. */
module Aligner {
  import opened Base
  import opened Midi

  /** A cost that may be infinite, as in the table's border. */
  datatype Ext = Inf | Fin(v: real)
  {
    predicate Le(other: Ext)
    {
      other.Inf? || (Fin? && v <= other.v)
    }
  }

  function ExtMin(a: Ext, b: Ext): (r: Ext)
    ensures r == a || r == b
    ensures r.Le(a) && r.Le(b)
  {
    if a.Le(b) then a else b
  }

  function ExtAdd(c: real, a: Ext): Ext
  {
    if a.Inf? then Inf else Fin(c + a.v)
  }

  /** The local cost of pairing interval i of x with interval j of y. */
  function Cost(x: seq<real>, y: seq<real>, i: nat, j: nat): (r: real)
    requires i < |x| && j < |y|
    ensures r >= 0.0
  {
    AbsReal(x[i] - y[j])
  }

  /** Entry (i, j) of the accumulated cost table: 0 at the corner, infinite
      on the rest of row 0 and column 0, and otherwise the local cost plus
      the cheapest of the three predecessors. */
  function Acc(x: seq<real>, y: seq<real>, i: nat, j: nat): Ext
    requires i <= |x| && j <= |y|
    decreases i + j
  {
    if i == 0 && j == 0 then Fin(0.0)
    else if i == 0 || j == 0 then Inf
    else ExtAdd(Cost(x, y, i - 1, j - 1), ExtMin(ExtMin(Acc(x, y, i - 1, j), Acc(x, y, i, j - 1)), Acc(x, y, i - 1, j - 1)))
  }

  /** Away from the border every entry is finite and not negative. */
  lemma {:induction false} AccFinite(x: seq<real>, y: seq<real>, i: nat, j: nat)
    requires 1 <= i <= |x| && 1 <= j <= |y|
    ensures Acc(x, y, i, j).Fin? && Acc(x, y, i, j).v >= 0.0
    decreases i + j
  {
    if i > 1 {
      AccFinite(x, y, i - 1, j);
    }
    if j > 1 {
      AccFinite(x, y, i, j - 1);
    }
    if i > 1 && j > 1 {
      AccFinite(x, y, i - 1, j - 1);
    }
  }

  /** The table of `_dtw`, filled row by row. */
  method AccTable(x: seq<real>, y: seq<real>) returns (d: seq<seq<Ext>>)
    ensures |d| == |x| + 1
    ensures forall i :: 0 <= i <= |x| ==> |d[i]| == |y| + 1
    ensures forall i, j :: 0 <= i <= |x| && 0 <= j <= |y| ==> d[i][j] == Acc(x, y, i, j)
    ensures IsTable(x, y, d)
  {
    var first := seq(|y| + 1, j requires 0 <= j <= |y| => if j == 0 then Fin(0.0) else Inf);
    FirstRow(x, y, first);
    d := [first];
    var i := 1;
    while i <= |x|
      invariant 1 <= i <= |x| + 1
      invariant TableOf(x, y, d, i)
    {
      var row := [Inf];
      var j := 1;
      while j <= |y|
        invariant 1 <= j <= |y| + 1
        invariant RowOf(x, y, row, i, j)
      {
        TableEntry(x, y, d, i, i - 1, j);
        TableEntry(x, y, d, i, i - 1, j - 1);
        var up, left, diag := d[i - 1][j], row[j - 1], d[i - 1][j - 1];
        var v := ExtAdd(Cost(x, y, i - 1, j - 1), ExtMin(ExtMin(up, left), diag));
        AccEntry(x, y, i, j);
        RowSnoc(x, y, row, i, j, v);
        row := row + [v];
        j := j + 1;
      }
      TableSnoc(x, y, d, i, row);
      d := d + [row];
      i := i + 1;
    }
    forall a, b | 0 <= a <= |x| && 0 <= b <= |y| ensures |d[a]| == |y| + 1 && d[a][b] == Acc(x, y, a, b) {
      TableEntry(x, y, d, |x| + 1, a, b);
    }
    TableRect(x, y, d);
  }

  /** A table of m + 1 rows of n + 1 entries. */
  predicate Rect(d: seq<seq<Ext>>, m: nat, n: nat)
  {
    |d| == m + 1 && forall a :: 0 <= a <= m ==> |d[a]| == n + 1
  }

  /** d is the whole accumulated cost table of x and y. */
  ghost predicate IsTable(x: seq<real>, y: seq<real>, d: seq<seq<Ext>>)
  {
    TableOf(x, y, d, |x| + 1) && Rect(d, |x|, |y|)
  }

  /** The first n entries of row i of the table. */
  ghost predicate RowOf(x: seq<real>, y: seq<real>, row: seq<Ext>, i: nat, n: nat)
    requires i <= |x| && n <= |y| + 1
  {
    |row| == n && forall b :: 0 <= b < n ==> row[b] == Acc(x, y, i, b)
  }

  /** The first n rows of the table. */
  ghost predicate TableOf(x: seq<real>, y: seq<real>, d: seq<seq<Ext>>, n: nat)
    requires n <= |x| + 1
  {
    |d| == n && forall a :: 0 <= a < n ==> RowOf(x, y, d[a], a, |y| + 1)
  }

  lemma FirstRow(x: seq<real>, y: seq<real>, first: seq<Ext>)
    requires first == seq(|y| + 1, j requires 0 <= j <= |y| => if j == 0 then Fin(0.0) else Inf)
    ensures RowOf(x, y, first, 0, |y| + 1)
  {
  }

  lemma TableEntry(x: seq<real>, y: seq<real>, d: seq<seq<Ext>>, n: nat, a: nat, b: nat)
    requires n <= |x| + 1 && TableOf(x, y, d, n) && a < n && b <= |y|
    ensures |d[a]| == |y| + 1 && d[a][b] == Acc(x, y, a, b)
  {
    assert RowOf(x, y, d[a], a, |y| + 1);
  }

  lemma RowSnoc(x: seq<real>, y: seq<real>, row: seq<Ext>, i: nat, j: nat, v: Ext)
    requires i <= |x| && j <= |y| && RowOf(x, y, row, i, j) && v == Acc(x, y, i, j)
    ensures RowOf(x, y, row + [v], i, j + 1)
  {
    var r := row + [v];
    forall b | 0 <= b < j + 1 ensures r[b] == Acc(x, y, i, b) {
      if b < j {
        assert r[b] == row[b];
      }
    }
  }

  lemma TableSnoc(x: seq<real>, y: seq<real>, d: seq<seq<Ext>>, i: nat, row: seq<Ext>)
    requires i <= |x| && TableOf(x, y, d, i) && RowOf(x, y, row, i, |y| + 1)
    ensures TableOf(x, y, d + [row], i + 1)
  {
    var e := d + [row];
    forall a | 0 <= a < i + 1 ensures RowOf(x, y, e[a], a, |y| + 1) {
      if a < i {
        assert e[a] == d[a];
      }
    }
  }

  lemma TableRect(x: seq<real>, y: seq<real>, d: seq<seq<Ext>>)
    requires TableOf(x, y, d, |x| + 1)
    ensures IsTable(x, y, d)
  {
    forall a | 0 <= a <= |x| ensures |d[a]| == |y| + 1 {
      TableEntry(x, y, d, |x| + 1, a, 0);
    }
  }

  /** An entry away from the border, in terms of its three neighbours. */
  lemma AccEntry(x: seq<real>, y: seq<real>, i: nat, j: nat)
    requires 1 <= i <= |x| && 1 <= j <= |y|
    ensures Acc(x, y, i, j) == ExtAdd(Cost(x, y, i - 1, j - 1), ExtMin(ExtMin(Acc(x, y, i - 1, j), Acc(x, y, i, j - 1)), Acc(x, y, i - 1, j - 1)))
  {
  }

  datatype Cell = Cell(i: int, j: int)

  /** The predecessor the backtrack moves to from entry (i, j) of table d:
      along the border the only finite one, otherwise the first minimal of
      up, left and diagonal, the order `np.argmin` breaks ties in. */
  function Next(d: seq<seq<Ext>>, m: nat, n: nat, i: nat, j: nat): (r: Cell)
    requires Rect(d, m, n) && 1 <= i <= m && 1 <= j <= n && (i > 1 || j > 1)
    ensures r in {Cell(i - 1, j), Cell(i, j - 1), Cell(i - 1, j - 1)}
    ensures 1 <= r.i && 1 <= r.j
    ensures i == 1 ==> r == Cell(1, j - 1)
    ensures j == 1 ==> r == Cell(i - 1, 1)
    ensures i > 1 && j > 1 ==> d[r.i][r.j].Le(d[i - 1][j]) && d[r.i][r.j].Le(d[i][j - 1]) && d[r.i][r.j].Le(d[i - 1][j - 1])
    ensures i > 1 && j > 1 && r != Cell(i - 1, j) ==> !d[i - 1][j].Le(d[r.i][r.j])
    ensures i > 1 && j > 1 && r == Cell(i - 1, j - 1) ==> !d[i][j - 1].Le(d[r.i][r.j])
  {
    if i == 1 then Cell(i, j - 1)
    else if j == 1 then Cell(i - 1, j)
    else
      var up, left, diag := d[i - 1][j], d[i][j - 1], d[i - 1][j - 1];
      if up.Le(left) && up.Le(diag) then Cell(i - 1, j)
      else if left.Le(diag) then Cell(i, j - 1)
      else Cell(i - 1, j - 1)
  }

  /** One warping step back: up, left or diagonal. */
  predicate StepBack(a: Cell, b: Cell)
  {
    b in {Cell(a.i - 1, a.j), Cell(a.i, a.j - 1), Cell(a.i - 1, a.j - 1)}
  }

  /** Each cell of p is one warping step back from the one before. */
  predicate Chain(p: seq<Cell>)
  {
    forall k :: 0 <= k < |p| - 1 ==> StepBack(p[k], p[k + 1])
  }

  /** The backtracked path from cell (i-1, j-1) back to (0, 0), in the order
      the loop of `_dtw` visits it. */
  function Back(d: seq<seq<Ext>>, m: nat, n: nat, i: nat, j: nat): seq<Cell>
    requires Rect(d, m, n) && 1 <= i <= m && 1 <= j <= n
    decreases i + j
  {
    if i == 1 && j == 1 then [Cell(0, 0)]
    else
      var c := Next(d, m, n, i, j);
      [Cell(i - 1, j - 1)] + Back(d, m, n, c.i, c.j)
  }

  /** The backtracked path runs from cell (i-1, j-1) to (0, 0) by warping
      steps, visiting at least max(i, j) and at most i + j - 1 cells. */
  lemma {:induction false} BackShape(d: seq<seq<Ext>>, m: nat, n: nat, i: nat, j: nat)
    requires Rect(d, m, n) && 1 <= i <= m && 1 <= j <= n
    ensures var r := Back(d, m, n, i, j);
      && |r| > 0 && r[0] == Cell(i - 1, j - 1) && r[|r| - 1] == Cell(0, 0)
      && Chain(r)
      && Max(i, j) <= |r| <= i + j - 1
    decreases i + j
  {
    if i > 1 || j > 1 {
      var c := Next(d, m, n, i, j);
      var rest := Back(d, m, n, c.i, c.j);
      BackShape(d, m, n, c.i, c.j);
      assert Back(d, m, n, i, j) == [Cell(i - 1, j - 1)] + rest;
      ChainCons(Cell(i - 1, j - 1), rest);
    } else {
      assert Back(d, m, n, i, j) == [Cell(0, 0)];
    }
  }

  lemma ChainCons(a: Cell, rest: seq<Cell>)
    requires |rest| > 0 && Chain(rest) && StepBack(a, rest[0])
    ensures Chain([a] + rest)
  {
    var r := [a] + rest;
    forall k | 0 <= k < |r| - 1 ensures StepBack(r[k], r[k + 1]) {
      if k > 0 {
        assert r[k] == rest[k - 1] && r[k + 1] == rest[k];
      }
    }
  }

  /** Every cell of p lies in the first m rows and n columns. */
  predicate Within(p: seq<Cell>, m: int, n: int)
  {
    forall k :: 0 <= k < |p| ==> 0 <= p[k].i < m && 0 <= p[k].j < n
  }

  /** The local cost of a cell of the table, nothing outside it. */
  function CellCost(x: seq<real>, y: seq<real>, c: Cell): (r: real)
    ensures r >= 0.0
  {
    if 0 <= c.i < |x| && 0 <= c.j < |y| then Cost(x, y, c.i, c.j) else 0.0
  }

  /** The sum of the local costs along a path. */
  function PathCost(x: seq<real>, y: seq<real>, p: seq<Cell>): real
  {
    if |p| == 0 then 0.0 else CellCost(x, y, p[0]) + PathCost(x, y, p[1..])
  }

  /** The path's cost is the accumulated cost where it starts. */
  lemma {:induction false} BackCost(x: seq<real>, y: seq<real>, d: seq<seq<Ext>>, i: nat, j: nat)
    requires IsTable(x, y, d) && 1 <= i <= |x| && 1 <= j <= |y|
    ensures Within(Back(d, |x|, |y|, i, j), |x|, |y|)
    ensures Acc(x, y, i, j) == Fin(PathCost(x, y, Back(d, |x|, |y|, i, j)))
    decreases i + j
  {
    BackInside(d, |x|, |y|, i, j);
    if i > 1 || j > 1 {
      var c := Next(d, |x|, |y|, i, j);
      BackCost(x, y, d, c.i, c.j);
      NextIsCheapest(x, y, d, i, j);
      BackCostStep(x, y, d, i, j, c);
    } else {
      BackCostOrigin(x, y, d);
    }
  }

  /** The step of BackCost: the first cell's cost plus the cost of the rest. */
  lemma BackCostStep(x: seq<real>, y: seq<real>, d: seq<seq<Ext>>, i: nat, j: nat, c: Cell)
    requires Rect(d, |x|, |y|) && 1 <= i <= |x| && 1 <= j <= |y| && (i > 1 || j > 1)
    ensures
      && c == Next(d, |x|, |y|, i, j)
      && Acc(x, y, i, j) == ExtAdd(Cost(x, y, i - 1, j - 1), Acc(x, y, c.i, c.j))
      && Within(Back(d, |x|, |y|, c.i, c.j), |x|, |y|)
      && Acc(x, y, c.i, c.j) == Fin(PathCost(x, y, Back(d, |x|, |y|, c.i, c.j)))
      ==> && Within(Back(d, |x|, |y|, i, j), |x|, |y|)
          && Acc(x, y, i, j) == Fin(PathCost(x, y, Back(d, |x|, |y|, i, j)))
  {
    if
      && c == Next(d, |x|, |y|, i, j)
      && Acc(x, y, i, j) == ExtAdd(Cost(x, y, i - 1, j - 1), Acc(x, y, c.i, c.j))
      && Within(Back(d, |x|, |y|, c.i, c.j), |x|, |y|)
      && Acc(x, y, c.i, c.j) == Fin(PathCost(x, y, Back(d, |x|, |y|, c.i, c.j)))
    {
      BackInside(d, |x|, |y|, i, j);
      var cost, rest := Cost(x, y, i - 1, j - 1), PathCost(x, y, Back(d, |x|, |y|, c.i, c.j));
      PathCostBack(x, y, d, i, j, c);
      CellCostInside(x, y, Cell(i - 1, j - 1));
      ExtAddFin(cost, Acc(x, y, c.i, c.j), rest);
      assert PathCost(x, y, Back(d, |x|, |y|, i, j)) == cost + rest;
      assert Acc(x, y, i, j) == Fin(cost + rest);
    }
  }

  lemma PathCostBack(x: seq<real>, y: seq<real>, d: seq<seq<Ext>>, i: nat, j: nat, c: Cell)
    requires Rect(d, |x|, |y|) && 1 <= i <= |x| && 1 <= j <= |y| && (i > 1 || j > 1)
    requires c == Next(d, |x|, |y|, i, j)
    ensures PathCost(x, y, Back(d, |x|, |y|, i, j)) == CellCost(x, y, Cell(i - 1, j - 1)) + PathCost(x, y, Back(d, |x|, |y|, c.i, c.j))
  {
    var rest := Back(d, |x|, |y|, c.i, c.j);
    var p := Back(d, |x|, |y|, i, j);
    assert p == [Cell(i - 1, j - 1)] + rest;
    PathCostOfCons(x, y, p, Cell(i - 1, j - 1), rest);
  }

  lemma CellCostInside(x: seq<real>, y: seq<real>, c: Cell)
    requires 0 <= c.i < |x| && 0 <= c.j < |y|
    ensures CellCost(x, y, c) == Cost(x, y, c.i, c.j)
  {
  }

  lemma PathCostOfCons(x: seq<real>, y: seq<real>, p: seq<Cell>, c: Cell, rest: seq<Cell>)
    requires p == [c] + rest
    ensures PathCost(x, y, p) == CellCost(x, y, c) + PathCost(x, y, rest)
  {
    assert p[1..] == rest;
  }

  lemma BackCostOrigin(x: seq<real>, y: seq<real>, d: seq<seq<Ext>>)
    requires IsTable(x, y, d) && 1 <= |x| && 1 <= |y|
    ensures Within(Back(d, |x|, |y|, 1, 1), |x|, |y|)
    ensures Acc(x, y, 1, 1) == Fin(PathCost(x, y, Back(d, |x|, |y|, 1, 1)))
  {
    assert Back(d, |x|, |y|, 1, 1) == [Cell(0, 0)] + [];
    PathCostOfCons(x, y, Back(d, |x|, |y|, 1, 1), Cell(0, 0), []);
    AccOrigin(x, y);
  }

  lemma ExtAddFin(c: real, a: Ext, v: real)
    requires a == Fin(v)
    ensures ExtAdd(c, a) == Fin(c + v)
  {
  }

  /** The first entry is the cost of pairing the first intervals. */
  lemma AccOrigin(x: seq<real>, y: seq<real>)
    requires 1 <= |x| && 1 <= |y|
    ensures Acc(x, y, 1, 1) == Fin(Cost(x, y, 0, 0))
  {
    assert Acc(x, y, 0, 1) == Inf && Acc(x, y, 1, 0) == Inf && Acc(x, y, 0, 0) == Fin(0.0);
  }

  lemma {:induction false} BackInside(d: seq<seq<Ext>>, m: nat, n: nat, i: nat, j: nat)
    requires Rect(d, m, n) && 1 <= i <= m && 1 <= j <= n
    ensures Within(Back(d, m, n, i, j), i, j)
    decreases i + j
  {
    if i > 1 || j > 1 {
      var c := Next(d, m, n, i, j);
      BackInside(d, m, n, c.i, c.j);
    }
  }

  /** The predecessor the backtrack picks from the table carries the minimum
      the entry was built from. */
  lemma NextIsCheapest(x: seq<real>, y: seq<real>, d: seq<seq<Ext>>, i: nat, j: nat)
    requires IsTable(x, y, d) && 1 <= i <= |x| && 1 <= j <= |y| && (i > 1 || j > 1)
    ensures var c := Next(d, |x|, |y|, i, j);
      Acc(x, y, i, j) == ExtAdd(Cost(x, y, i - 1, j - 1), Acc(x, y, c.i, c.j))
  {
    if i > 1 && j > 1 {
      TableEntry(x, y, d, |x| + 1, i - 1, j);
      TableEntry(x, y, d, |x| + 1, i, j - 1);
      TableEntry(x, y, d, |x| + 1, i - 1, j - 1);
      NextInside(x, y, d, i, j);
    } else if i == 1 {
      FirstRowEntry(x, y, j);
    } else {
      FirstColumnEntry(x, y, i);
    }
  }

  lemma NextInside(x: seq<real>, y: seq<real>, d: seq<seq<Ext>>, i: nat, j: nat)
    requires Rect(d, |x|, |y|) && 1 < i <= |x| && 1 < j <= |y|
    requires d[i - 1][j] == Acc(x, y, i - 1, j) && d[i][j - 1] == Acc(x, y, i, j - 1) && d[i - 1][j - 1] == Acc(x, y, i - 1, j - 1)
    ensures var c := Next(d, |x|, |y|, i, j);
      Acc(x, y, i, j) == ExtAdd(Cost(x, y, i - 1, j - 1), Acc(x, y, c.i, c.j))
  {
    var up, left, diag := Acc(x, y, i - 1, j), Acc(x, y, i, j - 1), Acc(x, y, i - 1, j - 1);
    AccEntry(x, y, i, j);
    AccFinite(x, y, i - 1, j);
    AccFinite(x, y, i, j - 1);
    AccFinite(x, y, i - 1, j - 1);
    MinIsPicked(up, left, diag);
  }

  /** Among finite values, the minimum is the first minimal one. */
  lemma MinIsPicked(up: Ext, left: Ext, diag: Ext)
    requires up.Fin? && left.Fin? && diag.Fin?
    ensures ExtMin(ExtMin(up, left), diag)
         == if up.Le(left) && up.Le(diag) then up else if left.Le(diag) then left else diag
  {
  }

  /** Along the first row only the left neighbour is finite. */
  lemma FirstRowEntry(x: seq<real>, y: seq<real>, j: nat)
    requires 1 <= |x| && 1 < j <= |y|
    ensures Acc(x, y, 1, j) == ExtAdd(Cost(x, y, 0, j - 1), Acc(x, y, 1, j - 1))
  {
    AccEntry(x, y, 1, j);
    AccFinite(x, y, 1, j - 1);
    assert Acc(x, y, 0, j) == Inf && Acc(x, y, 0, j - 1) == Inf;
  }

  /** Down the first column only the upper neighbour is finite. */
  lemma FirstColumnEntry(x: seq<real>, y: seq<real>, i: nat)
    requires 1 < i <= |x| && 1 <= |y|
    ensures Acc(x, y, i, 1) == ExtAdd(Cost(x, y, i - 1, 0), Acc(x, y, i - 1, 1))
  {
    AccEntry(x, y, i, 1);
    AccFinite(x, y, i - 1, 1);
    assert Acc(x, y, i, 0) == Inf && Acc(x, y, i - 1, 0) == Inf;
  }

  /** A warping path from cell c back to (0, 0) inside the table. */
  ghost predicate WarpingFrom(x: seq<real>, y: seq<real>, p: seq<Cell>, c: Cell)
  {
    && |p| > 0 && p[0] == c && p[|p| - 1] == Cell(0, 0)
    && Within(p, |x|, |y|)
    && Chain(p)
  }

  /** No warping path is cheaper than the accumulated cost, so the
      backtracked path is an optimal one. */
  lemma {:induction false} AccIsOptimal(x: seq<real>, y: seq<real>, i: nat, j: nat, p: seq<Cell>)
    requires 1 <= i <= |x| && 1 <= j <= |y|
    requires WarpingFrom(x, y, p, Cell(i - 1, j - 1))
    ensures Acc(x, y, i, j).Fin? && Acc(x, y, i, j).v <= PathCost(x, y, p)
    decreases |p|
  {
    if |p| > 1 {
      var q := p[1];
      WarpingTail(x, y, p);
      PathCostNonNeg(x, y, p[1..]);
      AccIsOptimal(x, y, q.i + 1, q.j + 1, p[1..]);
      CheaperThanPredecessor(x, y, i, j, q);
    } else {
      assert PathCost(x, y, p) == CellCost(x, y, Cell(0, 0)) + PathCost(x, y, p[1..]);
    }
  }

  /** The tail of a warping path is a warping path from one step back. */
  lemma WarpingTail(x: seq<real>, y: seq<real>, p: seq<Cell>)
    requires |p| > 1 && WarpingFrom(x, y, p, p[0])
    ensures WarpingFrom(x, y, p[1..], p[1]) && StepBack(p[0], p[1])
  {
    forall k | 0 <= k < |p[1..]| - 1 ensures StepBack(p[1..][k], p[1..][k + 1]) {
      assert p[1..][k] == p[k + 1] && p[1..][k + 1] == p[k + 2];
    }
  }

  lemma {:induction false} PathCostNonNeg(x: seq<real>, y: seq<real>, p: seq<Cell>)
    ensures PathCost(x, y, p) >= 0.0
  {
    if |p| > 0 {
      PathCostNonNeg(x, y, p[1..]);
    }
  }

  /** An entry is at most its local cost plus any finite predecessor. */
  lemma CheaperThanPredecessor(x: seq<real>, y: seq<real>, i: nat, j: nat, q: Cell)
    requires 1 <= i <= |x| && 1 <= j <= |y|
    requires q in {Cell(i - 2, j - 1), Cell(i - 1, j - 2), Cell(i - 2, j - 2)}
    requires q.i >= 0 && q.j >= 0
    ensures Acc(x, y, q.i + 1, q.j + 1).Fin? ==> Acc(x, y, i, j).Fin? && Acc(x, y, i, j).v <= Cost(x, y, i - 1, j - 1) + Acc(x, y, q.i + 1, q.j + 1).v
  {
    var up, left, diag := Acc(x, y, i - 1, j), Acc(x, y, i, j - 1), Acc(x, y, i - 1, j - 1);
    assert Acc(x, y, i, j) == ExtAdd(Cost(x, y, i - 1, j - 1), ExtMin(ExtMin(up, left), diag));
    StepBelow(Cost(x, y, i - 1, j - 1), up, left, diag, Acc(x, y, q.i + 1, q.j + 1));
  }

  /** A step adds its cost to the cheapest of three entries, so it costs no
      more than the step from any finite one of them. */
  lemma StepBelow(c: real, up: Ext, left: Ext, diag: Ext, e: Ext)
    requires e == up || e == left || e == diag
    ensures e.Fin? ==> ExtAdd(c, ExtMin(ExtMin(up, left), diag)).Fin?
    ensures e.Fin? ==> ExtAdd(c, ExtMin(ExtMin(up, left), diag)).v <= c + e.v
  { }

  /** The backtracked path costs no more than any warping path between the
      same corners. */
  lemma BackIsOptimal(x: seq<real>, y: seq<real>, d: seq<seq<Ext>>, p: seq<Cell>)
    requires IsTable(x, y, d) && |x| >= 1 && |y| >= 1
    requires WarpingFrom(x, y, p, Cell(|x| - 1, |y| - 1))
    ensures WarpingFrom(x, y, Back(d, |x|, |y|, |x|, |y|), Cell(|x| - 1, |y| - 1))
    ensures PathCost(x, y, Back(d, |x|, |y|, |x|, |y|)) <= PathCost(x, y, p)
  {
    BackCost(x, y, d, |x|, |y|);
    BackShape(d, |x|, |y|, |x|, |y|);
    AccIsOptimal(x, y, |x|, |y|, p);
  }

  /** `_dtw`: the table and the warping path from (0, 0) to (n-1, m-1). */
  method Dtw(x: seq<real>, y: seq<real>) returns (d: seq<seq<Ext>>, path: seq<Cell>)
    requires |x| >= 1 && |y| >= 1
    ensures |d| == |x| + 1 && forall i :: 0 <= i <= |x| ==> |d[i]| == |y| + 1
    ensures forall i, j :: 0 <= i <= |x| && 0 <= j <= |y| ==> d[i][j] == Acc(x, y, i, j)
    ensures |path| > 0 && path[0] == Cell(0, 0) && path[|path| - 1] == Cell(|x| - 1, |y| - 1)
    ensures forall k :: 0 <= k < |path| - 1 ==> StepBack(path[k + 1], path[k])
    ensures Max(|x|, |y|) <= |path| <= |x| + |y| - 1
  {
    d := AccTable(x, y);
    var back := Back(d, |x|, |y|, |x|, |y|);
    BackShape(d, |x|, |y|, |x|, |y|);
    path := Reverse(back);
    forall k | 0 <= k < |path| - 1 ensures StepBack(path[k + 1], path[k]) {
      var b := |back| - 2 - k;
      assert path[k + 1] == back[b] && path[k] == back[b + 1];
    }
  }

  function Reverse(s: seq<Cell>): (r: seq<Cell>)
    ensures |r| == |s|
    ensures forall k :: 0 <= k < |s| ==> r[k] == s[|s| - 1 - k]
  {
    seq(|s|, k requires 0 <= k < |s| => s[|s| - 1 - k])
  }

  /** Fewer than this many onsets on either side and `align` returns the
      file untouched. */
  const MinOnsets := 10

  /** `align`, with onset extraction and the time correction it applies left
      as inputs: the realigned file is only used when both sides have enough
      onsets. */
  function Align(file: MidiFile, audioOnsets: seq<real>, midiOnsets: seq<real>, realigned: MidiFile): (r: MidiFile)
    ensures |audioOnsets| < MinOnsets || |midiOnsets| < MinOnsets ==> r == file
    ensures |audioOnsets| >= MinOnsets && |midiOnsets| >= MinOnsets ==> r == realigned
  {
    if |audioOnsets| < MinOnsets || |midiOnsets| < MinOnsets then file else realigned
  }
}

=== FILE: base.dfy ===
/** Small shared vocabulary: optional and fallible results, and the integer
    arithmetic of the source language written out explicitly. */
module Base {

  datatype Option<+T> = None | Some(value: T)

  /** A computation that either yields a value or raises the named error. */
  datatype Result<+T> = Ok(value: T) | Err(error: string)

  function Abs(x: int): nat
  {
    if x < 0 then -x else x
  }

  function AbsReal(x: real): real
  {
    if x < 0.0 then -x else x
  }

  function Min(a: int, b: int): int { if a <= b then a else b }
  function Max(a: int, b: int): int { if a >= b then a else b }
  function MinReal(a: real, b: real): real { if a <= b then a else b }
  function MaxReal(a: real, b: real): real { if a >= b then a else b }

  /** `int(a / b)` in the source: true division followed by truncation toward zero.
      Dafny's own `/` is Euclidean, so the sign cases are spelled out. */
  function TruncDiv(a: int, b: int): (q: int)
    requires b != 0
    ensures a >= 0 && b > 0 ==> q == a / b
    ensures a < 0 && b > 0 ==> q == -((-a) / b)
    ensures a >= 0 && b < 0 ==> q == -(a / (-b))
    ensures a < 0 && b < 0 ==> q == (-a) / (-b)
  {
    var m := Abs(a) / Abs(b);
    if (a < 0) != (b < 0) then -m else m
  }

  /** `int(x)` on a float: truncation toward zero. */
  function TruncReal(x: real): (r: int)
    ensures x >= 0.0 ==> r as real <= x < r as real + 1.0
    ensures x < 0.0 ==> r as real - 1.0 < x <= r as real
  {
    if x >= 0.0 then x.Floor else -((-x).Floor)
  }

  /** Python's `round(d / m)` on the exact rational d/m: round half to even. */
  function RoundRatio(d: int, m: int): (r: int)
    requires m > 0
    ensures Abs(2 * (d - r * m)) <= m
    ensures Abs(2 * (d - r * m)) == m ==> r % 2 == 0
  {
    var q := d / m;
    var rem := d % m;
    if 2 * rem < m then q
    else if 2 * rem > m then q + 1
    else if q % 2 == 0 then q else q + 1
  }

  lemma RoundRatioNonNeg(d: int, m: int)
    requires d >= 0 && m > 0
    ensures RoundRatio(d, m) >= 0
  {
    assert d / m >= 0;
  }

  /** Python slice `s[:n]` for any integer n (a negative n counts from the end). */
  function PyTake<T>(s: seq<T>, n: int): (r: seq<T>)
    ensures n >= 0 ==> |r| == Min(n, |s|)
    ensures n < 0 ==> |r| == Max(0, |s| + n)
    ensures r <= s
  {
    if n >= 0 then (if n <= |s| then s[..n] else s)
    else if |s| + n >= 0 then s[..|s| + n] else []
  }

  /** `min(s)` of a non-empty sequence. */
  function MinOf(s: seq<int>): (r: int)
    requires |s| > 0
    ensures r in s
    ensures forall k :: 0 <= k < |s| ==> r <= s[k]
  {
    if |s| == 1 then s[0]
    else
      var m := MinOf(s[..|s| - 1]);
      assert m in s;
      Min(m, s[|s| - 1])
  }

  function Sum(s: seq<int>): int
  {
    if |s| == 0 then 0 else Sum(s[..|s| - 1]) + s[|s| - 1]
  }

  function SumReal(s: seq<real>): real
  {
    if |s| == 0 then 0.0 else SumReal(s[..|s| - 1]) + s[|s| - 1]
  }

  lemma SumAppend(a: seq<int>, b: seq<int>)
    ensures Sum(a + b) == Sum(a) + Sum(b)
  {
    if |b| == 0 {
      assert a + b == a;
    } else {
      assert (a + b)[..|a + b| - 1] == a + b[..|b| - 1];
      SumAppend(a, b[..|b| - 1]);
    }
  }

  lemma SumRealAppend(a: seq<real>, b: seq<real>)
    ensures SumReal(a + b) == SumReal(a) + SumReal(b)
  {
    if |b| == 0 {
      assert a + b == a;
    } else {
      assert (a + b)[..|a + b| - 1] == a + b[..|b| - 1];
      SumRealAppend(a, b[..|b| - 1]);
    }
  }

  /** How many elements of s satisfy f. */
  function CountWhere<T>(s: seq<T>, f: T -> bool): (r: nat)
    ensures r <= |s|
  {
    if |s| == 0 then 0 else CountWhere(s[..|s| - 1], f) + (if f(s[|s| - 1]) then 1 else 0)
  }

  lemma {:induction false} CountAppend<T>(a: seq<T>, b: seq<T>, f: T -> bool)
    ensures CountWhere(a + b, f) == CountWhere(a, f) + CountWhere(b, f)
  {
    if |b| > 0 {
      CountAppend(a, b[..|b| - 1], f);
      assert (a + b)[..|a + b| - 1] == a + b[..|b| - 1];
    } else {
      assert a + b == a;
    }
  }

  /** The count depends only on the multiset of the elements. */
  lemma {:induction false} CountPermutation<T>(a: seq<T>, b: seq<T>, f: T -> bool)
    requires multiset(a) == multiset(b)
    ensures CountWhere(a, f) == CountWhere(b, f)
  {
    if |a| > 0 {
      var x := a[|a| - 1];
      assert a == a[..|a| - 1] + [x];
      assert x in multiset(b);
      var k :| 0 <= k < |b| && b[k] == x;
      var rest := b[..k] + b[k + 1..];
      assert b == b[..k] + [x] + b[k + 1..];
      assert multiset(b) == multiset(b[..k]) + multiset{x} + multiset(b[k + 1..]);
      assert multiset(a) == multiset(a[..|a| - 1]) + multiset{x};
      assert multiset(rest) == multiset(b[..k]) + multiset(b[k + 1..]);
      assert multiset(rest) == multiset(b) - multiset{x};
      assert multiset(a[..|a| - 1]) == multiset(a) - multiset{x};
      CountPermutation(a[..|a| - 1], rest, f);
      CountAppend(b[..k] + [x], b[k + 1..], f);
      CountAppend(b[..k], [x], f);
      CountAppend(b[..k], b[k + 1..], f);
      assert CountWhere([x], f) == (if f(x) then 1 else 0) by {
        assert [x][..0] == [];
      }
    } else {
      assert |b| == |multiset(b)| == 0;
    }
  }

  /** When every element of s satisfies f, all of them are counted. */
  lemma {:induction false} CountAll<T>(s: seq<T>, f: T -> bool)
    requires forall i :: 0 <= i < |s| ==> f(s[i])
    ensures CountWhere(s, f) == |s|
  {
    if |s| > 0 {
      CountAll(s[..|s| - 1], f);
    }
  }

  /** Taking the same element out of two permutations of each other leaves
      permutations of each other. */
  lemma RemoveAt<T>(a: seq<T>, b: seq<T>, i: nat)
    requires multiset(a) == multiset(b)
    requires |a| > 0 && i < |b| && b[i] == a[0]
    ensures multiset(a[1..]) == multiset(b[..i] + b[i + 1..])
  {
    assert a == [a[0]] + a[1..];
    assert multiset(a) == multiset{a[0]} + multiset(a[1..]);
    assert b == b[..i] + [b[i]] + b[i + 1..];
    assert multiset(b) == multiset(b[..i]) + multiset{a[0]} + multiset(b[i + 1..]);
    var m := multiset(b[..i] + b[i + 1..]);
    assert m == multiset(b[..i]) + multiset(b[i + 1..]);
    assert multiset{a[0]} + multiset(a[1..]) == multiset{a[0]} + m;
    forall y ensures multiset(a[1..])[y] == m[y] {
      assert (multiset{a[0]} + multiset(a[1..]))[y] == (multiset{a[0]} + m)[y];
    }
  }

  /** f applied to every element. */
  function Mapped<A, B>(f: A -> B, s: seq<A>): (r: seq<B>)
    ensures |r| == |s|
    ensures forall i :: 0 <= i < |s| ==> r[i] == f(s[i])
  {
    seq(|s|, i requires 0 <= i < |s| => f(s[i]))
  }

  /** Mapping a permutation gives a permutation of the mapped elements. */
  lemma {:induction false} MappedPermutation<A, B>(f: A -> B, a: seq<A>, b: seq<A>)
    requires multiset(a) == multiset(b)
    ensures multiset(Mapped(f, a)) == multiset(Mapped(f, b))
    decreases |a|
  {
    if |a| == 0 {
      assert |b| == |multiset(b)| == 0;
    } else {
      assert a[0] in multiset(b);
      var i :| 0 <= i < |b| && b[i] == a[0];
      var rb := b[..i] + b[i + 1..];
      RemoveAt(a, b, i);
      MappedPermutation(f, a[1..], rb);
      MappedCons(f, a);
      MappedRemove(f, b, i);
    }
  }

  lemma MappedCons<A, B>(f: A -> B, s: seq<A>)
    requires |s| > 0
    ensures multiset(Mapped(f, s)) == multiset(Mapped(f, s[1..])) + multiset{f(s[0])}
  {
    assert Mapped(f, s) == [f(s[0])] + Mapped(f, s[1..]);
  }

  /** The mapped elements are those of the sequence without its i-th element,
      plus the image of that element. */
  lemma MappedRemove<A, B>(f: A -> B, s: seq<A>, i: nat)
    requires i < |s|
    ensures multiset(Mapped(f, s)) == multiset(Mapped(f, s[..i] + s[i + 1..])) + multiset{f(s[i])}
  {
    assert Mapped(f, s) == Mapped(f, s[..i]) + [f(s[i])] + Mapped(f, s[i + 1..]);
    assert Mapped(f, s[..i] + s[i + 1..]) == Mapped(f, s[..i]) + Mapped(f, s[i + 1..]);
  }

  /** A permutation has the same length and draws every element from the
      original. */
  lemma PermutationMembers<T>(a: seq<T>, b: seq<T>)
    requires multiset(a) == multiset(b)
    ensures |a| == |b|
    ensures forall i :: 0 <= i < |a| ==> a[i] in b
  {
    assert |a| == |multiset(a)| == |multiset(b)| == |b|;
    forall i | 0 <= i < |a| ensures a[i] in b {
      assert a[i] in multiset(a);
    }
  }

  lemma MultisetPrefixStep<T>(s: seq<T>, k: nat)
    requires 0 < k <= |s|
    ensures multiset(s[..k]) == multiset(s[..k - 1]) + multiset{s[k - 1]}
  {
    assert s[..k] == s[..k - 1] + [s[k - 1]];
  }

  /** Python's `a // b`: division rounding toward minus infinity. Dafny's `/`
      agrees for a positive divisor; for a negative one both signs flip. */
  function FloorDiv(a: int, b: int): (q: int)
    requires b != 0
    ensures b > 0 ==> q * b <= a < q * b + b
    ensures b < 0 ==> q * b + b < a <= q * b
  {
    if b > 0 then a / b else (-a) / (-b)
  }

  /** `Counter(s)[x]` */
  function Occurrences<T(==)>(s: seq<T>, x: T): nat
  {
    multiset(s)[x]
  }

  /** The scan behind `Counter(s).most_common(1)`: a later element replaces
      the best so far only with a strictly larger count. */
  function MostCommonAt<T(==)>(s: seq<T>, i: nat, b: nat): (r: nat)
    requires b < i <= |s|
    requires forall j :: 0 <= j < i ==> Occurrences(s, s[j]) <= Occurrences(s, s[b])
    requires forall j :: 0 <= j < b ==> Occurrences(s, s[j]) < Occurrences(s, s[b])
    ensures r < |s|
    ensures forall j :: 0 <= j < |s| ==> Occurrences(s, s[j]) <= Occurrences(s, s[r])
    ensures forall j :: 0 <= j < r ==> Occurrences(s, s[j]) < Occurrences(s, s[r])
    decreases |s| - i
  {
    if i == |s| then b
    else if Occurrences(s, s[i]) > Occurrences(s, s[b]) then MostCommonAt(s, i + 1, i)
    else MostCommonAt(s, i + 1, b)
  }

  /** `Counter(s).most_common(1)[0][0]`: an element of greatest count, and of
      those the one seen first. */
  function MostCommon<T(==)>(s: seq<T>): (r: T)
    requires |s| > 0
    ensures r in s
    ensures forall j :: 0 <= j < |s| ==> Occurrences(s, s[j]) <= Occurrences(s, r)
    ensures forall j :: 0 <= j < |s| && Occurrences(s, s[j]) == Occurrences(s, r) ==>
      exists k :: 0 <= k <= j && s[k] == r
  {
    var k := MostCommonAt(s, 1, 0);
    assert forall j :: 0 <= j < |s| && Occurrences(s, s[j]) == Occurrences(s, s[k]) ==> k <= j;
    s[k]
  }

  /** Python's `sub in s` on strings. */
  predicate HasSubstring(s: string, sub: string)
  {
    sub <= s || (|s| > 0 && HasSubstring(s[1..], sub))
  }

  /** `sep.join(parts)` */
  function Join(sep: string, parts: seq<string>): string
  {
    if |parts| == 0 then ""
    else if |parts| == 1 then parts[0]
    else parts[0] + sep + Join(sep, parts[1..])
  }

  lemma MulBound(k: int, q: int)
    requires q > 0
    ensures k >= 1 ==> k * q >= q
    ensures k <= -1 ==> k * q <= -q
  {
  }

  /** Euclidean division is unique: x = d*q + m with 0 <= m < q fixes both. */
  lemma DivUnique(x: int, q: int, d: int, m: int)
    requires q > 0 && x == d * q + m && 0 <= m < q
    ensures x / q == d && x % q == m
  {
    var d' := x / q;
    var m' := x % q;
    assert x == d' * q + m';
    assert (d' - d) * q == m - m';
    MulBound(d' - d, q);
  }
}

=== FILE: chord_detector.dfy ===
/** Chord detection (chord_detector.py): notes are grouped into slices by
    their start time rounded down to a grid, each slice's pitch classes are
    matched against chord templates by a Jaccard score, and the key is
    guessed from the most common chord root. */
module ChordDetector {
  import opened Base
  import opened Sorting
  import opened Midi

  /** A chord quality, its display symbol, and its intervals above the root. */
  datatype Template = Template(quality: string, symbol: string, intervals: seq<int>)

  /** The templates in the order the matcher tries them. */
  const Templates: seq<Template> := [
    Template("major", "", [0, 4, 7]),
    Template("minor", "m", [0, 3, 7]),
    Template("diminished", "dim", [0, 3, 6]),
    Template("augmented", "aug", [0, 4, 8]),
    Template("dominant7", "7", [0, 4, 7, 10]),
    Template("major7", "maj7", [0, 4, 7, 11]),
    Template("minor7", "m7", [0, 3, 7, 10]),
    Template("minorMaj7", "mM7", [0, 3, 7, 11]),
    Template("diminished7", "dim7", [0, 3, 6, 9]),
    Template("halfDiminished7", "m7b5", [0, 3, 6, 10]),
    Template("dominant9", "9", [0, 4, 7, 10, 14]),
    Template("major9", "maj9", [0, 4, 7, 11, 14]),
    Template("sus2", "sus2", [0, 2, 7]),
    Template("sus4", "sus4", [0, 5, 7])
  ]

  /** Every (root, template) pair: candidate c has root c / 14 and template c % 14,
      so candidates are tried root by root, templates in order within a root. */
  const CandidateCount: nat := 12 * 14

  // ---------------------------------------------------------------------
  // Names

  /** The quality symbol, or the quality itself when it has none. */
  function QualitySymbol(quality: string): string
  {
    SymbolFrom(quality, 0)
  }

  function SymbolFrom(quality: string, k: nat): string
    requires k <= |Templates|
    decreases |Templates| - k
  {
    if k == |Templates| then quality
    else if Templates[k].quality == quality then Templates[k].symbol
    else SymbolFrom(quality, k + 1)
  }

  /** `_format_chord_name`: the root's name followed by the quality symbol. */
  function FormatChordName(root: int, quality: string): (r: string)
    requires 0 <= root < 12
    ensures NoteNames[root] <= r
  {
    NoteNames[root] + QualitySymbol(quality)
  }

  // ---------------------------------------------------------------------
  // Quantisation

  /** The start time rounded down to the grid of q ticks. */
  function QuantizeTime(start: int, q: int): (r: int)
    requires q != 0
    ensures q > 0 ==> r <= start < r + q
  {
    FloorDiv(start, q) * q
  }

  /** Quantised times lie on the grid: quantising again changes nothing. */
  lemma QuantizeOnGrid(start: int, q: int)
    requires q > 0
    ensures QuantizeTime(QuantizeTime(start, q), q) == QuantizeTime(start, q)
    ensures QuantizeTime(start, q) % q == 0
  {
    DivUnique(QuantizeTime(start, q), q, FloorDiv(start, q), 0);
  }

  datatype Slice = Slice(time: int, pitches: seq<int>)

  function Times(slices: seq<Slice>): set<int>
  {
    set i | 0 <= i < |slices| :: slices[i].time
  }

  ghost predicate DistinctTimes(slices: seq<Slice>)
  {
    forall i, j :: 0 <= i < j < |slices| ==> slices[i].time != slices[j].time
  }

  /** The pitches of the notes whose quantised start is t, in note order. */
  function PitchesAt(notes: seq<Paired>, q: int, t: int): (r: seq<int>)
    requires q != 0
    ensures (forall k :: 0 <= k < |notes| ==> QuantizeTime(notes[k].start, q) != t) ==> r == []
  {
    if |notes| == 0 then []
    else
      var n := notes[|notes| - 1];
      PitchesAt(notes[..|notes| - 1], q, t) + (if QuantizeTime(n.start, q) == t then [n.pitch] else [])
  }

  /** `time_slices[t].append(p)` on a dictionary kept in insertion order. */
  function AddTo(slices: seq<Slice>, t: int, p: int): (r: seq<Slice>)
    requires DistinctTimes(slices)
    ensures t in Times(slices) ==> |r| == |slices|
    ensures t in Times(slices) ==> forall i :: 0 <= i < |r| ==>
      r[i] == if slices[i].time == t then slices[i].(pitches := slices[i].pitches + [p]) else slices[i]
    ensures t !in Times(slices) ==> r == slices + [Slice(t, [p])]
  {
    if |slices| == 0 then [Slice(t, [p])]
    else if slices[0].time == t then [slices[0].(pitches := slices[0].pitches + [p])] + slices[1..]
    else
      assert Times(slices) == {slices[0].time} + Times(slices[1..]) by {
        forall x | x in Times(slices) ensures x in {slices[0].time} + Times(slices[1..]) {
          var i :| 0 <= i < |slices| && slices[i].time == x;
          if i > 0 { assert slices[1..][i - 1] == slices[i]; }
        }
      }
      [slices[0]] + AddTo(slices[1..], t, p)
  }

  /** The grouping loop of `_quantize_notes`, before duplicates are removed. */
  function Group(notes: seq<Paired>, q: int): (r: seq<Slice>)
    requires q != 0
    ensures Grouped(notes, q, r)
  {
    if |notes| == 0 then []
    else
      var init := notes[..|notes| - 1];
      var n := notes[|notes| - 1];
      var t := QuantizeTime(n.start, q);
      var prev := Group(init, q);
      var r := AddTo(prev, t, n.pitch);
      GroupStep(notes, q, prev, r);
      r
  }

  /** The slices have distinct times, each holds exactly the pitches of the
      notes quantised to its time and at least one, and every note has its
      slice. */
  ghost predicate Grouped(notes: seq<Paired>, q: int, r: seq<Slice>)
    requires q != 0
  {
    && DistinctTimes(r)
    && (forall i :: 0 <= i < |r| ==> r[i].pitches == PitchesAt(notes, q, r[i].time) && |r[i].pitches| > 0)
    && (forall k :: 0 <= k < |notes| ==> QuantizeTime(notes[k].start, q) in Times(r))
  }

  lemma GroupStep(notes: seq<Paired>, q: int, prev: seq<Slice>, r: seq<Slice>)
    requires q != 0 && |notes| > 0
    requires Grouped(notes[..|notes| - 1], q, prev)
    requires r == AddTo(prev, QuantizeTime(notes[|notes| - 1].start, q), notes[|notes| - 1].pitch)
    ensures Grouped(notes, q, r)
  {
    var init := notes[..|notes| - 1];
    var t := QuantizeTime(notes[|notes| - 1].start, q);
    AddToTimes(prev, t, notes[|notes| - 1].pitch);
    GroupPitches(notes, q, prev, r);
    forall k | 0 <= k < |notes|
      ensures QuantizeTime(notes[k].start, q) in Times(r)
    {
      if k < |notes| - 1 {
        assert notes[k] == init[k];
      }
    }
  }

  /** Adding to a slice keeps the times distinct and adds t to them. */
  lemma AddToTimes(slices: seq<Slice>, t: int, p: int)
    requires DistinctTimes(slices)
    ensures DistinctTimes(AddTo(slices, t, p))
    ensures Times(AddTo(slices, t, p)) == Times(slices) + {t}
  {
    var r := AddTo(slices, t, p);
    if t in Times(slices) {
      forall x | x in Times(r) ensures x in Times(slices) {
        var i :| 0 <= i < |r| && r[i].time == x;
        assert r[i].time == slices[i].time;
      }
      forall x | x in Times(slices) ensures x in Times(r) {
        var i :| 0 <= i < |slices| && slices[i].time == x;
        assert r[i].time == x;
      }
      forall i, j | 0 <= i < j < |r| ensures r[i].time != r[j].time {
        assert r[i].time == slices[i].time && r[j].time == slices[j].time;
      }
    } else {
      forall x | x in Times(r) ensures x in Times(slices) + {t} {
        var i :| 0 <= i < |r| && r[i].time == x;
        if i < |slices| { assert r[i] == slices[i]; }
      }
      forall x | x in Times(slices) ensures x in Times(r) {
        var i :| 0 <= i < |slices| && slices[i].time == x;
        assert r[i] == slices[i];
      }
      assert r[|slices|].time == t;
      forall i, j | 0 <= i < j < |r| ensures r[i].time != r[j].time {
        if j == |slices| {
          assert slices[i].time in Times(slices);
        }
      }
    }
  }

  /** After the last note is added every slice still holds exactly the
      pitches quantised to its time. */
  lemma GroupPitches(notes: seq<Paired>, q: int, prev: seq<Slice>, r: seq<Slice>)
    requires q != 0 && |notes| > 0
    requires Grouped(notes[..|notes| - 1], q, prev)
    requires r == AddTo(prev, QuantizeTime(notes[|notes| - 1].start, q), notes[|notes| - 1].pitch)
    ensures forall i :: 0 <= i < |r| ==> r[i].pitches == PitchesAt(notes, q, r[i].time) && |r[i].pitches| > 0
  {
    var init := notes[..|notes| - 1];
    var n := notes[|notes| - 1];
    var t := QuantizeTime(n.start, q);
    if t in Times(prev) {
      forall i | 0 <= i < |r|
        ensures r[i].pitches == PitchesAt(notes, q, r[i].time) && |r[i].pitches| > 0
      {
        assert PitchesAt(notes, q, r[i].time) == PitchesAt(init, q, r[i].time) + (if t == r[i].time then [n.pitch] else []);
      }
    } else {
      forall k | 0 <= k < |init| ensures QuantizeTime(init[k].start, q) != t {
        assert QuantizeTime(init[k].start, q) in Times(prev);
      }
      assert PitchesAt(init, q, t) == [];
      forall i | 0 <= i < |r|
        ensures r[i].pitches == PitchesAt(notes, q, r[i].time) && |r[i].pitches| > 0
      {
        assert PitchesAt(notes, q, r[i].time) == PitchesAt(init, q, r[i].time) + (if t == r[i].time then [n.pitch] else []);
        if i < |prev| {
          assert r[i] == prev[i];
          assert prev[i].time in Times(prev);
        }
      }
    }
  }

  /** `_quantize_notes`: the slices in the order their times first occur, each
      holding the sorted distinct pitches quantised to it. A zero grid raises
      as soon as there is a note to quantise. */
  function QuantizeNotes(notes: seq<Paired>, q: int): (r: Result<seq<Slice>>)
    ensures r.Err? <==> |notes| > 0 && q == 0
  {
    if |notes| == 0 then Ok([])
    else if q == 0 then Err("integer division or modulo by zero")
    else
      Ok(Dedup(Group(notes, q)))
  }

  /** `time_slices[t] = sorted(set(time_slices[t]))` for every slice. */
  function Dedup(g: seq<Slice>): (r: seq<Slice>)
    ensures |r| == |g|
    ensures forall i :: 0 <= i < |g| ==> r[i].time == g[i].time && r[i].pitches == SortedSet(g[i].pitches)
  {
    seq(|g|, i requires 0 <= i < |g| => Slice(g[i].time, SortedSet(g[i].pitches)))
  }

  /** Each slice is sorted and duplicate-free and holds exactly the pitches of
      the notes quantised to its time; times are distinct, and every note has
      its slice. */
  lemma QuantizeSpec(notes: seq<Paired>, q: int)
    requires q != 0
    ensures var r := QuantizeNotes(notes, q).value;
      && DistinctTimes(r)
      && (forall i :: 0 <= i < |r| ==> Increasing(r[i].pitches) && |r[i].pitches| > 0)
      && (forall i, x :: 0 <= i < |r| ==> (x in r[i].pitches <==> x in PitchesAt(notes, q, r[i].time)))
      && (forall k :: 0 <= k < |notes| ==> QuantizeTime(notes[k].start, q) in Times(r))
  {
    if |notes| > 0 {
      var g := Group(notes, q);
      var r := Dedup(g);
      assert QuantizeNotes(notes, q).value == r;
      forall x | x in Times(g) ensures x in Times(r) {
        var i :| 0 <= i < |g| && g[i].time == x;
        assert r[i].time == x;
      }
      forall i | 0 <= i < |r| ensures Increasing(r[i].pitches) && |r[i].pitches| > 0 {
        var p := SortedSet(g[i].pitches);
        assert r[i].pitches == p;
        assert g[i].pitches[0] in p;
      }
    }
  }

  // ---------------------------------------------------------------------
  // Template matching

  /** `sorted(set(note % 12 for note in notes))` */
  function PitchClasses(notes: seq<int>): (r: seq<int>)
    ensures Increasing(r)
    ensures forall k :: 0 <= k < |r| ==> 0 <= r[k] < 12
    ensures forall x :: x in r <==> exists k :: 0 <= k < |notes| && notes[k] % 12 == x
    ensures |r| <= |notes|
  {
    var pcs := seq(|notes|, k requires 0 <= k < |notes| => notes[k] % 12);
    assert forall x :: x in pcs <==> exists k :: 0 <= k < |notes| && notes[k] % 12 == x by {
      forall x | x in pcs ensures exists k :: 0 <= k < |notes| && notes[k] % 12 == x {
        var k :| 0 <= k < |pcs| && pcs[k] == x;
      }
      forall x | exists k :: 0 <= k < |notes| && notes[k] % 12 == x ensures x in pcs {
        var k :| 0 <= k < |notes| && notes[k] % 12 == x;
        assert pcs[k] == x;
      }
    }
    var r := SortedSet(pcs);
    assert forall k :: 0 <= k < |r| ==> 0 <= r[k] < 12 by {
      forall k | 0 <= k < |r| ensures 0 <= r[k] < 12 {
        assert r[k] in r;
        assert r[k] in pcs;
      }
    }
    r
  }

  function PitchClassSet(notes: seq<int>): set<int>
  {
    set x | x in PitchClasses(notes)
  }

  function Expected(root: int, t: Template): set<int>
  {
    set iv | iv in t.intervals :: (root + iv) % 12
  }

  function CandidateSet(c: nat): set<int>
    requires c < CandidateCount
  {
    Expected(c / 14, Templates[c % 14])
  }

  /** The Jaccard similarity of the two sets, plus 0.5 when they are equal. */
  function Score(pcs: set<int>, expected: set<int>): real
  {
    var total := |pcs + expected|;
    (if total > 0 then (|pcs * expected| as real) / (total as real) else 0.0)
      + (if pcs == expected then 0.5 else 0.0)
  }

  function CandidateScore(pcs: set<int>, c: nat): real
    requires c < CandidateCount
  {
    Score(pcs, CandidateSet(c))
  }

  function Scores(pcs: set<int>): (r: seq<real>)
    ensures |r| == CandidateCount
    ensures forall c :: 0 <= c < CandidateCount ==> r[c] == CandidateScore(pcs, c)
  {
    seq(CandidateCount, c requires 0 <= c < CandidateCount => CandidateScore(pcs, c))
  }

  /** The search loop from candidate c with the best so far: a candidate
      replaces it only with a strictly greater score, so the first of the
      highest-scoring candidates wins. */
  function BestFrom(scores: seq<real>, c: nat, best: Option<nat>, bestScore: real): (r: (Option<nat>, real))
    requires c <= |scores|
    requires best.None? ==> bestScore == 0.0
    requires best.Some? ==> best.value < c && scores[best.value] == bestScore
    requires best.Some? ==> forall d :: 0 <= d < best.value ==> scores[d] < bestScore
    requires forall d :: 0 <= d < c ==> scores[d] <= bestScore
    ensures r.0.None? ==> r.1 == 0.0
    ensures r.0.Some? ==> r.0.value < |scores| && scores[r.0.value] == r.1
    ensures r.0.Some? ==> forall d :: 0 <= d < r.0.value ==> scores[d] < r.1
    ensures forall d :: 0 <= d < |scores| ==> scores[d] <= r.1
    decreases |scores| - c
  {
    if c == |scores| then (best, bestScore)
    else if scores[c] > bestScore then BestFrom(scores, c + 1, Some(c), scores[c])
    else BestFrom(scores, c + 1, best, bestScore)
  }

  function Best(pcs: set<int>): (r: (Option<nat>, real))
    ensures r.0.Some? ==> r.0.value < CandidateCount && CandidateScore(pcs, r.0.value) == r.1
    ensures r.0.Some? ==> forall d :: 0 <= d < r.0.value ==> CandidateScore(pcs, d) < r.1
    ensures forall d :: 0 <= d < CandidateCount ==> CandidateScore(pcs, d) <= r.1
    ensures r.0.None? ==> r.1 == 0.0
  {
    var sc := Scores(pcs);
    var r := BestFrom(sc, 0, None, 0.0);
    assert forall d :: 0 <= d < CandidateCount ==> sc[d] == CandidateScore(pcs, d);
    r
  }

  /** The matched (root, template) candidate, when its score reaches 0.6. */
  function ChordMatch(notes: seq<int>): (r: Option<nat>)
    ensures r.Some? ==> r.value < CandidateCount
  {
    var b := Best(PitchClassSet(notes));
    if b.1 >= 0.6 && b.0.Some? then b.0 else None
  }

  function NamesOf(pcs: seq<int>): (r: seq<string>)
    requires forall k :: 0 <= k < |pcs| ==> 0 <= pcs[k] < 12
    ensures |r| == |pcs|
  {
    seq(|pcs|, k requires 0 <= k < |pcs| => NoteNames[pcs[k]])
  }

  /** `_identify_chord`: no name for fewer than two pitch classes; the matched
      chord's name; otherwise the pitch-class names in brackets. The notes are
      always handed back unchanged. */
  function IdentifyChord(notes: seq<int>): (r: (Option<string>, seq<int>))
    ensures r.1 == notes
    ensures r.0.None? <==> |PitchClasses(notes)| < 2
  {
    var pcs := PitchClasses(notes);
    if |pcs| < 2 then (None, notes)
    else
      match ChordMatch(notes)
      case Some(c) => (Some(FormatChordName(c / 14, Templates[c % 14].quality)), notes)
      case None => (Some("[" + Join("+", NamesOf(pcs)) + "]"), notes)
  }

  lemma JaccardAtMostOne(a: set<int>, b: set<int>)
    ensures |a * b| <= |a + b|
    ensures a != b ==> |a * b| < |a + b|
  {
    assert |a + b| == |a - b| + |b - a| + |a * b|;
    if a - b == {} && b - a == {} {
      forall x ensures x in a <==> x in b {
        assert x !in a - b && x !in b - a;
      }
      assert a == b;
    }
  }

  lemma ScoreBound(pcs: set<int>, expected: set<int>)
    ensures pcs != expected ==> Score(pcs, expected) < 1.0
    ensures pcs == expected && |pcs| > 0 ==> Score(pcs, expected) == 1.5
  {
    JaccardAtMostOne(pcs, expected);
    var total := |pcs + expected|;
    if pcs != expected && total > 0 {
      assert (|pcs * expected| as real) < total as real;
    }
    if pcs == expected && |pcs| > 0 {
      assert pcs * expected == pcs + expected;
    }
  }

  /** When the pitch classes are exactly those of some candidate, the chord is
      named, and by a candidate with exactly those pitch classes that comes no
      later in the search order. */
  lemma ExactMatchNamed(notes: seq<int>, c: nat)
    requires c < CandidateCount
    requires |PitchClasses(notes)| >= 2
    requires CandidateSet(c) == PitchClassSet(notes)
    ensures ChordMatch(notes).Some?
    ensures CandidateSet(ChordMatch(notes).value) == PitchClassSet(notes)
    ensures ChordMatch(notes).value <= c
  {
    var pcs := PitchClassSet(notes);
    assert PitchClasses(notes)[0] in pcs;
    ScoreBound(pcs, CandidateSet(c));
    var b := Best(pcs);
    assert CandidateScore(pcs, c) == 1.5;
    if b.0.Some? {
      ScoreBound(pcs, CandidateSet(b.0.value));
    }
  }

  /** A name is given from the templates exactly when the best score reaches
      0.6; it never ties with a later candidate of equal score. */
  lemma MatchThreshold(notes: seq<int>)
    ensures ChordMatch(notes).Some? <==> Best(PitchClassSet(notes)).1 >= 0.6
    ensures ChordMatch(notes).Some? ==>
      var c := ChordMatch(notes).value;
      CandidateScore(PitchClassSet(notes), c) >= 0.6 &&
      (forall d :: 0 <= d < CandidateCount ==> CandidateScore(PitchClassSet(notes), d) <= CandidateScore(PitchClassSet(notes), c)) &&
      (forall d :: 0 <= d < c ==> CandidateScore(PitchClassSet(notes), d) < CandidateScore(PitchClassSet(notes), c))
  {
  }

  // ---------------------------------------------------------------------
  // Detection

  datatype Chord = Chord(time: int, name: string, notes: seq<int>)

  /** A slice is reported when it has enough notes and at least two pitch classes. */
  predicate IsReportable(s: Slice, minNotes: int)
  {
    |s.pitches| >= minNotes && |PitchClasses(s.pitches)| >= 2
  }

  function Reportable(minNotes: int): Slice -> bool
  {
    (s: Slice) => IsReportable(s, minNotes)
  }

  function ChordTimes(chords: seq<Chord>): set<int>
  {
    set k | 0 <= k < |chords| :: chords[k].time
  }

  function ReportableTimes(slices: seq<Slice>, minNotes: int): set<int>
  {
    TimesWhere(slices, Reportable(minNotes))
  }

  /** The loop of `detect_chords` over the slices. */
  function DetectInSlices(slices: seq<Slice>, minNotes: int): (r: seq<Chord>)
    ensures |r| == CountWhere(slices, Reportable(minNotes))
    ensures forall k :: 0 <= k < |r| ==>
      |r[k].notes| >= minNotes && IdentifyChord(r[k].notes).0 == Some(r[k].name)
    ensures ChordTimes(r) == ReportableTimes(slices, minNotes)
  {
    if |slices| == 0 then []
    else
      var s := slices[|slices| - 1];
      var prev := DetectInSlices(slices[..|slices| - 1], minNotes);
      var id := IdentifyChord(s.pitches);
      TimesWhereStep(slices, Reportable(minNotes));
      if |s.pitches| >= minNotes && id.0.Some? then
        ChordTimesAppend(prev, Chord(s.time, id.0.value, s.pitches));
        prev + [Chord(s.time, id.0.value, s.pitches)]
      else prev
  }

  function TimesWhere(slices: seq<Slice>, f: Slice -> bool): set<int>
  {
    set i | 0 <= i < |slices| && f(slices[i]) :: slices[i].time
  }

  lemma TimesWhereStep(slices: seq<Slice>, f: Slice -> bool)
    requires |slices| > 0
    ensures var s := slices[|slices| - 1];
      TimesWhere(slices, f) == TimesWhere(slices[..|slices| - 1], f) + (if f(s) then {s.time} else {})
  {
    var init := slices[..|slices| - 1];
    var s := slices[|slices| - 1];
    forall x | x in TimesWhere(slices, f)
      ensures x in TimesWhere(init, f) + (if f(s) then {s.time} else {})
    {
      var i :| 0 <= i < |slices| && f(slices[i]) && slices[i].time == x;
      if i < |init| {
        assert init[i] == slices[i];
      }
    }
    forall x | x in TimesWhere(init, f) ensures x in TimesWhere(slices, f) {
      var i :| 0 <= i < |init| && f(init[i]) && init[i].time == x;
      assert slices[i] == init[i];
    }
  }

  lemma ChordTimesAppend(prev: seq<Chord>, c: Chord)
    ensures ChordTimes(prev + [c]) == ChordTimes(prev) + {c.time}
  {
    var r := prev + [c];
    forall x | x in ChordTimes(r) ensures x in ChordTimes(prev) + {c.time} {
      var k :| 0 <= k < |r| && r[k].time == x;
      if k < |prev| { assert r[k] == prev[k]; }
    }
    forall x | x in ChordTimes(prev) ensures x in ChordTimes(r) {
      var k :| 0 <= k < |prev| && prev[k].time == x;
      assert r[k] == prev[k];
    }
    assert r[|prev|].time == c.time;
  }

  /** `detect_chords` with the grid already in ticks, int(ticks_per_beat * quantize_beats). */
  function DetectChords(file: MidiFile, q: int, minNotes: int): (r: Result<seq<Chord>>)
    ensures r.Err? <==> |PairTracks(file.tracks)| > 0 && q == 0
  {
    var notes := ExtractSorted(file.tracks);
    match QuantizeNotes(notes, q)
    case Err(e) => Err(e)
    case Ok(slices) => Ok(DetectInSlices(slices, minNotes))
  }

  // ---------------------------------------------------------------------
  // Key guess

  /** The root parsed from a chord name: two characters when the name contains
      a sharp, otherwise one. */
  function RootText(name: string): string
    requires |name| > 0
  {
    if '#' in name then PyTake(name, 2) else name[..1]
  }

  function Roots(chords: seq<Chord>): (r: seq<string>)
    requires forall k :: 0 <= k < |chords| ==> |chords[k].name| > 0
    ensures forall x :: x in r ==> x in NoteNames
  {
    if |chords| == 0 then []
    else
      var prev := Roots(chords[..|chords| - 1]);
      var root := RootText(chords[|chords| - 1].name);
      if root in NoteNames then prev + [root] else prev
  }

  /** `'m' in name and 'maj' not in name` */
  predicate CountsAsMinor(name: string)
  {
    'm' in name && !HasSubstring(name, "maj")
  }

  function MinorCount(chords: seq<Chord>): (r: nat)
    ensures r <= |chords|
  {
    if |chords| == 0 then 0
    else MinorCount(chords[..|chords| - 1]) + (if CountsAsMinor(chords[|chords| - 1].name) then 1 else 0)
  }

  /** `analyze_key`: "Unknown" without chords or parseable roots; otherwise the
      most common root, called minor when more chords count as minor than not. */
  function AnalyzeKey(chords: seq<Chord>): (r: string)
    requires forall k :: 0 <= k < |chords| ==> |chords[k].name| > 0
    ensures |Roots(chords)| == 0 <==> r == "Unknown"
  {
    var roots := Roots(chords);
    if |chords| == 0 || |roots| == 0 then "Unknown"
    else
      var root := MostCommon(roots);
      var minor := MinorCount(chords);
      if minor > |chords| - minor then root + " minor (likely)" else root + " major (likely)"
  }

  /** The symbols contain no sharp, so the root parsed back from a formatted
      name is the root it was formatted with. */
  lemma RootOfFormatted(root: int, t: nat)
    requires 0 <= root < 12 && t < |Templates|
    ensures RootText(FormatChordName(root, Templates[t].quality)) == NoteNames[root]
  {
    SymbolOfTemplate(t);
    SymbolHasNoSharp(t);
    NameShape(root);
    RootOfConcat(NoteNames[root], Templates[t].symbol);
  }

  /** A root name followed by a symbol without a sharp parses back to the
      root name. */
  lemma RootOfConcat(nn: string, sym: string)
    requires |nn| == (if '#' in nn then 2 else 1)
    requires '#' !in sym
    ensures RootText(nn + sym) == nn
  {
    var name := nn + sym;
    if '#' in nn {
      assert '#' in name;
      assert name[..2] == nn;
    } else {
      assert '#' !in name;
      assert name[..1] == nn;
    }
  }

  lemma NameShape(k: int)
    requires 0 <= k < 12
    ensures |NoteNames[k]| == (if '#' in NoteNames[k] then 2 else 1)
  {
    if k < 6 {
      if k == 0 {} else if k == 1 {} else if k == 2 {} else if k == 3 {} else if k == 4 {} else {}
    } else {
      if k == 6 {} else if k == 7 {} else if k == 8 {} else if k == 9 {} else if k == 10 {} else {}
    }
  }

  lemma SymbolHasNoSharp(t: nat)
    requires t < |Templates|
    ensures '#' !in Templates[t].symbol
  {
    if t < 7 {
      if t == 0 {} else if t == 1 {} else if t == 2 {} else if t == 3 {} else if t == 4 {} else if t == 5 {} else {}
    } else {
      if t == 7 {} else if t == 8 {} else if t == 10 {} else if t == 11 {} else if t == 12 {} else if t == 13 {}
    else {
      assert Templates[t].symbol == "m7b5";
      NoMajInHalfDiminished();
    }
    }
  }

  lemma SymbolOfTemplate(t: nat)
    requires t < |Templates|
    ensures QualitySymbol(Templates[t].quality) == Templates[t].symbol
  {
    SymbolFromFirst(t, 0);
  }

  lemma {:induction false} SymbolFromFirst(t: nat, k: nat)
    requires k <= t < |Templates|
    ensures SymbolFrom(Templates[t].quality, k) == Templates[t].symbol
    decreases t - k
  {
    if k < t {
      assert Templates[k].quality != Templates[t].quality;
      SymbolFromFirst(t, k + 1);
    }
  }

  /** A bracketed name of an unidentified chord never yields a root. */
  lemma BracketHasNoRoot(names: seq<string>)
    requires |names| > 0
    ensures RootText("[" + Join("+", names) + "]") !in NoteNames
  {
    var name := "[" + Join("+", names) + "]";
    assert name[0] == '[';
    var r := RootText(name);
    assert r[0] == '[';
    forall k | 0 <= k < |NoteNames| ensures NoteNames[k] != r {
      NameStart(k);
    }
  }

  lemma NameStart(k: int)
    requires 0 <= k < 12
    ensures |NoteNames[k]| > 0 && NoteNames[k][0] != '['
    ensures 'm' !in NoteNames[k]
  {
    if k < 6 {
      if k == 0 {} else if k == 1 {} else if k == 2 {} else if k == 3 {} else if k == 4 {} else {}
    } else {
      if k == 6 {} else if k == 7 {} else if k == 8 {} else if k == 9 {} else if k == 10 {} else {}
    }
  }

  lemma {:induction false} SubstringSkip(a: string, b: string, sub: string)
    requires |sub| > 0 && sub[0] !in a
    ensures HasSubstring(a + b, sub) <==> HasSubstring(b, sub)
  {
    if |a| > 0 {
      assert (a + b)[1..] == a[1..] + b;
      assert (a + b)[0] == a[0];
      SubstringSkip(a[1..], b, sub);
    } else {
      assert a + b == b;
    }
  }

  /** Which qualities `analyze_key` counts as minor: every quality whose symbol
      has an 'm' but not "maj", so the diminished chords count as minor too. */
  lemma MinorQualities(root: int, t: nat)
    requires 0 <= root < 12 && t < |Templates|
    ensures CountsAsMinor(FormatChordName(root, Templates[t].quality)) <==> Templates[t].quality in MinorNames
  {
    SymbolOfTemplate(t);
    NameStart(root);
    var sym := Templates[t].symbol;
    SubstringSkip(NoteNames[root], sym, "maj");
    assert 'm' in NoteNames[root] + sym <==> 'm' in sym;
    if t < 7 {
      MinorSymbolLow(t);
    } else {
      MinorSymbolHigh(t);
    }
  }

  /** The qualities whose chord names count as minor. */
  const MinorNames: set<string> := {"minor", "diminished", "minor7", "minorMaj7", "diminished7", "halfDiminished7"}

  lemma MinorSymbolLow(t: nat)
    requires t < 7
    ensures CountsAsMinor(Templates[t].symbol) <==> Templates[t].quality in MinorNames
  {
    if t == 0 {} else if t == 1 {} else if t == 2 {} else if t == 3 {} else if t == 4 {} else if t == 5 {} else {}
  }

  lemma MinorSymbolHigh(t: nat)
    requires 7 <= t < |Templates|
    ensures CountsAsMinor(Templates[t].symbol) <==> Templates[t].quality in MinorNames
  {
    if t == 7 {} else if t == 8 {} else if t == 10 {} else if t == 11 {} else if t == 12 {} else if t == 13 {}
    else {
      assert Templates[t].symbol == "m7b5";
      NoMajInHalfDiminished();
    }
  }

  lemma NoMajInHalfDiminished()
    ensures !HasSubstring("m7b5", "maj")
  {
    assert "m7b5"[1] != "maj"[1];
    assert "m7b5"[1..] == "7b5";
    assert 'm' !in "7b5";
    LeadNotIn("7b5", "maj");
  }

  /** A string without the first character of sub does not contain sub. */
  lemma {:induction false} LeadNotIn(s: string, sub: string)
    requires |sub| > 0 && sub[0] !in s
    ensures !HasSubstring(s, sub)
  {
    if |s| > 0 {
      assert s[0] != sub[0];
      LeadNotIn(s[1..], sub);
    }
  }
}

=== FILE: chord_generator.dfy ===
/** Chord-only MIDI generation (chord_generator.py): every chord's pitch
    classes are placed in one octave inside the piano range, then played as a
    block, an arpeggio or a broken figure; a text chart groups chord names by
    4/4 measure. */
module ChordGenerator {
  import opened Base
  import opened Sorting
  import opened Midi
  import opened ChordDetector

  /** A0 and C8, the ends of the piano keyboard. */
  const LowestKey: int := 21
  const HighestKey: int := 108

  // ---------------------------------------------------------------------
  // Octave normalisation

  /** `while midi_note < 21: midi_note += 12` */
  function RaiseIntoRange(m: int): (r: int)
    ensures r >= LowestKey && r % 12 == m % 12
    ensures m >= LowestKey ==> r == m
    ensures m < LowestKey ==> r < LowestKey + 12
    decreases LowestKey - m
  {
    if m < LowestKey then RaiseIntoRange(m + 12) else m
  }

  /** `while midi_note > 108: midi_note -= 12` */
  function LowerIntoRange(m: int): (r: int)
    ensures r <= HighestKey && r % 12 == m % 12
    ensures m <= HighestKey ==> r == m
    ensures m > HighestKey ==> r > HighestKey - 12
    decreases m
  {
    if m > HighestKey then LowerIntoRange(m - 12) else m
  }

  /** Both loops in turn: the note moved by octaves onto the keyboard. */
  function OntoKeyboard(m: int): (r: int)
    ensures LowestKey <= r <= HighestKey
    ensures r % 12 == m % 12
    ensures LowestKey <= m <= HighestKey ==> r == m
  {
    LowerIntoRange(RaiseIntoRange(m))
  }

  function Placed(pcs: seq<int>, base: int): (r: seq<int>)
    ensures |r| == |pcs|
    ensures forall k :: 0 <= k < |pcs| ==> r[k] == OntoKeyboard(base + pcs[k])
  {
    seq(|pcs|, k requires 0 <= k < |pcs| => OntoKeyboard(base + pcs[k]))
  }

  /** `_normalize_to_octave`: each distinct pitch class once, starting from
      the C of the target octave, moved onto the keyboard, sorted. The placed
      notes have distinct pitch classes, so sorting them sorts their set. */
  function Normalize(notes: seq<int>, octave: int): (r: seq<int>)
    ensures |notes| == 0 ==> r == []
    ensures Increasing(r)
    ensures forall k :: 0 <= k < |r| ==> LowestKey <= r[k] <= HighestKey
  {
    if |notes| == 0 then []
    else
      var p := Placed(PitchClasses(notes), 12 * (octave + 1));
      var r := SortedSet(p);
      assert forall k :: 0 <= k < |r| ==> LowestKey <= r[k] <= HighestKey by {
        forall k | 0 <= k < |r| ensures LowestKey <= r[k] <= HighestKey {
          assert r[k] in p;
        }
      }
      r
  }

  /** Placing increasing pitch classes above a C keeps each class and
      keeps them apart. */
  lemma PlacedClasses(pcs: seq<int>, base: int)
    requires base % 12 == 0 && Increasing(pcs)
    requires forall k :: 0 <= k < |pcs| ==> 0 <= pcs[k] < 12
    ensures forall k :: 0 <= k < |pcs| ==> Placed(pcs, base)[k] % 12 == pcs[k]
    ensures forall i, j :: 0 <= i < j < |pcs| ==> Placed(pcs, base)[i] != Placed(pcs, base)[j]
  {
    var p := Placed(pcs, base);
    forall k | 0 <= k < |pcs| ensures p[k] % 12 == pcs[k] {
      DivUnique(base + pcs[k], 12, base / 12, pcs[k]);
    }
  }

  /** The notes of r have exactly the pitch classes pcs, one note each. */
  ghost predicate ClassesOf(r: seq<int>, pcs: seq<int>)
  {
    && |r| == |pcs|
    && (forall k :: 0 <= k < |r| ==> r[k] % 12 in pcs)
    && (forall pc :: pc in pcs ==> exists k :: 0 <= k < |r| && r[k] % 12 == pc)
  }

  lemma SortedPlaced(pcs: seq<int>, base: int)
    requires base % 12 == 0 && Increasing(pcs)
    requires forall k :: 0 <= k < |pcs| ==> 0 <= pcs[k] < 12
    ensures ClassesOf(SortedSet(Placed(pcs, base)), pcs)
  {
    var p := Placed(pcs, base);
    var r := SortedSet(p);
    PlacedClasses(pcs, base);
    SortedSetDistinct(p);
    forall k | 0 <= k < |r| ensures r[k] % 12 in pcs {
      assert r[k] in p;
      var i :| 0 <= i < |p| && p[i] == r[k];
    }
    forall pc | pc in pcs ensures exists k :: 0 <= k < |r| && r[k] % 12 == pc {
      var i :| 0 <= i < |pcs| && pcs[i] == pc;
      assert p[i] in r;
      var k :| 0 <= k < |r| && r[k] == p[i];
    }
  }

  /** One output note per distinct input pitch class, with that pitch class. */
  lemma NormalizeClasses(notes: seq<int>, octave: int)
    ensures ClassesOf(Normalize(notes, octave), PitchClasses(notes))
  {
    var pcs := PitchClasses(notes);
    if |notes| > 0 {
      var base := 12 * (octave + 1);
      assert Normalize(notes, octave) == SortedSet(Placed(pcs, base));
      DivUnique(base, 12, octave + 1, 0);
      SortedPlaced(pcs, base);
    } else {
      assert Normalize(notes, octave) == [] && pcs == [];
    }
  }

  /** In the middle octave nothing needs moving: pitch class pc becomes 60 + pc. */
  lemma NormalizeMiddleOctave(notes: seq<int>)
    requires |notes| > 0
    ensures var pcs := PitchClasses(notes);
      Normalize(notes, 4) == seq(|pcs|, k requires 0 <= k < |pcs| => 60 + pcs[k])
  {
    var pcs := PitchClasses(notes);
    assert Normalize(notes, 4) == SortedSet(Placed(pcs, 60));
    PlacedMiddle(pcs);
    SortedSetOfIncreasing(Placed(pcs, 60));
  }

  /** Pitch classes placed above middle C are already on the keyboard. */
  lemma PlacedMiddle(pcs: seq<int>)
    requires Increasing(pcs)
    requires forall k :: 0 <= k < |pcs| ==> 0 <= pcs[k] < 12
    ensures Placed(pcs, 60) == seq(|pcs|, k requires 0 <= k < |pcs| => 60 + pcs[k])
    ensures Increasing(Placed(pcs, 60))
  {
    var p := Placed(pcs, 60);
    forall k | 0 <= k < |pcs| ensures p[k] == 60 + pcs[k] {
      assert LowestKey <= 60 + pcs[k] <= HighestKey;
    }
  }

  // ---------------------------------------------------------------------
  // Voicings

  datatype Voicing = Block | Arpeggio | Broken

  function ParseVoicing(v: string): (r: Result<Voicing>)
    ensures r.Err? <==> v != "block" && v != "arpeggio" && v != "broken"
  {
    if v == "block" then Ok(Block)
    else if v == "arpeggio" then Ok(Arpeggio)
    else if v == "broken" then Ok(Broken)
    else Err("Unknown voicing style: " + v)
  }

  /** Ticks to the next chord, or four beats after the last one. */
  function Span(chords: seq<Chord>, i: nat, tpb: int): int
    requires i < |chords|
  {
    if i + 1 < |chords| then chords[i + 1].time - chords[i].time else tpb * 4
  }

  ghost predicate OnKeyboard(ns: seq<int>)
  {
    forall k :: 0 <= k < |ns| ==> LowestKey <= ns[k] <= HighestKey
  }

  /** The block figure: all note_ons (the first after delta), then all
      note_offs (the first after dur). */
  function Together(ns: seq<int>, delta: int, dur: int, vel: U7): (r: Track)
    requires OnKeyboard(ns)
    ensures |r| == 2 * |ns|
  {
    seq(|ns|, j requires 0 <= j < |ns| => NoteOn(ns[j], vel, 0, if j == 0 then delta else 0))
      + seq(|ns|, j requires 0 <= j < |ns| => NoteOff(ns[j], 0, 0, if j == 0 then dur else 0))
  }

  /** The arpeggio and broken figures: each note on then off after dur; the
      first note_on comes after first, later ones after gap. */
  function OneByOne(ns: seq<int>, first: int, gap: int, dur: int, vel: U7): (r: Track)
    requires OnKeyboard(ns)
    ensures |r| == 2 * |ns|
  {
    if |ns| == 0 then []
    else [NoteOn(ns[0], vel, 0, first), NoteOff(ns[0], 0, 0, dur)] + OneByOne(ns[1..], gap, gap, dur, vel)
  }

  /** The messages of one chord. The arpeggio divides its span among the
      notes, which raises for a chord without notes. */
  function ChordPart(v: Voicing, ns: seq<int>, delta: int, span: int, tpb: int, vel: U7): (r: Result<Track>)
    requires OnKeyboard(ns)
    ensures r.Err? <==> v == Arpeggio && |ns| == 0
  {
    match v
    case Block => Ok(Together(ns, delta, Max(span, tpb), vel))
    case Arpeggio =>
      if |ns| == 0 then Err("integer division or modulo by zero")
      else Ok(OneByOne(ns, delta, 0, FloorDiv(span, |ns|), vel))
    case Broken => Ok(OneByOne(ns, delta, FloorDiv(tpb, 4), FloorDiv(tpb, 2), vel))
  }

  /** How far the generator believes a chord moved the clock. */
  function Advance(v: Voicing, span: int, tpb: int): int
  {
    if v == Block then Max(span, tpb) else span
  }

  /** The messages of chord i when the clock stands at `current`. */
  function Part(chords: seq<Chord>, i: nat, current: int, v: Voicing, octave: int, vel: U7, tpb: int): (r: Result<Track>)
    requires i < |chords|
    ensures r.Err? <==> v == Arpeggio && |chords[i].notes| == 0
  {
    ChordPart(v, Normalize(chords[i].notes, octave), chords[i].time - current, Span(chords, i, tpb), tpb, vel)
  }

  /** The clock after chord i. As written, it is the chord's time plus Advance;
      the corrected loop (fixed) moves it to where the chord's messages end. */
  function Clock(chords: seq<Chord>, i: nat, current: int, part: Track, v: Voicing, tpb: int, fixed: bool): int
    requires i < |chords|
  {
    if fixed then current + TimeSpan(part) else chords[i].time + Advance(v, Span(chords, i, tpb), tpb)
  }

  /** The generation loop from chord i, one part per chord, `current` being
      the generator's idea of the track's clock. */
  function RenderParts(chords: seq<Chord>, i: nat, current: int, v: Voicing, octave: int, vel: U7,
                       tpb: int, fixed: bool): (r: Result<seq<Track>>)
    requires i <= |chords|
    ensures r.Ok? ==> |r.value| == |chords| - i
    ensures r.Err? ==> v == Arpeggio
    ensures (forall k :: i <= k < |chords| ==> |chords[k].notes| > 0) ==> r.Ok?
    decreases |chords| - i
  {
    if i == |chords| then Ok([])
    else
      match Part(chords, i, current, v, octave, vel, tpb)
      case Err(e) => Err(e)
      case Ok(part) =>
        match RenderParts(chords, i + 1, Clock(chords, i, current, part, v, tpb, fixed), v, octave, vel, tpb, fixed)
        case Err(e) => Err(e)
        case Ok(rest) => Ok([part] + rest)
  }

  lemma RenderStep(chords: seq<Chord>, i: nat, current: int, v: Voicing, octave: int, vel: U7, tpb: int, fixed: bool)
    requires i < |chords|
    ensures RenderParts(chords, i, current, v, octave, vel, tpb, fixed).Ok? ==>
      && Part(chords, i, current, v, octave, vel, tpb).Ok?
      && var part := Part(chords, i, current, v, octave, vel, tpb).value;
         var next := Clock(chords, i, current, part, v, tpb, fixed);
         && RenderParts(chords, i + 1, next, v, octave, vel, tpb, fixed).Ok?
         && RenderParts(chords, i, current, v, octave, vel, tpb, fixed).value
            == [part] + RenderParts(chords, i + 1, next, v, octave, vel, tpb, fixed).value
  {
  }

  /** mido's `bpm2tempo`, `int(round(60 * 1e6 / bpm))`: microseconds per
      beat, rounded half to even, which rounds a negative ratio to minus the
      rounded magnitude. A bpm of 0 divides by zero. */
  function Bpm2Tempo(bpm: int): (r: int)
    requires bpm != 0
    ensures bpm > 0 ==> r >= 0 && Abs(2 * (60000000 - r * bpm)) <= bpm
    ensures bpm < 0 ==> r <= 0 && Abs(2 * (60000000 - r * bpm)) <= -bpm
  {
    var q := RoundRatio(60000000, Abs(bpm));
    RoundRatioNonNeg(60000000, Abs(bpm));
    if bpm > 0 then q
    else
      assert (-q) * bpm == q * Abs(bpm);
      -q
  }

  /** mido accepts a set_tempo value only within 0..0xFFFFFF (three bytes). */
  predicate TempoOk(bpm: int)
  {
    bpm != 0 && 0 <= Bpm2Tempo(bpm) <= 0xFF_FFFF
  }

  /** The tempos the chord track can be written at: at least 4 beats per
      minute, or a negative bpm whose tempo rounds to 0. */
  lemma TempoRange(bpm: int)
    ensures TempoOk(bpm) <==> bpm >= 4 || bpm <= -120000000
  {
    if bpm >= 4 {
      FastTempo(bpm);
    } else if 0 < bpm < 4 {
      SlowTempo(bpm);
    } else if bpm < 0 {
      NegativeTempo(bpm);
    }
  }

  /** From 4 beats per minute up the tempo fits in three bytes. */
  lemma FastTempo(bpm: int)
    requires bpm >= 4
    ensures 0 <= Bpm2Tempo(bpm) <= 0xFF_FFFF
  {
    var r := Bpm2Tempo(bpm);
    assert r * bpm <= 60000000 + bpm;
  }

  /** Below 4 beats per minute the tempo does not fit in three bytes. */
  lemma SlowTempo(bpm: int)
    requires 0 < bpm < 4
    ensures Bpm2Tempo(bpm) > 0xFF_FFFF
  {
    assert bpm == 1 || bpm == 2 || bpm == 3;
  }

  /** A negative bpm gives a tempo of at most 0, and 0 exactly when it
      rounds away. */
  lemma NegativeTempo(bpm: int)
    requires bpm < 0
    ensures Bpm2Tempo(bpm) <= 0
    ensures Bpm2Tempo(bpm) == 0 <==> bpm <= -120000000
  {
    var n := -bpm;
    var q := RoundRatio(60000000, n);
    assert n >= 120000000 ==> q == 0;
  }

  /** `generate_chord_midi` up to saving: nothing for no chords, an error for
      a bpm whose tempo mido cannot write or for an unknown voicing, otherwise the tempo, time signature and name metas,
      the chords, and end_of_track. */
  function GenerateChordTrack(chords: seq<Chord>, voicing: string, octave: int, vel: U7,
                              bpm: int, tpb: int, fixed: bool): (r: Result<Option<Track>>)
    ensures |chords| == 0 ==> r == Ok(None)
    ensures |chords| > 0 && !TempoOk(bpm) ==> r.Err?
    ensures |chords| > 0 && ParseVoicing(voicing).Err? ==> r.Err?
    ensures r.Err? ==> !TempoOk(bpm) || ParseVoicing(voicing).Err? || voicing == "arpeggio"
    ensures (&& |chords| > 0 && TempoOk(bpm) && ParseVoicing(voicing).Ok?
             && forall k :: 0 <= k < |chords| ==> |chords[k].notes| > 0)
      ==> r.Ok? && r.value.Some?
    ensures r.Ok? && r.value.Some? ==>
      var t := r.value.value;
      && |t| >= 4
      && TempoOk(bpm)
      && t[0] == Meta(SetTempo(Bpm2Tempo(bpm)), 0)
      && t[1] == Meta(TimeSignature(4, 4), 0)
      && t[2] == Meta(TrackName("Chord Progression"), 0)
      && ParseVoicing(voicing).Ok?
      && RenderParts(chords, 0, 0, ParseVoicing(voicing).value, octave, vel, tpb, fixed).Ok?
      && t[3..|t| - 1] == Concat(RenderParts(chords, 0, 0, ParseVoicing(voicing).value, octave, vel, tpb, fixed).value)
      && t[|t| - 1] == Meta(EndOfTrack, 0)
  {
    if |chords| == 0 then Ok(None)
    else if bpm == 0 then Err("float division by zero")
    else if !TempoOk(bpm) then Err("set_tempo out of range")
    else
      match ParseVoicing(voicing)
      case Err(e) => Err(e)
      case Ok(v) =>
        match RenderParts(chords, 0, 0, v, octave, vel, tpb, fixed)
        case Err(e) => Err(e)
        case Ok(parts) =>
          var header := [Meta(SetTempo(Bpm2Tempo(bpm)), 0), Meta(TimeSignature(4, 4), 0),
                         Meta(TrackName("Chord Progression"), 0)];
          Framed(header, Concat(parts), Meta(EndOfTrack, 0));
          Ok(Some(header + Concat(parts) + [Meta(EndOfTrack, 0)]))
  }

  lemma Framed(header: Track, body: Track, last: Msg)
    requires |header| == 3
    ensures var t := header + body + [last];
      |t| >= 4 && t[..3] == header && t[3..|t| - 1] == body && t[|t| - 1] == last
  {
    var t := header + body + [last];
    assert t[..3] == header;
    assert t[3..|t| - 1] == body;
  }

  // ---------------------------------------------------------------------
  // Timing of the figures

  /** Messages with zero delta do not move the clock. */
  lemma {:induction false} FlatRun(t: Track, lo: nat, hi: nat)
    requires lo <= hi <= |t|
    requires forall k :: lo <= k < hi ==> t[k].time == 0
    ensures AbsTime(t, hi) == AbsTime(t, lo)
    decreases hi - lo
  {
    if lo < hi {
      FlatRun(t, lo, hi - 1);
    }
  }

  /** In a block chord every note_on falls at delta and every note_off dur
      ticks later. */
  lemma TogetherTiming(ns: seq<int>, delta: int, dur: int, vel: U7)
    requires OnKeyboard(ns) && |ns| > 0
    ensures var t := Together(ns, delta, dur, vel);
      && t[0].time == delta
      && (forall j :: 1 <= j <= |ns| ==>
            t[j - 1].NoteOn? && t[j - 1].note == ns[j - 1] && t[j - 1].velocity == vel && AbsTime(t, j) == delta)
      && (forall j :: |ns| < j <= 2 * |ns| ==>
            t[j - 1].NoteOff? && t[j - 1].note == ns[j - 1 - |ns|] && t[j - 1].velocity == 0 && AbsTime(t, j) == delta + dur)
      && TimeSpan(t) == delta + dur
  {
    var t := Together(ns, delta, dur, vel);
    var n := |ns|;
    assert forall k :: 0 <= k < n ==> t[k] == NoteOn(ns[k], vel, 0, if k == 0 then delta else 0);
    assert forall k :: n <= k < 2 * n ==> t[k] == NoteOff(ns[k - n], 0, 0, if k == n then dur else 0);
    assert AbsTime(t, 1) == delta;
    forall j | 1 <= j <= n ensures AbsTime(t, j) == delta {
      FlatRun(t, 1, j);
    }
    assert AbsTime(t, n + 1) == delta + dur;
    forall j | n < j <= 2 * n ensures AbsTime(t, j) == delta + dur {
      FlatRun(t, n + 1, j);
    }
  }

  /** Note j of a one-by-one figure sounds from first + j*(gap+dur) for dur ticks. */
  lemma {:induction false} OneByOneTiming(ns: seq<int>, first: int, gap: int, dur: int, vel: U7, j: nat)
    requires OnKeyboard(ns) && j < |ns|
    ensures var t := OneByOne(ns, first, gap, dur, vel);
      && t[0].time == first
      && t[2 * j] == NoteOn(ns[j], vel, 0, if j == 0 then first else gap)
      && t[2 * j + 1] == NoteOff(ns[j], 0, 0, dur)
      && AbsTime(t, 2 * j + 1) == first + j * (gap + dur)
      && AbsTime(t, 2 * j + 2) == first + j * (gap + dur) + dur
    decreases j
  {
    var t := OneByOne(ns, first, gap, dur, vel);
    var head: Track := [NoteOn(ns[0], vel, 0, first), NoteOff(ns[0], 0, 0, dur)];
    var rest := OneByOne(ns[1..], gap, gap, dur, vel);
    assert t == head + rest;
    assert AbsTime(head, 1) == first;
    assert TimeSpan(head) == first + dur;
    if j > 0 {
      OneByOneTiming(ns[1..], gap, gap, dur, vel, j - 1);
      AbsTimeAppend(head, rest, 2 * (j - 1) + 1);
      AbsTimeAppend(head, rest, 2 * (j - 1) + 2);
      assert first + dur + gap + (j - 1) * (gap + dur) == first + j * (gap + dur);
    } else {
      assert AbsTime(t, 1) == first;
      assert AbsTime(t, 2) == first + dur;
    }
  }

  /** The first message of a chord's part comes after delta, and the part lasts
      delta plus what the voicing plays. */
  lemma PartTiming(v: Voicing, ns: seq<int>, delta: int, span: int, tpb: int, vel: U7)
    requires OnKeyboard(ns) && |ns| > 0
    ensures var p := ChordPart(v, ns, delta, span, tpb, vel).value;
      && |p| > 0 && p[0].time == delta
      && (v == Block ==> TimeSpan(p) == delta + Max(span, tpb))
      && (v == Arpeggio ==> TimeSpan(p) == delta + span - span % |ns|)
      && (v == Broken ==> TimeSpan(p) == delta + (|ns| - 1) * (FloorDiv(tpb, 4) + FloorDiv(tpb, 2)) + FloorDiv(tpb, 2))
  {
    match v
    case Block => TogetherTiming(ns, delta, Max(span, tpb), vel);
    case Arpeggio => ArpeggioTiming(ns, delta, span, tpb, vel);
    case Broken => OneByOneTiming(ns, delta, FloorDiv(tpb, 4), FloorDiv(tpb, 2), vel, |ns| - 1);
  }

  /** An arpeggio gives each note the floor of span / n ticks, so it plays
      the span less the remainder. */
  lemma ArpeggioTiming(ns: seq<int>, delta: int, span: int, tpb: int, vel: U7)
    requires OnKeyboard(ns) && |ns| > 0
    ensures ChordPart(Arpeggio, ns, delta, span, tpb, vel).Ok?
    ensures var p := ChordPart(Arpeggio, ns, delta, span, tpb, vel).value;
      |p| > 0 && p[0].time == delta && TimeSpan(p) == delta + span - span % |ns|
  {
    var n := |ns|;
    var d := FloorDiv(span, n);
    OneByOneTiming(ns, delta, 0, d, vel, n - 1);
    assert 2 * (n - 1) + 2 == n * 2;
    SpreadEvenly(delta, span, n, d);
  }

  lemma SpreadEvenly(delta: int, span: int, n: int, d: int)
    requires n > 0 && d == FloorDiv(span, n)
    ensures delta + (n - 1) * (0 + d) + d == delta + span - span % n
  {
    assert (n - 1) * d + d == n * d;
    assert d == span / n;
  }

  lemma NormalizeNonEmpty(notes: seq<int>, octave: int)
    requires |notes| > 0
    ensures |Normalize(notes, octave)| > 0
  {
    NormalizeClasses(notes, octave);
    assert notes[0] % 12 in PitchClasses(notes);
  }

  /** Where part k starts: the length of the parts before it plus its own
      first delta. */
  function Onset(parts: seq<Track>, k: nat): int
    requires k < |parts| && |parts[k]| > 0
  {
    TimeSpan(Concat(parts[..k])) + parts[k][0].time
  }

  lemma OnsetCons(part: Track, rest: seq<Track>, k: nat)
    requires 0 < k <= |rest| && |rest[k - 1]| > 0
    ensures Onset([part] + rest, k) == TimeSpan(part) + Onset(rest, k - 1)
  {
    var parts := [part] + rest;
    assert parts[..k] == [part] + rest[..k - 1];
    assert Concat(parts[..k]) == part + Concat(rest[..k - 1]);
    TimeSpanAppend(part, Concat(rest[..k - 1]));
  }

  /** The first part's onset is its first delta. */
  lemma OnsetFirst(parts: seq<Track>)
    requires |parts| > 0 && |parts[0]| > 0
    ensures Onset(parts, 0) == parts[0][0].time
  {
    assert parts[..0] == [];
  }

  /** What the loop does to chord i: its part is not empty, starts after
      chords[i].time - current, and the corrected clock (and, for the block
      voicing, the clock as written) ends where the part ends. */
  lemma PartStep(chords: seq<Chord>, i: nat, current: int, v: Voicing, octave: int, vel: U7, tpb: int, fixed: bool)
    requires i < |chords| && |chords[i].notes| > 0
    ensures Part(chords, i, current, v, octave, vel, tpb).Ok?
    ensures var part := Part(chords, i, current, v, octave, vel, tpb).value;
      && |part| > 0 && part[0].time == chords[i].time - current
      && (fixed || v == Block ==> Clock(chords, i, current, part, v, tpb, fixed) == current + TimeSpan(part))
  {
    if v == Block {
      BlockStep(chords, i, current, octave, vel, tpb, fixed);
    } else {
      FigureStep(chords, i, current, v, octave, vel, tpb);
    }
  }

  /** PartStep for the block voicing: the part ends where the clock goes. */
  lemma BlockStep(chords: seq<Chord>, i: nat, current: int, octave: int, vel: U7, tpb: int, fixed: bool)
    requires i < |chords| && |chords[i].notes| > 0
    ensures Part(chords, i, current, Block, octave, vel, tpb).Ok?
    ensures var part := Part(chords, i, current, Block, octave, vel, tpb).value;
      && |part| > 0 && part[0].time == chords[i].time - current
      && Clock(chords, i, current, part, Block, tpb, fixed) == current + TimeSpan(part)
  {
    NormalizeNonEmpty(chords[i].notes, octave);
    var ns := Normalize(chords[i].notes, octave);
    var delta, span := chords[i].time - current, Span(chords, i, tpb);
    PartIsChordPart(chords, i, current, Block, octave, vel, tpb);
    var r := ChordPart(Block, ns, delta, span, tpb, vel);
    assert Part(chords, i, current, Block, octave, vel, tpb) == r;
    BlockTiming(ns, delta, span, tpb, vel);
    assert TimeSpan(r.value) == delta + Max(span, tpb);
    BlockClock(chords, i, current, r.value, tpb, fixed);
  }

  /** A part lasting delta plus the longer of its span and a beat ends where
      the block clock goes, as written and corrected. */
  lemma BlockClock(chords: seq<Chord>, i: nat, current: int, part: Track, tpb: int, fixed: bool)
    requires i < |chords|
    requires TimeSpan(part) == chords[i].time - current + Max(Span(chords, i, tpb), tpb)
    ensures Clock(chords, i, current, part, Block, tpb, fixed) == current + TimeSpan(part)
  {
  }

  /** PartStep for any voicing: the part starts delta ticks in. */
  lemma FigureStep(chords: seq<Chord>, i: nat, current: int, v: Voicing, octave: int, vel: U7, tpb: int)
    requires i < |chords| && |chords[i].notes| > 0
    ensures Part(chords, i, current, v, octave, vel, tpb).Ok?
    ensures var part := Part(chords, i, current, v, octave, vel, tpb).value;
      |part| > 0 && part[0].time == chords[i].time - current
  {
    NormalizeNonEmpty(chords[i].notes, octave);
    var ns := Normalize(chords[i].notes, octave);
    var delta, span := chords[i].time - current, Span(chords, i, tpb);
    PartIsChordPart(chords, i, current, v, octave, vel, tpb);
    PartStart(v, ns, delta, span, tpb, vel);
  }

  lemma PartIsChordPart(chords: seq<Chord>, i: nat, current: int, v: Voicing, octave: int, vel: U7, tpb: int)
    requires i < |chords|
    ensures Part(chords, i, current, v, octave, vel, tpb)
      == ChordPart(v, Normalize(chords[i].notes, octave), chords[i].time - current, Span(chords, i, tpb), tpb, vel)
  {
  }

  lemma BlockTiming(ns: seq<int>, delta: int, span: int, tpb: int, vel: U7)
    requires OnKeyboard(ns) && |ns| > 0
    ensures var p := ChordPart(Block, ns, delta, span, tpb, vel).value;
      |p| > 0 && p[0].time == delta && TimeSpan(p) == delta + Max(span, tpb)
  {
    TogetherTiming(ns, delta, Max(span, tpb), vel);
  }

  /** Every figure starts with a note_on delta ticks in. */
  lemma PartStart(v: Voicing, ns: seq<int>, delta: int, span: int, tpb: int, vel: U7)
    requires OnKeyboard(ns) && |ns| > 0
    ensures ChordPart(v, ns, delta, span, tpb, vel).Ok?
    ensures var p := ChordPart(v, ns, delta, span, tpb, vel).value; |p| > 0 && p[0].time == delta
  {
    match v
    case Block => TogetherTiming(ns, delta, Max(span, tpb), vel);
    case Arpeggio => OneByOneTiming(ns, delta, 0, FloorDiv(span, |ns|), vel, 0);
    case Broken => OneByOneTiming(ns, delta, FloorDiv(tpb, 4), FloorDiv(tpb, 2), vel, 0);
  }

  function StartTimes(chords: seq<Chord>): (r: seq<int>)
    ensures |r| == |chords|
  {
    seq(|chords|, k requires 0 <= k < |chords| => chords[k].time)
  }

  /** Part k starts, counted from start, at times[k]. */
  predicate OnsetsAt(parts: seq<Track>, start: int, times: seq<int>)
  {
    |parts| == |times| && forall k :: 0 <= k < |parts| ==> |parts[k]| > 0 && start + Onset(parts, k) == times[k]
  }

  /** Onsets of a part followed by more parts, from the onsets of those. */
  lemma OnsetsCons(part: Track, rest: seq<Track>, start: int, times: seq<int>)
    requires |part| > 0 && |times| > 0
    requires start + part[0].time == times[0]
    requires OnsetsAt(rest, start + TimeSpan(part), times[1..])
    ensures OnsetsAt([part] + rest, start, times)
  {
    var parts := [part] + rest;
    forall k | 0 <= k < |parts| ensures |parts[k]| > 0 && start + Onset(parts, k) == times[k] {
      if k == 0 {
        OnsetFirst(parts);
      } else {
        assert parts[k] == rest[k - 1];
        OnsetCons(part, rest, k);
      }
    }
  }

  /** Every chord starts at its own time: for the block voicing as written,
      and for every voicing once the clock follows the messages. */
  lemma {:induction false} RenderOnsets(chords: seq<Chord>, i: nat, current: int, v: Voicing, octave: int,
                                        vel: U7, tpb: int, fixed: bool)
    requires i <= |chords|
    requires fixed || v == Block
    requires forall k :: i <= k < |chords| ==> |chords[k].notes| > 0
    ensures RenderParts(chords, i, current, v, octave, vel, tpb, fixed).Ok?
    ensures OnsetsAt(RenderParts(chords, i, current, v, octave, vel, tpb, fixed).value, current, StartTimes(chords[i..]))
    decreases |chords| - i
  {
    if i < |chords| {
      PartStep(chords, i, current, v, octave, vel, tpb, fixed);
      var part := Part(chords, i, current, v, octave, vel, tpb).value;
      var next := Clock(chords, i, current, part, v, tpb, fixed);
      RenderOnsets(chords, i + 1, next, v, octave, vel, tpb, fixed);
      var rest := RenderParts(chords, i + 1, next, v, octave, vel, tpb, fixed).value;
      RenderCons(chords, i, current, v, octave, vel, tpb, fixed, part, rest);
      var times := StartTimes(chords[i..]);
      StartTimesTail(chords, i);
      assert next == current + TimeSpan(part);
      OnsetsCons(part, rest, current, times);
    }
  }

  /** The start times from chord i are chord i's time, then those from i + 1. */
  lemma StartTimesTail(chords: seq<Chord>, i: nat)
    requires i < |chords|
    ensures StartTimes(chords[i..])[0] == chords[i].time
    ensures StartTimes(chords[i + 1..]) == StartTimes(chords[i..])[1..]
  { }

  lemma RenderCons(chords: seq<Chord>, i: nat, current: int, v: Voicing, octave: int, vel: U7, tpb: int, fixed: bool,
                   part: Track, rest: seq<Track>)
    requires i < |chords|
    ensures Part(chords, i, current, v, octave, vel, tpb) == Ok(part)
      && RenderParts(chords, i + 1, Clock(chords, i, current, part, v, tpb, fixed), v, octave, vel, tpb, fixed) == Ok(rest)
      ==> RenderParts(chords, i, current, v, octave, vel, tpb, fixed) == Ok([part] + rest)
  {
  }

  /** The arithmetic of the drift: a part that lasts delta + n*d, followed by
      a part whose clock was moved by span instead. */
  lemma DriftStep(part: Track, rest: seq<Track>, current: int, t0: int, t1: int, played: int, span: int)
    requires |part| > 0 && |rest| > 0 && |rest[0]| > 0
    requires TimeSpan(part) == t0 - current + played
    requires rest[0][0].time == t1 - (t0 + span)
    ensures current + Onset([part] + rest, 1) == t1 - (span - played)
  {
    OnsetCons(part, rest, 1);
    OnsetFirst(rest);
  }

  /** An arpeggiated chord plays its span less the remainder of dividing it
      among its notes. */
  lemma ArpeggioPart(chords: seq<Chord>, i: nat, current: int, octave: int, vel: U7, tpb: int)
    requires i < |chords| && |chords[i].notes| > 0
    ensures |Normalize(chords[i].notes, octave)| > 0
    ensures Part(chords, i, current, Arpeggio, octave, vel, tpb).Ok?
    ensures var part := Part(chords, i, current, Arpeggio, octave, vel, tpb).value;
      var span := Span(chords, i, tpb);
      TimeSpan(part) == chords[i].time - current + span - span % |Normalize(chords[i].notes, octave)|
  {
    var ns := Normalize(chords[i].notes, octave);
    var delta, span := chords[i].time - current, Span(chords, i, tpb);
    NormalizeNonEmpty(chords[i].notes, octave);
    var r := ChordPart(Arpeggio, ns, delta, span, tpb, vel);
    assert Part(chords, i, current, Arpeggio, octave, vel, tpb) == r;
    ArpeggioTiming(ns, delta, span, tpb, vel);
    assert TimeSpan(r.value) == delta + span - span % |ns|;
  }

  /** As written, the arpeggio clock runs ahead of its messages: the second
      chord starts early by the remainder of dividing the first span among the
      first chord's notes. */
  lemma ArpeggioDrift(chords: seq<Chord>, current: int, octave: int, vel: U7, tpb: int)
    requires |chords| >= 2 && |chords[0].notes| > 0 && |chords[1].notes| > 0
    ensures |Normalize(chords[0].notes, octave)| > 0
    ensures RenderParts(chords, 0, current, Arpeggio, octave, vel, tpb, false).Ok? ==>
      var parts := RenderParts(chords, 0, current, Arpeggio, octave, vel, tpb, false).value;
      var n := |Normalize(chords[0].notes, octave)|;
      var span := chords[1].time - chords[0].time;
      && |parts| >= 2 && |parts[1]| > 0
      && current + Onset(parts, 1) == chords[1].time - span % n
  {
    NormalizeNonEmpty(chords[0].notes, octave);
    if RenderParts(chords, 0, current, Arpeggio, octave, vel, tpb, false).Ok? {
      RenderStep(chords, 0, current, Arpeggio, octave, vel, tpb, false);
      var part := Part(chords, 0, current, Arpeggio, octave, vel, tpb).value;
      var span := Span(chords, 0, tpb);
      var next := Clock(chords, 0, current, part, Arpeggio, tpb, false);
      var rest := RenderParts(chords, 1, next, Arpeggio, octave, vel, tpb, false).value;
      ArpeggioPart(chords, 0, current, octave, vel, tpb);
      PartStep(chords, 1, next, Arpeggio, octave, vel, tpb, false);
      RenderStep(chords, 1, next, Arpeggio, octave, vel, tpb, false);
      var n := |Normalize(chords[0].notes, octave)|;
      var parts := RenderParts(chords, 0, current, Arpeggio, octave, vel, tpb, false).value;
      assert parts == [part] + rest;
      assert span == chords[1].time - chords[0].time;
      var early := span % n;
      DriftStep(part, rest, current, chords[0].time, chords[1].time, span - early, span);
      assert current + Onset(parts, 1) == chords[1].time - early;
    }
  }

  /** The ticks a broken figure of n notes lasts: n − 1 staccato notes, each
      followed by its gap, then the last note. */
  function BrokenFigure(n: int, tpb: int): int
  {
    (n - 1) * (FloorDiv(tpb, 4) + FloorDiv(tpb, 2)) + FloorDiv(tpb, 2)
  }

  /** A broken chord lasts its staccato figure, whatever its span. */
  lemma BrokenPart(chords: seq<Chord>, i: nat, current: int, octave: int, vel: U7, tpb: int)
    requires i < |chords| && |chords[i].notes| > 0
    ensures |Normalize(chords[i].notes, octave)| > 0
    ensures Part(chords, i, current, Broken, octave, vel, tpb).Ok?
    ensures var part := Part(chords, i, current, Broken, octave, vel, tpb).value;
      var n := |Normalize(chords[i].notes, octave)|;
      TimeSpan(part) == chords[i].time - current + BrokenFigure(n, tpb)
  {
    var ns := Normalize(chords[i].notes, octave);
    var delta := chords[i].time - current;
    var span := Span(chords, i, tpb);
    NormalizeNonEmpty(chords[i].notes, octave);
    var r := ChordPart(Broken, ns, delta, span, tpb, vel);
    assert Part(chords, i, current, Broken, octave, vel, tpb) == r;
    PartTiming(Broken, ns, delta, span, tpb, vel);
    assert TimeSpan(r.value) == delta + BrokenFigure(|ns|, tpb);
  }

  /** As written, the broken-chord clock advances by the whole span while the
      figure lasts only its staccato notes, so the second chord starts as soon
      as the first figure ends. */
  lemma BrokenDrift(chords: seq<Chord>, current: int, octave: int, vel: U7, tpb: int)
    requires |chords| >= 2 && |chords[0].notes| > 0 && |chords[1].notes| > 0
    ensures RenderParts(chords, 0, current, Broken, octave, vel, tpb, false).Ok?
    ensures var parts := RenderParts(chords, 0, current, Broken, octave, vel, tpb, false).value;
      var n := |Normalize(chords[0].notes, octave)|;
      && |parts| >= 2 && |parts[1]| > 0
      && current + Onset(parts, 1) == chords[0].time + BrokenFigure(n, tpb)
  {
    BrokenPart(chords, 0, current, octave, vel, tpb);
    var part := Part(chords, 0, current, Broken, octave, vel, tpb).value;
    var span := Span(chords, 0, tpb);
    var next := Clock(chords, 0, current, part, Broken, tpb, false);
    assert next == chords[0].time + span;
    var rest: seq<Track> := RenderParts(chords, 1, next, Broken, octave, vel, tpb, false).value;
    assert |rest| > 0 && |rest[0]| > 0 && rest[0][0].time == chords[1].time - next by {
      PartStep(chords, 1, next, Broken, octave, vel, tpb, false);
      RenderStep(chords, 1, next, Broken, octave, vel, tpb, false);
    }
    RenderCons(chords, 0, current, Broken, octave, vel, tpb, false, part, rest);
    var n := |Normalize(chords[0].notes, octave)|;
    var played := BrokenFigure(n, tpb);
    DriftStep(part, rest, current, chords[0].time, chords[1].time, played, span);
  }

  /** C major triads at ticks 0 and 1920 with 480 ticks per beat, broken: the
      second chord's first note_on lands on tick 960. */
  lemma BrokenDriftExample(chords: seq<Chord>)
    requires chords == [Chord(0, "C", [60, 64, 67]), Chord(1920, "C", [60, 64, 67])]
    ensures RenderParts(chords, 0, 0, Broken, 4, 80, 480, false).Ok?
    ensures var parts := RenderParts(chords, 0, 0, Broken, 4, 80, 480, false).value;
      |parts| >= 2 && |parts[1]| > 0 && Onset(parts, 1) == 960
  {
    TriadClasses(chords[0].notes);
    BrokenDrift(chords, 0, 4, 80, 480);
    assert FloorDiv(480, 4) == 120 && FloorDiv(480, 2) == 240;
  }

  lemma TriadClasses(notes: seq<int>)
    requires notes == [60, 64, 67]
    ensures |Normalize(notes, 4)| == 3
  {
    TriadPitchClasses(notes);
    NormalizeClasses(notes, 4);
  }

  lemma TriadPitchClasses(notes: seq<int>)
    requires notes == [60, 64, 67]
    ensures |PitchClasses(notes)| == 3
  {
    ClassOfNote(notes, 0, 0);
    ClassOfNote(notes, 1, 4);
    ClassOfNote(notes, 2, 7);
    ThreeIncreasing(PitchClasses(notes), 0, 4, 7);
  }

  lemma ClassOfNote(notes: seq<int>, k: nat, pc: int)
    requires k < |notes| && notes[k] % 12 == pc
    ensures pc in PitchClasses(notes)
  {
  }

  /** An increasing sequence holding three increasing values has at least three elements. */
  lemma ThreeIncreasing(r: seq<int>, a: int, b: int, c: int)
    requires Increasing(r) && a < b < c && a in r && b in r && c in r
    ensures |r| >= 3
  {
    var i :| 0 <= i < |r| && r[i] == a;
    var k :| 0 <= k < |r| && r[k] == c;
    var j :| 0 <= j < |r| && r[j] == b;
    assert i < j < k;
  }

  /** A C major triad at tick 0 followed by a chord at tick 1000: the second
      chord's first note_on lands on tick 999. */
  lemma ArpeggioDriftExample(chords: seq<Chord>)
    requires |chords| == 2
    requires chords[0] == Chord(0, "C", [60, 64, 67]) && chords[1] == Chord(1000, "C", [60, 64, 67])
    ensures RenderParts(chords, 0, 0, Arpeggio, 4, 80, 480, false).Ok?
    ensures var parts := RenderParts(chords, 0, 0, Arpeggio, 4, 80, 480, false).value;
      |parts| >= 2 && |parts[1]| > 0 && Onset(parts, 1) == 999
  {
    TriadClasses(chords[0].notes);
    ArpeggioDrift(chords, 0, 4, 80, 480);
    ThousandByThree(chords[0].time, chords[1].time, |Normalize(chords[0].notes, 4)|);
  }

  lemma ThousandByThree(t0: int, t1: int, n: int)
    requires t0 == 0 && t1 == 1000 && n == 3
    ensures t1 - (t1 - t0) % n == 999
  {
  }

  // ---------------------------------------------------------------------
  // Chord chart

  /** `int(time_ticks / ticks_per_beat / 4) + 1` */
  function Measure(time: int, tpb: int): int
    requires tpb != 0
  {
    TruncReal((time as real / tpb as real) / 4.0) + 1
  }

  lemma RealQuotient(a: int, b: int)
    requires a >= 0 && b > 0
    ensures (a / b) as real <= a as real / b as real < (a / b + 1) as real
  {
    var q := a / b;
    var m := a % b;
    var x := a as real / b as real;
    assert a as real == q as real * b as real + m as real;
    assert x == q as real + m as real / b as real;
    assert 0.0 <= m as real / b as real < 1.0;
  }

  /** For non-negative times, the measure is the whole number of 4-beat bars
      before the chord, plus one. */
  lemma MeasureOfTime(time: int, tpb: int)
    requires time >= 0 && tpb > 0
    ensures Measure(time, tpb) == time / (4 * tpb) + 1
  {
    DivideTwice(time as real, tpb as real);
    assert (4 * tpb) as real == 4.0 * tpb as real;
    RealQuotient(time, 4 * tpb);
    TruncBetween(time as real / (4 * tpb) as real, time / (4 * tpb));
  }

  lemma DivideTwice(a: real, b: real)
    requires b > 0.0
    ensures (a / b) / 4.0 == a / (4.0 * b)
  {
    var x := a / b;
    assert x * b == a;
    var y := x / 4.0;
    assert y * 4.0 == x;
    assert y * (4.0 * b) == a;
  }

  /** A non-negative real between q and q + 1 truncates to q. */
  lemma TruncBetween(x: real, q: int)
    requires q >= 0 && q as real <= x < (q + 1) as real
    ensures TruncReal(x) == q
  {
  }

  datatype Line = Line(measure: int, names: seq<string>)

  datatype ChartState = ChartState(current: int, group: seq<string>, lines: seq<Line>)

  /** The chart loop after the first k chords. */
  function ChartPrefix(chords: seq<Chord>, tpb: int, k: nat): ChartState
    requires tpb != 0 && k <= |chords|
  {
    if k == 0 then ChartState(-1, [], [])
    else
      var st := ChartPrefix(chords, tpb, k - 1);
      var c := chords[k - 1];
      var m := Measure(c.time, tpb);
      if m != st.current then
        var lines := if st.current > 0 && |st.group| > 0 then st.lines + [Line(st.current, st.group)] else st.lines;
        ChartState(m, [c.name], lines)
      else ChartState(st.current, st.group + [c.name], st.lines)
  }

  /** The measure lines of `generate_text_chord_chart`: none without chords. */
  function ChartLines(chords: seq<Chord>, tpb: int): seq<Line>
    requires tpb != 0
  {
    if |chords| == 0 then []
    else
      var st := ChartPrefix(chords, tpb, |chords|);
      if |st.group| > 0 then st.lines + [Line(st.current, st.group)] else st.lines
  }

  function Names(chords: seq<Chord>): (r: seq<string>)
    ensures |r| == |chords|
  {
    seq(|chords|, k requires 0 <= k < |chords| => chords[k].name)
  }

  function Flatten(lines: seq<Line>): seq<string>
  {
    if |lines| == 0 then [] else Flatten(lines[..|lines| - 1]) + lines[|lines| - 1].names
  }

  ghost predicate WellGrouped(lines: seq<Line>)
  {
    && (forall i :: 0 <= i < |lines| ==> |lines[i].names| > 0)
    && (forall i :: 0 <= i < |lines| - 1 ==> lines[i].measure != lines[i + 1].measure)
  }

  /** What the chart loop keeps after k > 0 chords: the current measure is the
      last chord's, the open group is not empty, the closed lines and the open
      group list the chord names so far, and neighbouring measures differ. */
  ghost predicate ChartKept(chords: seq<Chord>, tpb: int, k: nat, st: ChartState)
    requires tpb != 0 && 0 < k <= |chords|
  {
    && st.current == Measure(chords[k - 1].time, tpb)
    && |st.group| > 0
    && Flatten(st.lines) + st.group == Names(chords[..k])
    && WellGrouped(st.lines)
    && (|st.lines| > 0 ==> st.lines[|st.lines| - 1].measure != st.current)
  }

  lemma {:induction false} ChartInvariant(chords: seq<Chord>, tpb: int, k: nat)
    requires tpb != 0 && 0 < k <= |chords|
    requires forall j :: 0 <= j < |chords| ==> Measure(chords[j].time, tpb) > 0
    ensures ChartKept(chords, tpb, k, ChartPrefix(chords, tpb, k))
  {
    NamesSnoc(chords, k);
    if k > 1 {
      ChartInvariant(chords, tpb, k - 1);
      ChartStep(chords, tpb, k);
    } else {
      assert chords[..1] == [chords[0]];
    }
  }

  lemma NamesSnoc(chords: seq<Chord>, k: nat)
    requires 0 < k <= |chords|
    ensures Names(chords[..k]) == Names(chords[..k - 1]) + [chords[k - 1].name]
  {
  }

  lemma ChartStep(chords: seq<Chord>, tpb: int, k: nat)
    requires tpb != 0 && 1 < k <= |chords|
    requires Measure(chords[k - 2].time, tpb) > 0
    requires ChartKept(chords, tpb, k - 1, ChartPrefix(chords, tpb, k - 1))
    requires Names(chords[..k]) == Names(chords[..k - 1]) + [chords[k - 1].name]
    ensures ChartKept(chords, tpb, k, ChartPrefix(chords, tpb, k))
  {
    var prev := ChartPrefix(chords, tpb, k - 1);
    var m := Measure(chords[k - 1].time, tpb);
    if m != prev.current {
      assert ChartPrefix(chords, tpb, k) == ChartState(m, [chords[k - 1].name], prev.lines + [Line(prev.current, prev.group)]);
      NewLineKept(chords, tpb, k, prev);
    } else {
      assert ChartPrefix(chords, tpb, k) == ChartState(prev.current, prev.group + [chords[k - 1].name], prev.lines);
    }
  }

  lemma NewLineKept(chords: seq<Chord>, tpb: int, k: nat, prev: ChartState)
    requires tpb != 0 && 1 < k <= |chords|
    requires ChartKept(chords, tpb, k - 1, prev)
    requires Names(chords[..k]) == Names(chords[..k - 1]) + [chords[k - 1].name]
    requires Measure(chords[k - 1].time, tpb) != prev.current
    ensures ChartKept(chords, tpb, k, ChartState(Measure(chords[k - 1].time, tpb), [chords[k - 1].name], prev.lines + [Line(prev.current, prev.group)]))
  {
    var lines := prev.lines + [Line(prev.current, prev.group)];
    assert lines[..|lines| - 1] == prev.lines;
    assert Flatten(lines) == Flatten(prev.lines) + prev.group;
  }

  /** With every measure positive (as for non-negative chord times), the chart
      lists every chord name once, in order, grouped into lines of consecutive
      chords of one measure, and no two neighbouring lines share a measure. */
  lemma ChartKeepsNames(chords: seq<Chord>, tpb: int)
    requires tpb != 0
    requires forall j :: 0 <= j < |chords| ==> Measure(chords[j].time, tpb) > 0
    ensures Flatten(ChartLines(chords, tpb)) == Names(chords)
    ensures WellGrouped(ChartLines(chords, tpb))
  {
    if |chords| > 0 {
      ChartInvariant(chords, tpb, |chords|);
      var st := ChartPrefix(chords, tpb, |chords|);
      var lines := ChartLines(chords, tpb);
      assert lines == st.lines + [Line(st.current, st.group)];
      assert chords[..|chords|] == chords;
    }
  }
}

=== FILE: evaluation.dfy ===
/** The scores the two evaluators compute (transcription_evaluator.py and
    quality_evaluator.py): onset precision, recall and F1, temporal coverage
    by merged note intervals, the polyphony, rhythm and pitch estimates, and
    the weighted overall score. The audio side (onset detection,
    chromagrams, synthesis) enters as inputs. */
module Evaluation {
  import opened Base
  import opened Sorting
  import opened Midi

  // ---------------------------------------------------------------------
  // Onset matching

  function Dist(a: real, b: real): real { AbsReal(a - b) }

  /** `np.argmin(np.abs(audio - t))` over the first n audio onsets: the
      first index of the smallest distance. */
  function NearestIn(audio: seq<real>, t: real, n: nat): (r: nat)
    requires 1 <= n <= |audio|
    ensures r < n
    ensures forall k :: 0 <= k < n ==> Dist(audio[r], t) <= Dist(audio[k], t)
    ensures forall k :: 0 <= k < r ==> Dist(audio[k], t) > Dist(audio[r], t)
  {
    if n == 1 then 0
    else
      var b := NearestIn(audio, t, n - 1);
      if Dist(audio[n - 1], t) < Dist(audio[b], t) then n - 1 else b
  }

  function Nearest(audio: seq<real>, t: real): (r: nat)
    requires |audio| > 0
    ensures r < |audio|
  {
    NearestIn(audio, t, |audio|)
  }

  datatype Matching = Matching(truePositives: nat, matched: set<nat>)

  /** The audio onset a MIDI onset at t would match: its nearest one, when
      that lies within tolerance. */
  function HitOf(audio: seq<real>, t: real, tolerance: real): (r: Option<nat>)
    requires |audio| > 0
    ensures r.Some? ==> r.value < |audio|
  {
    var idx := Nearest(audio, t);
    if Dist(audio[idx], t) <= tolerance then Some(idx) else None
  }

  /** The matching loop over the first n MIDI onsets: an onset counts when
      its nearest audio onset is within tolerance and not yet taken. */
  function MatchPrefix(audio: seq<real>, midi: seq<real>, tolerance: real, n: nat): (r: Matching)
    requires |audio| > 0 && n <= |midi|
    ensures r.truePositives == |r.matched| && r.truePositives <= n
    ensures forall a :: a in r.matched ==> a < |audio|
  {
    if n == 0 then Matching(0, {})
    else
      var m := MatchPrefix(audio, midi, tolerance, n - 1);
      var hit := HitOf(audio, midi[n - 1], tolerance);
      if hit.Some? && hit.value !in m.matched then Matching(m.truePositives + 1, m.matched + {hit.value})
      else m
  }

  function AsSet(o: Option<nat>): set<nat>
  {
    if o.Some? then {o.value} else {}
  }

  /** The audio onsets hit by the first n MIDI onsets: every nearest one
      within tolerance, however often it is hit. */
  ghost function Hits(audio: seq<real>, midi: seq<real>, tolerance: real, n: nat): set<nat>
    requires |audio| > 0 && n <= |midi|
  {
    if n == 0 then {} else Hits(audio, midi, tolerance, n - 1) + AsSet(HitOf(audio, midi[n - 1], tolerance))
  }

  /** An audio onset is hit exactly when it is, within tolerance, the
      nearest one to some MIDI onset. */
  lemma {:induction false} HitsMembers(audio: seq<real>, midi: seq<real>, tolerance: real, n: nat, x: nat)
    requires |audio| > 0 && n <= |midi|
    ensures x in Hits(audio, midi, tolerance, n) <==> exists k :: 0 <= k < n && HitOf(audio, midi[k], tolerance) == Some(x)
  {
    if n > 0 {
      HitsMembers(audio, midi, tolerance, n - 1, x);
      var h := HitOf(audio, midi[n - 1], tolerance);
      assert Hits(audio, midi, tolerance, n) == Hits(audio, midi, tolerance, n - 1) + AsSet(h);
      if x in Hits(audio, midi, tolerance, n) && x !in Hits(audio, midi, tolerance, n - 1) {
        assert h == Some(x);
      }
      if exists k :: 0 <= k < n && HitOf(audio, midi[k], tolerance) == Some(x) {
        var k :| 0 <= k < n && HitOf(audio, midi[k], tolerance) == Some(x);
        if k == n - 1 {
          assert x in AsSet(h);
        }
      }
    }
  }

  /** The true positives are exactly the distinct audio onsets hit: a MIDI
      onset whose nearest audio onset is already taken is simply a miss. */
  lemma {:induction false} MatchedAreHits(audio: seq<real>, midi: seq<real>, tolerance: real, n: nat)
    requires |audio| > 0 && n <= |midi|
    ensures MatchPrefix(audio, midi, tolerance, n).matched == Hits(audio, midi, tolerance, n)
  {
    if n > 0 {
      MatchedAreHits(audio, midi, tolerance, n - 1);
      var m := MatchPrefix(audio, midi, tolerance, n - 1);
      var hit := HitOf(audio, midi[n - 1], tolerance);
      if hit.Some? && hit.value in m.matched {
        assert m.matched + {hit.value} == m.matched;
      }
    }
  }

  /** An audio onset is never matched twice, so there are no more true
      positives than audio onsets. */
  lemma MatchedFitAudio(audio: seq<real>, midi: seq<real>, tolerance: real, n: nat)
    requires |audio| > 0 && n <= |midi|
    ensures MatchPrefix(audio, midi, tolerance, n).truePositives <= |audio|
  {
    BoundedSetSize(MatchPrefix(audio, midi, tolerance, n).matched, |audio|);
  }

  /** A set of naturals below n has at most n elements. */
  lemma {:induction false} BoundedSetSize(s: set<nat>, n: nat)
    requires forall a :: a in s ==> a < n
    ensures |s| <= n
  {
    if n > 0 {
      var rest := s - {n - 1};
      BoundedSetSize(rest, n - 1);
      assert s <= rest + {n - 1};
      assert |s| <= |rest + {n - 1}| by { SubsetSize(s, rest + {n - 1}); }
    } else {
      assert s == {};
    }
  }

  lemma SubsetSize<T>(a: set<T>, b: set<T>)
    requires a <= b
    ensures |a| <= |b|
  {
    assert b == a + (b - a);
  }

  datatype OnsetScores = OnsetScores(precision: real, recall: real, f1: real)

  /** The harmonic mean of precision and recall, 0 when both are 0. */
  function F1(p: real, q: real): (r: real)
    requires p >= 0.0 && q >= 0.0
    ensures p + q == 0.0 ==> r == 0.0
    ensures p + q > 0.0 ==> r * (p + q) == 2.0 * p * q
  {
    if p + q > 0.0 then 2.0 * p * q / (p + q) else 0.0
  }

  /** F1 lies between precision and recall. */
  lemma F1Between(p: real, q: real)
    requires p >= 0.0 && q >= 0.0
    ensures MinReal(p, q) <= F1(p, q) <= MaxReal(p, q)
  {
    if p + q > 0.0 {
      var f := F1(p, q);
      var lo, hi := MinReal(p, q), MaxReal(p, q);
      assert 2.0 * p * q == lo * hi + lo * hi;
      assert lo * (hi - lo) >= 0.0 && hi * (hi - lo) >= 0.0 by {
        MulNonNeg(lo, hi - lo);
        MulNonNeg(hi, hi - lo);
      }
      assert lo * (p + q) <= 2.0 * p * q <= hi * (p + q);
      DivBounds(2.0 * p * q, p + q, lo, hi);
    }
  }

  lemma MulNonNeg(a: real, b: real)
    requires a >= 0.0 && b >= 0.0
    ensures a * b >= 0.0
  {
  }

  lemma DivBounds(x: real, d: real, lo: real, hi: real)
    requires d > 0.0 && lo * d <= x <= hi * d
    ensures lo <= x / d <= hi
  {
    var q := x / d;
    assert (q - lo) * d == x - lo * d;
    assert (hi - q) * d == hi * d - x;
    NonNegFactor(q - lo, d);
    NonNegFactor(hi - q, d);
  }

  lemma NonNegFactor(a: real, d: real)
    requires d > 0.0 && a * d >= 0.0
    ensures a >= 0.0
  {
  }

  lemma MulPos(a: real, b: real)
    requires a > 0.0 && b > 0.0
    ensures a * b > 0.0
  {
  }

  /** `_compute_onset_metrics`: zeros when either side has no onsets;
      otherwise precision and recall of the distinct audio onsets hit, and
      their F1. */
  function OnsetMetrics(audio: seq<real>, midi: seq<real>, tolerance: real): (r: OnsetScores)
    ensures |audio| == 0 || |midi| == 0 ==> r == OnsetScores(0.0, 0.0, 0.0)
    ensures 0.0 <= r.precision <= 1.0 && 0.0 <= r.recall <= 1.0
    ensures MinReal(r.precision, r.recall) <= r.f1 <= MaxReal(r.precision, r.recall)
  {
    if |midi| == 0 || |audio| == 0 then OnsetScores(0.0, 0.0, 0.0)
    else
      var tp := MatchPrefix(audio, midi, tolerance, |midi|).truePositives;
      MatchedFitAudio(audio, midi, tolerance, |midi|);
      var p := tp as real / |midi| as real;
      var q := tp as real / |audio| as real;
      RatioInUnit(tp, |midi|);
      RatioInUnit(tp, |audio|);
      F1Between(p, q);
      OnsetScores(p, q, F1(p, q))
  }

  lemma RatioInUnit(a: nat, b: nat)
    requires 0 < b && a <= b
    ensures 0.0 <= a as real / b as real <= 1.0
  {
    DivBounds(a as real, b as real, 0.0, 1.0);
  }

  /** Precision and recall count the distinct audio onsets that are the
      nearest, within tolerance, to some MIDI onset. */
  lemma OnsetMetricsCountHits(audio: seq<real>, midi: seq<real>, tolerance: real)
    requires |audio| > 0 && |midi| > 0
    ensures OnsetMetrics(audio, midi, tolerance).precision == |Hits(audio, midi, tolerance, |midi|)| as real / |midi| as real
    ensures OnsetMetrics(audio, midi, tolerance).recall == |Hits(audio, midi, tolerance, |midi|)| as real / |audio| as real
  {
    MatchedAreHits(audio, midi, tolerance, |midi|);
  }

  // ---------------------------------------------------------------------
  // Temporal coverage

  datatype Interval = Interval(start: real, end: real)

  /** Python's tuple order on (start, end). */
  predicate IntervalLe(a: Interval, b: Interval)
  {
    a.start < b.start || (a.start == b.start && a.end <= b.end)
  }

  lemma IntervalLeTotal()
    ensures TotalPreorder(IntervalLe)
  {
  }

  ghost predicate Covers(ivs: seq<Interval>, t: real)
  {
    exists k :: 0 <= k < |ivs| && ivs[k].start <= t <= ivs[k].end
  }

  /** The merge loop over the first n sorted intervals: an interval that
      starts no later than the last merged one ends is folded into it. */
  function MergePrefix(ivs: seq<Interval>, n: nat): (r: seq<Interval>)
    requires 1 <= n <= |ivs|
    ensures 1 <= |r| <= n
    ensures r[0].start == ivs[0].start
    ensures forall k :: 0 <= k < |r| - 1 ==> r[k].end < r[k + 1].start
    ensures StartsSorted(ivs) ==> r[|r| - 1].start <= ivs[n - 1].start
  {
    if n == 1 then [ivs[0]]
    else
      var m := MergePrefix(ivs, n - 1);
      var last := m[|m| - 1];
      var iv := ivs[n - 1];
      if iv.start <= last.end then m[..|m| - 1] + [Interval(last.start, MaxReal(last.end, iv.end))]
      else m + [iv]
  }

  ghost predicate StartsSorted(ivs: seq<Interval>)
  {
    forall i, j :: 0 <= i < j < |ivs| ==> ivs[i].start <= ivs[j].start
  }

  ghost predicate Proper(ivs: seq<Interval>)
  {
    forall k :: 0 <= k < |ivs| ==> ivs[k].start <= ivs[k].end
  }

  /** Merging sorted proper intervals covers exactly the points the inputs
      cover, with proper intervals. */
  lemma {:induction false} MergeCovers(ivs: seq<Interval>, n: nat)
    requires 1 <= n <= |ivs| && StartsSorted(ivs)
    ensures forall t :: Covers(MergePrefix(ivs, n), t) <==> Covers(ivs[..n], t)
  {
    if n == 1 {
      assert ivs[..1] == [ivs[0]];
    } else {
      MergeCovers(ivs, n - 1);
      forall t ensures Covers(MergePrefix(ivs, n), t) <==> Covers(ivs[..n], t) {
        MergeCoversAt(ivs, n, t);
      }
    }
  }

  lemma MergeCoversAt(ivs: seq<Interval>, n: nat, t: real)
    requires 1 < n <= |ivs| && StartsSorted(ivs)
    requires Covers(MergePrefix(ivs, n - 1), t) <==> Covers(ivs[..n - 1], t)
    ensures Covers(MergePrefix(ivs, n), t) <==> Covers(ivs[..n], t)
  {
    var m := MergePrefix(ivs, n - 1);
    var iv := ivs[n - 1];
    assert m[|m| - 1].start <= iv.start;
    assert ivs[..n] == ivs[..n - 1] + [iv];
    CoversSnoc(ivs[..n - 1], iv, t);
    MergeStepCovers(m, iv, t);
  }

  lemma {:induction false} MergeProper(ivs: seq<Interval>, n: nat)
    requires 1 <= n <= |ivs| && Proper(ivs)
    ensures Proper(MergePrefix(ivs, n))
  {
    if n > 1 {
      MergeProper(ivs, n - 1);
      var m := MergePrefix(ivs, n - 1);
      var r := MergePrefix(ivs, n);
      forall k | 0 <= k < |r| ensures r[k].start <= r[k].end {
        if k < |m| - 1 {
          assert r[k] == m[k];
        } else if k == |m| - 1 {
          assert m[k].start <= m[k].end;
        }
      }
    }
  }

  /** Folding iv into the last merged interval, or appending it, adds
      exactly the points of iv when iv starts no earlier than that interval. */
  lemma MergeStepCovers(m: seq<Interval>, iv: Interval, t: real)
    requires |m| > 0 && m[|m| - 1].start <= iv.start
    ensures var last := m[|m| - 1];
      var r := if iv.start <= last.end then m[..|m| - 1] + [Interval(last.start, MaxReal(last.end, iv.end))] else m + [iv];
      Covers(r, t) <==> Covers(m, t) || (iv.start <= t <= iv.end)
  {
    var last := m[|m| - 1];
    CoversSnoc(m, iv, t);
    if iv.start <= last.end {
      var joined := Interval(last.start, MaxReal(last.end, iv.end));
      CoversSnoc(m[..|m| - 1], last, t);
      CoversSnoc(m[..|m| - 1], joined, t);
      assert m == m[..|m| - 1] + [last];
    }
  }

  lemma CoversSnoc(ivs: seq<Interval>, iv: Interval, t: real)
    ensures Covers(ivs + [iv], t) <==> Covers(ivs, t) || (iv.start <= t <= iv.end)
  {
    if Covers(ivs, t) {
      var k :| 0 <= k < |ivs| && ivs[k].start <= t <= ivs[k].end;
      assert (ivs + [iv])[k] == ivs[k];
    }
    if iv.start <= t <= iv.end {
      assert (ivs + [iv])[|ivs|] == iv;
    }
    if Covers(ivs + [iv], t) {
      var k :| 0 <= k < |ivs + [iv]| && (ivs + [iv])[k].start <= t <= (ivs + [iv])[k].end;
      if k < |ivs| {
        assert (ivs + [iv])[k] == ivs[k];
      }
    }
  }

  function Lengths(ivs: seq<Interval>): (r: seq<real>)
    ensures |r| == |ivs|
  {
    seq(|ivs|, k requires 0 <= k < |ivs| => ivs[k].end - ivs[k].start)
  }

  lemma {:induction false} SumRealNonNeg(s: seq<real>)
    requires forall k :: 0 <= k < |s| ==> s[k] >= 0.0
    ensures SumReal(s) >= 0.0
  {
    if |s| > 0 {
      SumRealNonNeg(s[..|s| - 1]);
    }
  }

  /** `_compute_temporal_coverage` from the extracted intervals on: the
      merged covered time as a share of the audio, capped at 1, and 0 with no
      intervals or no audio. */
  function Coverage(intervals: seq<Interval>, audioDuration: real): (r: real)
    ensures |intervals| == 0 || audioDuration <= 0.0 ==> r == 0.0
    ensures r <= 1.0
    ensures Proper(intervals) ==> r >= 0.0
  {
    if |intervals| == 0 then 0.0
    else
      var covered := CoveredTime(intervals);
      if audioDuration > 0.0 then
        DivNonNeg(covered, audioDuration);
        MinReal(covered / audioDuration, 1.0)
      else 0.0
  }

  /** The time covered by the sorted, merged intervals. */
  function CoveredTime(intervals: seq<Interval>): (r: real)
    requires |intervals| > 0
    ensures Proper(intervals) ==> r >= 0.0
  {
    IntervalLeTotal();
    var sorted := Sort(intervals, IntervalLe);
    MergedProper(intervals, sorted);
    SumReal(Lengths(MergePrefix(sorted, |sorted|)))
  }

  lemma MergedProper(intervals: seq<Interval>, sorted: seq<Interval>)
    requires |sorted| > 0 && multiset(intervals) == multiset(sorted) && SortedBy(sorted, IntervalLe)
    ensures Proper(intervals) ==> SumReal(Lengths(MergePrefix(sorted, |sorted|))) >= 0.0
  {
    if Proper(intervals) {
      SortedStarts(sorted);
      SortKeepsProper(intervals, sorted);
      MergeProper(sorted, |sorted|);
      SumRealNonNeg(Lengths(MergePrefix(sorted, |sorted|)));
    }
  }

  lemma DivNonNeg(x: real, d: real)
    requires d > 0.0
    ensures x >= 0.0 ==> x / d >= 0.0
  {
    if x >= 0.0 {
      DivBounds(x, d, 0.0, x / d);
    }
  }

  lemma SortedStarts(s: seq<Interval>)
    requires SortedBy(s, IntervalLe)
    ensures StartsSorted(s)
  {
  }

  lemma SortKeepsProper(a: seq<Interval>, b: seq<Interval>)
    requires multiset(a) == multiset(b) && Proper(a)
    ensures Proper(b)
  {
    forall k | 0 <= k < |b| ensures b[k].start <= b[k].end {
      assert b[k] in multiset(a);
    }
  }

  // ---------------------------------------------------------------------
  // Weighted overall score

  /** A metric that may be missing, and its weight. */
  datatype Weighted = Weighted(value: Option<real>, weight: real)

  function ScoreSum(ms: seq<Weighted>): real
  {
    if |ms| == 0 then 0.0
    else ScoreSum(ms[..|ms| - 1]) + (if ms[|ms| - 1].value.Some? then ms[|ms| - 1].value.value * ms[|ms| - 1].weight else 0.0)
  }

  function WeightSum(ms: seq<Weighted>): real
  {
    if |ms| == 0 then 0.0
    else WeightSum(ms[..|ms| - 1]) + (if ms[|ms| - 1].value.Some? then ms[|ms| - 1].weight else 0.0)
  }

  ghost predicate AnyPresent(ms: seq<Weighted>)
  {
    exists k :: 0 <= k < |ms| && ms[k].value.Some?
  }

  ghost predicate PresentWithin(ms: seq<Weighted>, lo: real, hi: real)
  {
    forall k :: 0 <= k < |ms| && ms[k].value.Some? ==> lo <= ms[k].value.value <= hi
  }

  ghost predicate PositiveWeights(ms: seq<Weighted>)
  {
    forall k :: 0 <= k < |ms| ==> ms[k].weight > 0.0
  }

  /** `_compute_overall_score`: the weighted mean of the metrics present,
      0 when none is. */
  function WeightedScore(ms: seq<Weighted>): (r: real)
    ensures !AnyPresent(ms) ==> r == 0.0
    ensures PositiveWeights(ms) && AnyPresent(ms) ==> r * WeightSum(ms) == ScoreSum(ms)
  {
    WeightSumZero(ms);
    WeightSumIfPositive(ms);
    var total := WeightSum(ms);
    if total > 0.0 then ScoreSum(ms) / total else 0.0
  }

  lemma {:induction false} WeightSumZero(ms: seq<Weighted>)
    ensures !AnyPresent(ms) ==> WeightSum(ms) == 0.0
  {
    if |ms| > 0 {
      WeightSumZero(ms[..|ms| - 1]);
      if !AnyPresent(ms) {
        var init := ms[..|ms| - 1];
        assert !AnyPresent(init) by {
          forall k | 0 <= k < |init| ensures init[k].value.None? {
            assert init[k] == ms[k];
          }
        }
      }
    }
  }

  lemma {:induction false} WeightSumPositive(ms: seq<Weighted>)
    requires PositiveWeights(ms)
    ensures WeightSum(ms) >= 0.0
    ensures AnyPresent(ms) ==> WeightSum(ms) > 0.0
  {
    if |ms| > 0 {
      var init := ms[..|ms| - 1];
      assert PositiveWeights(init) by {
        forall k | 0 <= k < |init| ensures init[k].weight > 0.0 {
          assert init[k] == ms[k];
        }
      }
      WeightSumPositive(init);
      if AnyPresent(ms) && ms[|ms| - 1].value.None? {
        var k :| 0 <= k < |ms| && ms[k].value.Some?;
        assert init[k] == ms[k];
      }
    }
  }

  lemma WeightSumIfPositive(ms: seq<Weighted>)
    ensures PositiveWeights(ms) && AnyPresent(ms) ==> WeightSum(ms) > 0.0
  {
    if PositiveWeights(ms) {
      WeightSumPositive(ms);
    }
  }

  /** With every metric present in [0, 1], the weighted sum lies between 0
      and the total weight. */
  lemma {:induction false} ScoreSumBounds(ms: seq<Weighted>)
    requires PositiveWeights(ms) && PresentWithin(ms, 0.0, 1.0)
    ensures 0.0 <= ScoreSum(ms) <= WeightSum(ms)
  {
    if |ms| > 0 {
      var init := ms[..|ms| - 1];
      var m := ms[|ms| - 1];
      assert PositiveWeights(init) && PresentWithin(init, 0.0, 1.0) by {
        forall k | 0 <= k < |init| ensures init[k] == ms[k] { }
      }
      ScoreSumBounds(init);
      if m.value.Some? {
        UnitScale(m.value.value, m.weight);
      }
    }
  }

  lemma UnitScale(v: real, w: real)
    requires 0.0 <= v <= 1.0 && w > 0.0
    ensures 0.0 <= v * w <= w
  {
    MulMono(0.0, v, w);
    MulMono(v, 1.0, w);
  }

  lemma MulMono(a: real, b: real, w: real)
    requires a <= b && w > 0.0
    ensures a * w <= b * w
  {
    if a < b {
      MulPos(b - a, w);
    }
  }

  /** When every metric present lies in [0, 1], so does the overall score. */
  lemma WeightedScoreInUnit(ms: seq<Weighted>)
    requires PositiveWeights(ms) && PresentWithin(ms, 0.0, 1.0)
    ensures 0.0 <= WeightedScore(ms) <= 1.0
  {
    WeightSumPositive(ms);
    ScoreSumBounds(ms);
    if AnyPresent(ms) {
      DivBounds(ScoreSum(ms), WeightSum(ms), 0.0, 1.0);
    }
  }

  /** With a single metric present the overall score is that metric. */
  lemma WeightedScoreOfOne(ms: seq<Weighted>, i: nat)
    requires PositiveWeights(ms) && i < |ms| && ms[i].value.Some?
    requires forall k :: 0 <= k < |ms| && k != i ==> ms[k].value.None?
    ensures WeightedScore(ms) == ms[i].value.value
  {
    OnlyOne(ms, i);
    var v, w := ms[i].value.value, ms[i].weight;
    assert WeightedScore(ms) == (v * w) / w;
  }

  lemma {:induction false} OnlyOne(ms: seq<Weighted>, i: nat)
    requires i < |ms| && ms[i].value.Some?
    requires forall k :: 0 <= k < |ms| && k != i ==> ms[k].value.None?
    ensures WeightSum(ms) == ms[i].weight && ScoreSum(ms) == ms[i].value.value * ms[i].weight
  {
    var init := ms[..|ms| - 1];
    if i < |ms| - 1 {
      assert init[i] == ms[i];
      OnlyOne(init, i);
    } else {
      NoneLeft(init);
    }
  }

  lemma {:induction false} NoneLeft(ms: seq<Weighted>)
    requires forall k :: 0 <= k < |ms| ==> ms[k].value.None?
    ensures WeightSum(ms) == 0.0 && ScoreSum(ms) == 0.0
  {
    if |ms| > 0 {
      NoneLeft(ms[..|ms| - 1]);
    }
  }

  /** A metric that is missing or lies in [0, 1]. */
  predicate UnitOrMissing(o: Option<real>)
  {
    o.None? || 0.0 <= o.value <= 1.0
  }

  /** The weights of the transcription evaluator's overall score. */
  function TranscriptionScore(spectral: Option<real>, onsetF1: Option<real>, coverage: Option<real>, pitch: Option<real>): (r: real)
    ensures spectral.None? && onsetF1.None? && coverage.None? && pitch.None? ==> r == 0.0
    ensures UnitOrMissing(spectral) && UnitOrMissing(onsetF1) && UnitOrMissing(coverage) && UnitOrMissing(pitch) ==> 0.0 <= r <= 1.0
    ensures spectral.Some? && onsetF1.None? && coverage.None? && pitch.None? ==> r == spectral.value
  {
    var ms := [Weighted(spectral, 0.3), Weighted(onsetF1, 0.3), Weighted(coverage, 0.2), Weighted(pitch, 0.2)];
    assert spectral.None? && onsetF1.None? && coverage.None? && pitch.None? ==> !AnyPresent(ms);
    assert PositiveWeights(ms);
    if UnitOrMissing(spectral) && UnitOrMissing(onsetF1) && UnitOrMissing(coverage) && UnitOrMissing(pitch) then
      assert PresentWithin(ms, 0.0, 1.0);
      WeightedScoreInUnit(ms);
      if spectral.Some? && onsetF1.None? && coverage.None? && pitch.None? then
        WeightedScoreOfOne(ms, 0);
        WeightedScore(ms)
      else WeightedScore(ms)
    else if spectral.Some? && onsetF1.None? && coverage.None? && pitch.None? then
      WeightedScoreOfOne(ms, 0);
      WeightedScore(ms)
    else WeightedScore(ms)
  }

  /** The weights of the quality evaluator's overall score. */
  function QualityScore(onsetF1: Option<real>, spectral: Option<real>, polyphony: Option<real>, rhythm: Option<real>, pitch: Option<real>): (r: real)
    ensures onsetF1.None? && spectral.None? && polyphony.None? && rhythm.None? && pitch.None? ==> r == 0.0
    ensures UnitOrMissing(onsetF1) && UnitOrMissing(spectral) && UnitOrMissing(polyphony) && UnitOrMissing(rhythm) && UnitOrMissing(pitch) ==> 0.0 <= r <= 1.0
    ensures onsetF1.Some? && spectral.None? && polyphony.None? && rhythm.None? && pitch.None? ==> r == onsetF1.value
  {
    var ms := [Weighted(onsetF1, 0.30), Weighted(spectral, 0.25), Weighted(polyphony, 0.20), Weighted(rhythm, 0.15), Weighted(pitch, 0.10)];
    assert onsetF1.None? && spectral.None? && polyphony.None? && rhythm.None? && pitch.None? ==> !AnyPresent(ms);
    assert PositiveWeights(ms);
    if UnitOrMissing(onsetF1) && UnitOrMissing(spectral) && UnitOrMissing(polyphony) && UnitOrMissing(rhythm) && UnitOrMissing(pitch) then
      assert PresentWithin(ms, 0.0, 1.0);
      WeightedScoreInUnit(ms);
      if onsetF1.Some? && spectral.None? && polyphony.None? && rhythm.None? && pitch.None? then
        WeightedScoreOfOne(ms, 0);
        WeightedScore(ms)
      else WeightedScore(ms)
    else if onsetF1.Some? && spectral.None? && polyphony.None? && rhythm.None? && pitch.None? then
      WeightedScoreOfOne(ms, 0);
      WeightedScore(ms)
    else WeightedScore(ms)
  }

  // ---------------------------------------------------------------------
  // Quality estimates

  /** `_compute_polyphony_score`, with the sample times as an input: 0
      without notes, otherwise 0.9, 0.7 or 0.5 as the mean number of notes
      sounding at a sample falls in [2, 6], in [1, 8], or elsewhere. */
  function PolyphonyScore(notes: seq<Sounding>, samples: seq<real>): (r: real)
    requires |samples| > 0
    ensures |notes| == 0 ==> r == 0.0
    ensures r in {0.0, 0.5, 0.7, 0.9}
  {
    if |notes| == 0 then 0.0
    else
      var mean := MeanPolyphony(notes, samples);
      if 2.0 <= mean <= 6.0 then 0.9
      else if 1.0 <= mean <= 8.0 then 0.7
      else 0.5
  }

  function Counts(notes: seq<Sounding>, samples: seq<real>): (r: seq<int>)
    ensures |r| == |samples|
  {
    seq(|samples|, i requires 0 <= i < |samples| => Polyphony(notes, samples[i]) as int)
  }

  function MeanPolyphony(notes: seq<Sounding>, samples: seq<real>): real
    requires |samples| > 0
  {
    Sum(Counts(notes, samples)) as real / |samples| as real
  }

  /** For a positive divisor, a quotient lies in [lo, hi] exactly when the
      dividend lies in [lo·d, hi·d]. */
  lemma ScaledBand(x: real, d: real, lo: real, hi: real)
    requires d > 0.0
    ensures lo <= x / d <= hi <==> lo * d <= x <= hi * d
  {
    if lo * d <= x <= hi * d {
      DivBounds(x, d, lo, hi);
    }
    if lo <= x / d <= hi {
      var q := x / d;
      assert x == q * d;
      assert x - lo * d == (q - lo) * d;
      assert hi * d - x == (hi - q) * d;
    }
  }

  /** The polyphony score by the total of the per-sample counts over n
      samples: 0.9 exactly when the total is in [2n, 6n], 0.7 exactly when it
      is in [n, 8n] but not in [2n, 6n], and 0.5 otherwise. */
  lemma PolyphonyBands(notes: seq<Sounding>, samples: seq<real>)
    requires |samples| > 0 && |notes| > 0
    ensures var total := Sum(Counts(notes, samples));
      var n := |samples|;
      var r := PolyphonyScore(notes, samples);
      && (r == 0.9 <==> 2 * n <= total <= 6 * n)
      && (r == 0.7 <==> n <= total <= 8 * n && !(2 * n <= total <= 6 * n))
      && (r == 0.5 <==> total < n || total > 8 * n)
  {
    var x := Sum(Counts(notes, samples)) as real;
    var d := |samples| as real;
    ScaledBand(x, d, 2.0, 6.0);
    ScaledBand(x, d, 1.0, 8.0);
  }

  /** When between one and eight notes sound at every sample, the score is
      at least 0.7. */
  lemma SparsePolyphonyScoresMid(notes: seq<Sounding>, samples: seq<real>)
    requires |samples| > 0 && |notes| > 0
    requires forall i :: 0 <= i < |samples| ==> 1 <= Polyphony(notes, samples[i]) <= 8
    ensures PolyphonyScore(notes, samples) >= 0.7
  {
    var c := Counts(notes, samples);
    SumBetween(c, 1, 8);
    PolyphonyBands(notes, samples);
  }

  lemma {:induction false} SumBetween(s: seq<int>, lo: int, hi: int)
    requires forall k :: 0 <= k < |s| ==> lo <= s[k] <= hi
    ensures lo * |s| <= Sum(s) <= hi * |s|
  {
    if |s| > 0 {
      var init := s[..|s| - 1];
      SumBetween(init, lo, hi);
      assert Sum(s) == Sum(init) + s[|s| - 1];
      assert lo * |s| == lo * |init| + lo && hi * |s| == hi * |init| + hi;
    }
  }

  /** When between 2 and 6 notes sound at every sample, the score is 0.9. */
  lemma SteadyPolyphonyScoresHigh(notes: seq<Sounding>, samples: seq<real>)
    requires |samples| > 0 && |notes| > 0
    requires forall i :: 0 <= i < |samples| ==> 2 <= Polyphony(notes, samples[i]) <= 6
    ensures PolyphonyScore(notes, samples) == 0.9
  {
    var c := Counts(notes, samples);
    SumBetween(c, 2, 6);
    var n := |samples| as real;
    assert 2.0 * n <= Sum(c) as real <= 6.0 * n;
    DivBounds(Sum(c) as real, n, 2.0, 6.0);
  }

  /** When no note ever sounds at a sample, the score is 0.5. */
  lemma SilentSamplesScoreLow(notes: seq<Sounding>, samples: seq<real>)
    requires |samples| > 0 && |notes| > 0
    requires forall i :: 0 <= i < |samples| ==> Polyphony(notes, samples[i]) == 0
    ensures PolyphonyScore(notes, samples) == 0.5
  {
    var c := Counts(notes, samples);
    SumBetween(c, 0, 0);
  }

  /** Consecutive differences, `np.diff`. */
  function Diffs(s: seq<real>): (r: seq<real>)
    requires |s| >= 1
    ensures |r| == |s| - 1
  {
    seq(|s| - 1, i requires 0 <= i < |s| - 1 => s[i + 1] - s[i])
  }

  function MaxOfReal(s: seq<real>): (r: real)
    requires |s| > 0
    ensures forall k :: 0 <= k < |s| ==> s[k] <= r
    ensures exists k :: 0 <= k < |s| && r == s[k]
  {
    if |s| == 1 then s[0] else MaxReal(s[0], MaxOfReal(s[1..]))
  }

  /** `_compute_rhythmic_precision`, with the Wasserstein distance of the
      normalised intervals as an input: 0.5 with fewer than two onsets on a
      side or no positive interval, otherwise 1 minus the distance, floored
      at 0. */
  function RhythmicPrecision(audio: seq<real>, midi: seq<real>, distance: real): (r: real)
    ensures |audio| < 2 || |midi| < 2 ==> r == 0.5
    ensures r >= 0.0
    ensures distance >= 0.0 ==> r <= 1.0
    ensures |audio| >= 2 && |midi| >= 2 && (forall i :: 0 <= i < |audio| - 1 ==> audio[i] >= audio[i + 1]) && (forall i :: 0 <= i < |midi| - 1 ==> midi[i] >= midi[i + 1]) ==> r == 0.5
  {
    if |audio| < 2 || |midi| < 2 then 0.5
    else
      var maxIoi := MaxReal(MaxOfReal(Diffs(audio)), MaxOfReal(Diffs(midi)));
      if maxIoi > 0.0 then MaxReal(0.0, 1.0 - distance) else 0.5
  }

  /** `_compute_pitch_accuracy`: a fixed estimate of 0.85 once there are
      notes at all. */
  function PitchAccuracy(noteCount: nat): (r: real)
    ensures noteCount == 0 <==> r == 0.0
    ensures noteCount > 0 ==> r == 0.85
  {
    if noteCount == 0 then 0.0 else 0.85
  }
}

=== FILE: hand_separator.dfy ===
/** Separation of a piano file into a right-hand and a left-hand track
    (hand_separator.py). The notes of every track are paired and sorted by
    start; a split point is derived from the median pitch; every note is
    given to a hand by a pitch rule with a hysteresis zone, falling back on
    the notes each hand played within the last 500 ticks; and the two hands
    are written as two new tracks. */
module HandSeparator {
  import opened Base
  import opened Sorting
  import opened Midi
  import opened NoteEvents

  datatype Hand = Left | Right

  /** An earlier note counts as recent while the current start is less than this many ticks after it. */
  const RecentWindow: int := 500
  /** The split point is kept within an octave of middle C (C3 .. C5). */
  const LowestSplit: int := 48
  const HighestSplit: int := 72

  // ---------------------------------------------------------------------
  // Note extraction

  /** This component records a note with the channel of its closing message. */
  function OffNote(p: Paired): Note
  {
    Note(p.pitch, p.velocity, p.start, p.end, p.offChannel)
  }

  function OffNotes(ps: seq<Paired>): (r: seq<Note>)
    ensures |r| == |ps|
    ensures forall i :: 0 <= i < |ps| ==> r[i] == OffNote(ps[i])
  {
    seq(|ps|, i requires 0 <= i < |ps| => OffNote(ps[i]))
  }

  predicate NoteStartLe(a: Note, b: Note) { a.start <= b.start }

  /** `_extract_notes`: every track paired on its own clock, then a stable sort by start. */
  function ExtractNotes(tracks: seq<Track>): (r: seq<Note>)
    ensures multiset(r) == multiset(OffNotes(PairTracks(tracks)))
    ensures forall i, j :: 0 <= i < j < |r| ==> r[i].start <= r[j].start
  {
    Sort(OffNotes(PairTracks(tracks)), NoteStartLe)
  }

  /** The notes of a read file can be written back as MIDI messages. */
  lemma ExtractedEncodable(tracks: seq<Track>)
    requires forall t :: 0 <= t < |tracks| ==> NonNegTimes(tracks[t])
    ensures forall i :: 0 <= i < |ExtractNotes(tracks)| ==> Encodable(ExtractNotes(tracks)[i])
  {
    var ps := PairTracks(tracks);
    PairTracksWellFormed(tracks);
    var ns := OffNotes(ps);
    var r := ExtractNotes(tracks);
    forall i | 0 <= i < |r| ensures Encodable(r[i]) {
      assert r[i] in multiset(ns);
      var k :| 0 <= k < |ns| && ns[k] == r[i];
      assert ps[k] in ps;
    }
  }

  // ---------------------------------------------------------------------
  // Split point

  function Pitches(notes: seq<Note>): (r: seq<int>)
    ensures |r| == |notes|
    ensures forall i :: 0 <= i < |notes| ==> r[i] == notes[i].pitch
  {
    seq(|notes|, i requires 0 <= i < |notes| => notes[i].pitch)
  }

  predicate IntLe(a: int, b: int) { a <= b }

  /** `np.median`: the middle element of the sorted values, or the mean of the two middle ones. */
  function Median(s: seq<int>): real
    requires |s| > 0
  {
    Middle(Sort(s, IntLe))
  }

  function Middle(t: seq<int>): real
    requires |t| > 0
  {
    var n := |t|;
    if n % 2 == 1 then t[n / 2] as real else (t[n / 2 - 1] + t[n / 2]) as real / 2.0
  }

  function AtMost(m: real): int -> bool { x => x as real <= m }
  function AtLeast(m: real): int -> bool { x => x as real >= m }

  lemma CountPrefix<T>(t: seq<T>, f: T -> bool, p: nat)
    requires p <= |t|
    requires forall i :: 0 <= i < p ==> f(t[i])
    ensures CountWhere(t, f) >= p
  {
    assert t == t[..p] + t[p..];
    CountAppend(t[..p], t[p..], f);
    CountAll(t[..p], f);
  }

  lemma CountSuffix<T>(t: seq<T>, f: T -> bool, p: nat)
    requires p <= |t|
    requires forall i :: p <= i < |t| ==> f(t[i])
    ensures CountWhere(t, f) >= |t| - p
  {
    assert t == t[..p] + t[p..];
    CountAppend(t[..p], t[p..], f);
    CountAll(t[p..], f);
  }

  lemma SortedInts(t: seq<int>, i: nat, j: nat)
    requires SortedBy(t, IntLe)
    requires i <= j < |t|
    ensures t[i] <= t[j]
  {
    if i < j {
      assert IntLe(t[i], t[j]);
    }
  }

  /** At least half of the values are at or below the median. */
  lemma MedianLowerHalf(s: seq<int>)
    requires |s| > 0
    ensures 2 * CountWhere(s, AtMost(Median(s))) >= |s|
  {
    var t := Sort(s, IntLe);
    var n := |t|;
    var m := Median(s);
    var lo := if n % 2 == 1 then n / 2 + 1 else n / 2;
    var mid := if n % 2 == 1 then n / 2 else n / 2 - 1;
    assert t[mid] as real <= m by {
      if n % 2 == 0 { SortedInts(t, mid, n / 2); }
    }
    forall i | 0 <= i < lo ensures AtMost(m)(t[i]) {
      SortedInts(t, i, mid);
    }
    CountPrefix(t, AtMost(m), lo);
    CountPermutation(s, t, AtMost(m));
  }

  /** At least half of the values are at or above the median. */
  lemma MedianUpperHalf(s: seq<int>)
    requires |s| > 0
    ensures 2 * CountWhere(s, AtLeast(Median(s))) >= |s|
  {
    var t := Sort(s, IntLe);
    var n := |t|;
    var m := Median(s);
    assert t[n / 2] as real >= m by {
      if n % 2 == 0 { SortedInts(t, n / 2 - 1, n / 2); }
    }
    forall i | n / 2 <= i < n ensures AtLeast(m)(t[i]) {
      SortedInts(t, n / 2, i);
    }
    CountSuffix(t, AtLeast(m), n / 2);
    CountPermutation(s, t, AtLeast(m));
  }

  /** `_analyze_pitch_distribution`: the truncated median pitch, clamped to
      [48, 72]; the given split note when there are no notes. */
  function EstimateSplit(notes: seq<Note>, splitNote: int): (r: int)
    ensures |notes| == 0 ==> r == splitNote
    ensures |notes| > 0 ==> LowestSplit <= r <= HighestSplit
  {
    if |notes| == 0 then splitNote
    else
      var a := TruncReal(Median(Pitches(notes)));
      if a < LowestSplit then LowestSplit
      else if a > HighestSplit then HighestSplit
      else a
  }

  /** Inside the clamp the split is the median pitch truncated, and the median
      has half the pitches on either side. */
  lemma SplitIsMedian(notes: seq<Note>, splitNote: int)
    requires |notes| > 0
    ensures var m := Median(Pitches(notes));
      && 2 * CountWhere(Pitches(notes), AtMost(m)) >= |notes|
      && 2 * CountWhere(Pitches(notes), AtLeast(m)) >= |notes|
      && (LowestSplit as real <= m < (HighestSplit + 1) as real ==> EstimateSplit(notes, splitNote) == m.Floor)
  {
    MedianLowerHalf(Pitches(notes));
    MedianUpperHalf(Pitches(notes));
  }

  /** The split depends only on which pitches occur how often, not on note order. */
  lemma SplitOrderFree(a: seq<Note>, b: seq<Note>, splitNote: int)
    requires multiset(Pitches(a)) == multiset(Pitches(b))
    ensures EstimateSplit(a, splitNote) == EstimateSplit(b, splitNote)
  {
    assert |a| == |multiset(Pitches(a))| == |multiset(Pitches(b))| == |b|;
    if |a| > 0 {
      MedianOrderFree(Pitches(a), Pitches(b));
    }
  }

  lemma MedianOrderFree(s: seq<int>, t: seq<int>)
    requires |s| > 0 && multiset(s) == multiset(t)
    ensures |t| > 0 && Median(s) == Median(t)
  {
    assert |s| == |multiset(s)| == |multiset(t)| == |t|;
    SortPermutation(s, t, IntLe);
  }

  // ---------------------------------------------------------------------
  // Hand assignment, as the loop computes it

  function Score(n: Note, last: Note): int
  {
    (n.start - last.start) + Abs(n.pitch - last.pitch) * 10
  }

  /** The choice for one note given the latest recent note of each hand. */
  function Decide(n: Note, split: int, hyst: int, lastLeft: Option<Note>, lastRight: Option<Note>): (h: Hand)
    ensures n.pitch < split - hyst ==> h == Left
    ensures !(n.pitch < split - hyst) && n.pitch > split + hyst ==> h == Right
  {
    if n.pitch < split - hyst then Left
    else if n.pitch > split + hyst then Right
    else if lastLeft.Some? && lastRight.Some? then
      if Score(n, lastLeft.value) < Score(n, lastRight.value) then Left else Right
    else if lastLeft.Some? then Left
    else if lastRight.Some? then Right
    else if n.pitch < split then Left
    else Right
  }

  /** The loop state: the recent notes of each hand (as indices into the note
      list, oldest first) and the hands chosen so far. */
  datatype AssignState = AssignState(left: seq<nat>, right: seq<nat>, out: seq<Hand>)
  {
    function Recent(h: Hand): seq<nat> { if h == Left then left else right }
  }

  /** Keeps the recent notes less than 500 ticks before time t, in order. */
  function Prune(notes: seq<Note>, rs: seq<nat>, t: int): (r: seq<nat>)
  {
    if |rs| == 0 then []
    else
      var j := rs[|rs| - 1];
      Prune(notes, rs[..|rs| - 1], t) + (if j < |notes| && t - notes[j].start < RecentWindow then [j] else [])
  }

  function LastOf(notes: seq<Note>, rs: seq<nat>): Option<Note>
  {
    if |rs| == 0 || rs[|rs| - 1] >= |notes| then None else Some(notes[rs[|rs| - 1]])
  }

  /** One turn of the loop, for note i: prune both recent lists at its start,
      decide, and remember the note under its hand. */
  function AssignStep(notes: seq<Note>, split: int, hyst: int, prev: AssignState, i: nat): (st: AssignState)
    requires i < |notes|
    ensures |st.out| == |prev.out| + 1 && st.out[..|prev.out|] == prev.out
    ensures st.left == Prune(notes, prev.left, notes[i].start) + (if st.out[|prev.out|] == Left then [i] else [])
    ensures st.right == Prune(notes, prev.right, notes[i].start) + (if st.out[|prev.out|] == Right then [i] else [])
  {
    var t := notes[i].start;
    var l := Prune(notes, prev.left, t);
    var r := Prune(notes, prev.right, t);
    var h := Decide(notes[i], split, hyst, LastOf(notes, l), LastOf(notes, r));
    AssignState(if h == Left then l + [i] else l, if h == Right then r + [i] else r, prev.out + [h])
  }

  /** The state after the first k notes. */
  function AssignPrefix(notes: seq<Note>, split: int, hyst: int, k: nat): (st: AssignState)
    requires k <= |notes|
    ensures |st.out| == k
  {
    if k == 0 then AssignState([], [], [])
    else AssignStep(notes, split, hyst, AssignPrefix(notes, split, hyst, k - 1), k - 1)
  }

  /** `_assign_hands`: one hand per note, in note order. */
  function AssignHands(notes: seq<Note>, split: int, hyst: int): (r: seq<Hand>)
    ensures |r| == |notes|
  {
    AssignPrefix(notes, split, hyst, |notes|).out
  }

  // ---------------------------------------------------------------------
  // The same assignment described without the recent lists

  /** Note j is still among the recent notes after the pruning done at each of
      the notes j+1 .. k-1. */
  predicate Survives(notes: seq<Note>, j: nat, k: nat)
    requires j < k <= |notes|
  {
    forall m :: j < m < k ==> notes[m].start - notes[j].start < RecentWindow
  }

  /** The latest of the notes before n given to hand h that survive up to k. */
  function Latest(notes: seq<Note>, labels: seq<Hand>, k: nat, h: Hand, n: nat): (r: Option<nat>)
    requires n <= |labels| && n < k <= |notes|
    ensures r.Some? ==> r.value < n && labels[r.value] == h && Survives(notes, r.value, k)
    ensures r.Some? ==> forall j :: r.value < j < n ==> !(labels[j] == h && Survives(notes, j, k))
    ensures r.None? ==> forall j :: 0 <= j < n ==> !(labels[j] == h && Survives(notes, j, k))
  {
    if n == 0 then None
    else if labels[n - 1] == h && Survives(notes, n - 1, k) then Some(n - 1)
    else Latest(notes, labels, k, h, n - 1)
  }

  function NoteAt(notes: seq<Note>, o: Option<nat>): Option<Note>
    requires o.Some? ==> o.value < |notes|
  {
    if o.Some? then Some(notes[o.value]) else None
  }

  /** The surviving notes before n given to hand h, oldest first. */
  function Pick(notes: seq<Note>, labels: seq<Hand>, k: nat, h: Hand, n: nat): (r: seq<nat>)
    requires n <= |labels| && n <= k <= |notes|
  {
    if n == 0 then []
    else Pick(notes, labels, k, h, n - 1) + (if labels[n - 1] == h && Survives(notes, n - 1, k) then [n - 1] else [])
  }

  lemma {:induction false} PickLabels(notes: seq<Note>, a: seq<Hand>, b: seq<Hand>, k: nat, h: Hand, n: nat)
    requires n <= |a| && n <= |b| && n <= k <= |notes|
    requires forall j :: 0 <= j < n ==> a[j] == b[j]
    ensures Pick(notes, a, k, h, n) == Pick(notes, b, k, h, n)
  {
    if n > 0 {
      PickLabels(notes, a, b, k, h, n - 1);
    }
  }

  /** Pruning at note k removes exactly the notes that do not survive it. */
  lemma {:induction false} PrunePick(notes: seq<Note>, labels: seq<Hand>, k: nat, h: Hand, n: nat)
    requires n <= |labels| && n <= k < |notes|
    ensures Prune(notes, Pick(notes, labels, k, h, n), notes[k].start) == Pick(notes, labels, k + 1, h, n)
  {
    if n > 0 {
      PrunePick(notes, labels, k, h, n - 1);
      var j := n - 1;
      var a := Pick(notes, labels, k, h, n - 1);
      if labels[j] == h && Survives(notes, j, k) {
        assert (a + [j])[..|a|] == a;
        assert Survives(notes, j, k + 1) <==> notes[k].start - notes[j].start < RecentWindow;
      } else {
        assert !(labels[j] == h && Survives(notes, j, k + 1));
        assert Pick(notes, labels, k, h, n) == a + [] == a;
        assert Prune(notes, a, notes[k].start) == Pick(notes, labels, k + 1, h, n - 1);
        assert Pick(notes, labels, k + 1, h, n) == Pick(notes, labels, k + 1, h, n - 1) + [];
      }
    }
  }

  lemma {:induction false} PickLast(notes: seq<Note>, labels: seq<Hand>, k: nat, h: Hand, n: nat)
    requires n <= |labels| && n < k <= |notes|
    ensures LastOf(notes, Pick(notes, labels, k, h, n)) == NoteAt(notes, Latest(notes, labels, k, h, n))
  {
    if n > 0 {
      PickLast(notes, labels, k, h, n - 1);
    }
  }

  /** One turn keeps each recent list equal to the surviving notes of its hand. */
  lemma StepLists(notes: seq<Note>, split: int, hyst: int, prev: AssignState, i: nat, h: Hand)
    requires i < |notes| && |prev.out| == i
    requires prev.Recent(h) == Pick(notes, prev.out, i, h, i)
    ensures AssignStep(notes, split, hyst, prev, i).Recent(h) ==
      Pick(notes, AssignStep(notes, split, hyst, prev, i).out, i + 1, h, i + 1)
  {
    var st := AssignStep(notes, split, hyst, prev, i);
    var k := i + 1;
    var l := Prune(notes, prev.Recent(h), notes[i].start);
    assert st.Recent(h) == l + (if st.out[i] == h then [i] else []) by {
      if h == Left {
        assert st.left == Prune(notes, prev.left, notes[i].start) + (if st.out[i] == Left then [i] else []);
      } else {
        assert st.right == Prune(notes, prev.right, notes[i].start) + (if st.out[i] == Right then [i] else []);
      }
    }
    PrunePick(notes, prev.out, i, h, i);
    assert l == Pick(notes, prev.out, k, h, i);
    assert forall j :: 0 <= j < i ==> prev.out[j] == st.out[..i][j] == st.out[j];
    PickLabels(notes, prev.out, st.out, k, h, i);
    assert Survives(notes, i, k);
    if st.out[i] == h {
      assert Pick(notes, st.out, k, h, k) == l + [i];
    } else {
      assert Pick(notes, st.out, k, h, k) == l + [];
    }
  }

  /** The loop's recent lists are the surviving notes of each hand. */
  lemma {:induction false} AssignLists(notes: seq<Note>, split: int, hyst: int, k: nat, h: Hand)
    requires k <= |notes|
    ensures AssignPrefix(notes, split, hyst, k).Recent(h) == Pick(notes, AssignPrefix(notes, split, hyst, k).out, k, h, k)
  {
    if k > 0 {
      AssignLists(notes, split, hyst, k - 1, h);
      StepLists(notes, split, hyst, AssignPrefix(notes, split, hyst, k - 1), k - 1, h);
    }
  }

  lemma AssignOneMore(notes: seq<Note>, split: int, hyst: int, k: nat)
    requires 0 < k <= |notes|
    ensures AssignPrefix(notes, split, hyst, k).out[..k - 1] == AssignPrefix(notes, split, hyst, k - 1).out
  {
  }

  /** Choices already made are never revised. */
  lemma {:induction false} AssignStable(notes: seq<Note>, split: int, hyst: int, i: nat, k: nat)
    requires i <= k <= |notes|
    ensures AssignPrefix(notes, split, hyst, k).out[..i] == AssignPrefix(notes, split, hyst, i).out
  {
    if k > i {
      AssignStable(notes, split, hyst, i, k - 1);
      AssignOneMore(notes, split, hyst, k);
      PrefixOfPrefix(AssignPrefix(notes, split, hyst, k).out, AssignPrefix(notes, split, hyst, k - 1).out,
        AssignPrefix(notes, split, hyst, i).out);
    } else {
      SelfPrefix(AssignPrefix(notes, split, hyst, k).out);
    }
  }

  lemma PrefixOfPrefix(o: seq<Hand>, p: seq<Hand>, q: seq<Hand>)
    requires |q| <= |p| < |o| && o[..|p|] == p && p[..|q|] == q
    ensures o[..|q|] == q
  {
    assert o[..|q|] == o[..|p|][..|q|];
  }

  lemma SelfPrefix(o: seq<Hand>)
    ensures o[..|o|] == o
  {
  }

  lemma {:induction false} LatestLabels(notes: seq<Note>, a: seq<Hand>, b: seq<Hand>, k: nat, h: Hand, n: nat)
    requires n <= |a| && n <= |b| && n < k <= |notes|
    requires forall j :: 0 <= j < n ==> a[j] == b[j]
    ensures Latest(notes, a, k, h, n) == Latest(notes, b, k, h, n)
  {
    if n > 0 {
      LatestLabels(notes, a, b, k, h, n - 1);
    }
  }

  /** Each note goes where the decision sends it, given for each hand the
      latest earlier note of that hand that has survived every pruning since:
      below the zone to the left, above it to the right, inside it by the
      recent notes, and by the split itself when neither hand has any. */
  lemma AssignMatchesReference(notes: seq<Note>, split: int, hyst: int, i: nat)
    requires i < |notes|
    ensures var r := AssignHands(notes, split, hyst);
      r[i] == Decide(notes[i], split, hyst,
        NoteAt(notes, Latest(notes, r, i + 1, Left, i)),
        NoteAt(notes, Latest(notes, r, i + 1, Right, i)))
  {
    var r := AssignHands(notes, split, hyst);
    var prev := AssignPrefix(notes, split, hyst, i);
    AssignStable(notes, split, hyst, i, |notes|);
    AssignStable(notes, split, hyst, i + 1, |notes|);
    assert r[i] == r[..i + 1][i];
    AssignLists(notes, split, hyst, i, Left);
    AssignLists(notes, split, hyst, i, Right);
    PrunePick(notes, prev.out, i, Left, i);
    PrunePick(notes, prev.out, i, Right, i);
    PickLast(notes, prev.out, i + 1, Left, i);
    PickLast(notes, prev.out, i + 1, Right, i);
    LatestLabels(notes, prev.out, r, i + 1, Left, i);
    LatestLabels(notes, prev.out, r, i + 1, Right, i);
  }

  /** On notes sorted by start, surviving is just starting less than 500 ticks
      before the current note. */
  lemma SortedSurvives(notes: seq<Note>, j: nat, i: nat)
    requires j < i < |notes|
    requires forall a, b :: 0 <= a < b < |notes| ==> notes[a].start <= notes[b].start
    ensures Survives(notes, j, i + 1) <==> notes[i].start - notes[j].start < RecentWindow
  {
  }

  // ---------------------------------------------------------------------
  // The two output tracks

  /** The notes among the first k given to hand h, in their original order. */
  function SelectUpTo<T>(notes: seq<T>, labels: seq<Hand>, h: Hand, k: nat): (r: seq<T>)
    requires |labels| == |notes| && k <= |notes|
  {
    if k == 0 then []
    else SelectUpTo(notes, labels, h, k - 1) + (if labels[k - 1] == h then [notes[k - 1]] else [])
  }

  /** The notes given to hand h, in their original order. */
  function Select(notes: seq<Note>, labels: seq<Hand>, h: Hand): (r: seq<Note>)
    requires |labels| == |notes|
  {
    SelectUpTo(notes, labels, h, |notes|)
  }

  lemma SelectUpToStep<T>(notes: seq<T>, labels: seq<Hand>, h: Hand, k: nat)
    requires |labels| == |notes| && 0 < k <= |notes|
    ensures multiset(SelectUpTo(notes, labels, h, k)) ==
      multiset(SelectUpTo(notes, labels, h, k - 1)) + (if labels[k - 1] == h then multiset{notes[k - 1]} else multiset{})
  {
  }

  lemma {:induction false} SelectUpToPartition<T>(notes: seq<T>, labels: seq<Hand>, k: nat)
    requires |labels| == |notes| && k <= |notes|
    ensures multiset(SelectUpTo(notes, labels, Right, k)) + multiset(SelectUpTo(notes, labels, Left, k)) ==
      multiset(notes[..k])
  {
    if k > 0 {
      SelectUpToPartition(notes, labels, k - 1);
      SelectUpToStep(notes, labels, Right, k);
      SelectUpToStep(notes, labels, Left, k);
      MultisetPrefixStep(notes, k);
    }
  }

  /** Every note lands in exactly one of the two hands. */
  lemma SelectPartition(notes: seq<Note>, labels: seq<Hand>)
    requires |labels| == |notes|
    ensures multiset(Select(notes, labels, Right)) + multiset(Select(notes, labels, Left)) == multiset(notes)
  {
    SelectUpToPartition(notes, labels, |notes|);
    assert notes[..|notes|] == notes;
  }

  predicate IsTimingMeta(m: Msg)
  {
    m.Meta? && (m.meta.SetTempo? || m.meta.TimeSignature? || m.meta.KeySignature?)
  }

  /** Index of the first tempo, time-signature or key-signature message at or after k. */
  function FirstTiming(t: Track, k: nat): (r: Option<nat>)
    requires k <= |t|
    ensures r.Some? ==> k <= r.value < |t| && IsTimingMeta(t[r.value])
    ensures r.Some? ==> forall j :: k <= j < r.value ==> !IsTimingMeta(t[j])
    ensures r.None? ==> forall j :: k <= j < |t| ==> !IsTimingMeta(t[j])
    decreases |t| - k
  {
    if k == |t| then None
    else if IsTimingMeta(t[k]) then Some(k)
    else FirstTiming(t, k + 1)
  }

  function HasTiming(t: Track): bool { FirstTiming(t, 0).Some? }

  /** The meta messages copied into both hands: from every original track, its
      first tempo, time-signature or key-signature message, moved to time 0. */
  function CopiedMeta(tracks: seq<Track>): (r: seq<Msg>)
    ensures forall k :: 0 <= k < |r| ==> IsTimingMeta(r[k]) && r[k].time == 0
  {
    if |tracks| == 0 then []
    else
      var last := tracks[|tracks| - 1];
      var f := FirstTiming(last, 0);
      CopiedMeta(tracks[..|tracks| - 1]) + (if f.Some? then [last[f.value].WithTime(0)] else [])
  }

  /** One message is copied for each track that has one to copy. */
  lemma {:induction false} CopiedMetaCount(tracks: seq<Track>)
    ensures |CopiedMeta(tracks)| == CountWhere(tracks, HasTiming)
  {
    if |tracks| > 0 {
      CopiedMetaCount(tracks[..|tracks| - 1]);
    }
  }

  function HandTrack(name: string, meta: seq<Msg>, notes: seq<Note>): (r: Track)
    requires forall i :: 0 <= i < |notes| ==> Encodable(notes[i])
    ensures |r| == 2 + |meta| + 2 * |notes|
    ensures r[0] == Meta(TrackName(name), 0) && r[|r| - 1] == Meta(EndOfTrack, 0)
  {
    [Meta(TrackName(name), 0)] + meta + EncodeNotes(notes) + [Meta(EndOfTrack, 0)]
  }

  /** The note messages of a hand track: what lies between its name and
      copied meta messages and its end-of-track message. */
  function NoteSection(t: Track, metaCount: nat): Track
    requires 2 + metaCount <= |t|
  {
    t[1 + metaCount .. |t| - 1]
  }

  /** `_create_empty_midi`: two named tracks without notes or copied meta messages. */
  function EmptySeparation(ticksPerBeat: int): (r: MidiFile)
    ensures r.ticksPerBeat == ticksPerBeat && |r.tracks| == 2
    ensures |r.tracks[0]| == 2 && |r.tracks[1]| == 2
    ensures r.tracks[0][1] == Meta(EndOfTrack, 0) && r.tracks[1][1] == Meta(EndOfTrack, 0)
  {
    MidiFile(ticksPerBeat, [[Meta(TrackName("Right Hand"), 0), Meta(EndOfTrack, 0)],
                            [Meta(TrackName("Left Hand"), 0), Meta(EndOfTrack, 0)]])
  }

  /** `separate`: the right hand in track 0 and the left hand in track 1. A
      file as read never has negative delta times. */
  function Separate(file: MidiFile, splitNote: int, hyst: int): (r: MidiFile)
    requires forall t :: 0 <= t < |file.tracks| ==> NonNegTimes(file.tracks[t])
    ensures r.ticksPerBeat == file.ticksPerBeat && |r.tracks| == 2
    ensures |r.tracks[0]| >= 2 && |r.tracks[1]| >= 2
    ensures r.tracks[0][0] == Meta(TrackName("Right Hand"), 0)
    ensures r.tracks[1][0] == Meta(TrackName("Left Hand"), 0)
    ensures |ExtractNotes(file.tracks)| == 0 ==> r == EmptySeparation(file.ticksPerBeat)
  {
    var notes := ExtractNotes(file.tracks);
    if |notes| == 0 then EmptySeparation(file.ticksPerBeat)
    else
      var split := EstimateSplit(notes, splitNote);
      var labels := AssignHands(notes, split, hyst);
      ExtractedEncodable(file.tracks);
      SelectEncodable(notes, labels, Right);
      SelectEncodable(notes, labels, Left);
      var meta := CopiedMeta(file.tracks);
      MidiFile(file.ticksPerBeat,
               [HandTrack("Right Hand", meta, Select(notes, labels, Right)),
                HandTrack("Left Hand", meta, Select(notes, labels, Left))])
  }

  lemma SelectEncodable(notes: seq<Note>, labels: seq<Hand>, h: Hand)
    requires |labels| == |notes|
    requires forall i :: 0 <= i < |notes| ==> Encodable(notes[i])
    ensures forall i :: 0 <= i < |Select(notes, labels, h)| ==> Encodable(Select(notes, labels, h)[i])
  {
    SelectPartition(notes, labels);
    var s := Select(notes, labels, h);
    forall i | 0 <= i < |s| ensures Encodable(s[i]) {
      assert s[i] in multiset(s);
      assert s[i] in multiset(notes);
      var k :| 0 <= k < |notes| && notes[k] == s[i];
    }
  }

  /** The note messages of a hand track read back as exactly the note_on and
      note_off events of that hand's notes. */
  lemma HandSection(name: string, meta: seq<Msg>, notes: seq<Note>)
    requires forall i :: 0 <= i < |notes| ==> Encodable(notes[i])
    ensures NoteSection(HandTrack(name, meta, notes), |meta|) == EncodeNotes(notes)
    ensures forall k :: 0 <= k < |EncodeNotes(notes)| ==> EncodeNotes(notes)[k].NoteOn? || EncodeNotes(notes)[k].NoteOff?
    ensures multiset(Decode(EncodeNotes(notes))) == multiset(EventsOf(notes))
  {
    var t := HandTrack(name, meta, notes);
    assert t[1 + |meta| .. |t| - 1] == EncodeNotes(notes);
    EncodeDecode(notes);
  }

  /** Nothing is lost or duplicated: the extracted notes split into the two
      hands, and the output tracks are built from exactly those notes. */
  lemma SeparateKeepsNotes(file: MidiFile, splitNote: int, hyst: int)
    requires forall t :: 0 <= t < |file.tracks| ==> NonNegTimes(file.tracks[t])
    requires |ExtractNotes(file.tracks)| > 0
    ensures var notes := ExtractNotes(file.tracks);
      var labels := AssignHands(notes, EstimateSplit(notes, splitNote), hyst);
      var right := Select(notes, labels, Right);
      var left := Select(notes, labels, Left);
      var r := Separate(file, splitNote, hyst);
      var mc := |CopiedMeta(file.tracks)|;
      && multiset(right) + multiset(left) == multiset(notes)
      && 2 + mc <= |r.tracks[0]| && 2 + mc <= |r.tracks[1]|
      && (forall i :: 0 <= i < |right| ==> Encodable(right[i]))
      && (forall i :: 0 <= i < |left| ==> Encodable(left[i]))
      && NoteSection(r.tracks[0], mc) == EncodeNotes(right)
      && NoteSection(r.tracks[1], mc) == EncodeNotes(left)
  {
    var notes := ExtractNotes(file.tracks);
    var labels := AssignHands(notes, EstimateSplit(notes, splitNote), hyst);
    var meta := CopiedMeta(file.tracks);
    SelectPartition(notes, labels);
    ExtractedEncodable(file.tracks);
    SelectEncodable(notes, labels, Right);
    SelectEncodable(notes, labels, Left);
    HandSection("Right Hand", meta, Select(notes, labels, Right));
    HandSection("Left Hand", meta, Select(notes, labels, Left));
  }
}

=== FILE: midi.dfy ===
/** The abstract MIDI vocabulary shared by every component: messages with
    delta times, tracks, files, the Note record, and the pairing of note_on
    and note_off messages into notes that every extractor in the program
    repeats (hand_separator.py:56-86, midi_corrector.py:162-191,
    chord_detector.py:111-137, motif_extractor.py:27-60,
    motif_extractor_v2.py:92-129, advanced_transcriber.py:270-296). */
module Midi {
  import opened Base
  import opened Sorting

  /** A 7-bit MIDI data byte; mido refuses note numbers and velocities outside it. */
  type U7 = x: int | 0 <= x < 128
  type Channel = x: int | 0 <= x < 16

  /** The names of the twelve pitch classes, with sharps, from C. */
  const NoteNames: seq<string> := ["C", "C#", "D", "D#", "E", "F", "F#", "G", "G#", "A", "A#", "B"]

  datatype MetaKind =
    | SetTempo(tempo: nat)
    | TrackName(name: string)
    | TimeSignature(numerator: nat, denominator: nat)
    | KeySignature(key: string)
    | EndOfTrack
    | OtherMeta(kind: string)

  /** A track message; `time` is the delta in ticks from the previous message. */
  datatype Msg =
    | NoteOn(note: U7, velocity: U7, channel: Channel, time: int)
    | NoteOff(note: U7, velocity: U7, channel: Channel, time: int)
    | ControlChange(control: U7, value: U7, channel: Channel, time: int)
    | Meta(meta: MetaKind, time: int)
    | OtherMsg(time: int)
  {
    /** `msg.type == 'note_on' and msg.velocity > 0` */
    predicate IsStart() { NoteOn? && velocity > 0 }

    /** `msg.type == 'note_off' or (msg.type == 'note_on' and msg.velocity == 0)` */
    predicate IsStop() { NoteOff? || (NoteOn? && velocity == 0) }

    /** True when the message opens or closes a note of pitch p. */
    predicate Touches(p: int) { (IsStart() || IsStop()) && note == p }

    function WithTime(t: int): Msg
    {
      match this
      case NoteOn(n, v, c, _) => NoteOn(n, v, c, t)
      case NoteOff(n, v, c, _) => NoteOff(n, v, c, t)
      case ControlChange(k, v, c, _) => ControlChange(k, v, c, t)
      case Meta(k, _) => Meta(k, t)
      case OtherMsg(_) => OtherMsg(t)
    }
  }

  type Track = seq<Msg>

  datatype MidiFile = MidiFile(ticksPerBeat: int, tracks: seq<Track>)

  /** A read file: mido never yields a negative delta time. */
  ghost predicate NonNegTimes(msgs: Track)
  {
    forall k :: 0 <= k < |msgs| ==> msgs[k].time >= 0
  }

  datatype Note = Note(pitch: int, velocity: int, start: int, end: int, channel: int)
  {
    function Duration(): int { end - start }
  }

  /** A note as the pairing produces it, before a component picks its fields. */
  datatype Paired = Paired(pitch: int, velocity: int, start: int, end: int,
                           onChannel: int, offChannel: int)
  {
    /** The note with the channel of its note_on (every extractor but one). */
    function AsNote(): Note { Note(pitch, velocity, start, end, onChannel) }
  }

  datatype Pending = Pending(start: int, velocity: int, channel: int)

  /** The running state of the pairing loop over one track: the absolute time,
      the pending starts by note number, and the notes closed so far. */
  datatype PairState = PairState(time: int, active: map<int, Pending>, out: seq<Paired>)

  function Step(st: PairState, m: Msg): PairState
  {
    var t := st.time + m.time;
    if m.IsStart() then
      PairState(t, st.active[m.note := Pending(t, m.velocity, m.channel)], st.out)
    else if m.IsStop() && m.note in st.active then
      var p := st.active[m.note];
      PairState(t, st.active - {m.note},
                st.out + [Paired(m.note, p.velocity, p.start, t, p.channel, m.channel)])
    else
      PairState(t, st.active, st.out)
  }

  /** The loop state after the first k messages of a track. */
  function PairPrefix(msgs: Track, k: nat): PairState
    requires k <= |msgs|
  {
    if k == 0 then PairState(0, map[], []) else Step(PairPrefix(msgs, k - 1), msgs[k - 1])
  }

  /** The notes one track yields, in the order of their closing messages. */
  function PairTrack(msgs: Track): seq<Paired>
  {
    PairPrefix(msgs, |msgs|).out
  }

  // ---------------------------------------------------------------------
  // An independent description of the same pairing, without loop state.

  /** Absolute time after the first k messages. */
  function AbsTime(msgs: Track, k: nat): int
    requires k <= |msgs|
  {
    if k == 0 then 0 else AbsTime(msgs, k - 1) + msgs[k - 1].time
  }

  /** Index of the last of the first k messages that opens or closes pitch p. */
  function LastTouch(msgs: Track, k: nat, p: int): (r: Option<nat>)
    requires k <= |msgs|
    ensures r.Some? ==> r.value < k && msgs[r.value].Touches(p)
    ensures r.Some? ==> forall i :: r.value < i < k ==> !msgs[i].Touches(p)
    ensures r.None? ==> forall i :: 0 <= i < k ==> !msgs[i].Touches(p)
  {
    if k == 0 then None
    else if msgs[k - 1].Touches(p) then Some(k - 1)
    else LastTouch(msgs, k - 1, p)
  }

  /** The note_on that is still open for pitch p after k messages: the most recent
      message touching p, when that message is a start. A later start of the same
      pitch replaces an earlier one (the retrigger overwrites the pending start). */
  function OpenStart(msgs: Track, k: nat, p: int): (r: Option<nat>)
    requires k <= |msgs|
    ensures r.Some? ==> r.value < k && msgs[r.value].IsStart() && msgs[r.value].note == p
  {
    match LastTouch(msgs, k, p)
    case None => None
    case Some(j) => if msgs[j].IsStart() then Some(j) else None
  }

  /** The note opened at message j and closed at message k. */
  function NoteBetween(msgs: Track, j: nat, k: nat): Paired
    requires j < k < |msgs|
    requires msgs[j].IsStart() && msgs[k].IsStop()
  {
    Paired(msgs[k].note, msgs[j].velocity, AbsTime(msgs, j + 1), AbsTime(msgs, k + 1),
           msgs[j].channel, msgs[k].channel)
  }

  /** Every closing message whose pitch has an open start yields one note;
      closing messages with nothing open yield nothing. */
  function PairRef(msgs: Track, k: nat): seq<Paired>
    requires k <= |msgs|
  {
    if k == 0 then []
    else
      var m := msgs[k - 1];
      var open := if m.IsStop() then OpenStart(msgs, k - 1, m.note) else None;
      PairRef(msgs, k - 1) + (if open.Some? then [NoteBetween(msgs, open.value, k - 1)] else [])
  }

  function PendingAt(msgs: Track, j: nat): Pending
    requires j < |msgs|
    requires msgs[j].NoteOn?
  {
    Pending(AbsTime(msgs, j + 1), msgs[j].velocity, msgs[j].channel)
  }

  /** The pairing loop computes exactly the reference: its clock is the running sum
      of delta times, a pitch is pending exactly when its latest touching message
      is a start (holding that start's time, velocity and channel), and the notes
      emitted so far are the reference's. */
  lemma {:induction false} PairPrefixIsRef(msgs: Track, k: nat)
    requires k <= |msgs|
    ensures PairPrefix(msgs, k).time == AbsTime(msgs, k)
    ensures PairPrefix(msgs, k).out == PairRef(msgs, k)
    ensures forall p :: p in PairPrefix(msgs, k).active <==> OpenStart(msgs, k, p).Some?
    ensures forall p :: p in PairPrefix(msgs, k).active ==>
      PairPrefix(msgs, k).active[p] == PendingAt(msgs, OpenStart(msgs, k, p).value)
  {
    if k > 0 {
      PairPrefixIsRef(msgs, k - 1);
      var st := PairPrefix(msgs, k - 1);
      var m := msgs[k - 1];
      forall p | !m.Touches(p)
        ensures OpenStart(msgs, k, p) == OpenStart(msgs, k - 1, p)
      {
      }
      if m.IsStart() || m.IsStop() {
        assert LastTouch(msgs, k, m.note) == Some(k - 1);
      }
    }
  }

  lemma {:induction false} AbsTimeMonotone(msgs: Track, j: nat, k: nat)
    requires j <= k <= |msgs|
    requires NonNegTimes(msgs)
    ensures AbsTime(msgs, j) <= AbsTime(msgs, k)
    ensures AbsTime(msgs, j) >= 0
    decreases k
  {
    if j < k {
      AbsTimeMonotone(msgs, j, k - 1);
    } else if k > 0 {
      AbsTimeMonotone(msgs, k - 1, k - 1);
    }
  }

  /** On a read track every note starts at or after time 0 and ends no earlier
      than it starts; its pitch is the closing message's note and its velocity
      the opening message's, so both are 7-bit values. */
  lemma {:induction false} PairRefWellFormed(msgs: Track, k: nat)
    requires k <= |msgs|
    requires NonNegTimes(msgs)
    ensures forall n :: n in PairRef(msgs, k) ==> 0 <= n.start <= n.end
    ensures forall n :: n in PairRef(msgs, k) ==>
      0 <= n.pitch < 128 && 0 < n.velocity < 128 && 0 <= n.onChannel < 16 && 0 <= n.offChannel < 16
  {
    if k > 0 {
      PairRefWellFormed(msgs, k - 1);
      var m := msgs[k - 1];
      if m.IsStop() && OpenStart(msgs, k - 1, m.note).Some? {
        var j := OpenStart(msgs, k - 1, m.note).value;
        AbsTimeMonotone(msgs, j + 1, k);
      }
    }
  }

  ghost predicate WellFormed(n: Paired)
  {
    && 0 <= n.start <= n.end
    && 0 <= n.pitch < 128 && 0 < n.velocity < 128
    && 0 <= n.onChannel < 16 && 0 <= n.offChannel < 16
  }

  lemma PairTrackWellFormed(msgs: Track)
    requires NonNegTimes(msgs)
    ensures forall n :: n in PairTrack(msgs) ==> WellFormed(n)
  {
    PairPrefixIsRef(msgs, |msgs|);
    PairRefWellFormed(msgs, |msgs|);
  }

  /** Every track is paired on its own (clock and pending starts restart at
      each track) and the results are concatenated in track order. */
  function PairTracks(tracks: seq<Track>): seq<Paired>
  {
    if |tracks| == 0 then [] else PairTracks(tracks[..|tracks| - 1]) + PairTrack(tracks[|tracks| - 1])
  }

  lemma {:induction false} PairTracksWellFormed(tracks: seq<Track>)
    requires forall t :: 0 <= t < |tracks| ==> NonNegTimes(tracks[t])
    ensures forall n :: n in PairTracks(tracks) ==> WellFormed(n)
  {
    if |tracks| > 0 {
      PairTracksWellFormed(tracks[..|tracks| - 1]);
      PairTrackWellFormed(tracks[|tracks| - 1]);
    }
  }

  predicate StartLe(a: Paired, b: Paired) { a.start <= b.start }

  /** ps is the paired notes stably sorted by start: a permutation in
      non-decreasing start order in which notes starting together keep
      their order. */
  ghost predicate StableStartSort(ps: seq<Paired>, pairs: seq<Paired>)
  {
    && multiset(ps) == multiset(pairs)
    && (forall i, j :: 0 <= i < j < |ps| ==> ps[i].start <= ps[j].start)
    && (forall y :: KeyRun(ps, y, StartLe) == KeyRun(pairs, y, StartLe))
  }

  /** Pairs every track and stably sorts the notes by start time. */
  function ExtractSorted(tracks: seq<Track>): (r: seq<Paired>)
    ensures multiset(r) == multiset(PairTracks(tracks))
    ensures forall i, j :: 0 <= i < j < |r| ==> r[i].start <= r[j].start
    ensures forall y :: KeyRun(r, y, StartLe) == KeyRun(PairTracks(tracks), y, StartLe)
  {
    SortStableAll(PairTracks(tracks), StartLe);
    Sort(PairTracks(tracks), StartLe)
  }

  /** The tracks laid end to end. */
  function Concat(tracks: seq<Track>): Track
  {
    if |tracks| == 0 then [] else tracks[0] + Concat(tracks[1..])
  }

  /** The ticks a track lasts: the sum of its delta times. */
  function TimeSpan(msgs: Track): int
  {
    AbsTime(msgs, |msgs|)
  }

  lemma {:induction false} AbsTimeAppend(a: Track, b: Track, k: nat)
    requires k <= |b|
    ensures AbsTime(a + b, |a| + k) == TimeSpan(a) + AbsTime(b, k)
  {
    if k == 0 {
      AbsTimePrefix(a + b, a, |a|);
    } else {
      AbsTimeAppend(a, b, k - 1);
      assert (a + b)[|a| + k - 1] == b[k - 1];
    }
  }

  /** Absolute times depend only on the messages before them. */
  lemma {:induction false} AbsTimePrefix(s: Track, t: Track, k: nat)
    requires k <= |s| && k <= |t| && s[..k] == t[..k]
    ensures AbsTime(s, k) == AbsTime(t, k)
  {
    if k > 0 {
      assert s[..k - 1] == t[..k - 1] by {
        assert s[..k - 1] == s[..k][..k - 1];
        assert t[..k - 1] == t[..k][..k - 1];
      }
      assert s[k - 1] == s[..k][k - 1];
      assert t[k - 1] == t[..k][k - 1];
      AbsTimePrefix(s, t, k - 1);
    }
  }

  lemma TimeSpanAppend(a: Track, b: Track)
    ensures TimeSpan(a + b) == TimeSpan(a) + TimeSpan(b)
  {
    AbsTimeAppend(a, b, |b|);
  }

  /** A note's sounding interval in seconds. */
  datatype Sounding = Sounding(start: real, end: real)

  /** How many notes sound at time t, both ends included. */
  function Polyphony(notes: seq<Sounding>, t: real): (r: nat)
    ensures r <= |notes|
  {
    CountWhere(notes, (n: Sounding) => n.start <= t <= n.end)
  }
}

=== FILE: midi_corrector.dfy ===
/** Cleaning of a transcribed note list (midi_corrector.py): the tempo, the
    notes of every track (remembering the track), a filter that drops quiet,
    out-of-range and very short notes and lengthens short ones, the merging
    of same-pitch notes that follow each other closely, and the flagging of
    notes outside a key. Thresholds are given in ticks. */
module MidiCorrector {
  import opened Base
  import opened Sorting
  import opened Midi

  /** Microseconds per beat when a file has no set_tempo message (120 BPM). */
  const DefaultTempo: nat := 500000

  // ---------------------------------------------------------------------
  // Tempo

  /** The first set_tempo message of a track, at or after k. */
  function TempoFrom(t: Track, k: nat): (r: Option<nat>)
    requires k <= |t|
    ensures r.Some? <==> exists j :: k <= j < |t| && t[j].Meta? && t[j].meta.SetTempo?
    ensures r.Some? ==> exists j :: && k <= j < |t| && t[j].Meta? && t[j].meta.SetTempo?
                                   && r.value == t[j].meta.tempo
                                   && forall i :: k <= i < j ==> !(t[i].Meta? && t[i].meta.SetTempo?)
    decreases |t| - k
  {
    if k == |t| then None
    else if t[k].Meta? && t[k].meta.SetTempo? then Some(t[k].meta.tempo)
    else TempoFrom(t, k + 1)
  }

  /** `_extract_tempo`: the tempo of the first set_tempo of the first track that has one. */
  function ExtractTempo(tracks: seq<Track>): (r: nat)
    ensures (forall t, j :: 0 <= t < |tracks| && 0 <= j < |tracks[t]| ==>
               !(tracks[t][j].Meta? && tracks[t][j].meta.SetTempo?)) ==> r == DefaultTempo
  {
    if |tracks| == 0 then DefaultTempo
    else
      var f := TempoFrom(tracks[0], 0);
      if f.Some? then f.value else ExtractTempo(tracks[1..])
  }

  lemma TempoFromAppend(a: Track, b: Track, k: nat)
    requires k <= |a|
    ensures TempoFrom(a + b, k) == if TempoFrom(a, k).Some? then TempoFrom(a, k) else TempoFrom(b, 0)
    decreases |a| - k
  {
    if k < |a| {
      TempoFromAppend(a, b, k + 1);
    } else {
      TempoFromShift(a, b, 0);
    }
  }

  lemma TempoFromShift(a: Track, b: Track, k: nat)
    requires k <= |b|
    ensures TempoFrom(a + b, |a| + k) == TempoFrom(b, k)
    decreases |b| - k
  {
    if k < |b| {
      assert (a + b)[|a| + k] == b[k];
      TempoFromShift(a, b, k + 1);
    }
  }

  /** The tracks are searched in order, so the tempo is that of the first
      set_tempo message of all tracks laid end to end. */
  lemma {:induction false} ExtractTempoIsFirst(tracks: seq<Track>)
    ensures ExtractTempo(tracks) == (var f := TempoFrom(Concat(tracks), 0); if f.Some? then f.value else DefaultTempo)
  {
    if |tracks| > 0 {
      ExtractTempoIsFirst(tracks[1..]);
      TempoFromAppend(tracks[0], Concat(tracks[1..]), 0);
    }
  }

  // ---------------------------------------------------------------------
  // Notes with their track

  datatype Tracked = Tracked(note: Note, track: int)

  function TrackedOf(ps: seq<Paired>, t: int): (r: seq<Tracked>)
    ensures |r| == |ps|
    ensures forall k :: 0 <= k < |ps| ==> r[k] == Tracked(ps[k].AsNote(), t)
  {
    seq(|ps|, k requires 0 <= k < |ps| => Tracked(ps[k].AsNote(), t))
  }

  /** `_extract_notes`: the notes of every track in track order, in the order
      their note_offs occur, with the channel of the note_on and the track index. */
  function ExtractTracked(tracks: seq<Track>): (r: seq<Tracked>)
    ensures |r| == |PairTracks(tracks)|
    ensures forall k :: 0 <= k < |r| ==> r[k].note == PairTracks(tracks)[k].AsNote()
    ensures forall k :: 0 <= k < |r| ==> 0 <= r[k].track < |tracks|
    ensures forall a, b :: 0 <= a < b < |r| ==> r[a].track <= r[b].track
  {
    if |tracks| == 0 then []
    else
      var n := |tracks| - 1;
      ExtractTracked(tracks[..n]) + TrackedOf(PairTrack(tracks[n]), n)
  }

  // ---------------------------------------------------------------------
  // Filtering and extension

  /** The thresholds of the filter, with the durations already in ticks. */
  datatype FilterParams = FilterParams(minVelocity: int, minNote: int, maxNote: int,
                                       veryShort: int, minDuration: int)

  datatype Verdict = Quiet | OutOfRange | TooShort | Extended | Unchanged

  /** The checks in their order: velocity, then pitch range, then duration. */
  function Classify(n: Note, p: FilterParams): Verdict
  {
    if n.velocity < p.minVelocity then Quiet
    else if n.pitch < p.minNote || n.pitch > p.maxNote then OutOfRange
    else if n.Duration() < p.veryShort then TooShort
    else if n.Duration() < p.minDuration then Extended
    else Unchanged
  }

  function HasVerdict(p: FilterParams, v: Verdict): Tracked -> bool
  {
    (t: Tracked) => Classify(t.note, p) == v
  }

  function IsKept(p: FilterParams): Tracked -> bool
  {
    (t: Tracked) => Classify(t.note, p) in {Extended, Unchanged}
  }

  /** A short note is lengthened to exactly the minimum duration. */
  function Lengthen(t: Tracked, p: FilterParams): Tracked
  {
    Tracked(t.note.(end := t.note.start + p.minDuration), t.track)
  }

  datatype FilterStats = FilterStats(quiet: nat, range: nat, short: nat, extended: nat)

  /** The filter loop over notes already in start order. */
  function FilterSorted(ns: seq<Tracked>, p: FilterParams): (r: (seq<Tracked>, FilterStats))
    ensures r.1.quiet == CountWhere(ns, HasVerdict(p, Quiet))
    ensures r.1.range == CountWhere(ns, HasVerdict(p, OutOfRange))
    ensures r.1.short == CountWhere(ns, HasVerdict(p, TooShort))
    ensures r.1.extended == CountWhere(ns, HasVerdict(p, Extended))
    ensures |r.0| == CountWhere(ns, IsKept(p))
    ensures |r.0| + r.1.quiet + r.1.range + r.1.short == |ns|
    ensures forall k :: 0 <= k < |r.0| ==>
      && r.0[k].note.velocity >= p.minVelocity
      && p.minNote <= r.0[k].note.pitch <= p.maxNote
      && r.0[k].note.Duration() >= p.minDuration
  {
    if |ns| == 0 then ([], FilterStats(0, 0, 0, 0))
    else
      var prev := FilterSorted(ns[..|ns| - 1], p);
      var t := ns[|ns| - 1];
      var st := prev.1;
      match Classify(t.note, p)
      case Quiet => (prev.0, st.(quiet := st.quiet + 1))
      case OutOfRange => (prev.0, st.(range := st.range + 1))
      case TooShort => (prev.0, st.(short := st.short + 1))
      case Extended => (prev.0 + [Lengthen(t, p)], st.(extended := st.extended + 1))
      case Unchanged => (prev.0 + [t], st)
  }

  /** What the filter writes for a note it keeps: a short note lengthened,
      any other unchanged. */
  function Adjusted(t: Tracked, p: FilterParams): Tracked
  {
    if Classify(t.note, p) == Extended then Lengthen(t, p) else t
  }

  /** A kept note keeps its pitch, velocity, start, channel and track, and
      lasts at least the minimum duration: exactly that long when it was
      shorter, as long as before otherwise. */
  lemma AdjustedShape(t: Tracked, p: FilterParams)
    requires IsKept(p)(t)
    ensures var a := Adjusted(t, p);
      && a.track == t.track
      && a.note.(end := 0) == t.note.(end := 0)
      && a.note.Duration() == Max(t.note.Duration(), p.minDuration)
  {
  }

  /** The kept notes of a list, each adjusted, read front to back. */
  function KeptNotes(ns: seq<Tracked>, p: FilterParams): seq<Tracked>
  {
    if |ns| == 0 then []
    else (if IsKept(p)(ns[0]) then [Adjusted(ns[0], p)] else []) + KeptNotes(ns[1..], p)
  }

  lemma {:induction false} KeptNotesSnoc(ns: seq<Tracked>, t: Tracked, p: FilterParams)
    ensures KeptNotes(ns + [t], p) == KeptNotes(ns, p) + (if IsKept(p)(t) then [Adjusted(t, p)] else [])
  {
    if |ns| == 0 {
      assert ns + [t] == [t];
      assert KeptNotes([t], p) == (if IsKept(p)(t) then [Adjusted(t, p)] else []) + KeptNotes([], p);
    } else {
      assert (ns + [t])[0] == ns[0] && (ns + [t])[1..] == ns[1..] + [t];
      KeptNotesSnoc(ns[1..], t, p);
    }
  }

  /** The filter's output is exactly the input's kept notes, in input order,
      each short one lengthened to the minimum duration. */
  lemma {:induction false} FilterKeepsNotes(ns: seq<Tracked>, p: FilterParams)
    ensures FilterSorted(ns, p).0 == KeptNotes(ns, p)
  {
    if |ns| > 0 {
      var init := ns[..|ns| - 1];
      FilterKeepsNotes(init, p);
      assert ns == init + [ns[|ns| - 1]];
      KeptNotesSnoc(init, ns[|ns| - 1], p);
    }
  }

  predicate TrackedStartLe(a: Tracked, b: Tracked) { a.note.start <= b.note.start }

  /** `_filter_and_extend_notes`: a stable sort by start, then the filter loop. */
  function FilterAndExtend(notes: seq<Tracked>, p: FilterParams): (r: (seq<Tracked>, FilterStats))
  {
    FilterSorted(Sort(notes, TrackedStartLe), p)
  }

  /** Every note is kept or counted under exactly one reason for removal, and
      the counts are those of the input whatever its order. */
  lemma FilterAccounting(notes: seq<Tracked>, p: FilterParams)
    ensures var r := FilterAndExtend(notes, p);
      && r.1.quiet == CountWhere(notes, HasVerdict(p, Quiet))
      && r.1.range == CountWhere(notes, HasVerdict(p, OutOfRange))
      && r.1.short == CountWhere(notes, HasVerdict(p, TooShort))
      && r.1.extended == CountWhere(notes, HasVerdict(p, Extended))
      && |r.0| == CountWhere(notes, IsKept(p))
      && |r.0| + r.1.quiet + r.1.range + r.1.short == |notes|
  {
    var s := Sort(notes, TrackedStartLe);
    CountPermutation(s, notes, HasVerdict(p, Quiet));
    CountPermutation(s, notes, HasVerdict(p, OutOfRange));
    CountPermutation(s, notes, HasVerdict(p, TooShort));
    CountPermutation(s, notes, HasVerdict(p, Extended));
    CountPermutation(s, notes, IsKept(p));
  }

  /** The kept notes keep their start times, so they come out in start order. */
  lemma {:induction false} FilterSortedOrder(ns: seq<Tracked>, p: FilterParams)
    requires SortedBy(ns, TrackedStartLe)
    ensures SortedBy(FilterSorted(ns, p).0, TrackedStartLe)
    ensures |ns| > 0 ==> forall k :: 0 <= k < |FilterSorted(ns, p).0| ==>
      FilterSorted(ns, p).0[k].note.start <= ns[|ns| - 1].note.start
  {
    if |ns| > 0 {
      var init := ns[..|ns| - 1];
      assert SortedBy(init, TrackedStartLe);
      FilterSortedOrder(init, p);
      if |init| > 0 {
        assert TrackedStartLe(init[|init| - 1], ns[|ns| - 1]);
      }
    }
  }

  lemma FilterOrder(notes: seq<Tracked>, p: FilterParams)
    ensures SortedBy(FilterAndExtend(notes, p).0, TrackedStartLe)
  {
    FilterSortedOrder(Sort(notes, TrackedStartLe), p);
  }

  // ---------------------------------------------------------------------
  // Legato merging

  /** The sort key `(note, start_time)`. */
  predicate PitchStartLe(a: Tracked, b: Tracked)
  {
    a.note.pitch < b.note.pitch || (a.note.pitch == b.note.pitch && a.note.start <= b.note.start)
  }

  /** `int((a + b) / 2)` */
  function HalfSum(a: int, b: int): int
  {
    TruncDiv(a + b, 2)
  }

  /** The inner loop: absorbs s[j], s[j+1], ... into cur while they have its
      pitch and start between 0 and thr ticks after its current end. Returns
      the merged note and the index of the first note not absorbed. */
  function Absorb(s: seq<Tracked>, cur: Tracked, j: nat, thr: int): (r: (Tracked, nat))
    requires j <= |s|
    ensures j <= r.1 <= |s|
    ensures r.0.note.pitch == cur.note.pitch && r.0.note.start == cur.note.start
    ensures r.0.note.channel == cur.note.channel && r.0.track == cur.track
    decreases |s| - j
  {
    if j == |s| || s[j].note.pitch != cur.note.pitch then (cur, j)
    else
      var gap := s[j].note.start - cur.note.end;
      if 0 <= gap <= thr then
        Absorb(s, Tracked(cur.note.(end := s[j].note.end,
                                    velocity := HalfSum(cur.note.velocity, s[j].note.velocity)), cur.track),
               j + 1, thr)
      else (cur, j)
  }

  /** The outer loop from index i: one merged note per run. */
  function MergeFrom(s: seq<Tracked>, i: nat, thr: int): (r: seq<Tracked>)
    requires i <= |s|
    ensures |r| <= |s| - i
    decreases |s| - i
  {
    if i == |s| then []
    else
      var a := Absorb(s, s[i], i + 1, thr);
      [a.0] + MergeFrom(s, a.1, thr)
  }

  /** `_merge_consecutive_notes`: empty in, empty out; otherwise sort by
      (pitch, start) and merge runs. Notes are copied, never changed in place. */
  function MergeConsecutive(notes: seq<Tracked>, thr: int): (r: seq<Tracked>)
    ensures |r| <= |notes|
    ensures |notes| == 0 ==> r == []
  {
    if |notes| == 0 then notes
    else MergeFrom(Sort(notes, PitchStartLe), 0, thr)
  }

  // An independent description: runs of sorted neighbours.

  /** s[j] continues the run of s[j-1]: same pitch, and it starts between 0
      and thr ticks after s[j-1] ends. */
  predicate Joins(s: seq<Tracked>, j: nat, thr: int)
    requires 0 < j < |s|
  {
    s[j].note.pitch == s[j - 1].note.pitch && 0 <= s[j].note.start - s[j - 1].note.end <= thr
  }

  /** The first index at or after j that does not continue the run. */
  function RunEnd(s: seq<Tracked>, j: nat, thr: int): (e: nat)
    requires 0 < j <= |s|
    ensures j <= e <= |s|
    ensures forall k :: j <= k < e ==> Joins(s, k, thr)
    ensures e < |s| ==> !Joins(s, e, thr)
    decreases |s| - j
  {
    if j == |s| || !Joins(s, j, thr) then j else RunEnd(s, j + 1, thr)
  }

  /** The number of indices k in [j, |s|) with s[k] continuing a run. */
  function JoinCount(s: seq<Tracked>, j: nat, thr: int): nat
    requires 0 < j <= |s|
    decreases |s| - j
  {
    if j == |s| then 0 else (if Joins(s, j, thr) then 1 else 0) + JoinCount(s, j + 1, thr)
  }

  /** The inner loop stops exactly at the end of the run, and the merged note
      ends where the run's last note ends. */
  lemma {:induction false} AbsorbIsRun(s: seq<Tracked>, cur: Tracked, j: nat, thr: int)
    requires 0 < j <= |s|
    requires cur.note.pitch == s[j - 1].note.pitch && cur.note.end == s[j - 1].note.end
    ensures Absorb(s, cur, j, thr).1 == RunEnd(s, j, thr)
    ensures Absorb(s, cur, j, thr).0.note.end == s[RunEnd(s, j, thr) - 1].note.end
    decreases |s| - j
  {
    if j < |s| && Joins(s, j, thr) {
      var next := Tracked(cur.note.(end := s[j].note.end,
                                    velocity := HalfSum(cur.note.velocity, s[j].note.velocity)), cur.track);
      AbsorbIsRun(s, next, j + 1, thr);
    }
  }

  lemma {:induction false} JoinCountRun(s: seq<Tracked>, j: nat, thr: int)
    requires 0 < j <= |s|
    ensures JoinCount(s, j, thr) == (RunEnd(s, j, thr) - j) + JoinCount(s, RunEnd(s, j, thr), thr)
    decreases |s| - j
  {
    if j < |s| && Joins(s, j, thr) {
      JoinCountRun(s, j + 1, thr);
    }
  }

  /** Every absorbed note removes one note from the output: the output has one
      note per run, i.e. the input length minus the number of joins. */
  lemma {:induction false} MergeFromCount(s: seq<Tracked>, i: nat, thr: int)
    requires i < |s|
    ensures |MergeFrom(s, i, thr)| + JoinCount(s, i + 1, thr) == |s| - i
    decreases |s| - i
  {
    AbsorbIsRun(s, s[i], i + 1, thr);
    var e := RunEnd(s, i + 1, thr);
    JoinCountRun(s, i + 1, thr);
    if e < |s| {
      MergeFromCount(s, e, thr);
    }
  }

  /** Each merged note starts with the first note of its run and ends with its last. */
  lemma MergeFromHead(s: seq<Tracked>, i: nat, thr: int)
    requires i < |s|
    ensures var m := MergeFrom(s, i, thr); var e := RunEnd(s, i + 1, thr);
      && |m| > 0
      && m[0].note.pitch == s[i].note.pitch && m[0].note.start == s[i].note.start
      && m[0].note.end == s[e - 1].note.end && m[0].track == s[i].track
      && MergeFrom(s, i, thr)[1..] == MergeFrom(s, e, thr)
  {
    AbsorbIsRun(s, s[i], i + 1, thr);
  }

  lemma MergeCount(notes: seq<Tracked>, thr: int)
    requires |notes| > 0
    ensures |MergeConsecutive(notes, thr)| ==
      |notes| - JoinCount(Sort(notes, PitchStartLe), 1, thr)
  {
    MergeFromCount(Sort(notes, PitchStartLe), 0, thr);
  }

  /** The merged velocity stays within the velocities merged. */
  lemma {:induction false} AbsorbVelocity(s: seq<Tracked>, cur: Tracked, j: nat, thr: int, lo: int, hi: int)
    requires j <= |s| && 0 <= lo <= hi
    requires lo <= cur.note.velocity <= hi
    requires forall k :: j <= k < |s| ==> lo <= s[k].note.velocity <= hi
    ensures lo <= Absorb(s, cur, j, thr).0.note.velocity <= hi
    decreases |s| - j
  {
    if j < |s| && s[j].note.pitch == cur.note.pitch {
      var gap := s[j].note.start - cur.note.end;
      if 0 <= gap <= thr {
        var v := HalfSum(cur.note.velocity, s[j].note.velocity);
        assert lo <= v <= hi;
        AbsorbVelocity(s, Tracked(cur.note.(end := s[j].note.end, velocity := v), cur.track), j + 1, thr, lo, hi);
      }
    }
  }

  // ---------------------------------------------------------------------
  // Out-of-key flagging

  const MajorScale: seq<int> := [0, 2, 4, 5, 7, 9, 11]
  const MinorScale: seq<int> := [0, 2, 3, 5, 7, 8, 10]

  /** Any mode other than "major" selects the minor scale. */
  function Scale(mode: string): seq<int>
  {
    if mode == "major" then MajorScale else MinorScale
  }

  /** The pitch classes of the key. */
  function KeyClasses(root: int, mode: string): set<int>
  {
    set s | s in Scale(mode) :: (root + s) % 12
  }

  /** `_flag_out_of_key`: the indices of the notes whose pitch class is not in the key. */
  function FlagOutOfKey(notes: seq<Note>, root: int, mode: string): (r: set<nat>)
    ensures forall i: nat :: i in r <==> i < |notes| && notes[i].pitch % 12 !in KeyClasses(root, mode)
  {
    if |notes| == 0 then {}
    else
      var n := |notes| - 1;
      var prev := FlagOutOfKey(notes[..n], root, mode);
      if notes[n].pitch % 12 in KeyClasses(root, mode) then prev else prev + {n}
  }

  lemma ModUnique(x: int, q: int, r: int)
    requires x == 12 * q + r && 0 <= r < 12
    ensures x % 12 == r
  {
  }

  /** A pitch class is in the key exactly when its interval above the root is
      a step of the scale. */
  lemma KeyMembership(root: int, mode: string, pitch: int)
    ensures pitch % 12 in KeyClasses(root, mode) <==> (pitch - root) % 12 in Scale(mode)
  {
    if (pitch - root) % 12 in Scale(mode) {
      var s := (pitch - root) % 12;
      ModUnique(root + s, pitch / 12 - (pitch - root) / 12, pitch % 12);
      assert (root + s) % 12 in KeyClasses(root, mode);
    }
    if pitch % 12 in KeyClasses(root, mode) {
      var s :| s in Scale(mode) && (root + s) % 12 == pitch % 12;
      assert 0 <= s < 12;
      ModUnique(pitch - root, pitch / 12 - (root + s) / 12, s);
    }
  }

  function Transpose(notes: seq<Note>, d: int): (r: seq<Note>)
    ensures |r| == |notes|
    ensures forall i :: 0 <= i < |notes| ==> r[i] == notes[i].(pitch := notes[i].pitch + d)
  {
    seq(|notes|, i requires 0 <= i < |notes| => notes[i].(pitch := notes[i].pitch + d))
  }

  /** Moving every note and the key by the same interval flags the same notes. */
  lemma FlagTransposition(notes: seq<Note>, root: int, mode: string, d: int)
    ensures FlagOutOfKey(Transpose(notes, d), root + d, mode) == FlagOutOfKey(notes, root, mode)
  {
    var t := Transpose(notes, d);
    var a := FlagOutOfKey(t, root + d, mode);
    var b := FlagOutOfKey(notes, root, mode);
    forall i: nat ensures i in a <==> i in b {
      if i < |notes| {
        KeyMembership(root + d, mode, t[i].pitch);
        KeyMembership(root, mode, notes[i].pitch);
        assert t[i].pitch - (root + d) == notes[i].pitch - root;
      }
    }
    assert a == b;
  }

}

=== FILE: motif_extractor.dfy ===
/** The most repeated motif (motif_extractor.py): windows of the note list are
    counted by pitches, by normalised durations, or by intervals, normalised
    durations and first pitch; the most common one seen at least twice is
    located in the notes or, failing that, rebuilt from its pattern. */
module MotifExtractor {
  import opened Base
  import opened Midi
  import opened Motifs

  /** `(note, velocity, duration_ticks)` */
  datatype SeqNote = SeqNote(pitch: int, velocity: int, duration: int)

  /** `extract_note_sequence`: the notes of every track, stably sorted by
      start, the start then dropped. */
  function ExtractSequence(file: MidiFile): (r: seq<SeqNote>)
    ensures |r| == |PairTracks(file.tracks)|
    ensures forall i :: 0 <= i < |r| ==> StrippedIn(r[i], PairTracks(file.tracks))
    ensures exists ps :: StableStartSort(ps, PairTracks(file.tracks)) && r == Mapped(Strip, ps)
  {
    var ps := ExtractSorted(file.tracks);
    PermutationMembers(ps, PairTracks(file.tracks));
    var r := Mapped(Strip, ps);
    StrippedFrom(ps, PairTracks(file.tracks), r);
    assert StableStartSort(ps, PairTracks(file.tracks));
    r
  }

  /** The sequence holds every paired note exactly once, start dropped. */
  lemma SequenceIsStripped(file: MidiFile)
    ensures multiset(ExtractSequence(file)) == multiset(Mapped(Strip, PairTracks(file.tracks)))
  {
    var r := ExtractSequence(file);
    var ps :| StableStartSort(ps, PairTracks(file.tracks)) && r == Mapped(Strip, ps);
    MappedPermutation(Strip, ps, PairTracks(file.tracks));
  }

  lemma StrippedFrom(ps: seq<Paired>, pairs: seq<Paired>, r: seq<SeqNote>)
    requires |r| == |ps| && forall i :: 0 <= i < |ps| ==> ps[i] in pairs && r[i] == Strip(ps[i])
    ensures forall i :: 0 <= i < |r| ==> StrippedIn(r[i], pairs)
  {
    forall i | 0 <= i < |r| ensures StrippedIn(r[i], pairs) {
      assert ps[i] in pairs && r[i] == Strip(ps[i]);
    }
  }

  /** x is one of the paired notes with its start dropped. */
  ghost predicate StrippedIn(x: SeqNote, pairs: seq<Paired>)
  {
    exists p :: p in pairs && x == Strip(p)
  }

  /** A paired note without its start. */
  function Strip(p: Paired): SeqNote
  {
    SeqNote(p.pitch, p.velocity, p.end - p.start)
  }

  function PitchesOf(ns: seq<SeqNote>): (r: seq<int>)
    ensures |r| == |ns|
    ensures forall i :: 0 <= i < |ns| ==> r[i] == ns[i].pitch
  {
    seq(|ns|, i requires 0 <= i < |ns| => ns[i].pitch)
  }

  function DurationsOf(ns: seq<SeqNote>): (r: seq<int>)
    ensures |r| == |ns|
    ensures forall i :: 0 <= i < |ns| ==> r[i] == ns[i].duration
  {
    seq(|ns|, i requires 0 <= i < |ns| => ns[i].duration)
  }

  /** The positive elements, in order. */
  function Positives(s: seq<int>): (r: seq<int>)
    ensures forall k :: 0 <= k < |r| ==> r[k] > 0 && r[k] in s
    ensures forall k :: 0 <= k < |s| && s[k] > 0 ==> s[k] in r
  {
    if |s| == 0 then []
    else
      var rest := Positives(s[1..]);
      assert forall k :: 1 <= k < |s| ==> s[k] == s[1..][k - 1];
      if s[0] > 0 then [s[0]] + rest else rest
  }

  /** `min(d for d in durations if d > 0)`: the smallest positive element. */
  lemma MinPositive(s: seq<int>)
    requires |Positives(s)| > 0
    ensures MinOf(Positives(s)) > 0 && MinOf(Positives(s)) in s
    ensures forall k :: 0 <= k < |s| && s[k] > 0 ==> MinOf(Positives(s)) <= s[k]
  {
    var ps := Positives(s);
    forall k | 0 <= k < |s| && s[k] > 0 ensures MinOf(ps) <= s[k] {
      var j :| 0 <= j < |ps| && ps[j] == s[k];
    }
  }

  /** Every duration as a whole multiple of a unit, `int(round(d / unit))`. */
  function InUnits(ds: seq<int>, unit: int): (r: seq<int>)
    requires unit > 0
    ensures |r| == |ds|
    ensures forall k :: 0 <= k < |ds| ==> Abs(2 * (ds[k] - r[k] * unit)) <= unit
  {
    seq(|ds|, k requires 0 <= k < |ds| => RoundRatio(ds[k], unit))
  }

  /** What a motif is counted by. */
  datatype MotifKey =
    | Melodic(pitches: seq<int>)
    | Rhythmic(durations: seq<int>)
    | Combined(intervals: seq<int>, rhythm: seq<int>, start: int)

  /** `find_melodic_patterns`: one key per window of the pitches. */
  function MelodicKeys(ns: seq<SeqNote>, lo: int, hi: int): (r: seq<MotifKey>)
    requires lo >= 1
    ensures |r| == |Windows(PitchesOf(ns), lo, hi)|
    ensures forall k :: 0 <= k < |r| ==> r[k] == Melodic(Windows(PitchesOf(ns), lo, hi)[k])
  {
    var ws := Windows(PitchesOf(ns), lo, hi);
    seq(|ws|, k requires 0 <= k < |ws| => Melodic(ws[k]))
  }

  /** `find_rhythmic_patterns`: no notes, no patterns; durations but none
      positive, the minimum of nothing is an error; otherwise one key per
      window of the durations in units of the smallest positive one. */
  function RhythmicKeys(ns: seq<SeqNote>, lo: int, hi: int): (r: Result<seq<MotifKey>>)
    requires lo >= 1
    ensures r.Err? <==> |ns| > 0 && forall k :: 0 <= k < |ns| ==> ns[k].duration <= 0
    ensures r.Ok? && |ns| == 0 ==> r.value == []
  {
    var ds := DurationsOf(ns);
    if |ds| == 0 then Ok([])
    else if |Positives(ds)| == 0 then
      assert forall k :: 0 <= k < |ns| ==> ns[k].duration <= 0;
      Err("min() arg is an empty sequence")
    else
      var k :| 0 <= k < |Positives(ds)|;
      assert Positives(ds)[k] in ds;
      MinPositive(ds);
      var ws := Windows(InUnits(ds, MinOf(Positives(ds))), lo, hi);
      Ok(seq(|ws|, k requires 0 <= k < |ws| => Rhythmic(ws[k])))
  }

  /** The key `find_combined_patterns` gives one window: its intervals, its
      durations in units of its smallest positive duration (ticks if none is
      positive) and its first pitch. */
  function CombinedKey(w: seq<SeqNote>): (r: MotifKey)
    requires |w| > 0
    ensures r.Combined? && r.start == w[0].pitch
    ensures |r.intervals| == |w| - 1 && |r.rhythm| == |w|
  {
    var ds := DurationsOf(w);
    var unit := if |Positives(ds)| > 0 then MinOf(Positives(ds)) else 1;
    Combined(Intervals(PitchesOf(w)), InUnits(ds, unit), w[0].pitch)
  }

  function CombinedKeys(ns: seq<SeqNote>, lo: int, hi: int): (r: seq<MotifKey>)
    requires lo >= 1
    ensures |r| == |Windows(ns, lo, hi)|
    ensures forall k :: 0 <= k < |r| ==> |Windows(ns, lo, hi)[k]| > 0 && r[k] == CombinedKey(Windows(ns, lo, hi)[k])
  {
    var ws := Windows(ns, lo, hi);
    assert forall k :: 0 <= k < |ws| ==> ws[k] in ws;
    seq(|ws|, k requires 0 <= k < |ws| => CombinedKey(ws[k]))
  }

  /** A combined key read back: its pitches are its first pitch followed by
      its intervals, which are the window's pitches. */
  lemma CombinedKeyPitches(w: seq<SeqNote>)
    requires |w| > 0
    ensures Rebuild(CombinedKey(w).start, CombinedKey(w).intervals) == PitchesOf(w)
  {
    IntervalsRebuild(PitchesOf(w));
  }

  function PatternKeys(ns: seq<SeqNote>, lo: int, hi: int, kind: string): Result<seq<MotifKey>>
    requires lo >= 1
  {
    if kind == "melodic" then Ok(MelodicKeys(ns, lo, hi))
    else if kind == "rhythmic" then RhythmicKeys(ns, lo, hi)
    else Ok(CombinedKeys(ns, lo, hi))
  }

  // ---------------------------------------------------------------------
  // Locating a motif

  /** The run of |iv| + 1 notes at i starts at pitch start and has intervals iv. */
  predicate StartsRun(ns: seq<SeqNote>, iv: seq<int>, start: int, i: nat)
  {
    && i + |iv| + 1 <= |ns|
    && ns[i].pitch == start
    && Intervals(PitchesOf(ns[i..i + |iv| + 1])) == iv
  }

  function SearchRun(ns: seq<SeqNote>, iv: seq<int>, start: int, i: nat): (r: Option<nat>)
    ensures r.Some? ==> i <= r.value && StartsRun(ns, iv, start, r.value)
    ensures r.Some? ==> forall k :: i <= k < r.value ==> !StartsRun(ns, iv, start, k)
    ensures r.None? ==> forall k :: i <= k ==> !StartsRun(ns, iv, start, k)
    decreases |ns| - i
  {
    if i + |iv| + 1 > |ns| then None
    else if StartsRun(ns, iv, start, i) then Some(i)
    else SearchRun(ns, iv, start, i + 1)
  }

  /** The notes rebuilt from a pattern: pitches from start by the intervals,
      velocity 80, duration 100 ticks per rhythm unit (the first unit once
      the rhythm runs out). */
  function Rebuilt(pitches: seq<int>, rhythm: seq<int>): (r: seq<SeqNote>)
    requires |rhythm| > 0
    ensures |r| == |pitches|
    ensures forall k :: 0 <= k < |r| ==> r[k].pitch == pitches[k] && r[k].velocity == 80
    ensures forall k :: 0 <= k < |r| ==> r[k].duration == 100 * (if k < |rhythm| then rhythm[k] else rhythm[0])
  {
    seq(|pitches|, k requires 0 <= k < |pitches| =>
      SeqNote(pitches[k], 80, (if k < |rhythm| then rhythm[k] else rhythm[0]) * 100))
  }

  /** `_reconstruct_motif_from_pattern`: the first run of the notes with the
      pattern's first pitch and intervals; failing that, the notes rebuilt
      from the pattern, which needs a nonempty rhythm. */
  function Reconstruct(ns: seq<SeqNote>, iv: seq<int>, rhythm: seq<int>, start: int): (r: Result<seq<SeqNote>>)
    ensures r.Err? <==> SearchRun(ns, iv, start, 0).None? && |rhythm| == 0
    ensures r.Ok? ==> |r.value| == |iv| + 1 && r.value[0].pitch == start && Intervals(PitchesOf(r.value)) == iv
    ensures SearchRun(ns, iv, start, 0).Some? ==> r == Ok(ns[SearchRun(ns, iv, start, 0).value..][..|iv| + 1])
  {
    match SearchRun(ns, iv, start, 0)
    case Some(i) =>
      RunShape(ns, iv, start, i);
      Ok(ns[i..i + |iv| + 1])
    case None =>
      if |rhythm| == 0 then Err("tuple index out of range")
      else
        RebuiltShape(start, iv, rhythm);
        Ok(Rebuilt(Rebuild(start, iv), rhythm))
  }

  /** A run found at i has the pattern's length, first pitch and intervals. */
  lemma RunShape(ns: seq<SeqNote>, iv: seq<int>, start: int, i: nat)
    requires StartsRun(ns, iv, start, i)
    ensures ns[i..][..|iv| + 1] == ns[i..i + |iv| + 1]
    ensures var w := ns[i..i + |iv| + 1]; |w| == |iv| + 1 && w[0].pitch == start && Intervals(PitchesOf(w)) == iv
  {
  }

  /** The fallback notes have the pattern's length, first pitch and intervals. */
  lemma RebuiltShape(start: int, iv: seq<int>, rhythm: seq<int>)
    requires |rhythm| > 0
    ensures var r := Rebuilt(Rebuild(start, iv), rhythm);
      |r| == |iv| + 1 && r[0].pitch == start && Intervals(PitchesOf(r)) == iv
  {
    var ps := Rebuild(start, iv);
    var r := Rebuilt(ps, rhythm);
    RebuildIntervals(start, iv);
    assert PitchesOf(r) == ps;
  }

  /** A pattern taken from a run of the notes is found there: the search
      succeeds and no fallback is built. */
  lemma ReconstructFindsWindow(ns: seq<SeqNote>, w: seq<SeqNote>)
    requires |w| > 0 && Occurs(w, ns)
    ensures SearchRun(ns, CombinedKey(w).intervals, w[0].pitch, 0).Some?
    ensures Reconstruct(ns, CombinedKey(w).intervals, CombinedKey(w).rhythm, w[0].pitch).Ok?
  {
    var i :| 0 <= i <= |ns| && w <= ns[i..];
    var key := CombinedKey(w);
    assert key.intervals == Intervals(PitchesOf(w));
    RunAt(ns, w, i);
  }

  lemma RunAt(ns: seq<SeqNote>, w: seq<SeqNote>, i: nat)
    requires |w| > 0 && i <= |ns| && w <= ns[i..]
    ensures StartsRun(ns, Intervals(PitchesOf(w)), w[0].pitch, i)
  {
    assert i + |w| <= |ns| && ns[i..i + |w|] == w by {
      assert |w| <= |ns[i..]| && w == ns[i..][..|w|];
    }
    assert ns[i] == w[0];
    var iv := Intervals(PitchesOf(w));
    assert |iv| + 1 == |w|;
    assert ns[i..i + |iv| + 1] == w;
  }

  /** `_find_motif_notes`: when asked for a melodic pattern, the first run of
      the notes with its pitches; for any other kind, nothing. */
  function FindMotifNotes(ns: seq<SeqNote>, key: MotifKey, kind: string): (r: seq<SeqNote>)
    ensures kind != "melodic" || !key.Melodic? ==> r == []
    ensures r != [] ==> key.Melodic? && PitchesOf(r) == key.pitches
  {
    if kind != "melodic" || !key.Melodic? || |key.pitches| == 0 then []
    else
      var iv := Intervals(key.pitches);
      IntervalsRebuild(key.pitches);
      match SearchRun(ns, iv, key.pitches[0], 0)
      case Some(i) =>
        var run := ns[i..i + |iv| + 1];
        IntervalsRebuild(PitchesOf(run));
        run
      case None => []
  }

  /** A melodic pattern whose pitches run somewhere in the notes is found. */
  lemma FindMotifNotesFinds(ns: seq<SeqNote>, pitches: seq<int>, i: nat)
    requires |pitches| > 0 && i + |pitches| <= |ns|
    requires PitchesOf(ns[i..i + |pitches|]) == pitches
    ensures FindMotifNotes(ns, Melodic(pitches), "melodic") != []
    ensures PitchesOf(FindMotifNotes(ns, Melodic(pitches), "melodic")) == pitches
  {
    var iv := Intervals(pitches);
    IntervalsRebuild(pitches);
    assert StartsRun(ns, iv, pitches[0], i) by {
      assert |iv| + 1 == |pitches|;
      assert ns[i].pitch == PitchesOf(ns[i..i + |pitches|])[0];
    }
    var found := SearchRun(ns, iv, pitches[0], 0);
    assert found.Some?;
    FoundRun(ns, pitches, found.value);
  }

  lemma FoundRun(ns: seq<SeqNote>, pitches: seq<int>, j: nat)
    requires |pitches| > 0 && SearchRun(ns, Intervals(pitches), pitches[0], 0) == Some(j)
    ensures |FindMotifNotes(ns, Melodic(pitches), "melodic")| == |pitches|
  {
  }

  // ---------------------------------------------------------------------
  // The most repeated motif

  datatype Motif = Motif(key: MotifKey, frequency: nat, notes: seq<SeqNote>)

  /** `get_most_repeated_motif`: nothing for fewer notes than the shortest
      motif or when no pattern repeats; otherwise the first pattern with the
      largest count, with the notes it stands for. */
  function MostRepeatedMotif(file: MidiFile, lo: int, hi: int, kind: string): (r: Result<Option<Motif>>)
    requires lo >= 1
    ensures |ExtractSequence(file)| < lo ==> r == Ok(None)
    ensures r.Ok? && r.value.Some? ==> PatternKeys(ExtractSequence(file), lo, hi, kind).Ok?
    ensures r.Ok? && r.value.Some? && kind != "melodic" && kind != "combined" ==> r.value.value.notes == []
    ensures r.Err? ==> kind == "rhythmic" || kind == "combined"
  {
    var ns := ExtractSequence(file);
    if |ns| < lo then Ok(None)
    else
      match PatternKeys(ns, lo, hi, kind)
      case Err(e) => Err(e)
      case Ok(keys) => MotifFromKeys(ns, keys, kind)
  }

  /** The rest of `get_most_repeated_motif` once the patterns are counted:
      nothing when no pattern repeats, otherwise the first pattern with the
      largest count and the notes it stands for. */
  function MotifFromKeys(ns: seq<SeqNote>, keys: seq<MotifKey>, kind: string): (r: Result<Option<Motif>>)
    ensures r.Ok? && r.value.Some? && kind != "melodic" && kind != "combined" ==> r.value.value.notes == []
    ensures r.Err? ==> kind == "combined"
  {
    var repeated := AtLeast(Tally(keys), 2);
    if |repeated| == 0 then Ok(None)
    else
      var top := repeated[MostCommonEntry(repeated)];
      var notes := if kind == "combined" && top.key.Combined? then Reconstruct(ns, top.key.intervals, top.key.rhythm, top.key.start)
                   else Ok(FindMotifNotes(ns, top.key, kind));
      match notes
      case Err(e) => Err(e)
      case Ok(ms) => Ok(Some(Motif(top.key, top.count, ms)))
  }

  lemma {:induction false} CountOfIsEntry<K>(c: seq<Entry<K>>, x: K)
    requires HasKey(c, x)
    requires WellFormedCounter(c)
    ensures exists i :: 0 <= i < |c| && c[i].key == x && c[i].count == CountOf(c, x)
  {
    if c[0].key == x {
      CountOfMissing(c[1..], x);
    } else {
      CountOfIsEntry(c[1..], x);
      var i :| 0 <= i < |c[1..]| && c[1..][i].key == x && c[1..][i].count == CountOf(c[1..], x);
      assert c[i + 1] == c[1..][i];
    }
  }

  /** The motif reported is a pattern met at least twice, and no pattern is
      met more often: its frequency is the number of windows with its key. */
  lemma MostRepeatedIsMostCommon(file: MidiFile, lo: int, hi: int, kind: string)
    requires lo >= 1
    ensures MostRepeatedMotif(file, lo, hi, kind).Ok? && MostRepeatedMotif(file, lo, hi, kind).value.Some? ==>
      var keys := PatternKeys(ExtractSequence(file), lo, hi, kind).value;
      var m := MostRepeatedMotif(file, lo, hi, kind).value.value;
      && m.frequency >= 2
      && m.frequency == Occurrences(keys, m.key)
      && forall x :: Occurrences(keys, x) <= m.frequency
  {
    if MostRepeatedMotif(file, lo, hi, kind).Ok? && MostRepeatedMotif(file, lo, hi, kind).value.Some? {
      var ns := ExtractSequence(file);
      var keys := PatternKeys(ns, lo, hi, kind).value;
      var c := Tally(keys);
      var repeated := AtLeast(c, 2);
      var top := repeated[MostCommonEntry(repeated)];
      TallyCounts(keys);
      assert top in c;
      var ti :| 0 <= ti < |c| && c[ti] == top;
      CountOfEntry(c, ti);
      forall x ensures Occurrences(keys, x) <= top.count {
        if HasKey(c, x) {
          CountOfIsEntry(c, x);
          var i :| 0 <= i < |c| && c[i].key == x && c[i].count == CountOf(c, x);
          if c[i].count >= 2 {
            assert c[i] in repeated;
            var j :| 0 <= j < |repeated| && repeated[j] == c[i];
          }
        } else {
          CountOfMissing(c, x);
        }
      }
    }
  }

  /** The reported pattern is one of the counted keys. */
  lemma ReportedIsKey(file: MidiFile, lo: int, hi: int, kind: string)
    requires lo >= 1
    ensures MostRepeatedMotif(file, lo, hi, kind).Ok? && MostRepeatedMotif(file, lo, hi, kind).value.Some? ==>
      MostRepeatedMotif(file, lo, hi, kind).value.value.key in PatternKeys(ExtractSequence(file), lo, hi, kind).value
  {
    if MostRepeatedMotif(file, lo, hi, kind).Ok? && MostRepeatedMotif(file, lo, hi, kind).value.Some? {
      MostRepeatedIsMostCommon(file, lo, hi, kind);
      var keys := PatternKeys(ExtractSequence(file), lo, hi, kind).value;
      var m := MostRepeatedMotif(file, lo, hi, kind).value.value;
      assert multiset(keys)[m.key] >= 2;
    }
  }

  /** The pattern with the largest count among those met twice is one of the keys. */
  lemma TopIsKey<K>(keys: seq<K>)
    requires |AtLeast(Tally(keys), 2)| > 0
    ensures var repeated := AtLeast(Tally(keys), 2);
      repeated[MostCommonEntry(repeated)].key in keys
  {
    var c := Tally(keys);
    var repeated := AtLeast(c, 2);
    var top := repeated[MostCommonEntry(repeated)];
    TallyCounts(keys);
    var ti :| 0 <= ti < |c| && c[ti] == top;
    CountOfEntry(c, ti);
    assert multiset(keys)[top.key] >= 2;
  }

  /** The notes reported with a motif: the located run for a combined pattern,
      otherwise what `_find_motif_notes` gives for the requested kind. */
  lemma ReportedNotes(file: MidiFile, lo: int, hi: int, kind: string)
    requires lo >= 1
    ensures MostRepeatedMotif(file, lo, hi, kind).Ok? && MostRepeatedMotif(file, lo, hi, kind).value.Some? ==>
      var m := MostRepeatedMotif(file, lo, hi, kind).value.value;
      && (kind != "combined" ==> m.notes == FindMotifNotes(ExtractSequence(file), m.key, kind))
      && (kind == "combined" && m.key.Combined? ==>
            Reconstruct(ExtractSequence(file), m.key.intervals, m.key.rhythm, m.key.start) == Ok(m.notes))
  {
    if MostRepeatedMotif(file, lo, hi, kind).Ok? && MostRepeatedMotif(file, lo, hi, kind).value.Some? {
      var ns := ExtractSequence(file);
      var keys := PatternKeys(ns, lo, hi, kind).value;
      var repeated := AtLeast(Tally(keys), 2);
      assert |ns| >= lo && PatternKeys(ns, lo, hi, kind) == Ok(keys) && |repeated| > 0;
    }
  }

  /** Every melodic key was read off the notes, so it is found again. */
  lemma MelodicKeyFound(ns: seq<SeqNote>, lo: int, hi: int, key: MotifKey)
    requires lo >= 1
    ensures key in MelodicKeys(ns, lo, hi) ==>
      && key.Melodic? && FindMotifNotes(ns, key, "melodic") != []
      && PitchesOf(FindMotifNotes(ns, key, "melodic")) == key.pitches
  {
    if key in MelodicKeys(ns, lo, hi) {
      MelodicWindow(ns, lo, hi, key);
      WindowsAreSlices(PitchesOf(ns), lo, hi);
      PitchRunFound(ns, key.pitches);
    }
  }

  /** Pitches that run somewhere in the notes are found as a melodic pattern. */
  lemma PitchRunFound(ns: seq<SeqNote>, p: seq<int>)
    requires |p| > 0 && Occurs(p, PitchesOf(ns))
    ensures FindMotifNotes(ns, Melodic(p), "melodic") != []
    ensures PitchesOf(FindMotifNotes(ns, Melodic(p), "melodic")) == p
  {
    var i :| 0 <= i <= |PitchesOf(ns)| && p <= PitchesOf(ns)[i..];
    assert PitchesOf(ns[i..i + |p|]) == p;
    FindMotifNotesFinds(ns, p, i);
  }

  lemma MelodicWindow(ns: seq<SeqNote>, lo: int, hi: int, key: MotifKey)
    requires lo >= 1
    ensures key in MelodicKeys(ns, lo, hi) ==>
      key.Melodic? && |key.pitches| > 0 && key.pitches in Windows(PitchesOf(ns), lo, hi)
  {
    if key in MelodicKeys(ns, lo, hi) {
      var keys := MelodicKeys(ns, lo, hi);
      var ws := Windows(PitchesOf(ns), lo, hi);
      var k :| 0 <= k < |keys| && keys[k] == key;
      assert ws[k] in ws;
    }
  }

  /** Every combined key was read off the notes, so a run with its start
      pitch and intervals exists and the first one is returned. */
  lemma CombinedKeyFound(ns: seq<SeqNote>, lo: int, hi: int, key: MotifKey)
    requires lo >= 1
    ensures key in CombinedKeys(ns, lo, hi) ==>
      && key.Combined?
      && var r := Reconstruct(ns, key.intervals, key.rhythm, key.start);
         && r.Ok?
         && |r.value| == |key.intervals| + 1
         && r.value[0].pitch == key.start
         && Intervals(PitchesOf(r.value)) == key.intervals
         && Occurs(r.value, ns)
  {
    if key in CombinedKeys(ns, lo, hi) {
      CombinedWindow(ns, lo, hi, key);
      var w :| |w| > 0 && Occurs(w, ns) && key == CombinedKey(w);
      WindowKeyFound(ns, w);
    }
  }

  /** The combined key of a run of the notes locates a run with its start
      pitch and intervals. */
  lemma WindowKeyFound(ns: seq<SeqNote>, w: seq<SeqNote>)
    requires |w| > 0 && Occurs(w, ns)
    ensures var key := CombinedKey(w);
      var r := Reconstruct(ns, key.intervals, key.rhythm, key.start);
      && r.Ok?
      && |r.value| == |key.intervals| + 1
      && r.value[0].pitch == key.start
      && Intervals(PitchesOf(r.value)) == key.intervals
      && Occurs(r.value, ns)
  {
    var key := CombinedKey(w);
    ReconstructFindsWindow(ns, w);
    var j := SearchRun(ns, key.intervals, key.start, 0).value;
    assert ns[j..][..|key.intervals| + 1] <= ns[j..];
  }

  lemma CombinedWindow(ns: seq<SeqNote>, lo: int, hi: int, key: MotifKey)
    requires lo >= 1
    ensures key in CombinedKeys(ns, lo, hi) ==>
      exists w :: |w| > 0 && Occurs(w, ns) && key == CombinedKey(w)
  {
    if key in CombinedKeys(ns, lo, hi) {
      var keys := CombinedKeys(ns, lo, hi);
      var ws := Windows(ns, lo, hi);
      var k :| 0 <= k < |keys| && keys[k] == key;
      assert ws[k] in ws;
      WindowsAreSlices(ns, lo, hi);
    }
  }

  /** One pass of `get_most_repeated_motif` for combined patterns once some
      pattern repeats: the top entry with its located run. */
  lemma CombinedUnfold(ns: seq<SeqNote>, keys: seq<MotifKey>, top: Entry<MotifKey>)
    requires |AtLeast(Tally(keys), 2)| > 0
    requires top == AtLeast(Tally(keys), 2)[MostCommonEntry(AtLeast(Tally(keys), 2))]
    ensures top.key.Combined? && Reconstruct(ns, top.key.intervals, top.key.rhythm, top.key.start).Ok? ==>
      MotifFromKeys(ns, keys, "combined")
        == Ok(Some(Motif(top.key, top.count, Reconstruct(ns, top.key.intervals, top.key.rhythm, top.key.start).value)))
  {
  }

  /** A melodic motif comes with the first run of notes carrying its pitches,
      which is never empty since the pattern was read off the notes. */
  lemma MelodicMotifNotes(file: MidiFile, lo: int, hi: int)
    requires lo >= 1
    ensures MostRepeatedMotif(file, lo, hi, "melodic").Ok? && MostRepeatedMotif(file, lo, hi, "melodic").value.Some? ==>
      var m := MostRepeatedMotif(file, lo, hi, "melodic").value.value;
      m.key.Melodic? && m.notes != [] && PitchesOf(m.notes) == m.key.pitches
  {
    if MostRepeatedMotif(file, lo, hi, "melodic").Ok? && MostRepeatedMotif(file, lo, hi, "melodic").value.Some? {
      ReportedIsKey(file, lo, hi, "melodic");
      ReportedNotes(file, lo, hi, "melodic");
      var m := MostRepeatedMotif(file, lo, hi, "melodic").value.value;
      MelodicKeyFound(ExtractSequence(file), lo, hi, m.key);
    }
  }

  /** A combined count always yields a result, and a combined motif comes
      with a run of the notes that starts at its pitch and has its
      intervals. */
  lemma CombinedMotifNotes(file: MidiFile, lo: int, hi: int)
    requires lo >= 1
    ensures MostRepeatedMotif(file, lo, hi, "combined").Ok?
    ensures var r := MostRepeatedMotif(file, lo, hi, "combined");
      r.value.Some? ==>
        var m := r.value.value;
        && m.key.Combined?
        && |m.notes| == |m.key.intervals| + 1
        && m.notes[0].pitch == m.key.start
        && Intervals(PitchesOf(m.notes)) == m.key.intervals
        && Occurs(m.notes, ExtractSequence(file))
  {
    var ns := ExtractSequence(file);
    if |ns| >= lo {
      var keys := CombinedKeys(ns, lo, hi);
      assert PatternKeys(ns, lo, hi, "combined") == Ok(keys);
      assert MostRepeatedMotif(file, lo, hi, "combined") == MotifFromKeys(ns, keys, "combined");
      CombinedFromKeys(ns, lo, hi);
    }
  }

  /** Counting the combined patterns of ns always succeeds, and the reported
      motif is a run of ns with the pattern's first pitch and intervals. */
  lemma CombinedFromKeys(ns: seq<SeqNote>, lo: int, hi: int)
    requires lo >= 1
    ensures MotifFromKeys(ns, CombinedKeys(ns, lo, hi), "combined").Ok?
    ensures var r := MotifFromKeys(ns, CombinedKeys(ns, lo, hi), "combined");
      r.value.Some? ==>
        var m := r.value.value;
        && m.key.Combined?
        && |m.notes| == |m.key.intervals| + 1
        && m.notes[0].pitch == m.key.start
        && Intervals(PitchesOf(m.notes)) == m.key.intervals
        && Occurs(m.notes, ns)
  {
    var keys := CombinedKeys(ns, lo, hi);
    var repeated := AtLeast(Tally(keys), 2);
    if |repeated| > 0 {
      TopIsKey(keys);
      var top := repeated[MostCommonEntry(repeated)];
      CombinedKeyFound(ns, lo, hi, top.key);
      CombinedUnfold(ns, keys, top);
    }
  }

  /** Once there are enough notes and the patterns can be counted, no motif
      is reported exactly when no pattern is met twice. */
  lemma NoMotifIffNoRepeat(file: MidiFile, lo: int, hi: int, kind: string)
    requires lo >= 1
    ensures |ExtractSequence(file)| >= lo && PatternKeys(ExtractSequence(file), lo, hi, kind).Ok? ==>
      var keys := PatternKeys(ExtractSequence(file), lo, hi, kind).value;
      MostRepeatedMotif(file, lo, hi, kind) == Ok(None) <==> forall x :: Occurrences(keys, x) < 2
  {
    if |ExtractSequence(file)| >= lo && PatternKeys(ExtractSequence(file), lo, hi, kind).Ok? {
      var ns := ExtractSequence(file);
      var keys := PatternKeys(ns, lo, hi, kind).value;
      var c := Tally(keys);
      var repeated := AtLeast(c, 2);
      TallyCounts(keys);
      if |repeated| == 0 {
        forall x ensures Occurrences(keys, x) < 2 {
          if HasKey(c, x) {
            CountOfIsEntry(c, x);
            var i :| 0 <= i < |c| && c[i].key == x && c[i].count == CountOf(c, x);
          } else {
            CountOfMissing(c, x);
          }
        }
      } else {
        var e := repeated[0];
        assert e in c;
        var i :| 0 <= i < |c| && c[i] == e;
        CountOfEntry(c, i);
        assert Occurrences(keys, e.key) >= 2;
      }
    }
  }

  /** Counting by pitches counts every window once, each length L in range
      with len(notes) - L + 1 windows. */
  lemma MelodicCounts(ns: seq<SeqNote>, lo: int, hi: int)
    requires lo >= 1
    ensures Total(Tally(MelodicKeys(ns, lo, hi))) == |Windows(PitchesOf(ns), lo, hi)|
    ensures forall x :: CountOf(Tally(MelodicKeys(ns, lo, hi)), x) == Occurrences(MelodicKeys(ns, lo, hi), x)
  {
    TallyCounts(MelodicKeys(ns, lo, hi));
  }
}

=== FILE: motifs.dfy ===
/** Pattern mining shared by the two motif extractors (motif_extractor.py and
    motif_extractor_v2.py): interval sequences and their inverse, the windows
    of every searched length, `collections.Counter` tallies in insertion
    order, and note names. */
module Motifs {
  import opened Base
  import opened Midi

  // ---------------------------------------------------------------------
  // Intervals

  /** Differences of consecutive pitches; none below two pitches. */
  function Intervals(p: seq<int>): (r: seq<int>)
    ensures |r| == if |p| < 2 then 0 else |p| - 1
  {
    if |p| < 2 then [] else seq(|p| - 1, k requires 0 <= k < |p| - 1 => p[k + 1] - p[k])
  }

  /** The fallback reconstruction: the start pitch, then each interval added
      to the last pitch so far. */
  function Rebuild(start: int, iv: seq<int>): (r: seq<int>)
    ensures |r| == |iv| + 1 && r[0] == start
  {
    if |iv| == 0 then [start]
    else
      var prev := Rebuild(start, iv[..|iv| - 1]);
      prev + [prev[|prev| - 1] + iv[|iv| - 1]]
  }

  lemma IntervalsSnoc(p: seq<int>, y: int)
    requires |p| >= 1
    ensures Intervals(p + [y]) == Intervals(p) + [y - p[|p| - 1]]
  {
    var q := p + [y];
    assert |Intervals(q)| == |Intervals(p) + [y - p[|p| - 1]]|;
    forall k | 0 <= k < |Intervals(q)| ensures Intervals(q)[k] == (Intervals(p) + [y - p[|p| - 1]])[k] {
      assert q[k] == p[k];
    }
  }

  /** Rebuilding from a start and intervals gives back those intervals. */
  lemma {:induction false} RebuildIntervals(start: int, iv: seq<int>)
    ensures Intervals(Rebuild(start, iv)) == iv
  {
    if |iv| > 0 {
      var init := iv[..|iv| - 1];
      var prev := Rebuild(start, init);
      RebuildIntervals(start, init);
      IntervalsSnoc(prev, prev[|prev| - 1] + iv[|iv| - 1]);
      assert init + [iv[|iv| - 1]] == iv;
    }
  }

  /** A pitch sequence is rebuilt from its first pitch and its intervals. */
  lemma {:induction false} IntervalsRebuild(p: seq<int>)
    requires |p| >= 1
    ensures Rebuild(p[0], Intervals(p)) == p
  {
    if |p| > 1 {
      var q := p[..|p| - 1];
      var y := p[|p| - 1];
      assert p == q + [y];
      IntervalsRebuild(q);
      IntervalsSnoc(q, y);
      var iv := Intervals(p);
      assert iv[..|iv| - 1] == Intervals(q);
    }
  }

  // ---------------------------------------------------------------------
  // Windows

  /** All windows of length L, left to right. */
  function WindowsOfLength<T>(s: seq<T>, L: nat): (r: seq<seq<T>>)
    requires 1 <= L <= |s|
    ensures |r| == |s| - L + 1
    ensures forall i :: 0 <= i < |r| ==> r[i] == s[i..i + L]
  {
    seq(|s| - L + 1, i requires 0 <= i < |s| - L + 1 => s[i..i + L])
  }

  function WindowsFrom<T>(s: seq<T>, L: int, stop: int): (r: seq<seq<T>>)
    requires L >= 1 && stop <= |s|
    ensures forall w :: w in r ==> L <= |w| < stop
    decreases stop - L
  {
    if L >= stop then [] else WindowsOfLength(s, L) + WindowsFrom(s, L + 1, stop)
  }

  /** The nested loops `for length in range(lo, min(hi + 1, len(s)))` and
      `for i in range(len(s) - length + 1)`, as the sequence of windows they
      visit. */
  function Windows<T>(s: seq<T>, lo: int, hi: int): (r: seq<seq<T>>)
    requires lo >= 1
    ensures forall w :: w in r ==> lo <= |w| <= hi && |w| < |s|
  {
    WindowsFrom(s, lo, Min(hi + 1, |s|))
  }

  function HasLength<T>(L: int): seq<T> -> bool
  {
    (w: seq<T>) => |w| == L
  }

  lemma CountNone<T>(s: seq<T>, f: T -> bool)
    requires forall i :: 0 <= i < |s| ==> !f(s[i])
    ensures CountWhere(s, f) == 0
  {
    if |s| > 0 {
      CountNone(s[..|s| - 1], f);
    }
  }

  lemma {:induction false} WindowsFromCount<T>(s: seq<T>, M: int, stop: int, L: int)
    requires M >= 1 && stop <= |s|
    ensures CountWhere(WindowsFrom(s, M, stop), HasLength(L)) == if M <= L < stop then |s| - L + 1 else 0
    decreases stop - M
  {
    if M < stop {
      var block, rest := WindowsOfLength(s, M), WindowsFrom(s, M + 1, stop);
      var f := HasLength<T>(L);
      assert WindowsFrom(s, M, stop) == block + rest;
      WindowsFromCount(s, M + 1, stop, L);
      CountAppend(block, rest, f);
      if M == L {
        CountAll(block, f);
        assert CountWhere(rest, f) == 0;
      } else {
        CountNone(block, f);
        assert CountWhere(block + rest, f) == CountWhere(rest, f);
      }
    }
  }

  /** Exactly len(s) - L + 1 windows of each searched length L are visited,
      and none of any other length. */
  lemma WindowCount<T>(s: seq<T>, lo: int, hi: int, L: int)
    requires lo >= 1
    ensures CountWhere(Windows(s, lo, hi), HasLength(L)) ==
      if lo <= L < Min(hi + 1, |s|) then |s| - L + 1 else 0
  {
    WindowsFromCount(s, lo, Min(hi + 1, |s|), L);
  }

  /** w appears as a contiguous run somewhere in s. */
  ghost predicate Occurs<T>(w: seq<T>, s: seq<T>)
  {
    exists i :: 0 <= i <= |s| && w <= s[i..]
  }

  lemma {:induction false} WindowsFromSlices<T>(s: seq<T>, L: int, stop: int)
    requires L >= 1 && stop <= |s|
    ensures forall w :: w in WindowsFrom(s, L, stop) ==> Occurs(w, s)
    decreases stop - L
  {
    if L < stop {
      WindowsFromSlices(s, L + 1, stop);
      var block := WindowsOfLength(s, L);
      forall w | w in block ensures Occurs(w, s) {
        var i :| 0 <= i < |block| && block[i] == w;
        assert w <= s[i..];
      }
    }
  }

  /** Every visited window is a contiguous run of the input. */
  lemma WindowsAreSlices<T>(s: seq<T>, lo: int, hi: int)
    requires lo >= 1
    ensures forall w :: w in Windows(s, lo, hi) ==> Occurs(w, s)
  {
    WindowsFromSlices(s, lo, Min(hi + 1, |s|));
  }

  // ---------------------------------------------------------------------
  // Counters

  datatype Entry<K> = Entry(key: K, count: nat)

  /** `counter[k] += 1`: a new key goes to the end. */
  function Bump<K(==)>(c: seq<Entry<K>>, k: K): (r: seq<Entry<K>>)
    ensures |r| == |c| || |r| == |c| + 1
  {
    if |c| == 0 then [Entry(k, 1)]
    else if c[0].key == k then [Entry(k, c[0].count + 1)] + c[1..]
    else [c[0]] + Bump(c[1..], k)
  }

  /** A Counter fed the keys in order; its entries keep first-seen order. */
  function Tally<K(==)>(keys: seq<K>): seq<Entry<K>>
  {
    if |keys| == 0 then [] else Bump(Tally(keys[..|keys| - 1]), keys[|keys| - 1])
  }

  /** `counter[k]` (0 for a missing key). */
  function CountOf<K(==)>(c: seq<Entry<K>>, k: K): nat
  {
    if |c| == 0 then 0 else (if c[0].key == k then c[0].count else 0) + CountOf(c[1..], k)
  }

  predicate HasKey<K(==)>(c: seq<Entry<K>>, k: K)
  {
    |c| > 0 && (c[0].key == k || HasKey(c[1..], k))
  }

  function Total<K>(c: seq<Entry<K>>): nat
  {
    if |c| == 0 then 0 else c[0].count + Total(c[1..])
  }

  /** No key twice and no zero count, as in any Counter built by increments. */
  ghost predicate WellFormedCounter<K>(c: seq<Entry<K>>)
  {
    |c| == 0 || (c[0].count > 0 && !HasKey(c[1..], c[0].key) && WellFormedCounter(c[1..]))
  }

  lemma {:induction false} CountOfMissing<K>(c: seq<Entry<K>>, k: K)
    requires !HasKey(c, k)
    ensures CountOf(c, k) == 0
  {
    if |c| > 0 {
      CountOfMissing(c[1..], k);
    }
  }

  lemma {:induction false} BumpFacts<K>(c: seq<Entry<K>>, k: K)
    requires WellFormedCounter(c)
    ensures WellFormedCounter(Bump(c, k))
    ensures forall x :: CountOf(Bump(c, k), x) == CountOf(c, x) + (if x == k then 1 else 0)
    ensures forall x :: HasKey(Bump(c, k), x) <==> HasKey(c, x) || x == k
    ensures Total(Bump(c, k)) == Total(c) + 1
  {
    if |c| > 0 {
      var rest := c[1..];
      var r := Bump(c, k);
      if c[0].key == k {
        assert r[1..] == rest;
        CountOfMissing(rest, k);
      } else {
        BumpFacts(rest, k);
        assert r[1..] == Bump(rest, k);
      }
    }
  }

  /** The tally is a Counter of its keys: distinct keys in first-seen order,
      each counted as often as it occurs, the counts adding up to the number
      of keys. */
  lemma {:induction false} TallyCounts<K>(keys: seq<K>)
    ensures WellFormedCounter(Tally(keys))
    ensures forall x :: CountOf(Tally(keys), x) == Occurrences(keys, x)
    ensures forall x :: HasKey(Tally(keys), x) <==> x in keys
    ensures Total(Tally(keys)) == |keys|
  {
    if |keys| > 0 {
      var init := keys[..|keys| - 1];
      var k := keys[|keys| - 1];
      TallyCounts(init);
      BumpFacts(Tally(init), k);
      LastKey(keys);
    }
  }

  /** Occurrences and membership of a sequence, split at its last element. */
  lemma LastKey<K>(keys: seq<K>)
    requires |keys| > 0
    ensures var init, k := keys[..|keys| - 1], keys[|keys| - 1];
      && (forall x :: Occurrences(keys, x) == Occurrences(init, x) + (if x == k then 1 else 0))
      && (forall x :: x in keys <==> x in init || x == k)
  {
    var init, k := keys[..|keys| - 1], keys[|keys| - 1];
    assert keys == init + [k];
    assert multiset(keys) == multiset(init) + multiset{k};
  }

  /** An entry's count is what CountOf reports for its key. */
  lemma {:induction false} CountOfEntry<K>(c: seq<Entry<K>>, i: nat)
    requires WellFormedCounter(c) && i < |c|
    ensures CountOf(c, c[i].key) == c[i].count
  {
    if i == 0 {
      CountOfMissing(c[1..], c[0].key);
    } else {
      CountOfEntry(c[1..], i - 1);
      KeyAt(c[1..], i - 1);
    }
  }

  lemma {:induction false} KeyAt<K>(c: seq<Entry<K>>, i: nat)
    requires i < |c|
    ensures HasKey(c, c[i].key)
  {
    if i > 0 {
      KeyAt(c[1..], i - 1);
    }
  }

  /** Index of the first entry with the largest count from i on, given the
      best so far. */
  function FirstMaxFrom<K>(c: seq<Entry<K>>, i: nat, best: nat): (r: nat)
    requires best < |c| && best <= i <= |c|
    requires forall j :: 0 <= j < i ==> c[j].count <= c[best].count
    requires forall j :: 0 <= j < best ==> c[j].count < c[best].count
    ensures r < |c|
    ensures forall j :: 0 <= j < |c| ==> c[j].count <= c[r].count
    ensures forall j :: 0 <= j < r ==> c[j].count < c[r].count
    decreases |c| - i
  {
    if i == |c| then best
    else if c[i].count > c[best].count then FirstMaxFrom(c, i + 1, i)
    else FirstMaxFrom(c, i + 1, best)
  }

  /** `counter.most_common(1)[0]`: the first entry with the largest count. */
  function MostCommonEntry<K>(c: seq<Entry<K>>): (r: nat)
    requires |c| > 0
    ensures r < |c|
    ensures forall j :: 0 <= j < |c| ==> c[j].count <= c[r].count
    ensures forall j :: 0 <= j < r ==> c[j].count < c[r].count
  {
    FirstMaxFrom(c, 0, 0)
  }

  /** `Counter({k: v for k, v in c.items() if v >= m})`, order kept. */
  function AtLeast<K>(c: seq<Entry<K>>, m: int): (r: seq<Entry<K>>)
    ensures forall i :: 0 <= i < |r| ==> r[i].count >= m && r[i] in c
    ensures forall i :: 0 <= i < |c| && c[i].count >= m ==> c[i] in r
    ensures |r| <= |c|
  {
    if |c| == 0 then []
    else
      var rest := AtLeast(c[1..], m);
      assert forall i :: 1 <= i < |c| ==> c[i] == c[1..][i - 1];
      if c[0].count >= m then [c[0]] + rest else rest
  }

  // ---------------------------------------------------------------------
  // Note names

  function DigitChar(d: int): (r: char)
    requires 0 <= d < 10
    ensures '0' <= r <= '9' && r as int - '0' as int == d
  {
    ('0' as int + d) as char
  }

  /** Decimal digits of a natural number, most significant first. */
  function Digits(n: nat): (r: string)
    ensures |r| > 0 && forall k :: 0 <= k < |r| ==> '0' <= r[k] <= '9'
  {
    if n < 10 then [DigitChar(n)] else Digits(n / 10) + [DigitChar(n % 10)]
  }

  /** Python's `str` of an integer. */
  function IntText(i: int): (r: string)
    ensures |r| > 0 && r[0] != '#'
  {
    if i < 0 then "-" + Digits(-i) else Digits(i)
  }

  function ParseDigits(s: string): int
  {
    if |s| == 0 then 0 else ParseDigits(s[..|s| - 1]) * 10 + (s[|s| - 1] as int - '0' as int)
  }

  function ParseInt(s: string): int
  {
    if |s| > 0 && s[0] == '-' then -ParseDigits(s[1..]) else ParseDigits(s)
  }

  lemma {:induction false} ParseDigitsOf(n: nat)
    ensures ParseDigits(Digits(n)) == n
  {
    if n >= 10 {
      ParseDigitsOf(n / 10);
      var d := Digits(n / 10) + [DigitChar(n % 10)];
      assert d[..|d| - 1] == Digits(n / 10);
    }
  }

  lemma ParseIntText(i: int)
    ensures ParseInt(IntText(i)) == i
  {
    if i < 0 {
      ParseDigitsOf(-i);
      assert ("-" + Digits(-i))[1..] == Digits(-i);
    } else {
      ParseDigitsOf(i);
    }
  }

  /** `_midi_to_note_name`: the pitch class's name followed by the octave,
      `midi // 12 - 1`, so that 60 is C4. */
  function NoteName(n: int): (r: string)
  {
    NoteNames[n % 12] + IntText(FloorDiv(n, 12) - 1)
  }

  /** The pitch class a name stands for. */
  function PitchClassOf(name: string): Option<int>
  {
    if name == "C" then Some(0) else if name == "C#" then Some(1)
    else if name == "D" then Some(2) else if name == "D#" then Some(3)
    else if name == "E" then Some(4) else if name == "F" then Some(5)
    else if name == "F#" then Some(6) else if name == "G" then Some(7)
    else if name == "G#" then Some(8) else if name == "A" then Some(9)
    else if name == "A#" then Some(10) else if name == "B" then Some(11)
    else None
  }

  /** Reads a note name back: a letter with an optional sharp, then the octave. */
  function ParseNoteName(s: string): Option<int>
  {
    var split := if |s| >= 2 && s[1] == '#' then 2 else 1;
    if |s| < split then None
    else match PitchClassOf(s[..split])
      case None => None
      case Some(pc) => Some(12 * (ParseInt(s[split..]) + 1) + pc)
  }

  /** Each name stands for its own pitch class, and has a second character
      exactly when it is a sharp. */
  lemma NameShape(k: nat)
    requires k < 12
    ensures PitchClassOf(NoteNames[k]) == Some(k)
    ensures |NoteNames[k]| == 1 || (|NoteNames[k]| == 2 && NoteNames[k][1] == '#')
  {
    if k == 0 { assert NoteNames[0] == "C"; }
    else if k == 1 { assert NoteNames[1] == "C#"; }
    else if k == 2 { assert NoteNames[2] == "D"; }
    else if k == 3 { assert NoteNames[3] == "D#"; }
    else if k == 4 { assert NoteNames[4] == "E"; }
    else if k == 5 { assert NoteNames[5] == "F"; }
    else if k == 6 { assert NoteNames[6] == "F#"; }
    else if k == 7 { assert NoteNames[7] == "G"; }
    else if k == 8 { assert NoteNames[8] == "G#"; }
    else if k == 9 { assert NoteNames[9] == "A"; }
    else if k == 10 { assert NoteNames[10] == "A#"; }
    else { assert NoteNames[11] == "B"; }
  }

  /** A note name determines the MIDI number it was made from. */
  lemma NoteNameRoundTrip(n: int)
    ensures ParseNoteName(NoteName(n)) == Some(n)
  {
    var pc := n % 12;
    var name := NoteNames[pc];
    var text := IntText(FloorDiv(n, 12) - 1);
    var s := name + text;
    NameShape(pc);
    var split := |name|;
    assert s[..split] == name;
    assert s[split..] == text;
    ParseIntText(FloorDiv(n, 12) - 1);
    assert (if |s| >= 2 && s[1] == '#' then 2 else 1) == split;
    assert PitchClassOf(s[..split]) == Some(pc);
    assert 12 * (FloorDiv(n, 12) - 1 + 1) + pc == n;
  }

  lemma NoteNameMiddleC()
    ensures NoteName(60) == "C4"
  {
    assert NoteNames[0] == "C";
    assert Digits(4) == "4";
  }
}

=== FILE: note_events.dfy ===
/** Re-encoding of a note list as one track (hand_separator.py:216-260,
    midi_corrector.py:447-491): every note becomes a note_on at its start and a
    note_off of velocity 0 at its end; the events are stably sorted by
    (time, is_note_off), so at equal times note_ons come first, and written
    with delta times measured from the previous event, the first from 0. */
module NoteEvents {
  import opened Base
  import opened Sorting
  import opened Midi

  datatype Kind = On | Off

  datatype Event = Event(time: int, kind: Kind, pitch: U7, velocity: U7, channel: Channel)

  /** Notes a MIDI message can carry: 7-bit pitch and velocity, a 4-bit channel,
      and a time not before the start of the track. */
  ghost predicate Encodable(n: Note)
  {
    0 <= n.pitch < 128 && 0 <= n.velocity < 128 && 0 <= n.channel < 16 && 0 <= n.start <= n.end
  }

  ghost predicate EncodableEvent(e: Event)
  {
    e.time >= 0 && (e.kind == Off ==> e.velocity == 0)
  }

  function OnEvent(n: Note): Event
    requires Encodable(n)
  {
    Event(n.start, On, n.pitch, n.velocity, n.channel)
  }

  function OffEvent(n: Note): Event
    requires Encodable(n)
  {
    Event(n.end, Off, n.pitch, 0, n.channel)
  }

  /** The two events of every note, in note order. */
  function EventsOf(notes: seq<Note>): (r: seq<Event>)
    requires forall i :: 0 <= i < |notes| ==> Encodable(notes[i])
    ensures |r| == 2 * |notes|
    ensures forall i :: 0 <= i < |notes| ==> r[2 * i] == OnEvent(notes[i]) && r[2 * i + 1] == OffEvent(notes[i])
  {
    if |notes| == 0 then []
    else
      [OnEvent(notes[0]), OffEvent(notes[0])] + EventsOf(notes[1..])
  }

  /** The order of the sort key `(time, type == 'note_off')`. */
  predicate OnFirst(a: Event, b: Event)
  {
    a.time < b.time || (a.time == b.time && (a.kind == On || b.kind == Off))
  }

  function PrevTime(evs: seq<Event>, i: nat): int
    requires i < |evs|
  {
    if i == 0 then 0 else evs[i - 1].time
  }

  function MessageOf(e: Event, delta: int): Msg
  {
    if e.kind == On then NoteOn(e.pitch, e.velocity, e.channel, delta)
    else NoteOff(e.pitch, 0, e.channel, delta)
  }

  /** The delta-time loop over already sorted events. */
  function ToMessages(evs: seq<Event>): (r: Track)
    ensures |r| == |evs|
  {
    seq(|evs|, i requires 0 <= i < |evs| => MessageOf(evs[i], evs[i].time - PrevTime(evs, i)))
  }

  lemma {:induction false} EventsEncodable(notes: seq<Note>)
    requires forall i :: 0 <= i < |notes| ==> Encodable(notes[i])
    ensures forall e :: e in multiset(EventsOf(notes)) ==> EncodableEvent(e)
  {
    if |notes| > 0 {
      EventsEncodable(notes[1..]);
      var n := notes[0];
      assert Encodable(n);
      var head := [OnEvent(n), OffEvent(n)];
      assert EventsOf(notes) == head + EventsOf(notes[1..]);
      assert multiset(EventsOf(notes)) == multiset(head) + multiset(EventsOf(notes[1..]));
    }
  }

  function SortedEvents(notes: seq<Note>): (r: seq<Event>)
    requires forall i :: 0 <= i < |notes| ==> Encodable(notes[i])
    ensures multiset(r) == multiset(EventsOf(notes))
    ensures SortedBy(r, OnFirst)
  {
    Sort(EventsOf(notes), OnFirst)
  }

  /** `_add_notes_to_track`: the messages appended for a note list (nothing for none). */
  function EncodeNotes(notes: seq<Note>): (r: Track)
    requires forall i :: 0 <= i < |notes| ==> Encodable(notes[i])
    ensures |r| == 2 * |notes|
  {
    var evs := SortedEvents(notes);
    EventsEncodable(notes);
    assert forall i :: 0 <= i < |evs| ==> evs[i] in multiset(evs);
    ToMessages(evs)
  }

  /** Reads a track of note messages back as timed events. */
  function Decode(msgs: Track): (r: seq<Event>)
    requires forall k :: 0 <= k < |msgs| ==> msgs[k].NoteOn? || msgs[k].NoteOff?
    ensures |r| == |msgs|
  {
    seq(|msgs|, k requires 0 <= k < |msgs| =>
      Event(AbsTime(msgs, k + 1), if msgs[k].NoteOn? then On else Off,
            msgs[k].note, msgs[k].velocity, msgs[k].channel))
  }

  lemma {:induction false} ToMessagesAbsTime(evs: seq<Event>, k: nat)
    requires 0 < k <= |evs|
    ensures AbsTime(ToMessages(evs), k) == evs[k - 1].time
  {
    if k > 1 {
      ToMessagesAbsTime(evs, k - 1);
    }
  }

  lemma MessageAt(evs: seq<Event>, k: nat)
    requires forall i :: 0 <= i < |evs| ==> EncodableEvent(evs[i])
    requires k < |evs|
    ensures ToMessages(evs)[k].NoteOn? || ToMessages(evs)[k].NoteOff?
    ensures ToMessages(evs)[k].NoteOn? <==> evs[k].kind == On
    ensures ToMessages(evs)[k].note == evs[k].pitch
    ensures ToMessages(evs)[k].velocity == evs[k].velocity
    ensures ToMessages(evs)[k].channel == evs[k].channel
    ensures ToMessages(evs)[k].time == evs[k].time - PrevTime(evs, k)
  {
  }

  lemma {:induction false} DecodeToMessages(evs: seq<Event>)
    requires forall i :: 0 <= i < |evs| ==> EncodableEvent(evs[i])
    ensures forall k :: 0 <= k < |ToMessages(evs)| ==>
      ToMessages(evs)[k].NoteOn? || ToMessages(evs)[k].NoteOff?
    ensures Decode(ToMessages(evs)) == evs
  {
    var msgs := ToMessages(evs);
    forall k | 0 <= k < |msgs| ensures msgs[k].NoteOn? || msgs[k].NoteOff? {
      MessageAt(evs, k);
    }
    var d := Decode(msgs);
    forall k | 0 <= k < |msgs| ensures d[k] == evs[k] {
      DecodeAt(evs, k);
    }
  }

  lemma DecodeAt(evs: seq<Event>, k: nat)
    requires forall i :: 0 <= i < |evs| ==> EncodableEvent(evs[i])
    requires k < |evs|
    requires forall k :: 0 <= k < |ToMessages(evs)| ==>
      ToMessages(evs)[k].NoteOn? || ToMessages(evs)[k].NoteOff?
    ensures Decode(ToMessages(evs))[k] == evs[k]
  {
    var msgs := ToMessages(evs);
    MessageAt(evs, k);
    ToMessagesAbsTime(evs, k + 1);
    assert EncodableEvent(evs[k]);
  }

  lemma SortedEventsEncodable(notes: seq<Note>)
    requires forall i :: 0 <= i < |notes| ==> Encodable(notes[i])
    ensures forall i :: 0 <= i < |SortedEvents(notes)| ==> EncodableEvent(SortedEvents(notes)[i])
  {
    var evs := SortedEvents(notes);
    EventsEncodable(notes);
    assert forall i :: 0 <= i < |evs| ==> evs[i] in multiset(evs);
  }

  /** Decoding the encoded track restores every event with its absolute time:
      the delta times re-sum to the times they were computed from. */
  lemma EncodeDecode(notes: seq<Note>)
    requires forall i :: 0 <= i < |notes| ==> Encodable(notes[i])
    ensures forall k :: 0 <= k < |EncodeNotes(notes)| ==>
      EncodeNotes(notes)[k].NoteOn? || EncodeNotes(notes)[k].NoteOff?
    ensures Decode(EncodeNotes(notes)) == SortedEvents(notes)
    ensures multiset(Decode(EncodeNotes(notes))) == multiset(EventsOf(notes))
  {
    var evs := SortedEvents(notes);
    SortedEventsEncodable(notes);
    assert EncodeNotes(notes) == ToMessages(evs);
    DecodeToMessages(evs);
  }

  lemma ToMessagesNonNeg(evs: seq<Event>)
    requires forall i :: 0 <= i < |evs| ==> EncodableEvent(evs[i])
    requires SortedBy(evs, OnFirst)
    ensures NonNegTimes(ToMessages(evs))
  {
    var msgs := ToMessages(evs);
    forall k | 0 <= k < |msgs| ensures msgs[k].time >= 0 {
      MessageAt(evs, k);
      if k > 0 {
        assert OnFirst(evs[k - 1], evs[k]);
      }
    }
  }

  lemma AbsTimesOf(evs: seq<Event>)
    ensures forall k :: 0 < k <= |evs| ==> AbsTime(ToMessages(evs), k) == evs[k - 1].time
  {
    forall k | 0 < k <= |evs| ensures AbsTime(ToMessages(evs), k) == evs[k - 1].time {
      ToMessagesAbsTime(evs, k);
    }
  }

  /** The encoded track has non-negative delta times, and at any one instant no
      note_off comes before a note_on. */
  lemma EncodeOrder(notes: seq<Note>)
    requires forall i :: 0 <= i < |notes| ==> Encodable(notes[i])
    ensures NonNegTimes(EncodeNotes(notes))
    ensures forall i, j :: (0 <= i < j < |EncodeNotes(notes)| && EncodeNotes(notes)[i].NoteOff? &&
      EncodeNotes(notes)[j].NoteOn?) ==>
      AbsTime(EncodeNotes(notes), i + 1) < AbsTime(EncodeNotes(notes), j + 1)
  {
    var evs := SortedEvents(notes);
    SortedEventsEncodable(notes);
    assert EncodeNotes(notes) == ToMessages(evs);
    ToMessagesNonNeg(evs);
    AbsTimesOf(evs);
    forall i, j | 0 <= i < j < |evs| && ToMessages(evs)[i].NoteOff? && ToMessages(evs)[j].NoteOn?
      ensures AbsTime(ToMessages(evs), i + 1) < AbsTime(ToMessages(evs), j + 1)
    {
      MessageAt(evs, i);
      MessageAt(evs, j);
      assert OnFirst(evs[i], evs[j]);
      assert AbsTime(ToMessages(evs), i + 1) == evs[i].time;
    }
  }
}

=== FILE: pedal.dfy ===
/** Sustain pedal detection and insertion (pedal_detector.py): pedal-down
    samples become alternating down and up events, short down-up pairs are
    dropped, and the events are merged into every track as CC64 messages. */
module Pedal {
  import opened Base
  import opened Midi

  datatype PedalEvent = PedalEvent(time: real, down: bool)

  /** Down events at even positions, up events at odd ones. */
  ghost predicate Alternating(es: seq<PedalEvent>)
  {
    forall k :: 0 <= k < |es| ==> es[k].down == (k % 2 == 0)
  }

  /** Sample i is an edge when it differs from the sample before it, the
      pedal being up before the first sample. */
  predicate IsEdge(down: seq<bool>, i: nat)
    requires i < |down|
  {
    down[i] != (i > 0 && down[i - 1])
  }

  datatype EdgeState = EdgeState(events: seq<PedalEvent>, currentlyDown: bool)

  /** The edge loop of `_detect_from_polyphony` over the first k samples. */
  function EdgeLoop(times: seq<real>, down: seq<bool>, k: nat): (r: EdgeState)
    requires |times| == |down| && k <= |down|
    ensures r.currentlyDown == (k > 0 && down[k - 1])
    ensures Alternating(r.events)
    ensures |r.events| % 2 == (if r.currentlyDown then 1 else 0)
  {
    if k == 0 then EdgeState([], false)
    else
      var st := EdgeLoop(times, down, k - 1);
      if down[k - 1] && !st.currentlyDown then EdgeState(st.events + [PedalEvent(times[k - 1], true)], true)
      else if !down[k - 1] && st.currentlyDown then EdgeState(st.events + [PedalEvent(times[k - 1], false)], false)
      else st
  }

  /** The events as a plain filter: one event at every edge, saying which way
      the pedal went. */
  function EdgeEvents(times: seq<real>, down: seq<bool>, k: nat): (r: seq<PedalEvent>)
    requires |times| == |down| && k <= |down|
  {
    if k == 0 then []
    else EdgeEvents(times, down, k - 1) + (if IsEdge(down, k - 1) then [PedalEvent(times[k - 1], down[k - 1])] else [])
  }

  /** The loop emits exactly the edges. */
  lemma {:induction false} EdgeLoopIsEdges(times: seq<real>, down: seq<bool>, k: nat)
    requires |times| == |down| && k <= |down|
    ensures EdgeLoop(times, down, k).events == EdgeEvents(times, down, k)
  {
    if k > 0 {
      EdgeLoopIsEdges(times, down, k - 1);
    }
  }

  /** `_detect_from_polyphony` from the sampled pedal-down flags on: the
      edges, closed by an up event at the end when the pedal is still down. */
  function DetectEdges(times: seq<real>, down: seq<bool>, duration: real): (r: seq<PedalEvent>)
    requires |times| == |down|
    ensures Alternating(r)
    ensures |r| % 2 == 0
    ensures |r| > 0 ==> !r[|r| - 1].down
    ensures |down| == 0 ==> r == []
  {
    var st := EdgeLoop(times, down, |down|);
    if st.currentlyDown then st.events + [PedalEvent(duration, false)] else st.events
  }

  function LastEnd(notes: seq<Sounding>): (r: real)
    requires |notes| > 0
    ensures exists k :: 0 <= k < |notes| && r == notes[k].end
    ensures forall k :: 0 <= k < |notes| ==> notes[k].end <= r
  {
    if |notes| == 1 then notes[0].end else MaxReal(notes[0].end, LastEnd(notes[1..]))
  }

  /** `detect_pedal` without audio: no notes give no events; otherwise the
      pedal is down at the sample times where at least `threshold` notes
      sound, the edges become events closed at the last note end, and short
      pairs are dropped. What comes out is whole down-up pairs, each at least
      minDuration long. */
  function DetectPedal(notes: seq<Sounding>, times: seq<real>, threshold: int, minDuration: real): (r: seq<PedalEvent>)
    ensures |notes| == 0 ==> r == []
    ensures Alternating(r) && |r| % 2 == 0
    ensures forall k :: 0 <= k < |r| / 2 ==> r[2 * k + 1].time - r[2 * k].time >= minDuration
  {
    if |notes| == 0 then []
    else
      var down := seq(|times|, i requires 0 <= i < |times| => Polyphony(notes, times[i]) >= threshold);
      var es := DetectEdges(times, down, LastEnd(notes));
      FilterAlternating(es, minDuration, 0);
      assert |es| < 2 ==> es == [];
      FilterShort(es, minDuration)
  }

  // ---------------------------------------------------------------------
  // Short pedal filter

  /** The loop of `_filter_short_events` from i on: a down event with a
      successor is kept with it when they are at least minDuration apart and
      dropped with it otherwise; any other event is kept. */
  function FilterFrom(es: seq<PedalEvent>, minDuration: real, i: nat): (r: seq<PedalEvent>)
    requires i <= |es|
    ensures |r| <= |es| - i
    decreases |es| - i
  {
    if i == |es| then []
    else if es[i].down && i + 1 < |es| then
      (if es[i + 1].time - es[i].time >= minDuration then [es[i], es[i + 1]] else []) + FilterFrom(es, minDuration, i + 2)
    else [es[i]] + FilterFrom(es, minDuration, i + 1)
  }

  /** `_filter_short_events`: fewer than two events pass unchanged. */
  function FilterShort(es: seq<PedalEvent>, minDuration: real): (r: seq<PedalEvent>)
    ensures |es| < 2 ==> r == es
    ensures |r| <= |es|
  {
    if |es| < 2 then es else FilterFrom(es, minDuration, 0)
  }

  /** a can be had from b by deleting elements. */
  ghost predicate SubseqOf(a: seq<PedalEvent>, b: seq<PedalEvent>)
    decreases |b|
  {
    |a| == 0 || (|b| > 0 && ((a[0] == b[0] && SubseqOf(a[1..], b[1..])) || SubseqOf(a, b[1..])))
  }

  lemma {:induction false} SubseqRefl(a: seq<PedalEvent>)
    ensures SubseqOf(a, a)
  {
    if |a| > 0 {
      SubseqRefl(a[1..]);
    }
  }

  lemma {:induction false} SubseqSkip(a: seq<PedalEvent>, b: seq<PedalEvent>, n: nat)
    requires n <= |b| && SubseqOf(a, b[n..])
    ensures SubseqOf(a, b)
    decreases n
  {
    if n > 0 {
      assert b[n - 1..][1..] == b[n..];
      SubseqSkip(a, b, n - 1);
    }
  }

  lemma {:induction false} SubseqKeep(x: seq<PedalEvent>, a: seq<PedalEvent>, b: seq<PedalEvent>, n: nat)
    requires n == |x| && n <= |b| && b[..n] == x && SubseqOf(a, b[n..])
    ensures SubseqOf(x + a, b)
    decreases n
  {
    if n == 0 {
      assert x + a == a && b[0..] == b;
    } else {
      assert (x + a)[0] == b[0];
      assert (x + a)[1..] == x[1..] + a;
      assert b[1..][..n - 1] == x[1..] && b[1..][n - 1..] == b[n..];
      SubseqKeep(x[1..], a, b[1..], n - 1);
    }
  }

  /** The filter only deletes events. */
  lemma {:induction false} FilterIsSubseq(es: seq<PedalEvent>, minDuration: real, i: nat)
    requires i <= |es|
    ensures SubseqOf(FilterFrom(es, minDuration, i), es[i..])
    decreases |es| - i
  {
    if i == |es| {
    } else if es[i].down && i + 1 < |es| {
      FilterIsSubseq(es, minDuration, i + 2);
      var rest := FilterFrom(es, minDuration, i + 2);
      if es[i + 1].time - es[i].time >= minDuration {
        assert FilterFrom(es, minDuration, i) == [es[i], es[i + 1]] + rest;
        assert es[i..][..2] == [es[i], es[i + 1]] && es[i..][2..] == es[i + 2..];
        SubseqKeep([es[i], es[i + 1]], rest, es[i..], 2);
      } else {
        assert FilterFrom(es, minDuration, i) == [] + rest == rest;
        assert es[i..][2..] == es[i + 2..];
        SubseqSkip(rest, es[i..], 2);
      }
    } else {
      assert FilterFrom(es, minDuration, i) == [es[i]] + FilterFrom(es, minDuration, i + 1);
      FilterIsSubseq(es, minDuration, i + 1);
      assert es[i..][..1] == [es[i]] && es[i..][1..] == es[i + 1..];
      SubseqKeep([es[i]], FilterFrom(es, minDuration, i + 1), es[i..], 1);
    }
  }

  lemma ShortFilterIsSubseq(es: seq<PedalEvent>, minDuration: real)
    ensures SubseqOf(FilterShort(es, minDuration), es)
  {
    if |es| < 2 {
      SubseqRefl(es);
    } else {
      FilterIsSubseq(es, minDuration, 0);
      assert es[0..] == es;
    }
  }

  /** The number of down-up pairs from pair j on that are long enough. */
  function LongPairs(es: seq<PedalEvent>, minDuration: real, j: nat): nat
    requires 2 * j <= |es| && |es| % 2 == 0
    decreases |es| - 2 * j
  {
    if 2 * j == |es| then 0
    else (if es[2 * j + 1].time - es[2 * j].time >= minDuration then 1 else 0) + LongPairs(es, minDuration, j + 1)
  }

  /** On detected events (alternating, even) the filter keeps the long
      down-up pairs, each whole, and drops the short ones, so its output is
      again alternating pairs, every pair at least minDuration long. */
  lemma {:induction false} FilterAlternating(es: seq<PedalEvent>, minDuration: real, j: nat)
    requires Alternating(es) && |es| % 2 == 0 && 2 * j <= |es|
    ensures var r := FilterFrom(es, minDuration, 2 * j);
      && Alternating(r) && |r| == 2 * LongPairs(es, minDuration, j)
      && forall k :: 0 <= k < |r| / 2 ==> r[2 * k + 1].time - r[2 * k].time >= minDuration
    decreases |es| - 2 * j
  {
    if 2 * j < |es| {
      assert es[2 * j].down;
      FilterAlternating(es, minDuration, j + 1);
      var rest := FilterFrom(es, minDuration, 2 * j + 2);
      var r := FilterFrom(es, minDuration, 2 * j);
      if es[2 * j + 1].time - es[2 * j].time >= minDuration {
        assert r == [es[2 * j], es[2 * j + 1]] + rest;
        assert !es[2 * j + 1].down;
        forall k | 0 <= k < |r| ensures r[k].down == (k % 2 == 0) {
          if k >= 2 {
            assert r[k] == rest[k - 2];
          }
        }
        forall k | 0 <= k < |r| / 2 ensures r[2 * k + 1].time - r[2 * k].time >= minDuration {
          if k >= 1 {
            assert r[2 * k] == rest[2 * (k - 1)] && r[2 * k + 1] == rest[2 * (k - 1) + 1];
          }
        }
      }
    }
  }

  // ---------------------------------------------------------------------
  // Writing the pedal into the tracks

  /** A pedal event already converted to ticks. */
  datatype PedalTick = PedalTick(tick: int, down: bool)

  /** `control_change` 64 on channel 0, 127 for down and 0 for up. */
  function PedalMsg(down: bool, delta: int): (r: Msg)
    ensures r.ControlChange? && r.control == 64 && r.channel == 0
    ensures r.value == (if down then 127 else 0) && r.time == delta
  {
    ControlChange(64, if down then 127 else 0, 0, delta)
  }

  /** An output message, marked when it is an inserted pedal message. */
  datatype Placed = Placed(msg: Msg, inserted: bool)

  function Originals(out: seq<Placed>): seq<Msg>
  {
    if |out| == 0 then [] else (if out[0].inserted then [] else [out[0].msg]) + Originals(out[1..])
  }

  function InsertedMsgs(out: seq<Placed>): seq<Msg>
  {
    if |out| == 0 then [] else (if out[0].inserted then [out[0].msg] else []) + InsertedMsgs(out[1..])
  }

  lemma OriginalsAppend(a: seq<Placed>, b: seq<Placed>)
    ensures Originals(a + b) == Originals(a) + Originals(b)
    ensures InsertedMsgs(a + b) == InsertedMsgs(a) + InsertedMsgs(b)
  {
    OriginalsOnlyAppend(a, b);
    InsertedOnlyAppend(a, b);
  }

  lemma {:induction false} OriginalsOnlyAppend(a: seq<Placed>, b: seq<Placed>)
    ensures Originals(a + b) == Originals(a) + Originals(b)
  {
    if |a| == 0 {
      assert a + b == b;
    } else {
      var c := a + b;
      assert c[0] == a[0] && c[1..] == a[1..] + b;
      var h := if a[0].inserted then [] else [a[0].msg];
      assert Originals(c) == h + Originals(a[1..] + b);
      OriginalsOnlyAppend(a[1..], b);
      assert Originals(a) == h + Originals(a[1..]);
      assert h + (Originals(a[1..]) + Originals(b)) == (h + Originals(a[1..])) + Originals(b);
    }
  }

  lemma {:induction false} InsertedOnlyAppend(a: seq<Placed>, b: seq<Placed>)
    ensures InsertedMsgs(a + b) == InsertedMsgs(a) + InsertedMsgs(b)
  {
    if |a| == 0 {
      assert a + b == b;
    } else {
      var c := a + b;
      assert c[0] == a[0] && c[1..] == a[1..] + b;
      var h := if a[0].inserted then [a[0].msg] else [];
      assert InsertedMsgs(c) == h + InsertedMsgs(a[1..] + b);
      InsertedOnlyAppend(a[1..], b);
      assert InsertedMsgs(a) == h + InsertedMsgs(a[1..]);
      assert h + (InsertedMsgs(a[1..]) + InsertedMsgs(b)) == (h + InsertedMsgs(a[1..])) + InsertedMsgs(b);
    }
  }

  /** The pedal messages that come due before a message ending at tick t:
      every pending pedal at or before t, each with delta measured from
      `prev`, the clock before the message, clamped at 0. */
  function Due(pedals: seq<PedalTick>, p: nat, t: int, prev: int): (r: (seq<Placed>, nat))
    requires p <= |pedals|
    ensures p <= r.1 <= |pedals|
    ensures |r.0| == r.1 - p
    ensures forall k :: 0 <= k < |r.0| ==> r.0[k].inserted && r.0[k].msg == PedalMsg(pedals[p + k].down, Max(0, pedals[p + k].tick - prev))
    ensures r.1 < |pedals| ==> pedals[r.1].tick > t
    decreases |pedals| - p
  {
    if p == |pedals| || pedals[p].tick > t then ([], p)
    else
      var rest := Due(pedals, p + 1, t, prev);
      ([Placed(PedalMsg(pedals[p].down, Max(0, pedals[p].tick - prev)), true)] + rest.0, rest.1)
  }

  /** The pedals left after the last message, each delta measured from the
      previous pedal. */
  function Remaining(pedals: seq<PedalTick>, p: nat, current: int): (r: seq<Placed>)
    requires p <= |pedals|
    ensures |r| == |pedals| - p
    ensures forall k :: 0 <= k < |r| ==> r[k].inserted && PedalValue(r[k].msg) == (if pedals[p + k].down then 127 else 0)
    decreases |pedals| - p
  {
    if p == |pedals| then []
    else [Placed(PedalMsg(pedals[p].down, Max(0, pedals[p].tick - current)), true)] + Remaining(pedals, p + 1, pedals[p].tick)
  }

  /** The merge loop of `add_pedal_to_midi` from message k on, as written:
      each original message is copied with its own delta time, after the
      pedal messages that came due. */
  function MergeFrom(track: Track, k: nat, pedals: seq<PedalTick>, p: nat, current: int): (r: seq<Placed>)
    requires k <= |track| && p <= |pedals|
    decreases |track| - k
  {
    if k == |track| then Remaining(pedals, p, current)
    else
      var t := current + track[k].time;
      var due := Due(pedals, p, t, current);
      due.0 + [Placed(track[k], false)] + MergeFrom(track, k + 1, pedals, due.1, t)
  }

  /** One step of the merge: the pedals due by the next message, then that
      message, then the merge of the rest of the track. */
  lemma MergeUnfold(track: Track, k: nat, pedals: seq<PedalTick>, p: nat, current: int,
                    t: int, due: (seq<Placed>, nat))
    requires k < |track| && p <= |pedals|
    requires t == current + track[k].time && due == Due(pedals, p, t, current)
    ensures MergeFrom(track, k, pedals, p, current)
              == due.0 + [Placed(track[k], false)] + MergeFrom(track, k + 1, pedals, due.1, t)
  {
    var t' := current + track[k].time;
    var due' := Due(pedals, p, t', current);
    assert t' == t && due' == due;
  }

  /** The value a message sets on the sustain pedal of channel 0, and -1 for
      any other message. */
  function PedalValue(m: Msg): int
  {
    if m.ControlChange? && m.control == 64 && m.channel == 0 then m.value else -1
  }

  function PedalValues(ms: seq<Msg>): (r: seq<int>)
    ensures |r| == |ms|
  {
    seq(|ms|, i requires 0 <= i < |ms| => PedalValue(ms[i]))
  }

  /** 127 for each down event and 0 for each up event, from pedal p on. */
  function Values(pedals: seq<PedalTick>, p: nat): (r: seq<int>)
    requires p <= |pedals|
    ensures |r| == |pedals| - p
  {
    seq(|pedals| - p, i requires 0 <= i < |pedals| - p => if pedals[p + i].down then 127 else 0)
  }

  /** Every original message is copied once, in order, and every pedal event
      comes out once, in order, as a CC64 message on channel 0 saying which
      way the pedal went. */
  lemma MergeCopies(track: Track, k: nat, pedals: seq<PedalTick>, p: nat, current: int)
    requires k <= |track| && p <= |pedals|
    ensures Originals(MergeFrom(track, k, pedals, p, current)) == track[k..]
    ensures PedalValues(InsertedMsgs(MergeFrom(track, k, pedals, p, current))) == Values(pedals, p)
  {
    MergeOriginals(track, k, pedals, p, current);
    MergeValues(track, k, pedals, p, current);
  }

  lemma {:induction false} MergeOriginals(track: Track, k: nat, pedals: seq<PedalTick>, p: nat, current: int)
    requires k <= |track| && p <= |pedals|
    ensures Originals(MergeFrom(track, k, pedals, p, current)) == track[k..]
    decreases |track| - k
  {
    if k == |track| {
      DueInserted(Remaining(pedals, p, current));
    } else {
      var t := current + track[k].time;
      var due := Due(pedals, p, t, current);
      var m := [Placed(track[k], false)];
      var rest := MergeFrom(track, k + 1, pedals, due.1, t);
      MergeUnfold(track, k, pedals, p, current, t, due);
      MergeOriginals(track, k + 1, pedals, due.1, t);
      StepSplit(due.0, Placed(track[k], false), rest);
      assert track[k..] == [track[k]] + track[k + 1..];
    }
  }

  lemma {:induction false} MergeValues(track: Track, k: nat, pedals: seq<PedalTick>, p: nat, current: int)
    requires k <= |track| && p <= |pedals|
    ensures PedalValues(InsertedMsgs(MergeFrom(track, k, pedals, p, current))) == Values(pedals, p)
    decreases |track| - k
  {
    if k == |track| {
      RemainingValues(pedals, p, current);
    } else {
      var t := current + track[k].time;
      var due := Due(pedals, p, t, current);
      var m := [Placed(track[k], false)];
      var rest := MergeFrom(track, k + 1, pedals, due.1, t);
      MergeUnfold(track, k, pedals, p, current, t, due);
      MergeValues(track, k + 1, pedals, due.1, t);
      StepSplit(due.0, Placed(track[k], false), rest);
      DueValues(pedals, p, t, current);
      ValuesSplit(pedals, p, due.1);
      PedalValuesAppend(Messages(due.0), InsertedMsgs(rest));
    }
  }

  /** One step of the merge: inserted messages, then one original. */
  lemma StepSplit(d: seq<Placed>, m: Placed, rest: seq<Placed>)
    requires forall k :: 0 <= k < |d| ==> d[k].inserted
    requires !m.inserted
    ensures Originals(d + [m] + rest) == [m.msg] + Originals(rest)
    ensures InsertedMsgs(d + [m] + rest) == Messages(d) + InsertedMsgs(rest)
  {
    DueInserted(d);
    OriginalsAppend(d, [m]);
    OriginalsAppend(d + [m], rest);
    assert Originals([m]) == [m.msg];
    assert InsertedMsgs([m]) == [];
  }

  lemma DueValues(pedals: seq<PedalTick>, p: nat, t: int, prev: int)
    requires p <= |pedals|
    ensures PedalValues(Messages(Due(pedals, p, t, prev).0)) == Values(pedals, p)[..Due(pedals, p, t, prev).1 - p]
  {
  }

  lemma RemainingValues(pedals: seq<PedalTick>, p: nat, current: int)
    requires p <= |pedals|
    ensures PedalValues(InsertedMsgs(Remaining(pedals, p, current))) == Values(pedals, p)
  {
    InsertedValues(Remaining(pedals, p, current), pedals, p);
  }

  /** Inserted messages carrying the values of pedals p onwards read back as
      those values. */
  lemma InsertedValues(r: seq<Placed>, pedals: seq<PedalTick>, p: nat)
    requires p <= |pedals| && |r| == |pedals| - p
    requires forall k :: 0 <= k < |r| ==> r[k].inserted && PedalValue(r[k].msg) == (if pedals[p + k].down then 127 else 0)
    ensures PedalValues(InsertedMsgs(r)) == Values(pedals, p)
  {
    DueInserted(r);
    var ms := Messages(r);
    var a := PedalValues(ms);
    var b := Values(pedals, p);
    assert a == b;
  }

  lemma ValuesSplit(pedals: seq<PedalTick>, p: nat, q: nat)
    requires p <= q <= |pedals|
    ensures Values(pedals, p) == Values(pedals, p)[..q - p] + Values(pedals, q)
  {
  }

  lemma PedalValuesAppend(a: seq<Msg>, b: seq<Msg>)
    ensures PedalValues(a + b) == PedalValues(a) + PedalValues(b)
  {
  }

  /** A run of inserted messages has no originals. */
  lemma {:induction false} DueInserted(ps: seq<Placed>)
    requires forall k :: 0 <= k < |ps| ==> ps[k].inserted
    ensures Originals(ps) == [] && InsertedMsgs(ps) == Messages(ps)
  {
    if |ps| > 0 {
      DueInserted(ps[1..]);
      assert Messages(ps) == [ps[0].msg] + Messages(ps[1..]);
    }
  }

  function Messages(out: seq<Placed>): (r: Track)
    ensures |r| == |out|
    ensures forall k :: 0 <= k < |out| ==> r[k] == out[k].msg
  {
    seq(|out|, k requires 0 <= k < |out| => out[k].msg)
  }

  /** `add_pedal_to_midi`, with the pedal times already in ticks: no events
      leave the file as it is; otherwise every track gets all of them. */
  function AddPedal(file: MidiFile, pedals: seq<PedalTick>): (r: MidiFile)
    ensures |pedals| == 0 ==> r == file
    ensures r.ticksPerBeat == file.ticksPerBeat && |r.tracks| == |file.tracks|
    ensures |pedals| > 0 ==> forall i :: 0 <= i < |file.tracks| ==>
      |r.tracks[i]| == |file.tracks[i]| + |pedals|
  {
    if |pedals| == 0 then file
    else
      MidiFile(file.ticksPerBeat, seq(|file.tracks|, i requires 0 <= i < |file.tracks| => MergeTrack(file.tracks[i], pedals)))
  }

  /** One track of `add_pedal_to_midi`, as written. */
  function MergeTrack(track: Track, pedals: seq<PedalTick>): (r: Track)
    ensures |r| == |track| + |pedals|
  {
    var out := MergeFrom(track, 0, pedals, 0, 0);
    MergeCopies(track, 0, pedals, 0, 0);
    assert |InsertedMsgs(out)| == |pedals|;
    SplitLength(out);
    Messages(out)
  }

  lemma {:induction false} SplitLength(out: seq<Placed>)
    ensures |out| == |Originals(out)| + |InsertedMsgs(out)|
  {
    if |out| > 0 {
      SplitLength(out[1..]);
    }
  }

  // ---------------------------------------------------------------------
  // Where the messages land in time

  /** The ticks the output spans: the sum of its delta times. */
  function Span(out: seq<Placed>): int
  {
    if |out| == 0 then 0 else out[0].msg.time + Span(out[1..])
  }

  /** Absolute times of the original messages, and of the inserted ones,
      reading the output's delta times from t0. */
  function OriginalTimes(out: seq<Placed>, t0: int): seq<int>
  {
    if |out| == 0 then []
    else
      var t := t0 + out[0].msg.time;
      (if out[0].inserted then [] else [t]) + OriginalTimes(out[1..], t)
  }

  function InsertedTimes(out: seq<Placed>, t0: int): seq<int>
  {
    if |out| == 0 then []
    else
      var t := t0 + out[0].msg.time;
      (if out[0].inserted then [t] else []) + InsertedTimes(out[1..], t)
  }

  lemma {:induction false} OriginalTimesAppend(a: seq<Placed>, b: seq<Placed>, t0: int)
    ensures OriginalTimes(a + b, t0) == OriginalTimes(a, t0) + OriginalTimes(b, t0 + Span(a))
  {
    if |a| == 0 {
      assert a + b == b;
      assert OriginalTimes(a, t0) == [] && Span(a) == 0;
    } else {
      var t := t0 + a[0].msg.time;
      var h := (if a[0].inserted then [] else [t]);
      var x := a[1..];
      var c := a + b;
      assert c[0] == a[0] && c[1..] == x + b;
      assert OriginalTimes(c, t0) == h + OriginalTimes(x + b, t);
      assert OriginalTimes(a, t0) == h + OriginalTimes(x, t);
      assert t0 + Span(a) == t + Span(x);
      OriginalTimesAppend(x, b, t);
      var front := OriginalTimes(x, t);
      var back := OriginalTimes(b, t + Span(x));
      assert h + (front + back) == (h + front) + back;
      assert OriginalTimes(c, t0) == OriginalTimes(a, t0) + back;
    }
  }

  lemma {:induction false} InsertedTimesAppend(a: seq<Placed>, b: seq<Placed>, t0: int)
    ensures InsertedTimes(a + b, t0) == InsertedTimes(a, t0) + InsertedTimes(b, t0 + Span(a))
  {
    if |a| == 0 {
      assert a + b == b;
      assert InsertedTimes(a, t0) == [] && Span(a) == 0;
    } else {
      var t := t0 + a[0].msg.time;
      var h := (if a[0].inserted then [t] else []);
      var x := a[1..];
      var c := a + b;
      assert c[0] == a[0] && c[1..] == x + b;
      assert InsertedTimes(c, t0) == h + InsertedTimes(x + b, t);
      assert InsertedTimes(a, t0) == h + InsertedTimes(x, t);
      assert t0 + Span(a) == t + Span(x);
      InsertedTimesAppend(x, b, t);
      var front := InsertedTimes(x, t);
      var back := InsertedTimes(b, t + Span(x));
      assert h + (front + back) == (h + front) + back;
      assert InsertedTimes(c, t0) == InsertedTimes(a, t0) + back;
    }
  }

  /** A track's absolute times from message k on, from clock t0. */
  function TrackTimes(track: Track, k: nat, t0: int): (r: seq<int>)
    requires k <= |track|
    ensures |r| == |track| - k
    decreases |track| - k
  {
    if k == |track| then [] else [t0 + track[k].time] + TrackTimes(track, k + 1, t0 + track[k].time)
  }

  /** From the start of a track these are the absolute times of its messages. */
  lemma {:induction false} TrackTimesAreAbsolute(track: Track, k: nat)
    requires k <= |track|
    ensures forall i :: 0 <= i < |track| - k ==> TrackTimes(track, k, AbsTime(track, k))[i] == AbsTime(track, k + i + 1)
    decreases |track| - k
  {
    if k < |track| {
      TrackTimesAreAbsolute(track, k + 1);
      var r := TrackTimes(track, k, AbsTime(track, k));
      assert AbsTime(track, k + 1) == AbsTime(track, k) + track[k].time;
      forall i | 0 <= i < |track| - k ensures r[i] == AbsTime(track, k + i + 1) {
        if i > 0 {
          assert r[i] == TrackTimes(track, k + 1, AbsTime(track, k + 1))[i - 1];
        }
      }
    }
  }

  function Ticks(pedals: seq<PedalTick>, p: nat): (r: seq<int>)
    requires p <= |pedals|
    ensures |r| == |pedals| - p
    decreases |pedals| - p
  {
    if p == |pedals| then [] else [pedals[p].tick] + Ticks(pedals, p + 1)
  }

  lemma {:induction false} TicksSplit(pedals: seq<PedalTick>, p: nat, q: nat)
    requires p <= q <= |pedals|
    ensures Ticks(pedals, p) == Ticks(pedals, p)[..q - p] + Ticks(pedals, q)
    decreases q - p
  {
    if p < q {
      TicksSplit(pedals, p + 1, q);
      assert Ticks(pedals, p)[..q - p] == [pedals[p].tick] + Ticks(pedals, p + 1)[..q - (p + 1)];
    }
  }

  ghost predicate SortedTicks(pedals: seq<PedalTick>)
  {
    forall i, j :: 0 <= i < j < |pedals| ==> pedals[i].tick <= pedals[j].tick
  }

  /** The pedals in the remaining list land on their ticks when the as-written
      merge is read from the last pedal: it measures each from the one before. */
  lemma {:induction false} RemainingTimes(pedals: seq<PedalTick>, p: nat, last: int)
    requires p <= |pedals| && SortedTicks(pedals)
    requires p < |pedals| ==> pedals[p].tick >= last
    ensures InsertedTimes(Remaining(pedals, p, last), last) == Ticks(pedals, p)
    ensures OriginalTimes(Remaining(pedals, p, last), last) == []
    decreases |pedals| - p
  {
    if p < |pedals| {
      RemainingTimes(pedals, p + 1, pedals[p].tick);
    }
  }

  /** The merge with each copied message's delta measured from the last
      message written, pedal or not, so that nothing moves. */
  function MergeKeepingTimes(track: Track, k: nat, pedals: seq<PedalTick>, p: nat, current: int, last: int): (r: seq<Placed>)
    requires k <= |track| && p <= |pedals|
    decreases |track| - k
  {
    if k == |track| then Remaining(pedals, p, last)
    else
      var t := current + track[k].time;
      var due := DueFrom(pedals, p, t, last);
      due.0 + [Placed(track[k].WithTime(t - due.2), false)] + MergeKeepingTimes(track, k + 1, pedals, due.1, t, t)
  }

  /** One step of the corrected merge: the pedals due by the next message,
      then that message, then the merge of the rest of the track. */
  lemma KeepingUnfold(track: Track, k: nat, pedals: seq<PedalTick>, p: nat, current: int, last: int,
                       t: int, due: (seq<Placed>, nat, int))
    requires k < |track| && p <= |pedals|
    requires t == current + track[k].time && due == DueFrom(pedals, p, t, last)
    ensures MergeKeepingTimes(track, k, pedals, p, current, last)
              == due.0 + [Placed(track[k].WithTime(t - due.2), false)] + MergeKeepingTimes(track, k + 1, pedals, due.1, t, t)
  {
  }

  /** The due pedals, each delta measured from the message written before
      it; the third component is the time of the last message written. */
  function DueFrom(pedals: seq<PedalTick>, p: nat, t: int, last: int): (r: (seq<Placed>, nat, int))
    requires p <= |pedals|
    ensures p <= r.1 <= |pedals|
    ensures |r.0| == r.1 - p
    ensures forall k :: 0 <= k < |r.0| ==> r.0[k].inserted
    ensures r.1 < |pedals| ==> pedals[r.1].tick > t
    ensures r.1 == p ==> r.2 == last
    ensures r.1 > p ==> r.2 == pedals[r.1 - 1].tick
    decreases |pedals| - p
  {
    if p == |pedals| || pedals[p].tick > t then ([], p, last)
    else
      var rest := DueFrom(pedals, p + 1, t, pedals[p].tick);
      ([Placed(PedalMsg(pedals[p].down, Max(0, pedals[p].tick - last)), true)] + rest.0, rest.1, rest.2)
  }

  /** Sorted due pedals not before the clock land exactly on their ticks,
      and leave the clock at the last of them. */
  lemma {:induction false} DueTimes(pedals: seq<PedalTick>, p: nat, t: int, last: int)
    requires p <= |pedals| && SortedTicks(pedals)
    requires p < |pedals| ==> pedals[p].tick >= last
    ensures var d := DueFrom(pedals, p, t, last);
      && InsertedTimes(d.0, last) == Ticks(pedals, p)[..d.1 - p]
      && OriginalTimes(d.0, last) == []
      && last + Span(d.0) == d.2
    decreases |pedals| - p
  {
    if p < |pedals| && pedals[p].tick <= t {
      var tick := pedals[p].tick;
      DueTimes(pedals, p + 1, t, tick);
      var rest := DueFrom(pedals, p + 1, t, tick);
      var h := Placed(PedalMsg(pedals[p].down, Max(0, tick - last)), true);
      assert DueFrom(pedals, p, t, last) == ([h] + rest.0, rest.1, rest.2);
      assert h.msg.time == tick - last;
      InsertedCons(h, rest.0, last);
      assert InsertedTimes([h] + rest.0, last) == [tick] + InsertedTimes(rest.0, tick);
      TicksHead(pedals, p, rest.1);
    } else {
      assert Ticks(pedals, p)[..0] == [];
    }
  }

  lemma TicksHead(pedals: seq<PedalTick>, p: nat, q: nat)
    requires p < q <= |pedals|
    ensures Ticks(pedals, p)[..q - p] == [pedals[p].tick] + Ticks(pedals, p + 1)[..q - (p + 1)]
  {
  }

  /** Times read through one inserted message in front. */
  lemma InsertedCons(h: Placed, out: seq<Placed>, last: int)
    requires h.inserted
    ensures InsertedTimes([h] + out, last) == [last + h.msg.time] + InsertedTimes(out, last + h.msg.time)
    ensures OriginalTimes([h] + out, last) == OriginalTimes(out, last + h.msg.time)
    ensures Span([h] + out) == h.msg.time + Span(out)
  {
    assert ([h] + out)[0] == h && ([h] + out)[1..] == out;
  }

  /** One step of the corrected merge: the due pedals, then the message at
      exactly t. */
  lemma StepTimes(d: seq<Placed>, m: Placed, rest: seq<Placed>, last: int, t: int)
    requires !m.inserted && last + Span(d) + m.msg.time == t
    ensures OriginalTimes(d + [m] + rest, last) == OriginalTimes(d, last) + [t] + OriginalTimes(rest, t)
    ensures InsertedTimes(d + [m] + rest, last) == InsertedTimes(d, last) + InsertedTimes(rest, t)
  {
    assert d + [m] + rest == d + ([m] + rest);
    OriginalTimesAppend(d, [m] + rest, last);
    InsertedTimesAppend(d, [m] + rest, last);
    assert OriginalTimes([m] + rest, last + Span(d)) == [t] + OriginalTimes(rest, t) by {
      assert ([m] + rest)[0] == m && ([m] + rest)[1..] == rest;
    }
    assert InsertedTimes([m] + rest, last + Span(d)) == InsertedTimes(rest, t) by {
      assert ([m] + rest)[0] == m && ([m] + rest)[1..] == rest;
    }
  }

  /** In the corrected merge, with sorted pedal ticks not before the clock,
      every original message keeps its absolute time and every pedal lands
      on its tick. */
  lemma {:induction false} KeepingTimes(track: Track, k: nat, pedals: seq<PedalTick>, p: nat, current: int, last: int)
    requires k <= |track| && p <= |pedals| && SortedTicks(pedals)
    requires p < |pedals| ==> pedals[p].tick >= last
    ensures OriginalTimes(MergeKeepingTimes(track, k, pedals, p, current, last), last) == TrackTimes(track, k, current)
    ensures InsertedTimes(MergeKeepingTimes(track, k, pedals, p, current, last), last) == Ticks(pedals, p)
    decreases |track| - k
  {
    if k == |track| {
      RemainingTimes(pedals, p, last);
    } else {
      var t := current + track[k].time;
      var due := DueFrom(pedals, p, t, last);
      DueTimes(pedals, p, t, last);
      var m := Placed(track[k].WithTime(t - due.2), false);
      var rest := MergeKeepingTimes(track, k + 1, pedals, due.1, t, t);
      KeepingUnfold(track, k, pedals, p, current, last, t, due);
      assert TrackTimes(track, k, current) == [t] + TrackTimes(track, k + 1, t);
      KeepingTimes(track, k + 1, pedals, due.1, t, t);
      TicksSplit(pedals, p, due.1);
      KeepingStep(due.0, m, rest, last, t);
    }
  }

  /** The step of KeepingTimes with the pedal facts already in hand. */
  lemma KeepingStep(d: seq<Placed>, m: Placed, rest: seq<Placed>, last: int, t: int)
    requires !m.inserted && last + Span(d) + m.msg.time == t
    requires OriginalTimes(d, last) == []
    ensures OriginalTimes(d + [m] + rest, last) == [t] + OriginalTimes(rest, t)
    ensures InsertedTimes(d + [m] + rest, last) == InsertedTimes(d, last) + InsertedTimes(rest, t)
  {
    StepTimes(d, m, rest, last, t);
    assert OriginalTimes(d, last) + [t] == [t];
  }

  /** One track of `add_pedal_to_midi` with the copied messages' deltas
      corrected. */
  function MergeTrackKeepingTimes(track: Track, pedals: seq<PedalTick>): (r: seq<Placed>)
    ensures SameBarTime(Originals(r), track) && |InsertedMsgs(r)| == |pedals|
  {
    KeepingCounts(track, 0, pedals, 0, 0, 0);
    assert track[0..] == track;
    MergeKeepingTimes(track, 0, pedals, 0, 0, 0)
  }

  /** The same messages in the same order, delta times aside. */
  predicate SameBarTime(a: seq<Msg>, b: seq<Msg>)
  {
    |a| == |b| && forall i :: 0 <= i < |a| ==> a[i].WithTime(0) == b[i].WithTime(0)
  }

  /** The corrected merge copies every message, in order and with nothing
      but its delta time changed, and inserts one message per pedal event. */
  lemma {:induction false} KeepingCounts(track: Track, k: nat, pedals: seq<PedalTick>, p: nat, current: int, last: int)
    requires k <= |track| && p <= |pedals|
    ensures SameBarTime(Originals(MergeKeepingTimes(track, k, pedals, p, current, last)), track[k..])
    ensures |InsertedMsgs(MergeKeepingTimes(track, k, pedals, p, current, last))| == |pedals| - p
    decreases |track| - k
  {
    if k == |track| {
      DueInserted(Remaining(pedals, p, last));
    } else {
      var t := current + track[k].time;
      var due := DueFrom(pedals, p, t, last);
      var m := Placed(track[k].WithTime(t - due.2), false);
      var rest := MergeKeepingTimes(track, k + 1, pedals, due.1, t, t);
      KeepingCounts(track, k + 1, pedals, due.1, t, t);
      KeepingUnfold(track, k, pedals, p, current, last, t, due);
      StepSplit(due.0, m, rest);
      SameCons(m.msg, Originals(rest), track[k..]);
    }
  }

  lemma SameCons(x: Msg, a: seq<Msg>, b: seq<Msg>)
    requires |b| > 0 && x.WithTime(0) == b[0].WithTime(0) && SameBarTime(a, b[1..])
    ensures SameBarTime([x] + a, b)
  {
  }

  /** `add_pedal_to_midi` with the corrected merge: no events leave the file
      as it is; otherwise every track keeps its messages, in order, and gains
      one message per pedal event. */
  function AddPedalKeepingTimes(file: MidiFile, pedals: seq<PedalTick>): (r: MidiFile)
    ensures |pedals| == 0 ==> r == file
    ensures r.ticksPerBeat == file.ticksPerBeat && |r.tracks| == |file.tracks|
    ensures |pedals| > 0 ==> forall i :: 0 <= i < |file.tracks| ==>
      |r.tracks[i]| == |file.tracks[i]| + |pedals|
  {
    if |pedals| == 0 then file
    else
      MidiFile(file.ticksPerBeat, seq(|file.tracks|, i requires 0 <= i < |file.tracks| => TrackKeepingTimes(file.tracks[i], pedals)))
  }

  function TrackKeepingTimes(track: Track, pedals: seq<PedalTick>): (r: Track)
    ensures |r| == |track| + |pedals|
  {
    var out := MergeTrackKeepingTimes(track, pedals);
    SplitLength(out);
    Messages(out)
  }

  /** With sorted, non-negative pedal ticks, every message of the corrected
      merge sits at its absolute time: the originals where they were, each
      pedal on its tick. */
  lemma CorrectedMergeKeepsTimes(track: Track, pedals: seq<PedalTick>)
    requires SortedTicks(pedals) && (|pedals| > 0 ==> pedals[0].tick >= 0)
    ensures OriginalTimes(MergeTrackKeepingTimes(track, pedals), 0) == TrackTimes(track, 0, 0)
    ensures forall i :: 0 <= i < |track| ==> TrackTimes(track, 0, 0)[i] == AbsTime(track, i + 1)
    ensures InsertedTimes(MergeTrackKeepingTimes(track, pedals), 0) == Ticks(pedals, 0)
  {
    KeepingTimes(track, 0, pedals, 0, 0, 0);
    TrackTimesAreAbsolute(track, 0);
    assert AbsTime(track, 0) == 0;
  }

  /** As written, a pedal inserted before a message delays it: a note at
      tick 100 after a pedal press at tick 50 comes out at tick 150; the
      corrected merge leaves it at 100. */
  lemma PedalShiftExample(track: Track, pedals: seq<PedalTick>)
    requires track == [NoteOn(60, 100, 0, 100)] && pedals == [PedalTick(50, true)]
    ensures TrackTimes(track, 0, 0) == [100]
    ensures OriginalTimes(MergeFrom(track, 0, pedals, 0, 0), 0) == [150]
    ensures OriginalTimes(MergeTrackKeepingTimes(track, pedals), 0) == [100]
  {
    var out := MergeFrom(track, 0, pedals, 0, 0);
    var due := Due(pedals, 0, 100, 0);
    assert due.0 == [Placed(PedalMsg(true, 50), true)] && due.1 == 1;
    assert MergeFrom(track, 1, pedals, 1, 100) == [];
    assert out == [Placed(PedalMsg(true, 50), true), Placed(track[0], false)];
    assert OriginalTimes(out[1..], 50) == [150];
    CorrectedMergeKeepsTimes(track, pedals);
  }
}

=== FILE: phrase_detector.dfy ===
/** Repeated-phrase detection (motif_extractor_v2.py): windows of the note list
    are keyed by their intervals, normalised rhythm and first pitch, keys of
    equal interval length whose edit distance is small are grouped, and the
    best-scoring groups are located in the note list. */
module PhraseDetector {
  import opened Base
  import opened Sorting
  import opened Midi
  import opened Motifs

  /** A note with its duration rather than its end. */
  datatype Tone = Tone(pitch: int, velocity: int, start: int, duration: int)

  /** `extract_notes`: every track paired on its own, the notes stably sorted
      by start. */
  function ExtractTones(file: MidiFile): (r: seq<Tone>)
    ensures |r| == |PairTracks(file.tracks)|
    ensures forall i, j :: 0 <= i < j < |r| ==> r[i].start <= r[j].start
    ensures exists ps :: StableStartSort(ps, PairTracks(file.tracks)) && r == Mapped(ToneOf, ps)
  {
    var ps := ExtractSorted(file.tracks);
    assert |ps| == |multiset(ps)| == |PairTracks(file.tracks)|;
    assert StableStartSort(ps, PairTracks(file.tracks));
    Mapped(ToneOf, ps)
  }

  /** A paired note as a tone: its duration is end minus start. */
  function ToneOf(p: Paired): Tone
  {
    Tone(p.pitch, p.velocity, p.start, p.end - p.start)
  }

  /** The tones are the paired notes, each exactly once. */
  lemma TonesArePaired(file: MidiFile)
    ensures multiset(ExtractTones(file)) == multiset(Mapped(ToneOf, PairTracks(file.tracks)))
  {
    var r := ExtractTones(file);
    var ps :| StableStartSort(ps, PairTracks(file.tracks)) && r == Mapped(ToneOf, ps);
    MappedPermutation(ToneOf, ps, PairTracks(file.tracks));
  }

  function Pitches(ns: seq<Tone>): (r: seq<int>)
    ensures |r| == |ns|
  {
    seq(|ns|, i requires 0 <= i < |ns| => ns[i].pitch)
  }

  function Starts(ns: seq<Tone>): (r: seq<int>)
    ensures |r| == |ns|
  {
    seq(|ns|, i requires 0 <= i < |ns| => ns[i].start)
  }

  /** `MusicalPhrase.interval_sequence`. */
  function IntervalSequence(ns: seq<Tone>): (r: seq<int>)
    ensures |r| == if |ns| < 2 then 0 else |ns| - 1
  {
    Intervals(Pitches(ns))
  }

  /** A phrase's pitches are its first pitch followed by its intervals. */
  lemma IntervalSequenceRebuild(ns: seq<Tone>)
    requires |ns| >= 1
    ensures Rebuild(ns[0].pitch, IntervalSequence(ns)) == Pitches(ns)
  {
    IntervalsRebuild(Pitches(ns));
  }

  predicate AllPositive(s: seq<int>)
  {
    forall k :: 0 <= k < |s| ==> s[k] > 0
  }

  /** Inter-onset intervals in units of the smallest one when all are
      positive (else in ticks), each `int(round(...))`. */
  function NormRhythm(iois: seq<int>): (r: seq<int>)
    ensures |r| == |iois|
  {
    var unit := if |iois| > 0 && AllPositive(iois) then MinOf(iois) else 1;
    seq(|iois|, k requires 0 <= k < |iois| => RoundRatio(iois[k], unit))
  }

  /** `(intervals, norm_rhythm, segment[0].pitch)` */
  datatype Pattern = Pattern(intervals: seq<int>, rhythm: seq<int>, start: int)

  function KeyOf(w: seq<Tone>): (r: Pattern)
    requires |w| > 0
  {
    Pattern(IntervalSequence(w), NormRhythm(Intervals(Starts(w))), w[0].pitch)
  }

  /** The keys `find_exact_patterns` counts, window by window. */
  function ExactKeys(notes: seq<Tone>, lo: int, hi: int): (r: seq<Pattern>)
    requires lo >= 1
    ensures |r| == |Windows(notes, lo, hi)|
  {
    var ws := Windows(notes, lo, hi);
    seq(|ws|, i requires 0 <= i < |ws| => KeyOf(ws[i]))
  }

  /** `find_exact_patterns`: the Counter of window keys. */
  function ExactPatterns(notes: seq<Tone>, lo: int, hi: int): seq<Entry<Pattern>>
    requires lo >= 1
  {
    Tally(ExactKeys(notes, lo, hi))
  }

  /** The Counter counts every window once: each key as often as windows
      have it, all counts adding up to the number of windows. */
  lemma ExactPatternCounts(notes: seq<Tone>, lo: int, hi: int)
    requires lo >= 1
    ensures WellFormedCounter(ExactPatterns(notes, lo, hi))
    ensures Total(ExactPatterns(notes, lo, hi)) == |Windows(notes, lo, hi)|
    ensures forall x :: CountOf(ExactPatterns(notes, lo, hi), x) == Occurrences(ExactKeys(notes, lo, hi), x)
  {
    TallyCounts(ExactKeys(notes, lo, hi));
  }

  /** w is a run of the notes whose key is x: x's interval list is one
      shorter than w and x starts at w's first pitch. */
  ghost predicate KeyedRun(notes: seq<Tone>, w: seq<Tone>, x: Pattern)
  {
    Occurs(w, notes) && |w| > 0 && x == KeyOf(w) && |x.intervals| == |w| - 1 && x.start == w[0].pitch
  }

  ghost predicate KeyOfSomeWindow(notes: seq<Tone>, lo: int, hi: int, x: Pattern)
    requires lo >= 1
  {
    exists w: seq<Tone> :: w in Windows(notes, lo, hi) && KeyedRun(notes, w, x)
  }

  /** Each key is the key of a run of the notes, one longer than the key's
      interval list and starting at the key's pitch. */
  lemma ExactKeyShape(notes: seq<Tone>, lo: int, hi: int, x: Pattern)
    requires lo >= 1
    ensures HasKey(ExactPatterns(notes, lo, hi), x) ==>
      KeyOfSomeWindow(notes, lo, hi, x)
  {
    if HasKey(ExactPatterns(notes, lo, hi), x) {
      var keys := ExactKeys(notes, lo, hi);
      var ws := Windows(notes, lo, hi);
      TallyCounts(keys);
      assert x in keys;
      var i :| 0 <= i < |keys| && keys[i] == x;
      WindowKeyed(notes, lo, hi, i);
    }
  }

  lemma WindowKeyed(notes: seq<Tone>, lo: int, hi: int, i: nat)
    requires lo >= 1 && i < |Windows(notes, lo, hi)|
    ensures KeyOfSomeWindow(notes, lo, hi, ExactKeys(notes, lo, hi)[i])
  {
    var ws := Windows(notes, lo, hi);
    var w := ws[i];
    WindowsAreSlices(notes, lo, hi);
    assert w in ws;
    assert KeyedRun(notes, w, ExactKeys(notes, lo, hi)[i]);
  }

  // ---------------------------------------------------------------------
  // Edit distance

  function Min3(a: int, b: int, c: int): int
  {
    Min(a, Min(b, c))
  }

  /** `dp[len(s)][len(t)]` of `compute_edit_distance`, as a recursion on
      prefixes: equal last elements cost nothing, otherwise one deletion,
      insertion or substitution. */
  function Lev<T(==)>(s: seq<T>, t: seq<T>): nat
    decreases |s| + |t|
  {
    if |s| == 0 then |t|
    else if |t| == 0 then |s|
    else if s[|s| - 1] == t[|t| - 1] then Lev(s[..|s| - 1], t[..|t| - 1])
    else 1 + Min3(Lev(s[..|s| - 1], t), Lev(s, t[..|t| - 1]), Lev(s[..|s| - 1], t[..|t| - 1]))
  }

  /** One table cell in terms of its three neighbours. */
  lemma LevCell<T>(s: seq<T>, t: seq<T>, i: nat, j: nat)
    requires 1 <= i <= |s| && 1 <= j <= |t|
    ensures Lev(s[..i], t[..j]) ==
      if s[i - 1] == t[j - 1] then Lev(s[..i - 1], t[..j - 1])
      else 1 + Min3(Lev(s[..i - 1], t[..j]), Lev(s[..i], t[..j - 1]), Lev(s[..i - 1], t[..j - 1]))
  {
    assert s[..i][..i - 1] == s[..i - 1];
    assert t[..j][..j - 1] == t[..j - 1];
  }

  /** `compute_edit_distance`, filling the table row by row. */
  method EditDistance<T(==)>(s: seq<T>, t: seq<T>) returns (d: nat)
    ensures d == Lev(s, t)
  {
    var m, n := |s|, |t|;
    var prev := seq(n + 1, j requires 0 <= j <= n => j);
    assert forall j :: 0 <= j <= n ==> prev[j] == Lev(s[..0], t[..j]);
    var i := 1;
    while i <= m
      invariant 1 <= i <= m + 1
      invariant |prev| == n + 1
      invariant forall j :: 0 <= j <= n ==> prev[j] == Lev(s[..i - 1], t[..j])
    {
      prev := LevRow(s, t, i, prev);
      i := i + 1;
    }
    d := prev[n];
    assert s[..m] == s && t[..n] == t;
  }

  /** Row i of the table from row i - 1. */
  method LevRow<T(==)>(s: seq<T>, t: seq<T>, i: nat, prev: seq<nat>) returns (cur: seq<nat>)
    requires 1 <= i <= |s| && |prev| == |t| + 1
    requires forall j :: 0 <= j <= |t| ==> prev[j] == Lev(s[..i - 1], t[..j])
    ensures |cur| == |t| + 1
    ensures forall j :: 0 <= j <= |t| ==> cur[j] == Lev(s[..i], t[..j])
  {
    cur := [i];
    var j := 1;
    while j <= |t|
      invariant 1 <= j <= |t| + 1
      invariant |cur| == j
      invariant forall k :: 0 <= k < j ==> cur[k] == Lev(s[..i], t[..k])
    {
      LevCell(s, t, i, j);
      var v := if s[i - 1] == t[j - 1] then prev[j - 1] else 1 + Min3(prev[j], cur[j - 1], prev[j - 1]);
      cur := cur + [v];
      j := j + 1;
    }
  }

  /** The distance is at least the difference of the lengths and at most the
      longer length. */
  lemma {:induction false} LevBounds<T>(s: seq<T>, t: seq<T>)
    ensures Abs(|s| - |t|) <= Lev(s, t) <= Max(|s|, |t|)
    decreases |s| + |t|
  {
    if |s| > 0 && |t| > 0 {
      var s', t' := s[..|s| - 1], t[..|t| - 1];
      LevBounds(s', t');
      if s[|s| - 1] != t[|t| - 1] {
        LevBounds(s', t);
        LevBounds(s, t');
      }
    }
  }

  /** Distance zero exactly for equal sequences. */
  lemma {:induction false} LevZero<T>(s: seq<T>, t: seq<T>)
    ensures Lev(s, t) == 0 <==> s == t
    decreases |s| + |t|
  {
    if |s| > 0 && |t| > 0 {
      var s', t' := s[..|s| - 1], t[..|t| - 1];
      LevZero(s', t');
      assert s == s' + [s[|s| - 1]] && t == t' + [t[|t| - 1]];
    }
  }

  // ---------------------------------------------------------------------
  // Approximate grouping

  /** The test of the inner loop: equal length and `1 - dist / max(len, 1)`
      at least the threshold. */
  predicate Similar(a: seq<int>, b: seq<int>, threshold: real)
  {
    |a| == |b| && 1.0 - (Lev(a, b) as real / Max(|a|, 1) as real) >= threshold
  }

  datatype Group = Group(rep: Pattern, members: seq<Pattern>, total: int)

  ghost predicate NoRepeats(s: seq<Pattern>)
  {
    forall i, j :: 0 <= i < j < |s| ==> s[i] != s[j]
  }

  /** The inner loop for representative rep from item j on: every unprocessed
      similar pattern joins the group and becomes processed. */
  function Gather(items: seq<Entry<Pattern>>, j: nat, rep: Pattern, threshold: real, processed: set<Pattern>,
                  members: seq<Pattern>, total: int): (r: (seq<Pattern>, int, set<Pattern>))
    requires j <= |items|
    ensures members <= r.0
    ensures processed <= r.2
    ensures forall k :: |members| <= k < |r.0| ==>
      r.0[k] !in processed && r.0[k] in r.2 && Similar(rep.intervals, r.0[k].intervals, threshold)
    ensures forall k, l :: |members| <= k < l < |r.0| ==> r.0[k] != r.0[l]
    ensures forall x :: x in r.2 && x !in processed ==> x in r.0[|members|..]
    decreases |items| - j
  {
    if j == |items| then (members, total, processed)
    else
      var p := items[j].key;
      if p !in processed && Similar(rep.intervals, p.intervals, threshold) then
        var r := Gather(items, j + 1, rep, threshold, processed + {p}, members + [p], total + items[j].count);
        assert r.0[|members|] == p;
        assert forall x :: x in r.0[|members| + 1..] ==> x in r.0[|members|..];
        r
      else
        Gather(items, j + 1, rep, threshold, processed, members, total)
  }

  function AllMembers(gs: seq<Group>): seq<Pattern>
  {
    if |gs| == 0 then [] else gs[0].members + AllMembers(gs[1..])
  }

  /** The outer loop from item i on. */
  function GroupFrom(items: seq<Entry<Pattern>>, i: nat, threshold: real, minFreq: int,
                     processed: set<Pattern>): (r: seq<Group>)
    requires i <= |items|
    decreases |items| - i
  {
    if i == |items| then []
    else
      var p := items[i].key;
      if p in processed then GroupFrom(items, i + 1, threshold, minFreq, processed)
      else
        var g := Gather(items, 0, p, threshold, processed + {p}, [p], items[i].count);
        var rest := GroupFrom(items, i + 1, threshold, minFreq, g.2);
        if g.1 >= minFreq then [Group(p, g.0, g.1)] + rest else rest
  }

  /** `find_approximate_patterns` */
  function ApproximatePatterns(notes: seq<Tone>, lo: int, hi: int, threshold: real, minFreq: int): seq<Group>
    requires lo >= 1
  {
    GroupFrom(ExactPatterns(notes, lo, hi), 0, threshold, minFreq, {})
  }

  ghost predicate GoodGroup(g: Group, threshold: real, minFreq: int)
  {
    && g.total >= minFreq
    && |g.members| > 0 && g.members[0] == g.rep
    && forall k :: 1 <= k < |g.members| ==> Similar(g.rep.intervals, g.members[k].intervals, threshold)
  }

  lemma NoRepeatsAppend(a: seq<Pattern>, b: seq<Pattern>)
    requires NoRepeats(a) && NoRepeats(b)
    requires forall x :: x in a ==> x !in b
    ensures NoRepeats(a + b)
  {
    var c := a + b;
    forall i, j | 0 <= i < j < |c| ensures c[i] != c[j] {
      if j < |a| {
      } else if i < |a| {
        assert c[i] in a && c[j] == b[j - |a|];
      } else {
        assert c[i] == b[i - |a|] && c[j] == b[j - |a|];
      }
    }
  }

  lemma {:induction false} GroupFromFacts(items: seq<Entry<Pattern>>, i: nat, threshold: real, minFreq: int,
                                          processed: set<Pattern>)
    requires i <= |items|
    ensures forall g :: g in GroupFrom(items, i, threshold, minFreq, processed) ==> GoodGroup(g, threshold, minFreq)
    ensures NoRepeats(AllMembers(GroupFrom(items, i, threshold, minFreq, processed)))
    ensures forall x :: x in AllMembers(GroupFrom(items, i, threshold, minFreq, processed)) ==> x !in processed
    decreases |items| - i
  {
    if i < |items| {
      var p := items[i].key;
      if p in processed {
        GroupFromFacts(items, i + 1, threshold, minFreq, processed);
      } else {
        var g := Gather(items, 0, p, threshold, processed + {p}, [p], items[i].count);
        GroupFromFacts(items, i + 1, threshold, minFreq, g.2);
        var rest := GroupFrom(items, i + 1, threshold, minFreq, g.2);
        var r := GroupFrom(items, i, threshold, minFreq, processed);
        var grp := Group(p, g.0, g.1);
        assert GoodGroup(grp, threshold, minFreq) || g.1 < minFreq;
        assert NoRepeats(g.0) by {
          forall k, l | 0 <= k < l < |g.0| ensures g.0[k] != g.0[l] {
            if k == 0 {
              assert g.0[0] == p && g.0[l] !in processed + {p};
            }
          }
        }
        forall x | x in g.0 ensures x !in processed && x in g.2 {
          var k :| 0 <= k < |g.0| && g.0[k] == x;
          if k == 0 {
            assert x == p;
          }
        }
        if g.1 >= minFreq {
          assert r == [grp] + rest;
          assert AllMembers(r) == g.0 + AllMembers(rest);
          NoRepeatsAppend(g.0, AllMembers(rest));
          forall x | x in AllMembers(r) ensures x !in processed {
            if x !in g.0 {
              assert x in AllMembers(rest);
            }
          }
        } else {
          assert r == rest;
          forall x | x in AllMembers(rest) ensures x !in processed {
            assert x !in g.2;
          }
        }
      }
    }
  }

  /** Every group is counted at least min_frequency times, starts with its
      representative, and holds only patterns of the representative's interval
      length within the similarity threshold; no pattern is in two groups or
      twice in one. */
  lemma ApproximateGroups(notes: seq<Tone>, lo: int, hi: int, threshold: real, minFreq: int)
    requires lo >= 1
    ensures forall g :: g in ApproximatePatterns(notes, lo, hi, threshold, minFreq) ==> GoodGroup(g, threshold, minFreq)
    ensures NoRepeats(AllMembers(ApproximatePatterns(notes, lo, hi, threshold, minFreq)))
  {
    GroupFromFacts(ExactPatterns(notes, lo, hi), 0, threshold, minFreq, {});
  }

  // ---------------------------------------------------------------------
  // Locating a pattern

  /** The window of len(intervals) + 1 notes at i starts at the pattern's
      pitch and has its intervals. */
  predicate MatchesAt(notes: seq<Tone>, pattern: Pattern, i: nat)
  {
    && i + |pattern.intervals| + 1 <= |notes|
    && notes[i].pitch == pattern.start
    && IntervalSequence(notes[i..i + |pattern.intervals| + 1]) == pattern.intervals
  }

  function FindFrom(notes: seq<Tone>, pattern: Pattern, i: nat): (r: Option<nat>)
    ensures r.Some? ==> i <= r.value && MatchesAt(notes, pattern, r.value)
    ensures r.Some? ==> forall k :: i <= k < r.value ==> !MatchesAt(notes, pattern, k)
    ensures r.None? ==> forall k :: i <= k ==> !MatchesAt(notes, pattern, k)
    decreases |notes| - i
  {
    if i + |pattern.intervals| + 1 > |notes| then None
    else if MatchesAt(notes, pattern, i) then Some(i)
    else FindFrom(notes, pattern, i + 1)
  }

  /** `_find_pattern_notes`: the first matching window, or None. */
  function FindPatternNotes(notes: seq<Tone>, pattern: Pattern): (r: Option<seq<Tone>>)
    ensures r.Some? <==> exists i: nat :: MatchesAt(notes, pattern, i)
    ensures r.Some? ==> exists i: nat :: (MatchesAt(notes, pattern, i) &&
      (forall k :: 0 <= k < i ==> !MatchesAt(notes, pattern, k)) &&
      r.value == notes[i..i + |pattern.intervals| + 1])
    ensures r.Some? ==> (|r.value| == |pattern.intervals| + 1 && r.value[0].pitch == pattern.start &&
      IntervalSequence(r.value) == pattern.intervals)
  {
    match FindFrom(notes, pattern, 0)
    case None => None
    case Some(i) => Some(notes[i..i + |pattern.intervals| + 1])
  }

  /** The key of a window of the notes is always found again. */
  lemma KeyIsFound(notes: seq<Tone>, w: seq<Tone>)
    requires |w| > 0 && Occurs(w, notes)
    ensures FindPatternNotes(notes, KeyOf(w)).Some?
  {
    var i :| 0 <= i <= |notes| && w <= notes[i..];
    KeyMatchesAt(notes, w, i);
  }

  /** A window of the notes at i matches its own key there. */
  lemma KeyMatchesAt(notes: seq<Tone>, w: seq<Tone>, i: nat)
    requires |w| > 0 && i <= |notes| && w <= notes[i..]
    ensures MatchesAt(notes, KeyOf(w), i)
  {
    assert notes[i..i + |w|] == w by {
      assert notes[i..][..|w|] == w;
    }
  }

  // ---------------------------------------------------------------------
  // Best phrases

  datatype Phrase = Phrase(notes: seq<Tone>, frequency: int, score: real, exact: bool)

  predicate ScoreGe(a: Phrase, b: Phrase) { a.score >= b.score }

  /** The phrase a group gives once its representative is located: the
      first run with the representative's key, the group's count and score,
      and "exact" for a group of one pattern. */
  function GroupPhrase(ns: seq<Tone>, g: Group, score: (Pattern, int) -> real): Phrase
  {
    Phrase(ns, g.total, score(g.rep, g.total), |g.members| == 1)
  }

  predicate RepFound(notes: seq<Tone>, g: Group)
  {
    FindPatternNotes(notes, g.rep).Some?
  }

  /** The first run of the notes with the group representative's key. */
  function RepNotes(notes: seq<Tone>, g: Group): seq<Tone>
    requires RepFound(notes, g)
  {
    FindPatternNotes(notes, g.rep).value
  }

  /** The phrases of the groups whose representative is found, in group order. */
  function PhrasesOf(notes: seq<Tone>, gs: seq<Group>, score: (Pattern, int) -> real): (r: seq<Phrase>)
    ensures |r| <= |gs|
    ensures forall k :: 0 <= k < |r| ==> exists g :: (g in gs && r[k].frequency == g.total &&
      FindPatternNotes(notes, g.rep) == Some(r[k].notes))
  {
    if |gs| == 0 then []
    else
      var rest := PhrasesOf(notes, gs[1..], score);
      assert forall g :: g in gs[1..] ==> g in gs;
      match FindPatternNotes(notes, gs[0].rep)
      case None => rest
      case Some(ns) => [GroupPhrase(ns, gs[0], score)] + rest
  }

  ghost predicate Kept(p: Phrase, minFreq: int)
  {
    p.frequency >= minFreq && |p.notes| >= 1
  }

  lemma PhrasesKept(notes: seq<Tone>, gs: seq<Group>, threshold: real, minFreq: int, score: (Pattern, int) -> real)
    requires forall g :: g in gs ==> GoodGroup(g, threshold, minFreq)
    ensures forall q :: q in PhrasesOf(notes, gs, score) ==> Kept(q, minFreq)
  {
    var ps := PhrasesOf(notes, gs, score);
    forall q | q in ps ensures Kept(q, minFreq) {
      var k :| 0 <= k < |ps| && ps[k] == q;
      var g :| g in gs && ps[k].frequency == g.total && FindPatternNotes(notes, g.rep) == Some(ps[k].notes);
    }
  }

  /** When every representative is found, each group gives exactly one
      phrase, in group order. */
  lemma {:induction false} PhrasesOfAllFound(notes: seq<Tone>, gs: seq<Group>, score: (Pattern, int) -> real)
    requires forall k :: 0 <= k < |gs| ==> RepFound(notes, gs[k])
    ensures var r := PhrasesOf(notes, gs, score);
      && |r| == |gs|
      && forall k :: 0 <= k < |gs| ==> r[k] == GroupPhrase(RepNotes(notes, gs[k]), gs[k], score)
  {
    if |gs| > 0 {
      var tail := gs[1..];
      assert forall k :: 0 <= k < |tail| ==> RepFound(notes, tail[k]) by {
        forall k | 0 <= k < |tail| ensures RepFound(notes, tail[k]) {
          assert tail[k] == gs[k + 1];
        }
      }
      PhrasesOfAllFound(notes, tail, score);
      PhrasesOfCons(notes, gs, score);
      var r := PhrasesOf(notes, gs, score);
      var rest := PhrasesOf(notes, tail, score);
      forall k | 0 <= k < |gs| ensures r[k] == GroupPhrase(RepNotes(notes, gs[k]), gs[k], score) {
        if k > 0 {
          assert r[k] == rest[k - 1] && tail[k - 1] == gs[k];
        }
      }
    }
  }

  lemma PhrasesOfCons(notes: seq<Tone>, gs: seq<Group>, score: (Pattern, int) -> real)
    requires |gs| > 0 && RepFound(notes, gs[0])
    ensures PhrasesOf(notes, gs, score) == [GroupPhrase(RepNotes(notes, gs[0]), gs[0], score)] + PhrasesOf(notes, gs[1..], score)
  {
  }

  /** Every group's representative is a counted key, the key of a run of the
      notes, so it is always found again. */
  lemma RepsFound(notes: seq<Tone>, lo: int, hi: int, threshold: real, minFreq: int)
    requires lo >= 1
    ensures var gs := ApproximatePatterns(notes, lo, hi, threshold, minFreq);
      forall k :: 0 <= k < |gs| ==> RepFound(notes, gs[k])
  {
    var gs := ApproximatePatterns(notes, lo, hi, threshold, minFreq);
    var items := ExactPatterns(notes, lo, hi);
    GroupRepsAreKeys(items, 0, threshold, minFreq, {});
    forall k | 0 <= k < |gs| ensures RepFound(notes, gs[k]) {
      assert gs[k] in gs;
      ExactKeyShape(notes, lo, hi, gs[k].rep);
      var w: seq<Tone> :| w in Windows(notes, lo, hi) && KeyedRun(notes, w, gs[k].rep);
      KeyIsFound(notes, w);
    }
  }

  lemma {:induction false} HasKeyAt<K>(c: seq<Entry<K>>, i: nat)
    requires i < |c|
    ensures HasKey(c, c[i].key)
  {
    if i > 0 {
      HasKeyAt(c[1..], i - 1);
      assert c[1..][i - 1] == c[i];
    }
  }

  /** The outer loop only ever makes a group around one of the items. */
  lemma {:induction false} GroupRepsAreKeys(items: seq<Entry<Pattern>>, i: nat, threshold: real, minFreq: int,
                                            processed: set<Pattern>)
    requires i <= |items|
    ensures forall g :: g in GroupFrom(items, i, threshold, minFreq, processed) ==> HasKey(items, g.rep)
    decreases |items| - i
  {
    if i < |items| {
      var p := items[i].key;
      HasKeyAt(items, i);
      if p in processed {
        GroupRepsAreKeys(items, i + 1, threshold, minFreq, processed);
      } else {
        var g := Gather(items, 0, p, threshold, processed + {p}, [p], items[i].count);
        GroupRepsAreKeys(items, i + 1, threshold, minFreq, g.2);
      }
    }
  }

  /** The elements of one key in a prefix are a prefix of those in the whole. */
  lemma {:induction false} KeyRunPrefix<T>(a: seq<T>, b: seq<T>, y: T, le: (T, T) -> bool)
    requires a <= b
    ensures KeyRun(a, y, le) <= KeyRun(b, y, le)
  {
    if |a| > 0 {
      assert a[1..] <= b[1..];
      KeyRunPrefix(a[1..], b[1..], y, le);
    }
  }

  /** A prefix of a list sorted by descending score holds the highest scores:
      nothing left out scores above anything kept. */
  lemma TopPrefix(s: seq<Phrase>, r: seq<Phrase>)
    requires SortedBy(s, ScoreGe) && r <= s
    ensures forall a, b :: a in multiset(s) - multiset(r) && b in r ==> a.score <= b.score
  {
    var tail := s[|r|..];
    assert s == r + tail;
    assert multiset(s) - multiset(r) == multiset(tail);
    forall a, b | a in multiset(s) - multiset(r) && b in r ensures a.score <= b.score {
      assert a in tail;
      var j :| 0 <= j < |tail| && tail[j] == a;
      var i :| 0 <= i < |r| && r[i] == b;
      assert s[i] == b && s[|r| + j] == a;
    }
  }

  /** `sorted(..., key=score, reverse=True)[:top_n]`: drawn from the phrases,
      top_n of them when there are enough, the highest scores, and phrases
      of equal score in their original order. */
  lemma TopN(ps: seq<Phrase>, topN: int)
    ensures TotalPreorder(ScoreGe)
    ensures var r := PyTake(Sort(ps, ScoreGe), topN);
      && multiset(r) <= multiset(ps)
      && (topN >= 0 ==> |r| == Min(topN, |ps|))
      && (forall a, b :: a in multiset(ps) - multiset(r) && b in r ==> a.score <= b.score)
      && (forall y :: KeyRun(r, y, ScoreGe) <= KeyRun(ps, y, ScoreGe))
  {
    assert TotalPreorder(ScoreGe);
    var sorted := Sort(ps, ScoreGe);
    var r := PyTake(sorted, topN);
    TopPrefix(sorted, r);
    PrefixSubMultiset(sorted, r);
    TopStable(ps, sorted, r);
  }

  lemma PrefixSubMultiset<T>(s: seq<T>, r: seq<T>)
    requires r <= s
    ensures multiset(r) <= multiset(s)
  {
    assert s == r + s[|r|..];
  }

  lemma TopStable(ps: seq<Phrase>, sorted: seq<Phrase>, r: seq<Phrase>)
    requires TotalPreorder(ScoreGe) && sorted == Sort(ps, ScoreGe) && r <= sorted
    ensures forall y :: KeyRun(r, y, ScoreGe) <= KeyRun(ps, y, ScoreGe)
  {
    forall y ensures KeyRun(r, y, ScoreGe) <= KeyRun(ps, y, ScoreGe) {
      SortStable(ps, y, ScoreGe);
      KeyRunPrefix(r, sorted, y, ScoreGe);
    }
  }

  /** Sorting by score and cutting keeps the order and the kept phrases. */
  lemma RankFacts(ps: seq<Phrase>, minFreq: int, topN: int)
    requires forall q :: q in ps ==> Kept(q, minFreq)
    ensures TotalPreorder(ScoreGe)
    ensures SortedBy(PyTake(Sort(ps, ScoreGe), topN), ScoreGe)
    ensures forall q :: q in PyTake(Sort(ps, ScoreGe), topN) ==> Kept(q, minFreq)
  {
    assert TotalPreorder(ScoreGe);
    var sorted := Sort(ps, ScoreGe);
    var r := PyTake(sorted, topN);
    forall q | q in r ensures Kept(q, minFreq) {
      assert q in sorted;
      assert q in multiset(sorted);
    }
  }

  /** `get_best_phrases` with `score_phrase` given as a function of the
      representative and the group's count: nothing for fewer notes than the
      shortest phrase, otherwise the phrases by decreasing score (ties in
      group order) cut to top_n. */
  function BestPhrases(file: MidiFile, lo: int, hi: int, threshold: real, minFreq: int, topN: int,
                       score: (Pattern, int) -> real): (r: seq<Phrase>)
    requires lo >= 1
    ensures |ExtractTones(file)| < lo ==> r == []
    ensures topN >= 0 ==> |r| <= topN
    ensures SortedBy(r, ScoreGe)
    ensures forall q :: q in r ==> Kept(q, minFreq)
    ensures |ExtractTones(file)| >= lo ==>
      var notes := ExtractTones(file);
      var ps := PhrasesOf(notes, ApproximatePatterns(notes, lo, hi, threshold, minFreq), score);
      && multiset(r) <= multiset(ps)
      && (topN >= 0 ==> |r| == Min(topN, |ps|))
      && (forall a, b :: a in multiset(ps) - multiset(r) && b in r ==> a.score <= b.score)
      && (forall y :: KeyRun(r, y, ScoreGe) <= KeyRun(ps, y, ScoreGe))
  {
    var notes := ExtractTones(file);
    if |notes| < lo then []
    else
      var gs := ApproximatePatterns(notes, lo, hi, threshold, minFreq);
      ApproximateGroups(notes, lo, hi, threshold, minFreq);
      var ps := PhrasesOf(notes, gs, score);
      PhrasesKept(notes, gs, threshold, minFreq, score);
      RankFacts(ps, minFreq, topN);
      TopN(ps, topN);
      PyTake(Sort(ps, ScoreGe), topN)
  }

  /** Every group of the file gives its phrase, so top_n phrases come back
      whenever there are that many groups. */
  lemma BestPhrasesPerGroup(file: MidiFile, lo: int, hi: int, threshold: real, minFreq: int, topN: int,
                            score: (Pattern, int) -> real)
    requires lo >= 1 && |ExtractTones(file)| >= lo
    ensures var notes := ExtractTones(file);
      var gs := ApproximatePatterns(notes, lo, hi, threshold, minFreq);
      var ps := PhrasesOf(notes, gs, score);
      && |ps| == |gs|
      && (forall k :: 0 <= k < |gs| ==> RepFound(notes, gs[k]) && ps[k] == GroupPhrase(RepNotes(notes, gs[k]), gs[k], score))
      && (topN >= 0 ==> |BestPhrases(file, lo, hi, threshold, minFreq, topN, score)| == Min(topN, |gs|))
  {
    var notes := ExtractTones(file);
    var gs := ApproximatePatterns(notes, lo, hi, threshold, minFreq);
    RepsFound(notes, lo, hi, threshold, minFreq);
    PhrasesOfAllFound(notes, gs, score);
  }
}

=== FILE: sorting.dfy ===
/** Python's `sorted(xs, key=...)` / `list.sort(key=...)`: a stable sort.
    A key is represented by the comparator "key(a) <= key(b)", which is a
    total preorder; insertion that places a new element after every element
    not greater than it keeps equal keys in their input order. */
module Sorting {

  ghost predicate TotalPreorder<T(!new)>(le: (T, T) -> bool)
  {
    && (forall a, b :: le(a, b) || le(b, a))
    && (forall a, b, c :: le(a, b) && le(b, c) ==> le(a, c))
  }

  ghost predicate SortedBy<T>(s: seq<T>, le: (T, T) -> bool)
  {
    forall i, j :: 0 <= i < j < |s| ==> le(s[i], s[j])
  }

  /** Inserts x after the longest prefix of s whose elements are all <= x. */
  function Insert<T>(x: T, s: seq<T>, le: (T, T) -> bool): (r: seq<T>)
    ensures |r| == |s| + 1
    ensures multiset(r) == multiset(s) + multiset{x}
  {
    if |s| == 0 then [x]
    else if !le(s[0], x) then [x] + s
    else
      assert s == [s[0]] + s[1..];
      [s[0]] + Insert(x, s[1..], le)
  }

  lemma {:induction false} InsertSorted<T(!new)>(x: T, s: seq<T>, le: (T, T) -> bool)
    requires TotalPreorder(le)
    requires SortedBy(s, le)
    ensures SortedBy(Insert(x, s, le), le)
  {
    if |s| == 0 {
    } else if !le(s[0], x) {
      assert le(x, s[0]);
    } else {
      InsertSorted(x, s[1..], le);
      var t := Insert(x, s[1..], le);
      forall k | 0 <= k < |t|
        ensures le(s[0], t[k])
      {
        assert t[k] in multiset(t);
        assert t[k] in multiset(s[1..]) + multiset{x};
        if t[k] in multiset(s[1..]) {
          var m :| 0 <= m < |s[1..]| && s[1..][m] == t[k];
          assert s[m + 1] == t[k];
        }
      }
    }
  }

  function Sort<T(!new)>(s: seq<T>, le: (T, T) -> bool): (r: seq<T>)
    requires TotalPreorder(le)
    ensures |r| == |s|
    ensures multiset(r) == multiset(s)
    ensures SortedBy(r, le)
  {
    if |s| == 0 then []
    else
      var rest := Sort(s[..|s| - 1], le);
      InsertSorted(s[|s| - 1], rest, le);
      assert s == s[..|s| - 1] + [s[|s| - 1]];
      Insert(s[|s| - 1], rest, le)
  }

  /** An already sorted sequence is its own stable sort: insertion never moves
      an element that is not greater than the new one. */
  lemma {:induction false} InsertAtEnd<T>(x: T, s: seq<T>, le: (T, T) -> bool)
    requires forall k :: 0 <= k < |s| ==> le(s[k], x)
    ensures Insert(x, s, le) == s + [x]
  {
    if |s| > 0 {
      InsertAtEnd(x, s[1..], le);
      assert [s[0]] + (s[1..] + [x]) == s + [x];
    }
  }

  lemma {:induction false} SortOfSorted<T(!new)>(s: seq<T>, le: (T, T) -> bool)
    requires TotalPreorder(le)
    requires SortedBy(s, le)
    ensures Sort(s, le) == s
  {
    if |s| > 0 {
      var init := s[..|s| - 1];
      assert SortedBy(init, le);
      SortOfSorted(init, le);
      InsertAtEnd(s[|s| - 1], init, le);
      assert init + [s[|s| - 1]] == s;
    }
  }

  /** The elements of s whose key equals that of y, in their order in s. */
  function KeyRun<T>(s: seq<T>, y: T, le: (T, T) -> bool): (r: seq<T>)
    ensures |r| <= |s|
  {
    if |s| == 0 then []
    else (if le(s[0], y) && le(y, s[0]) then [s[0]] else []) + KeyRun(s[1..], y, le)
  }

  lemma {:induction false} KeyRunSnoc<T>(s: seq<T>, x: T, y: T, le: (T, T) -> bool)
    ensures KeyRun(s + [x], y, le) == KeyRun(s, y, le) + (if le(x, y) && le(y, x) then [x] else [])
  {
    if |s| == 0 {
      assert s + [x] == [x];
      assert KeyRun([x], y, le) == (if le(x, y) && le(y, x) then [x] else []) + KeyRun([], y, le);
    } else {
      assert (s + [x])[0] == s[0] && (s + [x])[1..] == s[1..] + [x];
      KeyRunSnoc(s[1..], x, y, le);
    }
  }

  lemma TailSorted<T>(t: seq<T>, le: (T, T) -> bool)
    requires |t| > 0 && SortedBy(t, le)
    ensures SortedBy(t[1..], le)
  {
    var u := t[1..];
    forall i, j | 0 <= i < j < |u| ensures le(u[i], u[j]) {
      assert u[i] == t[i + 1] && u[j] == t[j + 1];
    }
  }

  /** In a sorted sequence whose head is above x, nothing has x's key. */
  lemma {:induction false} NoKeyAbove<T(!new)>(t: seq<T>, x: T, y: T, le: (T, T) -> bool)
    requires TotalPreorder(le) && SortedBy(t, le)
    requires le(x, y) && le(y, x)
    requires |t| > 0 ==> !le(t[0], x)
    ensures KeyRun(t, y, le) == []
  {
    if |t| > 0 {
      var u := t[1..];
      TailSorted(t, le);
      if |u| > 0 {
        assert le(t[0], u[0]);
      }
      NoKeyAbove(u, x, y, le);
    }
  }

  /** x goes in front of a sorted sequence whose head is above it; nothing
      there shares its key. */
  lemma InsertFrontKeyRun<T(!new)>(x: T, t: seq<T>, y: T, le: (T, T) -> bool)
    requires TotalPreorder(le) && SortedBy(t, le)
    requires |t| > 0 && !le(t[0], x)
    ensures KeyRun([x] + t, y, le) == KeyRun(t, y, le) + (if le(x, y) && le(y, x) then [x] else [])
  {
    var e := if le(x, y) && le(y, x) then [x] else [];
    assert ([x] + t)[0] == x && ([x] + t)[1..] == t;
    assert KeyRun([x] + t, y, le) == e + KeyRun(t, y, le);
    if e != [] {
      NoKeyAbove(t, x, y, le);
    }
  }

  lemma KeyRunCons<T>(a: T, t: seq<T>, y: T, le: (T, T) -> bool)
    ensures KeyRun([a] + t, y, le) == (if le(a, y) && le(y, a) then [a] else []) + KeyRun(t, y, le)
  {
    assert ([a] + t)[0] == a && ([a] + t)[1..] == t;
  }

  /** Insertion puts x after every element with its key. */
  lemma {:induction false} InsertKeyRun<T(!new)>(x: T, t: seq<T>, y: T, le: (T, T) -> bool)
    requires TotalPreorder(le) && SortedBy(t, le)
    ensures KeyRun(Insert(x, t, le), y, le) == KeyRun(t, y, le) + (if le(x, y) && le(y, x) then [x] else [])
  {
    if |t| == 0 {
      KeyRunCons(x, [], y, le);
    } else if !le(t[0], x) {
      InsertFrontKeyRun(x, t, y, le);
    } else {
      TailSorted(t, le);
      InsertKeyRun(x, t[1..], y, le);
      KeyRunCons(t[0], Insert(x, t[1..], le), y, le);
      KeyRunCons(t[0], t[1..], y, le);
      assert [t[0]] + t[1..] == t;
    }
  }

  /** Python's sort is stable: the elements sharing any one key come out in
      their input order. */
  lemma {:induction false} SortStable<T(!new)>(s: seq<T>, y: T, le: (T, T) -> bool)
    requires TotalPreorder(le)
    ensures KeyRun(Sort(s, le), y, le) == KeyRun(s, y, le)
  {
    if |s| > 0 {
      var init, x := s[..|s| - 1], s[|s| - 1];
      SortStable(init, y, le);
      InsertKeyRun(x, Sort(init, le), y, le);
      KeyRunLast(s, y, le);
    }
  }

  /** The key run of s is that of all but its last element, then the last
      element when it shares the key. */
  lemma KeyRunLast<T>(s: seq<T>, y: T, le: (T, T) -> bool)
    requires |s| > 0
    ensures var x := s[|s| - 1];
      KeyRun(s, y, le) == KeyRun(s[..|s| - 1], y, le) + (if le(x, y) && le(y, x) then [x] else [])
  {
    KeyRunSnoc(s[..|s| - 1], s[|s| - 1], y, le);
    assert s[..|s| - 1] + [s[|s| - 1]] == s;
  }

  /** Stability for every key at once. */
  lemma SortStableAll<T(!new)>(s: seq<T>, le: (T, T) -> bool)
    requires TotalPreorder(le)
    ensures forall y :: KeyRun(Sort(s, le), y, le) == KeyRun(s, y, le)
  {
    forall y ensures KeyRun(Sort(s, le), y, le) == KeyRun(s, y, le) {
      SortStable(s, y, le);
    }
  }

  /** The head of a sorted sequence is below every element of its multiset. */
  lemma HeadBelow<T>(a: seq<T>, x: T, le: (T, T) -> bool)
    requires forall y :: le(y, y)
    requires SortedBy(a, le)
    requires x in multiset(a)
    ensures |a| > 0 && le(a[0], x)
  {
    var i :| 0 <= i < |a| && a[i] == x;
    if i > 0 {
      assert le(a[0], a[i]);
    }
  }

  /** Under an order that identifies no two distinct elements, a sorted
      arrangement of a multiset is unique; so sorting forgets input order. */
  lemma {:induction false} SortedUnique<T(!new)>(a: seq<T>, b: seq<T>, le: (T, T) -> bool)
    requires forall x :: le(x, x)
    requires forall x, y :: le(x, y) && le(y, x) ==> x == y
    requires SortedBy(a, le) && SortedBy(b, le)
    requires multiset(a) == multiset(b)
    ensures a == b
  {
    if |a| > 0 {
      HeadBelow(b, a[0], le);
      HeadBelow(a, b[0], le);
      assert a[0] == b[0];
      var ta, tb := a[1..], b[1..];
      assert a == [a[0]] + ta;
      assert b == [b[0]] + tb;
      assert multiset(ta) == multiset(a) - multiset{a[0]};
      assert multiset(tb) == multiset(b) - multiset{b[0]};
      assert SortedBy(ta, le) by {
        forall i, j | 0 <= i < j < |ta| ensures le(ta[i], ta[j]) {
          assert ta[i] == a[i + 1] && ta[j] == a[j + 1];
        }
      }
      assert SortedBy(tb, le) by {
        forall i, j | 0 <= i < j < |tb| ensures le(tb[i], tb[j]) {
          assert tb[i] == b[i + 1] && tb[j] == b[j + 1];
        }
      }
      SortedUnique(ta, tb, le);
    } else {
      assert |b| == |multiset(b)| == 0;
    }
  }

  /** Sorting under such an order depends only on the multiset of its input. */
  lemma SortPermutation<T(!new)>(a: seq<T>, b: seq<T>, le: (T, T) -> bool)
    requires TotalPreorder(le)
    requires forall x, y :: le(x, y) && le(y, x) ==> x == y
    requires multiset(a) == multiset(b)
    ensures Sort(a, le) == Sort(b, le)
  {
    SortedUnique(Sort(a, le), Sort(b, le), le);
  }

  predicate Increasing(s: seq<int>)
  {
    forall i, j :: 0 <= i < j < |s| ==> s[i] < s[j]
  }

  function InsertUnique(x: int, s: seq<int>): (r: seq<int>)
    requires Increasing(s)
    ensures Increasing(r)
    ensures forall y :: y in r <==> y in s || y == x
    ensures x in s ==> r == s
    ensures x !in s ==> |r| == |s| + 1
  {
    if |s| == 0 then [x]
    else if x < s[0] then [x] + s
    else if x == s[0] then s
    else
      var t := InsertUnique(x, s[1..]);
      InsertBehind(x, s, t);
      [s[0]] + t
  }

  /** Inserting x behind the head of s: t is x inserted into the tail. */
  lemma InsertBehind(x: int, s: seq<int>, t: seq<int>)
    requires Increasing(s) && |s| > 0 && s[0] < x
    requires Increasing(t) && forall y :: y in t <==> y in s[1..] || y == x
    requires x in s[1..] ==> t == s[1..]
    requires x !in s[1..] ==> |t| == |s|
    ensures Increasing([s[0]] + t)
    ensures forall y :: y in [s[0]] + t <==> y in s || y == x
    ensures x in s ==> [s[0]] + t == s
    ensures x !in s ==> |[s[0]] + t| == |s| + 1
  {
    assert s == [s[0]] + s[1..];
    assert forall y :: y in s[1..] ==> s[0] < y;
    ConsIncreasing(s[0], t);
  }

  /** A value below every element of an increasing sequence can go in front. */
  lemma ConsIncreasing(a: int, t: seq<int>)
    requires Increasing(t) && forall y :: y in t ==> a < y
    ensures Increasing([a] + t)
    ensures forall y :: y in [a] + t <==> y == a || y in t
  {
    var r := [a] + t;
    forall i, j | 0 <= i < j < |r| ensures r[i] < r[j] {
      assert r[j] == t[j - 1];
      if i > 0 {
        assert r[i] == t[i - 1];
      } else {
        assert t[j - 1] in t;
      }
    }
  }

  /** `sorted(set(s))` on integers. */
  function SortedSet(s: seq<int>): (r: seq<int>)
    ensures Increasing(r)
    ensures forall y :: y in r <==> y in s
    ensures |r| <= |s|
  {
    if |s| == 0 then []
    else
      var rest := SortedSet(s[..|s| - 1]);
      assert forall y :: y in s <==> y in s[..|s| - 1] || y == s[|s| - 1] by {
        assert s == s[..|s| - 1] + [s[|s| - 1]];
      }
      InsertUnique(s[|s| - 1], rest)
  }

  /** Without duplicates nothing is dropped. */
  lemma {:induction false} SortedSetDistinct(s: seq<int>)
    requires forall i, j :: 0 <= i < j < |s| ==> s[i] != s[j]
    ensures |SortedSet(s)| == |s|
  {
    if |s| > 0 {
      var init := s[..|s| - 1];
      SortedSetDistinct(init);
      assert s[|s| - 1] !in init;
    }
  }

  /** An increasing sequence is its own `sorted(set(...))`. */
  lemma {:induction false} SortedSetOfIncreasing(s: seq<int>)
    requires Increasing(s)
    ensures SortedSet(s) == s
  {
    if |s| > 0 {
      var init, x := s[..|s| - 1], s[|s| - 1];
      IncreasingLast(s, init, x);
      SortedSetOfIncreasing(init);
      InsertUniqueAtEnd(x, init);
    }
  }

  /** An increasing sequence is its increasing front, then a larger last element. */
  lemma IncreasingLast(s: seq<int>, init: seq<int>, x: int)
    requires Increasing(s) && |s| > 0 && init == s[..|s| - 1] && x == s[|s| - 1]
    ensures Increasing(init)
    ensures forall k :: 0 <= k < |init| ==> init[k] < x
    ensures init + [x] == s
  { }

  lemma {:induction false} InsertUniqueAtEnd(x: int, s: seq<int>)
    requires Increasing(s)
    requires forall k :: 0 <= k < |s| ==> s[k] < x
    ensures InsertUnique(x, s) == s + [x]
  {
    if |s| > 0 {
      InsertUniqueAtEnd(x, s[1..]);
      assert [s[0]] + (s[1..] + [x]) == s + [x];
    }
  }
}

=== FILE: transcribe.dfy ===
/** The summary the command-line front end prints for a transcribed file
    (transcribe.py, `get_midi_info`). */
module Transcribe {
  import opened Midi

  datatype MidiInfo = MidiInfo(ticksPerBeat: int, numTracks: nat, totalNotes: nat, lowest: int, highest: int)

  /** The pitches of the note-on messages with a positive velocity, in order. */
  function Started(msgs: Track): (r: seq<int>)
    ensures |r| <= |msgs|
    ensures forall k :: 0 <= k < |r| ==> 0 <= r[k] < 128
  {
    if |msgs| == 0 then []
    else
      var last := msgs[|msgs| - 1];
      Started(msgs[..|msgs| - 1]) + (if last.IsStart() then [last.note] else [])
  }

  /** Started grows by one message at a time. */
  lemma StartedStep(msgs: Track, k: nat)
    requires k < |msgs|
    ensures Started(msgs[..k + 1]) == Started(msgs[..k]) + (if msgs[k].IsStart() then [msgs[k].note] else [])
  {
    assert msgs[..k + 1][..k] == msgs[..k];
  }

  /** `get_midi_info`: the note count over all tracks and the lowest and
      highest pitch sounded, (0, 0) when nothing is. */
  method GetMidiInfo(file: MidiFile) returns (info: MidiInfo)
    ensures info.ticksPerBeat == file.ticksPerBeat && info.numTracks == |file.tracks|
    ensures info.totalNotes == |Started(Concat(file.tracks))|
    ensures info.totalNotes == 0 ==> info.lowest == 0 && info.highest == 0
    ensures info.totalNotes > 0 ==> info.lowest in Started(Concat(file.tracks)) && info.highest in Started(Concat(file.tracks))
    ensures forall p :: p in Started(Concat(file.tracks)) ==> info.lowest <= p <= info.highest
  {
    var msgs := Concat(file.tracks);
    var total := 0;
    var lo := 127;
    var hi := 0;
    var k := 0;
    ghost var seen: seq<int> := [];
    while k < |msgs|
      invariant 0 <= k <= |msgs|
      invariant seen == Started(msgs[..k])
      invariant total == |seen|
      invariant total == 0 ==> lo == 127 && hi == 0
      invariant total > 0 ==> lo in seen && hi in seen
      invariant forall p :: p in seen ==> lo <= p <= hi
    {
      var m := msgs[k];
      StartedStep(msgs, k);
      if m.NoteOn? && m.velocity > 0 {
        assert m.note in seen + [m.note] && forall p :: p in seen ==> p in seen + [m.note];
        seen := seen + [m.note];
        total := total + 1;
        lo := if m.note < lo then m.note else lo;
        hi := if m.note > hi then m.note else hi;
      }
      k := k + 1;
    }
    assert msgs[..k] == msgs;
    if total > 0 {
      info := MidiInfo(file.ticksPerBeat, |file.tracks|, total, lo, hi);
    } else {
      info := MidiInfo(file.ticksPerBeat, |file.tracks|, 0, 0, 0);
    }
  }
}

=== FILE: transcriber.dfy ===
/** Multi-pass merging (advanced_transcriber.py): the notes of several
    transcription passes, each pass carrying a weight, are clustered by pitch
    and closeness of start and end, every cluster becomes one note by weighted
    averages, and the merged notes are written out as time-sorted events with
    delta times. Also the minimum-duration rule of duration smoothing. */
module Transcriber {
  import opened Base
  import opened Sorting
  import opened Midi

  /** A note read from one pass, with the pass's weight. */
  datatype PassNote = PassNote(pitch: int, start: int, end: int, velocity: int, channel: int, weight: real)
  {
    function AsNote(): Note { Note(pitch, velocity, start, end, channel) }
  }

  /** Start and end tolerance of a cluster, in ticks. */
  const Tolerance := 50

  /** A candidate joins the cluster of head: same pitch, start and end both
      within the tolerance of the head's (not of the last member's). */
  predicate Close(head: PassNote, n: PassNote)
  {
    n.pitch == head.pitch && Abs(n.start - head.start) <= Tolerance && Abs(n.end - head.end) <= Tolerance
  }

  /** The sort key `(pitch, start)`. */
  predicate PitchStartLe(a: PassNote, b: PassNote)
  {
    a.pitch < b.pitch || (a.pitch == b.pitch && a.start <= b.start)
  }

  datatype ScanResult = ScanResult(taken: seq<PassNote>, skipped: seq<PassNote>, stop: nat)

  /** The inner loop from j on: a pitch change or a candidate starting more
      than the tolerance after the head ends the scan; a close candidate joins
      the cluster; any other candidate is passed over. */
  function Scan(ns: seq<PassNote>, head: PassNote, j: nat): (r: ScanResult)
    requires j <= |ns|
    ensures j <= r.stop <= |ns|
    ensures |r.taken| + |r.skipped| == r.stop - j
    ensures forall k :: 0 <= k < |r.taken| ==> Close(head, r.taken[k])
    decreases |ns| - j
  {
    if j == |ns| || ns[j].pitch != head.pitch then ScanResult([], [], j)
    else if Close(head, ns[j]) then
      var rest := Scan(ns, head, j + 1);
      ScanResult([ns[j]] + rest.taken, rest.skipped, rest.stop)
    else if ns[j].start > head.start + Tolerance then ScanResult([], [], j)
    else
      var rest := Scan(ns, head, j + 1);
      ScanResult(rest.taken, [ns[j]] + rest.skipped, rest.stop)
  }

  /** The scan shares the scanned notes between the cluster and the passed
      over, which have the head's pitch but are not close to it, and it stops
      only at the end, at a pitch change, or at a candidate that is not close
      and starts more than the tolerance after the head. */
  lemma ScanFacts(ns: seq<PassNote>, head: PassNote, j: nat)
    requires j <= |ns|
    ensures var r := Scan(ns, head, j);
      && multiset(r.taken) + multiset(r.skipped) == multiset(ns[j..r.stop])
      && (forall k :: 0 <= k < |r.skipped| ==> r.skipped[k].pitch == head.pitch && !Close(head, r.skipped[k]))
      && (r.stop < |ns| ==> ns[r.stop].pitch != head.pitch || (!Close(head, ns[r.stop]) && ns[r.stop].start > head.start + Tolerance))
  {
    ScanShares(ns, head, j);
    ScanSkipped(ns, head, j);
    ScanStop(ns, head, j);
  }

  lemma {:induction false} ScanShares(ns: seq<PassNote>, head: PassNote, j: nat)
    requires j <= |ns|
    ensures var r := Scan(ns, head, j); multiset(r.taken) + multiset(r.skipped) == multiset(ns[j..r.stop])
    decreases |ns| - j
  {
    if j < |ns| && ns[j].pitch == head.pitch && (Close(head, ns[j]) || ns[j].start <= head.start + Tolerance) {
      ScanShares(ns, head, j + 1);
      var rest := Scan(ns, head, j + 1);
      ConsSlice(ns, j, rest.stop);
    }
  }

  lemma ConsSlice(ns: seq<PassNote>, j: nat, stop: nat)
    requires j < stop <= |ns|
    ensures multiset(ns[j..stop]) == multiset{ns[j]} + multiset(ns[j + 1..stop])
  {
    assert ns[j..stop] == [ns[j]] + ns[j + 1..stop];
  }

  /** Each of s has the head's pitch and is not close to the head. */
  predicate PassedOver(head: PassNote, s: seq<PassNote>)
  {
    forall k :: 0 <= k < |s| ==> s[k].pitch == head.pitch && !Close(head, s[k])
  }

  lemma {:induction false} ScanSkipped(ns: seq<PassNote>, head: PassNote, j: nat)
    requires j <= |ns|
    ensures PassedOver(head, Scan(ns, head, j).skipped)
    decreases |ns| - j
  {
    if j < |ns| && ns[j].pitch == head.pitch && (Close(head, ns[j]) || ns[j].start <= head.start + Tolerance) {
      ScanSkipped(ns, head, j + 1);
      var rest, r := Scan(ns, head, j + 1), Scan(ns, head, j);
      if Close(head, ns[j]) {
        assert r.skipped == rest.skipped;
      } else {
        assert r.skipped == [ns[j]] + rest.skipped;
        PassedOverCons(head, ns[j], rest.skipped);
      }
    }
  }

  lemma PassedOverCons(head: PassNote, x: PassNote, s: seq<PassNote>)
    requires x.pitch == head.pitch && !Close(head, x) && PassedOver(head, s)
    ensures PassedOver(head, [x] + s)
  {
    assert forall k :: 1 <= k < |[x] + s| ==> ([x] + s)[k] == s[k - 1];
  }

  lemma {:induction false} ScanStop(ns: seq<PassNote>, head: PassNote, j: nat)
    requires j <= |ns|
    ensures var r := Scan(ns, head, j);
      r.stop < |ns| ==> ns[r.stop].pitch != head.pitch || (!Close(head, ns[r.stop]) && ns[r.stop].start > head.start + Tolerance)
    decreases |ns| - j
  {
    if j < |ns| && ns[j].pitch == head.pitch && (Close(head, ns[j]) || ns[j].start <= head.start + Tolerance) {
      ScanStop(ns, head, j + 1);
      assert Scan(ns, head, j).stop == Scan(ns, head, j + 1).stop;
    } else {
      assert Scan(ns, head, j).stop == j;
    }
  }

  /** Every member is close to the first, the head. */
  ghost predicate Coherent(c: seq<PassNote>)
  {
    |c| > 0 && forall k :: 0 <= k < |c| ==> Close(c[0], c[k])
  }

  function Flatten(cs: seq<seq<PassNote>>): seq<PassNote>
  {
    if |cs| == 0 then [] else cs[0] + Flatten(cs[1..])
  }

  /** The outer loop as written: after a cluster the scan resumes at
      `j if j > i + 1 else i + 1`, past the passed-over candidates too. */
  function Clusters(ns: seq<PassNote>, i: nat): (r: seq<seq<PassNote>>)
    requires i <= |ns|
    ensures |r| <= |ns| - i
    ensures |Flatten(r)| <= |ns| - i
    ensures forall k :: 0 <= k < |r| ==> Coherent(r[k])
    decreases |ns| - i
  {
    if i == |ns| then []
    else
      var sc := Scan(ns, ns[i], i + 1);
      var c := [ns[i]] + sc.taken;
      var rest := Clusters(ns, if sc.stop > i + 1 then sc.stop else i + 1);
      assert Flatten([c] + rest) == c + Flatten(rest);
      assert forall k :: 1 <= k < |c| ==> c[k] == sc.taken[k - 1];
      [c] + rest
  }

  /** The outer loop with the passed-over candidates kept for later
      clusters: the scan resumes with them, ahead of the unscanned notes. */
  function ClustersKept(ns: seq<PassNote>): (r: seq<seq<PassNote>>)
    ensures multiset(Flatten(r)) == multiset(ns)
    ensures forall k :: 0 <= k < |r| ==> Coherent(r[k])
    decreases |ns|
  {
    if |ns| == 0 then []
    else
      var sc := Scan(ns, ns[0], 1);
      var c := [ns[0]] + sc.taken;
      var rest := ClustersKept(sc.skipped + ns[sc.stop..]);
      KeptShares(ns, sc);
      FlattenCons(c, rest);
      [c] + rest
  }

  /** One round of the kept loop: the cluster and what is left over share
      out the notes, and the cluster is coherent. */
  lemma KeptShares(ns: seq<PassNote>, sc: ScanResult)
    requires |ns| > 0 && sc == Scan(ns, ns[0], 1)
    ensures multiset(ns) == multiset([ns[0]] + sc.taken) + multiset(sc.skipped + ns[sc.stop..])
    ensures Coherent([ns[0]] + sc.taken)
  {
    ScanFacts(ns, ns[0], 1);
    ShareOut(ns, sc.taken, sc.skipped, sc.stop);
    HeadCluster(ns[0], sc.taken);
  }

  lemma ShareOut(ns: seq<PassNote>, taken: seq<PassNote>, skipped: seq<PassNote>, stop: nat)
    requires 1 <= stop <= |ns|
    requires multiset(taken) + multiset(skipped) == multiset(ns[1..stop])
    ensures multiset(ns) == multiset([ns[0]] + taken) + multiset(skipped + ns[stop..])
  {
    assert ns == [ns[0]] + ns[1..stop] + ns[stop..];
  }

  lemma HeadCluster(head: PassNote, taken: seq<PassNote>)
    requires forall k :: 0 <= k < |taken| ==> Close(head, taken[k])
    ensures Coherent([head] + taken)
  {
    var c := [head] + taken;
    assert forall k :: 1 <= k < |c| ==> c[k] == taken[k - 1];
  }

  lemma FlattenCons(c: seq<PassNote>, rest: seq<seq<PassNote>>)
    ensures Flatten([c] + rest) == c + Flatten(rest)
  {
    assert ([c] + rest)[1..] == rest;
  }

  // ---------------------------------------------------------------------
  // Weighted averages

  function Weights(c: seq<PassNote>): (r: seq<real>)
    ensures |r| == |c|
  {
    seq(|c|, k requires 0 <= k < |c| => c[k].weight)
  }

  /** The sum of each value times the weight of its note. */
  function WeightedSum(vals: seq<int>, ws: seq<real>): real
    requires |vals| == |ws|
  {
    if |vals| == 0 then 0.0
    else WeightedSum(vals[..|vals| - 1], ws[..|ws| - 1]) + vals[|vals| - 1] as real * ws[|ws| - 1]
  }

  /** With positive weights a weighted sum lies between the smallest and the
      largest value times the total weight. */
  lemma {:induction false} WeightedSumBounds(vals: seq<int>, ws: seq<real>, lo: real, hi: real)
    requires |vals| == |ws|
    requires forall k :: 0 <= k < |ws| ==> ws[k] > 0.0
    requires forall k :: 0 <= k < |vals| ==> lo <= vals[k] as real <= hi
    ensures Bracketed(lo, WeightedSum(vals, ws), SumReal(ws), hi)
  {
    if |vals| > 0 {
      var n := |vals| - 1;
      WeightedSumBounds(vals[..n], ws[..n], lo, hi);
      WeightedSumLast(vals, ws);
      StepBetween(lo, hi, SumReal(ws[..n]), WeightedSum(vals[..n], ws[..n]), ws[n], vals[n] as real,
                  SumReal(ws), WeightedSum(vals, ws));
    }
  }

  /** a lies between lo and hi times t. */
  predicate Bracketed(lo: real, a: real, t: real, hi: real)
  {
    lo * t <= a <= hi * t
  }

  /** Both sums split at the last weight. */
  lemma WeightedSumLast(vals: seq<int>, ws: seq<real>)
    requires |vals| == |ws| > 0
    ensures SumReal(ws) == SumReal(ws[..|ws| - 1]) + ws[|ws| - 1]
    ensures WeightedSum(vals, ws) == WeightedSum(vals[..|vals| - 1], ws[..|ws| - 1]) + vals[|vals| - 1] as real * ws[|ws| - 1]
  { }

  /** Adding value v at weight w to a sum a of total weight t keeps the new
      sum x of total weight u between the bounds. */
  lemma StepBetween(lo: real, hi: real, t: real, a: real, w: real, v: real, u: real, x: real)
    requires Bracketed(lo, a, t, hi) && lo <= v <= hi && w > 0.0
    requires u == t + w && x == a + v * w
    ensures Bracketed(lo, x, u, hi)
  {
    assert lo * w <= v * w <= hi * w;
    assert lo * (t + w) == lo * t + lo * w;
    assert hi * (t + w) == hi * t + hi * w;
  }

  /** The truncated quotient of a sum between lo * total and hi * total lies
      between lo and hi. */
  lemma TruncatedMean(s: real, total: real, lo: int, hi: int)
    requires total > 0.0
    requires Bracketed(lo as real, s, total, hi as real)
    ensures lo <= TruncReal(s / total) <= hi
  {
    var x := s / total;
    assert x * total == s;
    CancelPositive(lo as real, x, total);
    CancelPositive(x, hi as real, total);
  }

  /** A positive factor can be cancelled from an inequality. */
  lemma CancelPositive(a: real, b: real, t: real)
    requires t > 0.0 && a * t <= b * t
    ensures a <= b
  {
    assert (a - b) * t == a * t - b * t;
  }

  /** A weighted mean with positive weights of values within the tolerance of
      a centre, truncated toward zero, stays within the tolerance. */
  lemma MeanNear(vals: seq<int>, ws: seq<real>, centre: int)
    requires |vals| == |ws| > 0
    requires forall k :: 0 <= k < |ws| ==> ws[k] > 0.0
    requires forall k :: 0 <= k < |vals| ==> Abs(vals[k] - centre) <= Tolerance
    ensures SumReal(ws) > 0.0
    ensures Abs(TruncReal(WeightedSum(vals, ws) / SumReal(ws)) - centre) <= Tolerance
  {
    SumRealPositive(ws);
    SumBetween(vals, ws, centre - Tolerance, centre + Tolerance);
    TruncatedMean(WeightedSum(vals, ws), SumReal(ws), centre - Tolerance, centre + Tolerance);
  }

  lemma SumBetween(vals: seq<int>, ws: seq<real>, lo: int, hi: int)
    requires |vals| == |ws|
    requires forall k :: 0 <= k < |ws| ==> ws[k] > 0.0
    requires forall k :: 0 <= k < |vals| ==> lo <= vals[k] <= hi
    ensures Bracketed(lo as real, WeightedSum(vals, ws), SumReal(ws), hi as real)
  {
    WeightedSumBounds(vals, ws, lo as real, hi as real);
  }

  function Starts(c: seq<PassNote>): (r: seq<int>)
    ensures |r| == |c|
  {
    seq(|c|, k requires 0 <= k < |c| => c[k].start)
  }

  function Ends(c: seq<PassNote>): (r: seq<int>)
    ensures |r| == |c|
  {
    seq(|c|, k requires 0 <= k < |c| => c[k].end)
  }

  function Velocities(c: seq<PassNote>): (r: seq<int>)
    ensures |r| == |c|
  {
    seq(|c|, k requires 0 <= k < |c| => c[k].velocity)
  }

  /** One cluster as one note: a lone note unchanged, otherwise the head's
      pitch and channel with start, end and velocity the weighted averages
      truncated toward zero; a zero total weight divides by zero. */
  function MergeCluster(c: seq<PassNote>): (r: Result<Note>)
    requires |c| > 0
    ensures |c| == 1 ==> r == Ok(c[0].AsNote())
    ensures r.Err? <==> |c| > 1 && SumReal(Weights(c)) == 0.0
    ensures r.Ok? ==> r.value.pitch == c[0].pitch && r.value.channel == c[0].channel
  {
    if |c| == 1 then Ok(c[0].AsNote())
    else
      var total := SumReal(Weights(c));
      if total == 0.0 then Err("float division by zero")
      else
        Ok(Note(c[0].pitch,
                TruncReal(WeightedSum(Velocities(c), Weights(c)) / total),
                TruncReal(WeightedSum(Starts(c), Weights(c)) / total),
                TruncReal(WeightedSum(Ends(c), Weights(c)) / total),
                c[0].channel))
  }

  lemma {:induction false} SumRealPositive(ws: seq<real>)
    requires |ws| > 0
    requires forall k :: 0 <= k < |ws| ==> ws[k] > 0.0
    ensures SumReal(ws) > 0.0
  {
    if |ws| > 1 {
      SumRealPositive(ws[..|ws| - 1]);
    }
  }

  /** With positive weights a merged cluster starts and ends within the
      tolerance of its head. */
  lemma MergedNearHead(c: seq<PassNote>)
    requires Coherent(c)
    requires forall k :: 0 <= k < |c| ==> c[k].weight > 0.0
    ensures MergeCluster(c).Ok?
    ensures Abs(MergeCluster(c).value.start - c[0].start) <= Tolerance
    ensures Abs(MergeCluster(c).value.end - c[0].end) <= Tolerance
  {
    var ws := Weights(c);
    SumRealPositive(ws);
    if |c| > 1 {
      MeanNear(Starts(c), ws, c[0].start);
      MeanNear(Ends(c), ws, c[0].end);
    }
  }

  function MergeAll(cs: seq<seq<PassNote>>): (r: Result<seq<Note>>)
    requires forall k :: 0 <= k < |cs| ==> |cs[k]| > 0
    ensures r.Ok? ==> |r.value| == |cs|
    ensures r.Ok? ==> forall k :: 0 <= k < |cs| ==> MergeCluster(cs[k]) == Ok(r.value[k])
    ensures r.Err? <==> exists k :: 0 <= k < |cs| && MergeCluster(cs[k]).Err?
  {
    if |cs| == 0 then Ok([])
    else
      match MergeCluster(cs[0])
      case Err(e) => Err(e)
      case Ok(n) =>
        var rest := MergeAll(cs[1..]);
        assert forall k :: 1 <= k < |cs| ==> cs[k] == cs[1..][k - 1];
        if rest.Err? then Err(rest.error) else Ok([n] + rest.value)
  }

  /** Lone notes come out unchanged. */
  lemma MergeSingles(cs: seq<seq<PassNote>>)
    requires forall k :: 0 <= k < |cs| ==> |cs[k]| == 1
    ensures MergeAll(cs).Ok? && |MergeAll(cs).value| == |cs|
    ensures forall k :: 0 <= k < |cs| ==> MergeAll(cs).value[k] == cs[k][0].AsNote()
  {
    assert forall k :: 0 <= k < |cs| ==> MergeCluster(cs[k]).Ok?;
  }

  /** `_cluster_and_merge_notes`: nothing for no notes; otherwise the notes
      sorted by pitch then start, clustered and merged. */
  function ClusterAndMerge(notes: seq<PassNote>): (r: Result<seq<Note>>)
    ensures |notes| == 0 ==> r == Ok([])
    ensures r.Ok? ==> |r.value| <= |notes|
    ensures r.Ok? && |notes| > 0 ==> |r.value| > 0
  {
    if |notes| == 0 then Ok([])
    else
      assert TotalPreorder(PitchStartLe);
      var cs := Clusters(Sort(notes, PitchStartLe), 0);
      MergeAll(cs)
  }

  /** The same with the passed-over candidates kept: one note per cluster,
      the clusters sharing out every input note. */
  function ClusterAndMergeKept(notes: seq<PassNote>): (r: Result<seq<Note>>)
    ensures |notes| == 0 ==> r == Ok([])
    ensures r.Ok? ==> |r.value| == |ClustersKept(Sort(notes, PitchStartLe))| <= |notes|
  {
    if |notes| == 0 then Ok([])
    else
      var cs := ClustersKept(Sort(notes, PitchStartLe));
      KeptClustersCount(Sort(notes, PitchStartLe), |notes|);
      MergeAll(cs)
  }

  /** The kept clusters of n notes are non-empty and at most n of them. */
  lemma KeptClustersCount(ns: seq<PassNote>, n: nat)
    requires |ns| == n
    ensures forall k :: 0 <= k < |ClustersKept(ns)| ==> |ClustersKept(ns)[k]| > 0
    ensures |ClustersKept(ns)| <= n
  {
    var cs := ClustersKept(ns);
    assert forall k :: 0 <= k < |cs| ==> Coherent(cs[k]);
    FlattenLength(cs);
    assert |Flatten(cs)| == |multiset(Flatten(cs))| == |multiset(ns)| == n;
  }

  lemma {:induction false} FlattenLength(cs: seq<seq<PassNote>>)
    requires forall k :: 0 <= k < |cs| ==> |cs[k]| > 0
    ensures |cs| <= |Flatten(cs)|
  {
    if |cs| > 0 {
      FlattenLength(cs[1..]);
    }
  }

  /** Two notes of one pitch ten ticks apart whose ends are 400 ticks apart:
      the second is passed over by the scan of the first and then skipped by
      the outer loop, so one note comes out of two. With it kept, both come
      out. */
  lemma DroppedNoteExample()
    ensures var a := PassNote(60, 0, 100, 80, 0, 1.0);
      var b := PassNote(60, 10, 500, 80, 0, 1.0);
      && ClusterAndMerge([a, b]) == Ok([a.AsNote()])
      && ClusterAndMergeKept([a, b]) == Ok([a.AsNote(), b.AsNote()])
  {
    var a := PassNote(60, 0, 100, 80, 0, 1.0);
    var b := PassNote(60, 10, 500, 80, 0, 1.0);
    DroppedAsWritten(a, b);
    DroppedKept(a, b);
  }

  lemma DroppedAsWritten(a: PassNote, b: PassNote)
    requires a == PassNote(60, 0, 100, 80, 0, 1.0) && b == PassNote(60, 10, 500, 80, 0, 1.0)
    ensures ClusterAndMerge([a, b]) == Ok([a.AsNote()])
  {
    ExampleSorted(a, b);
    ExampleClusters(a, b);
    MergeSingles([[a]]);
    assert MergeAll([[a]]).value == [a.AsNote()];
  }

  lemma DroppedKept(a: PassNote, b: PassNote)
    requires a == PassNote(60, 0, 100, 80, 0, 1.0) && b == PassNote(60, 10, 500, 80, 0, 1.0)
    ensures ClusterAndMergeKept([a, b]) == Ok([a.AsNote(), b.AsNote()])
  {
    ExampleSorted(a, b);
    ExampleClusters(a, b);
    MergeSingles([[a], [b]]);
    assert MergeAll([[a], [b]]).value == [a.AsNote(), b.AsNote()];
  }

  lemma ExampleSorted(a: PassNote, b: PassNote)
    requires a == PassNote(60, 0, 100, 80, 0, 1.0) && b == PassNote(60, 10, 500, 80, 0, 1.0)
    ensures TotalPreorder(PitchStartLe) && Sort([a, b], PitchStartLe) == [a, b]
  {
    assert TotalPreorder(PitchStartLe);
    assert SortedBy([a, b], PitchStartLe);
    SortOfSorted([a, b], PitchStartLe);
  }

  lemma ExampleClusters(a: PassNote, b: PassNote)
    requires a == PassNote(60, 0, 100, 80, 0, 1.0) && b == PassNote(60, 10, 500, 80, 0, 1.0)
    ensures Clusters([a, b], 0) == [[a]]
    ensures ClustersKept([a, b]) == [[a], [b]]
  {
    assert Scan([a, b], a, 2) == ScanResult([], [], 2);
    assert Scan([a, b], a, 1) == ScanResult([], [b], 2);
    assert Clusters([a, b], 2) == [];
    assert [a] + Scan([a, b], a, 1).taken == [a];
    assert Clusters([a, b], 0) == [[a]] + Clusters([a, b], 2);
    assert Scan([b], b, 1) == ScanResult([], [], 1);
    assert [b] + [a, b][2..] == [b];
    assert ClustersKept([b]) == [[b]];
    assert ClustersKept([a, b]) == [[a], [b]];
  }

  // ---------------------------------------------------------------------
  // Duration smoothing

  /** `min_duration` of `_smooth_durations`, in ticks. */
  const MinDuration := 220

  /** A duration below the minimum is raised to exactly the minimum. */
  function SmoothDuration(d: int): (r: int)
    ensures r >= MinDuration && r >= d
    ensures d >= MinDuration ==> r == d
  {
    if d < MinDuration then MinDuration else d
  }

  lemma SmoothIdempotent(d: int)
    ensures SmoothDuration(SmoothDuration(d)) == SmoothDuration(d)
    ensures d < MinDuration ==> SmoothDuration(d) == MinDuration
  {
  }

  // ---------------------------------------------------------------------
  // Writing the merged notes

  /** A note_on or note_off at an absolute (or, once encoded, delta) time. */
  datatype Event = Event(time: int, on: bool, pitch: int, velocity: int, channel: int)

  predicate OnsetLe(a: Note, b: Note) { a.start <= b.start }
  predicate EventTimeLe(a: Event, b: Event) { a.time <= b.time }

  /** Each note's on event, then its off event with velocity 0. */
  function EventsOfNotes(ns: seq<Note>): (r: seq<Event>)
    ensures |r| == 2 * |ns|
  {
    if |ns| == 0 then []
    else
      var n := ns[0];
      [Event(n.start, true, n.pitch, n.velocity, n.channel), Event(n.end, false, n.pitch, 0, n.channel)]
        + EventsOfNotes(ns[1..])
  }

  /** Delta times: `max(0, time - current)`, the current time then becoming
      the event's own time. */
  function Deltas(es: seq<Event>, current: int): (r: seq<Event>)
    ensures |r| == |es|
    ensures forall k :: 0 <= k < |r| ==> r[k].time >= 0
  {
    if |es| == 0 then [] else [es[0].(time := Max(0, es[0].time - current))] + Deltas(es[1..], es[0].time)
  }

  /** Reads delta times back into absolute times. */
  function Restore(ds: seq<Event>, current: int): (r: seq<Event>)
    ensures |r| == |ds|
  {
    if |ds| == 0 then [] else [ds[0].(time := current + ds[0].time)] + Restore(ds[1..], current + ds[0].time)
  }

  /** The event encoding of `_merge_midi_files`: notes sorted by start,
      their events sorted by time, then delta-encoded. */
  function EncodeEvents(notes: seq<Note>): (r: seq<Event>)
    ensures |r| == 2 * |notes|
    ensures forall k :: 0 <= k < |r| ==> r[k].time >= 0
  {
    assert TotalPreorder(OnsetLe);
    assert TotalPreorder(EventTimeLe);
    Deltas(Sort(EventsOfNotes(Sort(notes, OnsetLe)), EventTimeLe), 0)
  }

  /** Events in time order, none before the current time, are restored
      exactly from their deltas. */
  lemma {:induction false} DeltasRestore(es: seq<Event>, current: int)
    requires SortedBy(es, EventTimeLe)
    requires forall k :: 0 <= k < |es| ==> es[k].time >= current
    ensures Restore(Deltas(es, current), current) == es
  {
    if |es| > 0 {
      DeltasRestore(es[1..], es[0].time);
    }
  }

  lemma {:induction false} EventsOfNotesPermutation(a: seq<Note>, b: seq<Note>)
    requires multiset(a) == multiset(b)
    ensures multiset(EventsOfNotes(a)) == multiset(EventsOfNotes(b))
    decreases |a|
  {
    if |a| == 0 {
      assert |b| == |multiset(b)| == 0;
    } else {
      assert a[0] in multiset(b);
      var i :| 0 <= i < |b| && b[i] == a[0];
      RemoveAt(a, b, i);
      EventsOfNotesPermutation(a[1..], b[..i] + b[i + 1..]);
      EventsOfNotesAround(a, 0);
      EventsOfNotesAround(b, i);
      assert a[..0] + a[1..] == a[1..];
    }
  }

  /** Taking one note out takes out its two events. */
  lemma {:induction false} EventsOfNotesAround(b: seq<Note>, i: nat)
    requires i < |b|
    ensures multiset(EventsOfNotes(b)) == multiset(EventsOfNotes(b[..i] + b[i + 1..])) + multiset(EventsOfNotes([b[i]]))
  {
    EventsOfNotesSplit(b[..i], b[i + 1..]);
    EventsOfNotesSplit([b[i]], b[i + 1..]);
    EventsOfNotesSplit(b[..i], [b[i]] + b[i + 1..]);
    assert b[..i] + ([b[i]] + b[i + 1..]) == b;
  }

  lemma {:induction false} EventsOfNotesSplit(a: seq<Note>, b: seq<Note>)
    ensures EventsOfNotes(a + b) == EventsOfNotes(a) + EventsOfNotes(b)
  {
    if |a| == 0 {
      assert a + b == b;
    } else {
      var n := a[0];
      var head := [Event(n.start, true, n.pitch, n.velocity, n.channel), Event(n.end, false, n.pitch, 0, n.channel)];
      assert (a + b)[0] == n;
      assert (a + b)[1..] == a[1..] + b;
      EventsOfNotesSplit(a[1..], b);
      assert EventsOfNotes(a + b) == head + EventsOfNotes(a[1..] + b);
      assert EventsOfNotes(a) == head + EventsOfNotes(a[1..]);
    }
  }

  /** Reading the encoded events back gives, for notes at non-negative times,
      exactly the notes' on and off events in time order. */
  lemma {:induction false} EncodeRestore(notes: seq<Note>)
    requires forall k :: 0 <= k < |notes| ==> notes[k].start >= 0 && notes[k].end >= 0
    ensures SortedBy(Restore(EncodeEvents(notes), 0), EventTimeLe)
    ensures multiset(Restore(EncodeEvents(notes), 0)) == multiset(EventsOfNotes(notes))
  {
    assert TotalPreorder(OnsetLe);
    assert TotalPreorder(EventTimeLe);
    var sorted := Sort(notes, OnsetLe);
    EventsOfNotesPermutation(sorted, notes);
    var es := Sort(EventsOfNotes(sorted), EventTimeLe);
    EventTimesNonNeg(notes);
    forall k | 0 <= k < |es| ensures es[k].time >= 0 {
      assert es[k] in multiset(EventsOfNotes(notes));
    }
    DeltasRestore(es, 0);
  }

  lemma {:induction false} EventTimesNonNeg(ns: seq<Note>)
    requires forall k :: 0 <= k < |ns| ==> ns[k].start >= 0 && ns[k].end >= 0
    ensures forall e :: e in multiset(EventsOfNotes(ns)) ==> e.time >= 0
  {
    if |ns| > 0 {
      EventTimesNonNeg(ns[1..]);
    }
  }
}
